=== FILE: README.md ===
# A verified model of the Trello assistant's server core

The repository is a Next.js chat assistant that manages Trello boards through
a language model and a set of Trello "tools". This project models in Dafny
the deterministic parts of its server side and proves properties about them.
Wall-clock time, request ids and the Trello backend's answers are parameters
of the model.

- **Admission control and state** (`rate_limiter.dfy`, `cache_service.dfy`,
  `cacheable.dfy`, `monitoring_service.dfy`):
  - the fixed-window rate limiter;
  - the bounded TTL cache with oldest-first eviction and prefix invalidation,
    and the list of read operations whose results it admits;
  - the request monitor with its bounded log and error ring. JavaScript `Map`
    insertion order is kept as a key sequence.
- **Tool dispatch** (`operations.dfy`, `tool_registry.dfy`, `envelope.dfy`,
  `trello_service.dfy`, `legacy_trello_service.dfy`):
  - the 45 Trello operations and the registry the model is given;
  - `standardizeResponse`, `handleError` and `createErrorResponse`;
  - the cached service (`lib/Services/trello-service.ts`) and the uncached one
    (`lib/trello-service.ts`). The Trello endpoint imports the uncached one;
    no source file calls the cached service, which is modelled on its own and
    shown to agree with the uncached one on operations it does not cache. What a tool does is an uninterpreted function
    from its parameters to a returned or thrown value.
- **Request handling** (`api_helpers.dfy`, `chat_route.dfy`, `trello_route.dfy`):
  - body validation, client-address extraction and the address check;
  - the error and rate-limit responses;
  - the Trello endpoint's `POST` and `GET`;
  - the chat endpoint up to the hand-over to the language model.
- **Forms** (`form_detection.dfy`, `form_tools.dfy`):
  - the 22 regular expressions of `detectFormType`, as matchers proved equal
    to the search the expressions perform;
  - `shouldShowAnyForm` and `getPrimaryFormType`;
  - the seven form-generation tools.
- **Tools** (`tool_support.dfy`, `prefs.dfy`, `label_tools.dfy`,
  `card_tools.dfy`, `board_tools.dfy`, `workspace_tools.dfy`,
  `member_tools.dfy`, `attachment_tools.dfy`, `list_tools.dfy`). Each tool
  named below is modelled as:
  - the `URLSearchParams` query it builds: ordered pairs, a name may repeat;
  - the requests it sends;
  - what it makes of the backend's answer, including its `catch` block.

  `strings.dfy` and `js.dfy` hold what JavaScript gives these files: text
  helpers, and loose values with truthiness, property reads and `toString`.

The documented contract and the code differ in several places. The model
follows the code:
- The limiter counts per client address only, not per route. Its threshold of
  100 requests per 15 minutes is a constant (`lib/rate-limiter.ts:20-22`).
- The 429 body carries no top-level `retryAfter`. The delay is only in the
  `Retry-After` header and the message.
- The limiter can report a delay of 0. The chat route replaces it with 60
  (`app/api/chat/route.ts:54`).

## Model

| member | source | states |
|---|---|---|
| RateLimiter.Default | lib/rate-limiter.ts:20-22 | the shared limiter admits 100 requests per 15-minute window and starts with no client entries |
| RateLimiter.CeilDiv | lib/rate-limiter.ts:60 | `Math.ceil` of a millisecond wait in seconds: the least whole number of seconds that covers the wait |
| RateLimiter.Check | lib/rate-limiter.ts:33-74 | a client with no live window is admitted and opens a window of count 1; inside a live window it is refused exactly when its count has reached the limit; a refusal changes nothing, reports nothing remaining and a retry time in whole seconds that covers the rest of the window; an admission adds one to the count; no other client's entry changes |
| RateLimiter.CheckPreservesValid | lib/rate-limiter.ts:37-73 | every stored count stays between 1 and the limit |
| RateLimiter.Admissions | lib/rate-limiter.ts:33-74 | a run of requests from one client admits no more requests than it holds |
| RateLimiter.AdmissionsBoundedInWindow | lib/rate-limiter.ts:53-73 | while a window lasts, at most the limit minus the current count further requests get through, however many arrive |
| RateLimiter.WindowAdmitsAtMostLimit | lib/rate-limiter.ts:37-73 | one window admits at most `limit` requests in total, the opening one included |
| RateLimiter.Cleanup | lib/rate-limiter.ts:79-86 | the sweep drops exactly the entries whose window has passed and keeps the others unchanged |
| RateLimiter.CleanupInvisible | lib/rate-limiter.ts:79-86 | the sweep never changes the answer to a later request from any client |
| RateLimiter.Clear | lib/rate-limiter.ts:110-112 | no client entries remain; limit and window stay |
| RateLimiter.ClearThenAdmit | lib/rate-limiter.ts:110-112 | after `clear`, any client's next request is admitted as the first of a new window |
| CacheService.Default | lib/cache-service.ts:25-29 | the shared cache holds up to 100 entries for five minutes each and starts empty and well formed |
| CacheService.New | lib/cache-service.ts:18-29 | a new cache is empty, well formed, with zeroed counters and the given capacity |
| CacheService.GenerateKey | lib/cache-service.ts:34-46 | the key holds the operation and, sorted by name, exactly what the JSON text of the re-inserted parameters shows: every defined property other than `__proto__` (whose assignment sets the prototype instead), each value in its JSON form |
| CacheService.SortFields | lib/cache-service.ts:38-43 | re-inserting the properties in sorted name order changes no property's value |
| CacheService.SortFieldsSorted | lib/cache-service.ts:38-39 | the rebuilt parameter object lists its names in strictly increasing order |
| CacheService.KeyCanonical | lib/cache-service.ts:34-46 | two parameter objects give the same key exactly when every property other than `__proto__` has the same JSON form in both, whatever order they were written in |
| CacheService.ProtoParamIgnored | lib/cache-service.ts:38-45 | a `__proto__` parameter does not reach the key: `{"__proto__": 1}` and `{}` share a key |
| CacheService.UndefinedItemIsNull | lib/cache-service.ts:45 | an `undefined` array item and `null` share a key, as JSON text writes both as `null` |
| CacheService.NestedUndefinedDropped | lib/cache-service.ts:45 | an `undefined` property of a nested object is left out of the key, as JSON text leaves it out |
| CacheService.KeyReads | lib/cache-service.ts:38-45 | every property of the key reads the JSON form of what the parameter object holds, and `__proto__` reads nothing |
| CacheService.KeySeparatesOperations | lib/cache-service.ts:45 | keys of different operations never collide |
| CacheService.Get | lib/cache-service.ts:51-71 | an absent key is a miss that changes nothing else; an expired entry is removed and is a miss; a live entry returns its data and counts a hit; the cache stays well formed and never grows |
| CacheService.EffectiveTtl | lib/cache-service.ts:96 | a missing or zero time to live falls back to the cache's default |
| CacheService.Set | lib/cache-service.ts:76-101 | afterwards the key holds the new data stamped now with the effective time to live; every other remaining key holds what it held; counters other than size are untouched |
| CacheService.SetOverwrite | lib/cache-service.ts:86-99 | writing a key already present keeps the key order and evicts nothing |
| CacheService.SetAppend | lib/cache-service.ts:86-99 | a new key with room to spare goes last and evicts nothing |
| CacheService.SetEvict | lib/cache-service.ts:86-91 | a new key in a full cache evicts the oldest key and goes last |
| CacheService.Rotated | lib/cache-service.ts:86-91 | dropping the oldest key and appending a new one keeps every key listed once: the old keys but the oldest, then the new one |
| CacheService.SetPreservesWf | lib/cache-service.ts:76-101 | `set` keeps the key order and the map in step and the size counter exact |
| CacheService.SetWithinCapacity | lib/cache-service.ts:85-91 | with capacity at least one, the cache never outgrows its capacity |
| CacheService.SetThenGet | lib/cache-service.ts:51-99 | a lookup with parameters whose JSON text is the same, written in any order, within the time to live returns the data just written and counts a hit |
| Cacheable.ShouldCacheIffRead | lib/cache-service.ts:106-127 | an operation is cached exactly when it only reads (every `list…` and `get…` operation) |
| Cacheable.CachedIsRead | lib/cache-service.ts:106-127 | every name in the cached list belongs to an operation that only reads |
| CacheService.PrefixIgnoresParams | lib/cache-service.ts:135-139 | for an operation name without a colon the prefix test never reaches the parameters' JSON |
| CacheService.InvalidatedByIffSameOperation | lib/cache-service.ts:136 | for colon-free names the prefix test selects exactly the keys of that operation |
| CacheService.Invalidate | lib/cache-service.ts:132-143 | exactly the keys of the operation go; every other entry stays unchanged and the counters of hits and misses stay |
| CacheService.Clear | lib/cache-service.ts:148-153 | no entries and zeroed counters; capacity and default time to live stay |
| CacheService.GetStats | lib/cache-service.ts:158-166 | the counters as they are plus a hit rate between 0 and 1 that is hits over lookups, 0 before any lookup |
| MonitoringService.Empty | lib/Services/monitoring-service.ts:42-49 | a new monitor has no logs and no errors |
| MonitoringService.Get | lib/Services/monitoring-service.ts:97 | the log stored under an id is found exactly when one has that id |
| MonitoringService.Store | lib/Services/monitoring-service.ts:70 | writing an id already present replaces that log in place; a new id goes last; ids stay unique |
| MonitoringService.StartRequest | lib/Services/monitoring-service.ts:54-81 | the new log is stored under its id; at most 1000 logs remain unless the oldest id is empty; the only log that can disappear is the oldest, and only when the map overflowed |
| MonitoringService.Admit | lib/Services/monitoring-service.ts:70-78 | storing a log keeps the ids unique and makes it the log found under its id; the list stays within 1000 unless the oldest id is empty; only the oldest log can be dropped, and only on overflow |
| MonitoringService.LogError | lib/Services/monitoring-service.ts:163-176 | the new error is last and at most the 100 most recent errors remain, in order |
| MonitoringService.EndRequest | lib/Services/monitoring-service.ts:86-133 | an unknown id changes nothing; otherwise only that log changes: it records end time, duration, status and error and takes the passed tool calls; a non-empty error joins the recent errors |
| MonitoringService.LogToolExecution | lib/Services/monitoring-service.ts:138-158 | an unknown id changes nothing; otherwise exactly one call is appended after that log's earlier calls |
| MonitoringService.EndRequestDropsLoggedCalls | lib/Services/monitoring-service.ts:106-110 | a tool call logged and then followed by an `endRequest` without tool calls is no longer in the log |
| MonitoringService.EndRequestKeepingCalls | lib/Services/monitoring-service.ts:86-133 | the corrected end: the calls passed in follow the calls already logged |
| MonitoringService.EndRequestKeepingCallsKeepsLogged | lib/Services/monitoring-service.ts:138-158 | with the corrected end, a logged tool call survives the end of its request |
| MonitoringService.GetMetrics | lib/Services/monitoring-service.ts:181-248 | only completed requests are counted: none exactly when no request has ended, all exactly when every one has; successes and failures add up to them, and there are no failures exactly when every ended request has a truthy status below 400; the last ten errors are reported, in order |
| MonitoringService.CompletedCount | lib/Services/monitoring-service.ts:183-185 | the count of ended requests is 0 exactly when none has ended and the number of logs exactly when all have |
| MonitoringService.SuccessfulCount | lib/Services/monitoring-service.ts:186-189 | every ended request is a success exactly when its status is truthy and below 400, for all of them |
| MonitoringService.UnfinishedNotCounted | lib/Services/monitoring-service.ts:183-188 | a request not yet ended, wherever it sits among the logs, counts neither as a success nor as a failure |
| MonitoringService.EndRequestCounted | lib/Services/monitoring-service.ts:86-133 | ending a started, unfinished request adds one to the total, and one success exactly when its status is non-zero and below 400 |
| MonitoringService.StartRequestNotCounted | lib/Services/monitoring-service.ts:54-81 | starting a request with a new id, when no log must be evicted, leaves the counts and the recent errors as they were |
| MonitoringService.LogToolExecutionNotCounted | lib/Services/monitoring-service.ts:138-158 | logging a tool call leaves the metrics as they were |
| MonitoringService.SortSortsAndPermutes | lib/Services/monitoring-service.ts:255 | the sort orders logs newest first and loses or adds none |
| MonitoringService.GetRequestLogs | lib/Services/monitoring-service.ts:253-257 | the result is newest first, drawn from the stored logs, as long as the slice of the limit (50 by default) allows, and all logs when the limit covers them; every log kept started no earlier than any log left out |
| MonitoringService.SortedPrefix | lib/Services/monitoring-service.ts:255-256 | the first logs of the sorted list are newest first, drawn from the logs, and started no earlier than the rest |
| MonitoringService.Clear | lib/Services/monitoring-service.ts:262-265 | no logs and no errors remain; the metrics count nothing |
| Operations.Parse | lib/types/trello.ts:186-231 | a text denotes an operation only when it is that operation's wire name |
| Operations.ParseName | lib/types/trello.ts:186-231 | reading an operation's wire name back gives the same operation |
| Operations.NameInjective | lib/types/trello.ts:186-231 | no two of the 45 operations share a wire name |
| Operations.ParseSucceedsIffName | lib/types/trello.ts:186-231 | a text is accepted exactly when it is the wire name of some operation |
| Operations.Position | lib/types/trello.ts:186-231 | each operation has one place in the union's declaration order |
| Envelope.ToValue | lib/types/trello.ts:4-10 | the envelope as an object: `success` tells which kind it is, and every field reads back what the envelope holds |
| Envelope.FromValue | lib/Services/trello-service.ts:199 | an object is read as an envelope exactly when its `success` is a boolean |
| Envelope.FromValueToValue | lib/Services/trello-service.ts:196-263 | every envelope is recovered exactly from its object form |
| Envelope.FirstTruthy | lib/Services/trello-service.ts:211-254 | the first key whose value is truthy, every earlier key being falsy |
| Envelope.Standardize | lib/Services/trello-service.ts:196-263 | `success: false` gives a failure with fallback texts for a falsy error or message; otherwise the first truthy key of the sixteen supplies the data, with `count` only for a collection key, and the whole result is the data when none is truthy |
| Envelope.PluralBeforeSingular | lib/Services/trello-service.ts:211-250 | a truthy collection key wins over any single-object key and brings its count |
| Envelope.SingularHasNoCount | lib/Services/trello-service.ts:235-250 | a single-object key supplies data without any count |
| Envelope.EnvelopeHasNoDataKey | lib/Services/trello-service.ts:256-262 | none of an envelope's own fields is one of the sixteen data keys |
| Envelope.StandardizeWrapsEnvelope | lib/Services/trello-service.ts:251-262 | normalising a success envelope again wraps the whole envelope as data and loses its count: normalisation is not idempotent |
| Envelope.StandardizeKeepsFailure | lib/Services/trello-service.ts:199-205 | a failure envelope with a truthy error and message normalises to itself |
| Envelope.ErrorMessage | lib/Services/trello-service.ts:269-289 | an `Error` gives its message, a thrown string itself, an object with a `message` property that property, anything else a fixed text |
| Envelope.HandleError | lib/Services/trello-service.ts:268-302 | always a failure whose error is the extracted message and whose message is that text after "Trello operation failed: " |
| Envelope.ErrorStatus | lib/Services/trello-service.ts:270-284 | the status follows the first phrase found in an `Error`'s message (401, 404, 403, 400), and 500 exactly when none is found or the thrown value is no `Error` |
| Envelope.CreateErrorResponse | lib/Services/trello-service.ts:307-313 | a failure carrying the text, and the same text after "Error: " |
| Envelope.ReadOfNullish | lib/Services/trello-service.ts:197-199 | reading `success` of `null` or `undefined` throws an error that names the property |
| ToolRegistry.GetToolByName | lib/tool-registry.ts:127-129 | a name finds a tool exactly when it is an operation's wire name, and that operation's tool; a name inherited from `Object.prototype` finds a member that is no tool; any other name finds nothing |
| ToolRegistry.LookupEveryOperation | lib/tool-registry.ts:61-122 | every operation finds its own tool |
| ToolRegistry.RegistryPosition | lib/tool-registry.ts:61-122 | every operation has exactly one place in the registry's declaration |
| ToolRegistry.PositionOfRegistryAt | lib/tool-registry.ts:61-122 | the 45 declaration places and the 45 operations correspond one to one |
| ToolRegistry.GetAllToolNames | lib/tool-registry.ts:134-136 | the 45 registry names in declaration order, every operation exactly once |
| ToolRegistry.HasToolIffFound | lib/tool-registry.ts:141-143 | `hasTool` holds exactly when a lookup finds something, a tool or an inherited member |
| ToolRegistry.HasToolInherited | lib/tool-registry.ts:141-143 | `hasTool("toString")` holds although no tool has that name |
| ToolRegistry.FormToolsNotRegistered | lib/tool-registry.ts:61-122 | no form-generation tool can be found in the registry |
| TrelloService.Run | lib/Services/trello-service.ts:189-190 | a registered tool runs as given; an inherited member has no `execute` and throws |
| TrelloService.LogCall | lib/Services/trello-service.ts:73-80 | a tool call is logged exactly when the request id is truthy |
| TrelloService.InvalidationTargets | lib/Services/trello-service.ts:325-374 | the reads each write makes stale; a read makes none stale |
| TrelloService.TargetsAreCachedReads | lib/Services/trello-service.ts:327-372 | every write names at least one read, and each name it lists is a cached read |
| TrelloService.InvalidateAll | lib/Services/trello-service.ts:374-377 | exactly the entries of the listed reads go; every other entry stays as it was |
| TrelloService.Looked | lib/Services/trello-service.ts:50-51 | the read-through lookup keeps the cache well formed and only ever removes entries |
| TrelloService.Execute | lib/Services/trello-service.ts:41-120 | a live cached result is normalised again and returned without running the tool; an unknown name gives "Tool '<name>' not found"; a thrown value goes through `handleError`; a returned value is normalised, and `null` or `undefined` makes the normalisation throw |
| TrelloService.Store | lib/Services/trello-service.ts:85-96 | a successful read is cached under its parameters; a failed read leaves the cache alone; a write removes exactly the entries of the reads it lists |
| TrelloService.StoreKeepsEnvelopes | lib/Services/trello-service.ts:85-96 | what the cache holds after a store is still only standardized envelopes, never `null` or `undefined` |
| TrelloService.ExecutePreservesValid | lib/Services/trello-service.ts:41-120 | the cache stays well formed and holds only stored envelopes, and the monitor stays well formed |
| TrelloService.WriteClearsTargets | lib/Services/trello-service.ts:93-96 | after a write no cached result of a listed read survives, whatever its parameters |
| TrelloService.CachedNamesRegistered | lib/Services/trello-service.ts:125-191 | every cached operation name has a registered tool |
| TrelloService.CachedAfterRead | lib/Services/trello-service.ts:85-91 | after a successful read misses, its envelope is cached and live under the read's key |
| TrelloService.HitAnswersStored | lib/Services/trello-service.ts:50-55 | a hit on a stored success envelope answers that envelope wrapped once more |
| TrelloService.CacheHitRewraps | lib/Services/trello-service.ts:50-55 | repeating a successful read within the time to live gives a different answer: the first envelope becomes the data and its count is lost |
| TrelloService.FromCache | lib/Services/trello-service.ts:50-55 | the corrected hit returns a stored envelope exactly as it was stored |
| TrelloService.ExecuteCorrected | lib/Services/trello-service.ts:41-120 | the corrected service differs from the original only in what a hit returns |
| TrelloService.CorrectedHitRepeats | lib/Services/trello-service.ts:50-91 | with the corrected hit, repeating a successful read gives exactly the first answer |
| LegacyTrelloService.Execute | lib/trello-service.ts:30-52 | an unknown name is reported as not found; a thrown value goes through `handleError`; a returned value is normalised, and `null` or `undefined` makes that throw; a failure without a truthy error can only come from a registered tool |
| LegacyTrelloService.AgreesWithCachedService | lib/trello-service.ts:30-52 | for an operation that is not cached, the uncached and the cached services give the same answer |
| LegacyTrelloService.IsConfigured | lib/trello-service.ts:246-248 | configured exactly when both the key and the token are non-empty |
| ApiHelpers.FirstMissing | lib/api-helpers.ts:146-153 | the first required field, in list order, that the body lacks; every earlier one is present |
| ApiHelpers.ValidateRequestBody | lib/api-helpers.ts:138-156 | a falsy or non-object body is rejected with "Request body must be a valid object"; an object body is accepted exactly when every required field is in it, and otherwise rejected naming the first missing field in list order |
| ApiHelpers.ArrayBodyIsAnObject | lib/api-helpers.ts:142-147 | an array passes the object test, and its `length` and inherited methods such as `map`, `push` and `filter` count as present |
| ApiHelpers.OctetIsByte | lib/api-helpers.ts:193 | the octet pattern accepts exactly the one- to three-digit texts of values up to 255, leading zeros allowed |
| ApiHelpers.ValidIPShape | lib/api-helpers.ts:191-197 | an accepted address is a dotted quad of bytes or eight hexadecimal groups, so it is non-empty and has no comma and no surrounding whitespace |
| ApiHelpers.DottedQuad | lib/api-helpers.ts:192-193 | any four octets joined by dots form an accepted IPv4 address |
| ApiHelpers.LoopbackIsValid | lib/api-helpers.ts:185 | the fallback address passes the address check |
| ApiHelpers.CompressedIPv6Rejected | lib/api-helpers.ts:194 | compressed IPv6 forms such as `::1` are rejected: only the full eight-group form is accepted |
| ApiHelpers.OctetAboveByteRejected | lib/api-helpers.ts:192-196 | a text starting with the octet 256 is rejected, whatever follows |
| ApiHelpers.Candidate | lib/api-helpers.ts:177 | the first comma-separated token, trimmed, is no longer than the header value |
| ApiHelpers.Scan | lib/api-helpers.ts:173-185 | the trimmed first token of the first header, in the given order, that is present, non-empty and yields a valid address; the fallback when none does |
| ApiHelpers.GetClientIP | lib/api-helpers.ts:161-186 | the same over the seven headers in their fixed priority; whatever comes back passes the address check |
| ApiHelpers.ForwardedForFirstHop | lib/api-helpers.ts:176-179 | a forwarding chain whose first hop is a valid address yields that hop |
| ApiHelpers.TrimValidIP | lib/api-helpers.ts:177-178 | trimming never changes an address the check accepts |
| ApiHelpers.Spread | lib/api-helpers.ts:54-57 | spreading the caller's metadata over the timestamp: each property of the metadata wins, the timestamp stays otherwise |
| ApiHelpers.CreateErrorResponse | lib/api-helpers.ts:44-61 | status is the given one or 500; the body is a failure with the error, a message that defaults to the error, and metadata in which the caller's properties override the timestamp |
| ApiHelpers.RateLimitHeaders | lib/api-helpers.ts:82-89 | `Retry-After` is the delay in seconds, the limit header says 100, the remaining header 0, the reset header the end of the delay |
| ApiHelpers.DelaySecondsForm | lib/api-helpers.ts:83 | a non-negative delay is sent as bare digits, the delay-seconds form of section 10.2.3 of RFC 9110 |
| ApiHelpers.RateLimitMetadata | lib/api-helpers.ts:74-77 | the metadata holds the timestamp and the request id, `undefined` when none was given |
| ApiHelpers.RateLimitBody | lib/api-helpers.ts:70-78 | the body is a failure "Rate limit exceeded" that states the delay in its message, has no top-level `retryAfter` and carries the request id only under metadata |
| ApiHelpers.CreateRateLimitResponse | lib/api-helpers.ts:66-91 | status 429 with the rate-limit headers and body; `Retry-After` equals the delay and the body has no top-level `retryAfter` |
| ChatRoute.CatchStatus | app/api/chat/route.ts:164-173 | 400 exactly for a `SyntaxError` that mentions JSON or an error whose message (or "Unknown error" for a non-`Error`) contains "validation" or "invalid"; 500 for everything else |
| ChatRoute.CatchLabel | app/api/chat/route.ts:179 | the label is "Bad Request" exactly for status 400 |
| ChatRoute.CatchResponse | app/api/chat/route.ts:160-184 | the catch block answers with the chosen status, its label, the error text as message and the request id under metadata |
| ChatRoute.NonErrorIsServerError | app/api/chat/route.ts:161-173 | a thrown value that is no `Error` is reported as "Unknown error" with status 500 |
| ChatRoute.CapitalisedInvalidIsServerError | app/api/chat/route.ts:168-171 | the word test is case-sensitive: a message "Invalid" gives 500 |
| ChatRoute.ValidateBody | app/api/chat/route.ts:60-85 | an unparsable or `null` body throws; a missing or non-array `messages` is a format error; otherwise the body passes exactly when every element is a truthy object with `role` and `parts`, and fails as a structure error |
| ChatRoute.RefusalResponse | app/api/chat/route.ts:62-85 | a body the check refuses is answered with status 400 carrying the check's error and message |
| ChatRoute.EmptyMessagesPass | app/api/chat/route.ts:73-75 | an empty message list passes |
| ChatRoute.RoleNotChecked | app/api/chat/route.ts:73-75 | any role text passes, whether or not a chat participant has it |
| ChatRoute.RetryAfter | app/api/chat/route.ts:54 | an absent or zero delay becomes 60 seconds; any other is passed on |
| ChatRoute.Post | app/api/chat/route.ts:34-85 | the limiter is consulted first, and a refusal is a 429 whose `Retry-After` is the delay; then the body check decides between going on to the model, a 400 with its message, and the catch block's response; each early exit ends the request's log |
| ChatRoute.RateLimitBeforeBody | app/api/chat/route.ts:49-60 | a refused client gets the same answer whatever body it sent |
| ChatRoute.EveryExitReportsItsStatus | app/api/chat/route.ts:52-175 | every early exit records in the request's log the status it returns |
| ChatRoute.EndSetsStatus | app/api/chat/route.ts:175 | ending a registered request records the status at that request's place |
| ChatRoute.RetryAfterZeroBecomesSixty | app/api/chat/route.ts:50-56 | a client refused at the very end of its window gets a delay of 0 from the limiter and is told to wait 60 seconds |
| ChatRoute.RetryAfterPositive | app/api/chat/route.ts:53-56 | the delay sent to a refused client is at least one second |
| TrelloRoute.WhitelistInDeclarationOrder | app/api/trello/route.ts:23-69 | the whitelist holds 45 names, the operations of the union in their declaration order |
| TrelloRoute.WhitelistHasOperation | app/api/trello/route.ts:23-69 | every operation's name sits in the whitelist at its declaration position |
| TrelloRoute.WhitelistIsUnion | app/api/trello/route.ts:23-69 | a text is whitelisted exactly when it is the name of an operation of the union |
| TrelloRoute.WhitelistedIsListed | app/api/trello/route.ts:71-80 | the whitelist test is membership of a string in the handler's list, and a listed name always finds a registered tool |
| TrelloRoute.ErrorBody | app/api/trello/route.ts:12-19 | the handler's own failure bodies carry `success: false`, the error and the message |
| TrelloRoute.ResultResponse | app/api/trello/route.ts:98-100 | status 200 exactly when the operation succeeded, else 500, with the envelope itself as the body |
| TrelloRoute.ParamsOf | app/api/trello/route.ts:8 | the `params` default `{}` applies only when the property is `undefined` |
| TrelloRoute.Post | app/api/trello/route.ts:5-113 | an unreadable or `null` body is an internal error; a falsy operation is refused with 400 first, then a name outside the whitelist with 400 (an internal error when the operation cannot be converted to text, being an object with its own `toString`), then an unconfigured service with 500; otherwise the operation runs on the body's params and its result decides the status |
| TrelloRoute.UnconfiguredNeverExecutes | app/api/trello/route.ts:83-93 | without credentials the answer does not depend on what the tool would do: it never runs |
| TrelloRoute.OperationWithToStringFails | app/api/trello/route.ts:71-111 | the body `{"operation": {"toString": 1}}` is answered with the internal error, since quoting the operation throws |
| TrelloRoute.PostOkIffExecutedAndSucceeded | app/api/trello/route.ts:96-100 | a POST answers 200 exactly when a whitelisted operation ran on a configured service and succeeded |
| TrelloRoute.First | app/api/trello/route.ts:119 | the first value sent under a name, or none when the name is absent |
| TrelloRoute.LastValue | app/api/trello/route.ts:134-143 | the last value sent under a name, or none exactly when the name is absent |
| TrelloRoute.Convert | app/api/trello/route.ts:137-141 | a value stays a string exactly when it holds no comma; otherwise it becomes its comma-split list |
| TrelloRoute.ConvertJoinsBack | app/api/trello/route.ts:137-139 | a list-valued parameter has at least two parts and joins back with commas to the text that was sent |
| TrelloRoute.QueryParams | app/api/trello/route.ts:133-143 | the converted parameters name each key once |
| TrelloRoute.QueryParamsLastWins | app/api/trello/route.ts:133-143 | neither `operation` nor `__proto__` is ever an own parameter; every other key sent is one, holding its last value converted, and no other key is |
| TrelloRoute.ProtoQueryAddsNothing | app/api/trello/route.ts:133-143 | `?operation=listBoards&__proto__=x` yields no parameters: the assignment goes to the inherited `__proto__` setter |
| Js.JsonForm | lib/cache-service.ts:45 | in JSON text exactly `undefined` disappears, and an array keeps its length |
| Js.AssignKeys | app/api/trello/route.ts:138-140 | assigning a property adds exactly its own name to the names the object has, except `__proto__`, which adds none |
| Js.AssignThenLookup | app/api/trello/route.ts:138-140 | an assigned name other than `__proto__` reads back the value, and every other name reads as before |
| TrelloRoute.GetRoute | app/api/trello/route.ts:116-163 | an absent or empty operation is refused with 400; any other name runs, with neither the whitelist nor the configuration checked, on the converted parameters |
| TrelloRoute.GetSkipsWhitelist | app/api/trello/route.ts:116-150 | GET runs a name POST refuses: "toString" reaches the service and fails there with 500 instead of 400 |
| FormDetection.Index | components/form-detection.ts:90-113 | each of the 22 forms has one position in the declaration order of the detection result |
| FormDetection.PatternOf | components/form-detection.ts:29-87 | each form's pattern has verbs, an optional article, nouns and a head noun that is among the nouns |
| FormDetection.PatternsWellFormed | components/form-detection.ts:29-87 | every word of every pattern that follows a whitespace run starts with a letter |
| FormDetection.SkipSpaces | components/form-detection.ts:29-87 | the whitespace skip ends at the end of the longest `\s` run |
| FormDetection.RunEndIsMaximal | components/form-detection.ts:29-87 | a `\s+` run followed by a non-space ends where the longest run ends, so the search loses no match by taking the longest run |
| FormDetection.VerbPhraseHasMatch | components/form-detection.ts:32 | the first alternative `\bVERB\s+(?:ARTICLE\s+)?NOUN\b` found by the search is a match a backtracking engine may report |
| FormDetection.VerbMatchIsPhrase | components/form-detection.ts:32 | every backtracking match of the first alternative is found by the search |
| FormDetection.FormPhraseHasMatch | components/form-detection.ts:32 | the second alternative `HEAD\s+WORD\s+form` found by the search is a regular-expression match |
| FormDetection.FormMatchIsPhrase | components/form-detection.ts:32 | every backtracking match of the second alternative is found by the search |
| FormDetection.TestIsRegexSearch | components/form-detection.ts:29-87 | for every form, the modelled `test` succeeds exactly when the regular expression has a match somewhere in the text |
| FormDetection.MatchMentionsNoun | components/form-detection.ts:29-87 | wherever a pattern matches, one of its nouns occurs in the text |
| FormDetection.UnmentionedNounNoMatch | components/form-detection.ts:29-87 | a text that never mentions a pattern's nouns does not match it |
| FormDetection.DetectFormType | components/form-detection.ts:116-186 | 22 flags; all false unless the role is "assistant"; otherwise each is its own pattern matched against the lower-cased text |
| FormDetection.DetectIgnoresCase | components/form-detection.ts:148 | the detection is case-insensitive: a message and its lower-cased text raise the same flags |
| FormDetection.UnmentionedFormNotShown | components/form-detection.ts:116-186 | a message that never mentions a form's nouns, in any letter case, does not raise that form's flag |
| FormDetection.CreateABoardShown | components/form-detection.ts:31-32 | "create a board" in any letter case raises the board-creation flag |
| FormDetection.ClipboardFormShown | components/form-detection.ts:31-32 | the second alternative has no word boundary, so "clipboard creation form" also raises the board-creation flag |
| FormDetection.TwoFormsAtOnce | components/form-detection.ts:150-185 | the flags are independent: "new board, new list" raises both the board- and the list-creation flags |
| FormDetection.FieldName | components/form-detection.ts:90-113 | every property name of the detection result starts with "shouldShow" |
| FormDetection.AsObject | components/form-detection.ts:150-185 | the result object has one boolean property per form, in declaration order |
| FormDetection.AnyFormIffSomeFlag | components/form-detection.ts:189-193 | `shouldShowAnyForm` holds exactly when some form's flag is raised |
| FormDetection.OnlyAssistantShowsForms | components/form-detection.ts:120-146 | a message from any role but the assistant shows no form |
| FormDetection.Key | components/form-detection.ts:199-222 | the `key` column of the table; no key starts with "s" |
| FormDetection.KeyIsNoField | components/form-detection.ts:225 | reading a table key from the detection result gives `undefined`, since no key is a property name |
| FormDetection.PrimaryFormTypeAlwaysNull | components/form-detection.ts:196-231 | as written, `getPrimaryFormType` returns null for every detection result, even when forms are shown |
| FormDetection.PrimaryFrom | components/form-detection.ts:224-230 | the loop from row `i` finds the first raised flag at or after `i`, and nothing exactly when no flag from `i` on is raised |
| FormDetection.GetPrimaryFormType | components/form-detection.ts:196-231 | corrected: a name exactly when some form is shown, and then the display name of the first shown form in table order |
| FormDetection.CreateABoardIsPrimary | components/form-detection.ts:196-231 | corrected: "create a board" reports "Board Creation" as the primary form |
| FormTools.Actions | TrelloTools/UIGenerationTools/generate-board-form.ts:5-9 | each tool's action enumeration; every one of the seven offers create and delete |
| FormTools.ParseAction | TrelloTools/UIGenerationTools/generate-list-form.ts:5-9 | the schema accepts an action text exactly when it names an action of the tool's enumeration, and yields that action |
| FormTools.ComponentDefinedOnEnumeration | TrelloTools/UIGenerationTools/generate-list-form.ts:46-56 | each tool's component map has an entry for exactly the actions of its enumeration, so `componentMap[action]` is never undefined |
| FormTools.ParseComponent | TrelloTools/UIGenerationTools/generate-board-form.ts:53-58 | a component name read back gives an entity and action whose component it is |
| FormTools.ParseComponentInverts | TrelloTools/UIGenerationTools/generate-board-form.ts:53-58 | every component name is read back as the entity and action it was generated for |
| FormTools.ComponentInjective | TrelloTools/UIGenerationTools/generate-board-form.ts:53-58 | no two forms, within one tool or across the seven, render the same component |
| FormTools.Generate | TrelloTools/UIGenerationTools/generate-board-form.ts:47-72 | a form exactly when the action is in the enumeration and any required parent id is present; the component for that action, the message naming action and entity, the ids and initial data echoed, the clock's time and the tool's name |
| FormTools.OwnIdNeverRequired | TrelloTools/UIGenerationTools/generate-board-form.ts:10-15 | the form's own id is optional for every action, including those that need one to act on |
| FormTools.UiIdentifiesAction | TrelloTools/UIGenerationTools/generate-board-form.ts:60-70 | two accepted calls render the same component only when they ask for the same action |
| FormTools.AttachmentHasNoUpdate | TrelloTools/UIGenerationTools/generate-attachment-form.ts:4-9 | the attachment tool refuses "update" |
| FormTools.FormToolsUnreachableFromChat | lib/tool-registry.ts:61-122 | none of the seven form tools can be found in the registry the chat route offers to the language model |
| LabelTools.LabelsRequest | TrelloTools/LabelTools/list-labels.ts:48-57 | a GET of the board's labels carrying the credentials, the joined fields, a non-zero limit and a given usage filter, and no other parameter |
| LabelTools.ByColor | TrelloTools/LabelTools/list-labels.ts:62-64 | the colour filter keeps, in order, exactly the labels of that colour |
| LabelTools.ByColorCounts | TrelloTools/LabelTools/list-labels.ts:62-64 | every label of the colour is kept as many times as it occurs, and no other label is kept |
| LabelTools.SubsequenceShorter | TrelloTools/LabelTools/list-labels.ts:62-64 | filtering never lengthens the list |
| LabelTools.Capped | TrelloTools/LabelTools/list-labels.ts:66-69 | the limit keeps a prefix: all labels with no or a zero limit, at most `limit` with a positive one, and all but the last `-limit` with a negative one |
| LabelTools.Caught | TrelloTools/LabelTools/list-labels.ts:87-107 | a failure carries the reply's status or 500, the thrown message when there is no reply, and otherwise the reply's message or the default |
| LabelTools.ListLabels | TrelloTools/LabelTools/list-labels.ts:37-86 | no request without credentials and a 500 failure naming them; otherwise one GET, and with a colour, a `null` or `undefined` label in the reply makes it fail with the `TypeError`'s text; otherwise the filtered, capped labels with their count, the backend's total and the filters echoed or `null` |
| LabelTools.Applied | TrelloTools/LabelTools/list-labels.ts:76-80 | the echoed filters are each argument, or `null` when it is absent, empty or zero |
| LabelTools.ColorFilterSound | TrelloTools/LabelTools/list-labels.ts:62-64 | with a colour and a readable reply, every returned label has it, and without a limit every backend label with it is returned |
| LabelTools.LimitKeepsFirst | TrelloTools/LabelTools/list-labels.ts:66-69 | a positive limit returns at most that many labels, the first ones of the filtered list |
| LabelTools.NegativeLimitDropsLast | TrelloTools/LabelTools/list-labels.ts:66-69 | a negative limit is no bound: `slice(0, n)` drops the last `-n` labels |
| LabelTools.UnfilteredIsBackendData | TrelloTools/LabelTools/list-labels.ts:59-75 | with no colour and no limit the tool returns exactly the backend's labels and their number |
| LabelTools.ZeroLimitIsNoLimit | TrelloTools/LabelTools/list-labels.ts:53 | a limit of 0 is neither sent, applied nor echoed: the call is the call without a limit |
| CardTools.CardRulesDistinct | TrelloTools/CardTools/list-cards.ts:226-249 | a listed card is reported under 22 distinct property names |
| CardTools.CardView | TrelloTools/CardTools/list-cards.ts:226-249 | each reported property is copied from the backend's card, or for the collections taken from it when truthy and `[]` or `{}` otherwise |
| CardTools.MissingListsBecomeEmpty | TrelloTools/CardTools/list-cards.ts:239-248 | a listed card without labels, members, badges and the like reports `[]` or `{}` in their place |
| CardTools.Filter | TrelloTools/CardTools/list-cards.ts:143 | the card filter defaults to "all" only when absent |
| CardTools.CardsPath | TrelloTools/CardTools/list-cards.ts:174-181 | the board's cards when a board id is given, else the list's cards when a list id is given, and no endpoint exactly when neither is |
| CardTools.ListingRequest | TrelloTools/CardTools/list-cards.ts:183-222 | a GET carrying the credentials and filter, each optional parameter under its wire name exactly when given, booleans whenever defined, and nothing else |
| CardTools.ListingCaught | TrelloTools/CardTools/list-cards.ts:255-263 | a failure's error is the reply's message or the default; an error thrown by the tool itself is reported as the default |
| CardTools.ListCards | TrelloTools/CardTools/list-cards.ts:164-264 | no request without credentials or without a board or list id; otherwise one GET, and a reply that is not an array, or that holds a `null` or `undefined` card, makes it fail with the default text; otherwise one reported card per backend card, in order, with their number |
| CardTools.BoardIdWins | TrelloTools/CardTools/list-cards.ts:175-178 | with both ids, the board's endpoint is used |
| CardTools.NoContainerReportsDefault | TrelloTools/CardTools/list-cards.ts:179-181 | with neither id nothing is sent and the reason thrown is lost behind the default text |
| CardTools.DraftRequest | TrelloTools/CardTools/create-card.ts:85-107 | a POST to `cards` carrying the credentials, name and list, texts only when non-empty, lists joined, booleans and the position whenever defined, and nothing else |
| CardTools.DraftSendsZeroAndEmpty | TrelloTools/CardTools/create-card.ts:92-98 | a position of 0 is still sent, and an empty label list is sent as empty text |
| CardTools.CardCaught | TrelloTools/CardTools/create-card.ts:133-153 | a failure carries the reply's status or 500, the thrown message when there is no reply, and otherwise the reply's message or the default |
| CardTools.CreateCard | TrelloTools/CardTools/create-card.ts:85-161 | no request without credentials; otherwise one POST; a failure always has a non-zero status; a `null` or `undefined` reply fails with the `TypeError` of reading its `id`; on any other answer the card as reported and a message naming the card and list |
| CardTools.ChangeRequest | TrelloTools/CardTools/update-card.ts:102-127 | a PUT to the card carrying the credentials, `desc`, `due`, `start` and the location texts whenever given (so "" clears them), the other texts only when non-empty, and nothing else |
| CardTools.UpdateCard | TrelloTools/CardTools/update-card.ts:102-181 | no request without credentials; otherwise one PUT; a failure always has a non-zero status; a `null` or `undefined` reply fails with the `TypeError` of reading its `id`; on any other answer the card as reported and a message with the name the backend returns |
| CardTools.EmptyDescClearsEmptyNameSkipped | TrelloTools/CardTools/update-card.ts:106-107 | an empty description is sent and clears it, while an empty name is not sent, so a card cannot be renamed to "" |
| ToolSupport.ValuesOf | TrelloTools/LabelTools/list-labels.ts:49-57 | every value the query sends under a name, each one a pair of the query |
| ToolSupport.SendsIffValues | TrelloTools/LabelTools/list-labels.ts:49-57 | a name is sent exactly when the query has a value for it |
| ToolSupport.PresentValues | TrelloTools/LabelTools/list-labels.ts:49-55 | with distinct names, an initialiser entry is sent once with its value when present, and not at all otherwise |
| ToolSupport.SentOnly | TrelloTools/LabelTools/list-labels.ts:49-55 | a name the initialiser does not list is never sent |
| ToolSupport.Extended | TrelloTools/WorkspaceTools/create-workspace.ts:92-135 | pairs appended under a prefix leave the initialiser's other names alone, and are the only values of a prefixed name the initialiser does not list |
| ToolSupport.IfGiven | TrelloTools/LabelTools/list-labels.ts:54 | `...(s && { k: s })` sends a text exactly when it is non-empty |
| ToolSupport.FlagText | TrelloTools/CardTools/update-card.ts:108 | an optional boolean is sent whenever defined, as "true" exactly when it is true |
| ToolSupport.Joined | TrelloTools/LabelTools/list-labels.ts:52 | an optional array is sent whenever given, an empty one as "" |
| ToolSupport.IfNonZero | TrelloTools/LabelTools/list-labels.ts:53 | an optional number is sent exactly when it is truthy, so 0 is not sent |
| ToolSupport.IfDefined | TrelloTools/CardTools/update-card.ts:111 | a value is sent whenever it is not `undefined`, 0 included, as its `toString` |
| ToolSupport.MessageOrThrown | TrelloTools/BoardTools/create-board.ts:137-141 | the backend's message when truthy, else the thrown message when non-empty, else the default; never falsy |
| ToolSupport.MessageOrDefault | TrelloTools/CardTools/list-cards.ts:256-258 | the backend's message when truthy, else the default: a message the tool threw itself is lost |
| ToolSupport.ClassifiedMessage | TrelloTools/CardTools/create-card.ts:136-147 | with a reply, its message or the default; without one, the thrown message even when empty |
| ToolSupport.StatusCode | TrelloTools/CardTools/create-card.ts:137-144 | the reply's status when it is non-zero, else 500; never 0 |
| ToolSupport.Touched | TrelloTools/BoardTools/create-board.ts:113 | reading the first field of a reply fails exactly when the reply is `null` or `undefined`, and otherwise leaves the answer as it was |
| ToolSupport.AsList | TrelloTools/CardTools/list-cards.ts:226 | calling an array method on the reply gives its elements exactly when it is an array; `null` and `undefined` fail with the `TypeError` of the read, any other value with "… is not a function" |
| ToolSupport.EachTouched | TrelloTools/CardTools/list-cards.ts:226-227 | reading a field of each element fails exactly when some element is `null` or `undefined`, with the `TypeError` of such an element, and otherwise leaves the list as it was |
| ToolSupport.FirstNullish | TrelloTools/CardTools/list-cards.ts:226-227 | the element a read in order stops at: `null` or `undefined`, with none before it |
| Prefs.FieldPairs | TrelloTools/WorkspaceTools/create-workspace.ts:108-115 | one pair per non-null field under the prefix, and every non-null field gives its pair |
| Prefs.FieldPairsTraced | TrelloTools/WorkspaceTools/create-workspace.ts:108-115 | every pair sent comes from a non-null field of the object |
| Prefs.FieldPairsValues | TrelloTools/BoardTools/create-board.ts:100-106 | with distinct keys, a field is sent under `<prefix><key>` once when non-null and not at all when null or undefined |
| Prefs.BoardPrefs | TrelloTools/BoardTools/create-board.ts:100-106 | the board tools send each non-null preference once as `prefs_<key>`, and nothing for a null one |
| Prefs.ItemPairsComplete | TrelloTools/WorkspaceTools/create-workspace.ts:116-129 | every non-null field of an object item is sent as `<prefix><index>_<field>` |
| Prefs.ItemPairsTraced | TrelloTools/WorkspaceTools/create-workspace.ts:116-129 | every pair sent is a non-null field of an object item under that item's index, so primitive items send nothing |
| Prefs.PrefPairs | TrelloTools/WorkspaceTools/create-workspace.ts:104-133 | a null preference sends nothing, and every pair of a preference is named under `prefs_<key>` |
| Prefs.WorkspacePrefs | TrelloTools/WorkspaceTools/create-workspace.ts:103-135 | the workspace tools send exactly the pairs of all preferences: every pair sent comes from one, and every one's pairs are sent |
| BoardTools.Visibility | TrelloTools/BoardTools/create-board.ts:71 | the visibility defaults to "private" only when absent |
| BoardTools.TrueByDefault | TrelloTools/BoardTools/create-board.ts:73-74 | the default lists and labels are "false" exactly when asked not to have them |
| BoardTools.DraftRequest | TrelloTools/BoardTools/create-board.ts:87-108 | a POST to `boards` with the credentials, name, description or "", the two defaults, the visibility and then any `prefs.permissionLevel` under `prefs_permissionLevel`, every other non-null preference once, and nothing else |
| BoardTools.CreateBoard | TrelloTools/BoardTools/create-board.ts:77-148 | no request without credentials; otherwise one POST; a failure has no status and a truthy error; a `null` or `undefined` reply fails with the `TypeError` of reading its `id`; on any other answer a message with the requested name and the returned id |
| BoardTools.PermissionLevelSentTwice | TrelloTools/BoardTools/create-board.ts:95-105 | a `prefs.permissionLevel` does not replace the visibility: both are sent, the visibility first |
| BoardTools.DraftDefaults | TrelloTools/BoardTools/create-board.ts:71-95 | without options the board is private, with an empty description and the default lists and labels |
| BoardTools.ChangeRequest | TrelloTools/BoardTools/update-board.ts:97-126 | a PUT to the board with the credentials, a non-empty name, any given description, the defined flags, a non-empty organization, each non-null preference and label name once, and nothing else |
| BoardTools.UpdateBoard | TrelloTools/BoardTools/update-board.ts:97-160 | no request without credentials; otherwise one PUT; a failure has no status and a truthy error; a `null` or `undefined` reply fails with the `TypeError` of reading its `id`; on any other answer a message with the returned name and the board id |
| BoardTools.EmptyDescriptionClears | TrelloTools/BoardTools/update-board.ts:101-102 | an empty description is sent and clears it; an empty name is not sent |
| WorkspaceTools.Separated | TrelloTools/WorkspaceTools/create-workspace.ts:92-135 | preference pairs and initialiser pairs never share a name |
| WorkspaceTools.PlainPreferenceSent | TrelloTools/WorkspaceTools/create-workspace.ts:130-131 | a plain preference value is sent as `prefs_<key>` |
| WorkspaceTools.NestedPreferenceSent | TrelloTools/WorkspaceTools/create-workspace.ts:106-115 | a non-null field of an object preference is sent as `prefs_<key>_<field>` |
| WorkspaceTools.ItemPreferenceSent | TrelloTools/WorkspaceTools/create-workspace.ts:116-129 | a non-null field of an object item of an array preference is sent as `prefs_<key>_<index>_<field>` |
| WorkspaceTools.PreferencePairsTraced | TrelloTools/WorkspaceTools/create-workspace.ts:103-135 | every pair sent under `prefs_` comes from one preference |
| WorkspaceTools.WorkspaceCaught | TrelloTools/WorkspaceTools/create-workspace.ts:162-190 | a failure carries the reply's status or 500, the thrown message when there is no reply, otherwise the reply's message or the default, and a message naming the workspace |
| WorkspaceTools.DraftRequest | TrelloTools/WorkspaceTools/create-workspace.ts:91-137 | a POST to `organizations` with the credentials, the display name, the non-empty texts, the preferences' pairs under `prefs_`, and nothing else |
| WorkspaceTools.CreateWorkspace | TrelloTools/WorkspaceTools/create-workspace.ts:84-191 | no request and a 500 failure without credentials; otherwise one POST, its failure classified, and a `null` or `undefined` reply fails with the `TypeError` of reading its `id`; on any other answer a message with the display name and the returned id |
| WorkspaceTools.DraftSkipsEmpty | TrelloTools/WorkspaceTools/create-workspace.ts:95-99 | empty description, name, website and logo are not sent; the display name always is |
| WorkspaceTools.ChangeRequest | TrelloTools/WorkspaceTools/update-workspace.ts:93-139 | a PUT to the workspace with the credentials, the non-empty texts, the preferences' pairs under `prefs_`, and nothing else |
| WorkspaceTools.ShownName | TrelloTools/WorkspaceTools/update-workspace.ts:162-164 | the success message shows the returned display name, or the name when that is falsy |
| WorkspaceTools.UpdateWorkspace | TrelloTools/WorkspaceTools/update-workspace.ts:93-194 | no request and a 500 failure without credentials; otherwise one PUT, its failure classified, and a `null` or `undefined` reply fails with the `TypeError` of reading its `id`; on any other answer a message with the shown name and the workspace id |
| WorkspaceTools.NothingToChange | TrelloTools/WorkspaceTools/update-workspace.ts:94-102 | without changes only the credentials and the preferences are sent |
| MemberTools.MemberType | TrelloTools/MemberTools/add-member-to-board.ts:23 | the membership type defaults to "normal" only when absent |
| MemberTools.MemberRequest | TrelloTools/MemberTools/add-member-to-board.ts:38-47 | a PUT to the board's members with the credentials, the type always, email and full name only when non-empty, and nothing else |
| MemberTools.MemberCaught | TrelloTools/MemberTools/add-member-to-board.ts:90-101 | a failure without status whose error is the backend's message, else the thrown one, else the default |
| MemberTools.AddMember | TrelloTools/MemberTools/add-member-to-board.ts:23-102 | a request is sent exactly when the credentials are set and someone is named; the credentials are checked first, then the identity; a `null` or `undefined` reply fails with the `TypeError` of reading its `id` |
| MemberTools.SentInvitationNamesSomeone | TrelloTools/MemberTools/add-member-to-board.ts:34-45 | every invitation sent names the person by email or full name |
| MemberTools.CredentialsCheckedFirst | TrelloTools/MemberTools/add-member-to-board.ts:28-36 | missing credentials are reported even when the identity is missing too |
| MemberTools.NormalByDefault | TrelloTools/MemberTools/add-member-to-board.ts:23 | without a type the member joins as a normal member |
| AttachmentTools.FileUpload | TrelloTools/AttachmentTools/create-attachment.ts:41-54 | the multipart POST sends nothing in the query and the credentials, the file, and a non-empty name and type in the form |
| AttachmentTools.LinkUpload | TrelloTools/AttachmentTools/create-attachment.ts:31-56 | the plain POST sends the credentials and the non-empty link, name and type in the query, and nothing else |
| AttachmentTools.Reported | TrelloTools/AttachmentTools/create-attachment.ts:61-73 | the attachment as returned, with missing previews reported as an empty list |
| AttachmentTools.AttachmentCaught | TrelloTools/AttachmentTools/create-attachment.ts:76-88 | a failure without status whose error is the backend's message, else the thrown one, else the default |
| AttachmentTools.CreateAttachment | TrelloTools/AttachmentTools/create-attachment.ts:16-90 | an upload is sent exactly when the credentials are set and a link or file is given; a file is uploaded in preference to a link; a `null` or `undefined` reply fails with the `TypeError` of reading its `id`, any other gives the attachment as reported |
| AttachmentTools.FileWinsOverLink | TrelloTools/AttachmentTools/create-attachment.ts:41-57 | with both a file and a link, the file is uploaded and the link is sent nowhere |
| AttachmentTools.UploadCarriesSource | TrelloTools/AttachmentTools/create-attachment.ts:27-57 | every upload sent carries a file in the form or a link in the query |
| ListTools.RemovalQuery | TrelloTools/ListTools/delete-list.ts:29-33 | the credentials, and `archiveAllCards=true` exactly when asked to archive |
| ListTools.CloseRequest | TrelloTools/ListTools/delete-list.ts:35-37 | the close is a PUT to `lists/<listId>/closed` |
| ListTools.DeleteRequest | TrelloTools/ListTools/delete-list.ts:43-45 | the delete is a DELETE of `lists/<listId>` |
| ListTools.RemovalCaught | TrelloTools/ListTools/delete-list.ts:61-70 | a failure whose error is the backend's message or the default |
| ListTools.DeleteList | TrelloTools/ListTools/delete-list.ts:17-71 | the close is sent first; the delete is sent exactly when the close's reply reports the list closed; success exactly when the delete is answered; the not-closed and error cases each reported as written |
| ListTools.SameQueryBothTimes | TrelloTools/ListTools/delete-list.ts:29-45 | both requests carry the same query |
| ListTools.OwnErrorsBecomeDefault | TrelloTools/ListTools/delete-list.ts:62-64 | missing credentials and an unreadable reply are both reported as "Failed to delete list" |
| ListTools.ArchiveMentionedIffArchived | TrelloTools/ListTools/delete-list.ts:49-51 | the success message mentions archiving exactly when the cards were to be archived |
| BoardTools.ChangeLabelNames | TrelloTools/BoardTools/update-board.ts:117-124 | with distinct colours, each non-null label name is sent once as `labelNames_<colour>`, and nothing for a null one |

## Left out

- Streaming, the language model and `streamText`. The chat route is modelled only up to the hand-over; a request that passes the body check ends in an outcome without a response.
- HTTP transport: headers other than those the helpers set, JSON parsing of bodies, the `NextResponse` objects. The backend's answers (axios replies and errors) are parameters.
- Clock, random request ids and `Date.now()`: all parameters.
- Console logging in every file: it has no effect on results.
- Floating-point metrics of the monitor: `averageResponseTime`, `errorRate`, `toolCallStats` and the per-tool averages. Only the integer counts and the recent errors are modelled. The cache's hit rate is a `real`.
- `RateLimiter.getStats`, `destroy` and the cleanup interval timer: reporting and process lifecycle only.
- `CacheService.getKeys`, and the service accessors `getCredentials`, `getCacheStats` and `clearCache`: thin wrappers with no logic of their own.
- `createSuccessResponse`, `createValidationErrorResponse`, `createInternalErrorResponse`, `addRateLimitHeaders` and `generateRequestId`: not used by the modelled decisions, or random.
- The success payload objects of the board, workspace and member tools: each is a field-by-field copy of the backend's reply, reduced to the success message. The card, label, list and attachment payloads are modelled.
- The `suggestions` arrays of the tools' failure results: fixed text.
- The zod schemas: of the form tools' schemas, only the `action` enumeration and the required parent id are modelled; the Trello tools' arguments are taken as the schema-valid values the chat path parses them into.
- FormTools.Generate: `initialData` is neither validated against the schema's field types (such as the board form's three `visibility` values) nor stripped of unknown keys; it is echoed as given, so the contract's "a form exactly when…" ignores a rejection for a bad `initialData`.
- WorkspaceTools.CreateWorkspace: requires `PrefsShaped`: array preference items are assumed to be objects or primitives, never `null` or arrays, as the tool's schema demands. Only the chat path parses arguments against the schema; on the Trello endpoint a `null` item makes `Object.entries` throw, and an array item is read by index, neither of which is modelled.
- WorkspaceTools.UpdateWorkspace: requires `PrefsShaped`, for the same reason.
- LabelTools.ListLabels: the reply is assumed to be an array. A `null` reply makes the tool fail with the `TypeError` of reading `filter` or `length`; any other non-array fails on `filter` when a colour is given, and otherwise has its own `length` read (and possibly `slice` called), so the tool may succeed with a `count` that is not a number.
- Strings.Less: orders by Unicode scalar value; JavaScript compares UTF-16 code units, which differs only between characters above U+FFFF and those from U+E000 to U+FFFF.
- Strings.Lower: lower-cases ASCII letters only. JavaScript's `toLowerCase` covers all of Unicode.
- Numbers are integers. `toString` of a fraction, `NaN` and the infinities are not modelled.
- Js.ToString: an object with its own `toString` property converts to "[object Object]" in the model, where JavaScript throws a `TypeError` (JSON data holds no functions, so that property is never callable). Only `TrelloRoute.Post` models the throw, through `Js.StringThrows`; the tools' messages built from the backend's replies and errors assume no such property.
- CacheService.GenerateKey: nested objects keep their properties in the order written. JavaScript lists integer-like property names first, in ascending order, so two nested objects that differ only in where such names were written share a key in the source but not in the model.
- The V8 texts of `TypeError` messages other than a property read of `null` or `undefined`, which `Js.ReadError` spells out.
- TrelloRoute.QueryParams: a `__proto__` parameter holding a comma replaces the object's prototype with an array instead of adding a key; what is later read through that prototype (an array's inherited properties) is not modelled, since the model reads own properties only.
- The tools not named above under `TrelloTools/`, and the React components other than `components/form-detection.ts`: they are outside this model.

## Findings

| source | as written | input that shows it | evidently intended | confidence | as-written member | corrected member |
|---|---|---|---|---|---|---|
| lib/Services/monitoring-service.ts:106-110 | `endRequest` replaces the log's tool calls with its `toolCalls` argument, which is `undefined` when the caller passes none | `startRequest(id)`, then `logToolExecution(id, …)`, then `endRequest(id, 200)`: the logged call is gone | the calls passed in are appended to those already logged | high (not executed) | MonitoringService.EndRequestDropsLoggedCalls | MonitoringService.EndRequestKeepingCallsKeepsLogged |
| lib/Services/trello-service.ts:50-55 | a cache hit returns `standardizeResponse(cached)`, but the stored value is already a standardized envelope | two identical `listBoards` calls within five minutes: the second answers `{success: true, data: <first envelope>}` without `count` | a hit returns the stored envelope unchanged | high (not executed) | TrelloService.CacheHitRewraps | TrelloService.CorrectedHitRepeats |
| components/form-detection.ts:225 | `getPrimaryFormType` reads `detectionResult[formType.key]` with keys such as "boardCreation", which are not fields of the result (they are named "shouldShowBoardCreationForm") | an assistant message "create a board": the flag is raised, yet the answer is `null` | the display name of the first raised flag in table order | high (not executed) | FormDetection.PrimaryFormTypeAlwaysNull | FormDetection.CreateABoardIsPrimary |

=== FILE: api_helpers.dfy ===
/**
 The request helpers of `lib/api-helpers.ts`: body validation, client-IP
 extraction with its IPv4/IPv6 text check, and the shape of the error and
 rate-limit responses. A response is its status, its headers and its JSON
 body before serialisation; the current time enters as ready-made ISO text.
 */
module ApiHelpers {
  import opened Strings
  import opened Js

  /** An HTTP response: status code, headers in insertion order, JSON body. */
  datatype HttpResponse = HttpResponse(status: int, headers: seq<(string, string)>, body: Value)

  /** The result of `validateRequestBody`. */
  datatype Validation = Accepted | Rejected(error: string)

  const NotAnObject := "Request body must be a valid object"

  /** Index of the first field `field in body` fails for, or `|fields|`. */
  function FirstMissing(body: Value, fields: seq<string>): (i: nat)
    ensures i <= |fields|
    ensures forall j | 0 <= j < i :: HasProperty(body, fields[j])
    ensures i < |fields| ==> !HasProperty(body, fields[i])
  {
    if |fields| == 0 then 0
    else if !HasProperty(body, fields[0]) then 0
    else 1 + FirstMissing(body, fields[1..])
  }

  /**
   `validateRequestBody(body, requiredFields)`: a falsy or non-object body is
   rejected first; then the first required field, in list order, that the
   `in` operator does not find; otherwise the body is accepted.
   */
  function ValidateRequestBody(body: Value, required: seq<string>): (r: Validation)
    ensures !Truthy(body) || !TypeofObject(body) ==> r == Rejected(NotAnObject)
    ensures Truthy(body) && TypeofObject(body) ==>
      (r.Accepted? <==> forall j | 0 <= j < |required| :: HasProperty(body, required[j]))
    ensures Truthy(body) && TypeofObject(body) && r.Rejected? ==>
      exists i | 0 <= i < |required| ::
        && !HasProperty(body, required[i])
        && (forall j | 0 <= j < i :: HasProperty(body, required[j]))
        && r.error == "Missing required field: " + required[i]
  {
    if !Truthy(body) || !TypeofObject(body) then Rejected(NotAnObject)
    else
      var i := FirstMissing(body, required);
      if i == |required| then Accepted else Rejected("Missing required field: " + required[i])
  }

  /**
   An array body passes the object check and is then checked with `in` like
   any object: its `length` and the array methods it inherits count as present.
   */
  lemma ArrayBodyIsAnObject(items: seq<Value>)
    ensures ValidateRequestBody(Arr(items), ["length"]) == Accepted
    ensures ValidateRequestBody(Arr(items), ["map", "push", "filter"]) == Accepted
  {
    assert HasProperty(Arr(items), "length");
    assert HasProperty(Arr(items), "map") && HasProperty(Arr(items), "push") && HasProperty(Arr(items), "filter");
  }

  // ---------------------------------------------------------------------------
  // isValidIP

  predicate IsDigit(c: char) {
    '0' <= c <= '9'
  }

  predicate AllDigits(s: string) {
    forall k | 0 <= k < |s| :: IsDigit(s[k])
  }

  /** The decimal value of a digit string. */
  function DigitsValue(s: string): nat
    requires AllDigits(s)
  {
    if |s| == 0 then 0 else DigitsValue(s[..|s| - 1]) * 10 + (s[|s| - 1] as int - '0' as int)
  }

  /**
   One octet of the IPv4 pattern, alternative by alternative:
   `25[0-5]`, `2[0-4][0-9]`, `[01]?[0-9][0-9]?` (the last covers one digit,
   two digits, and three digits led by 0 or 1).
   */
  predicate OctetPattern(s: string) {
    || (|s| == 3 && s[0] == '2' && s[1] == '5' && '0' <= s[2] <= '5')
    || (|s| == 3 && s[0] == '2' && '0' <= s[1] <= '4' && IsDigit(s[2]))
    || (|s| == 3 && (s[0] == '0' || s[0] == '1') && IsDigit(s[1]) && IsDigit(s[2]))
    || (|s| == 2 && IsDigit(s[0]) && IsDigit(s[1]))
    || (|s| == 1 && IsDigit(s[0]))
  }

  /** The value of a three-digit text, written out by place. */
  lemma ThreeDigits(s: string)
    requires |s| == 3 && AllDigits(s)
    ensures DigitsValue(s) == (s[0] as int - '0' as int) * 100 + (s[1] as int - '0' as int) * 10 + (s[2] as int - '0' as int)
  {
    assert s[..2][..1] == s[..1];
    assert s[..1][..0] == [];
    assert DigitsValue(s[..1]) == s[0] as int - '0' as int;
    assert DigitsValue(s[..2]) == DigitsValue(s[..1]) * 10 + (s[1] as int - '0' as int);
  }

  lemma TwoDigits(s: string)
    requires |s| == 2 && AllDigits(s)
    ensures DigitsValue(s) == (s[0] as int - '0' as int) * 10 + (s[1] as int - '0' as int)
  {
    assert s[..1][..0] == [];
    assert DigitsValue(s[..1]) == s[0] as int - '0' as int;
  }

  /** The octet pattern accepts exactly the one- to three-digit texts of a value up to 255, leading zeros allowed. */
  lemma OctetIsByte(s: string)
    ensures OctetPattern(s) <==> 1 <= |s| <= 3 && AllDigits(s) && DigitsValue(s) <= 255
  {
    if |s| == 3 && AllDigits(s) {
      ThreeDigits(s);
    } else if |s| == 2 && AllDigits(s) {
      TwoDigits(s);
    } else if |s| == 1 && AllDigits(s) {
      assert s[..0] == [];
    }
  }

  predicate IsHexDigit(c: char) {
    IsDigit(c) || 'a' <= c <= 'f' || 'A' <= c <= 'F'
  }

  /** One group of the IPv6 pattern: one to four hexadecimal digits. */
  predicate HexGroup(s: string) {
    1 <= |s| <= 4 && forall k | 0 <= k < |s| :: IsHexDigit(s[k])
  }

  /** Four octets separated by dots, nothing else. */
  predicate IsIPv4(ip: string) {
    var parts := Split(ip, '.');
    |parts| == 4 && forall k | 0 <= k < 4 :: OctetPattern(parts[k])
  }

  /** Eight hexadecimal groups separated by colons: the uncompressed form only. */
  predicate IsIPv6(ip: string) {
    var groups := Split(ip, ':');
    |groups| == 8 && forall k | 0 <= k < 8 :: HexGroup(groups[k])
  }

  /** `isValidIP(ip)`: either pattern, anchored at both ends. */
  predicate IsValidIP(ip: string) {
    IsIPv4(ip) || IsIPv6(ip)
  }

  /** Every octet is also a hexadecimal group. */
  lemma OctetIsHexGroup(s: string)
    requires OctetPattern(s)
    ensures HexGroup(s)
  {
  }

  /** A hexadecimal group holds no comma and no whitespace. */
  lemma HexGroupIsPlain(s: string)
    requires HexGroup(s)
    ensures ',' !in s && !IsJsSpace(s[0]) && !IsJsSpace(s[|s| - 1])
  {
  }

  /** Joining hexadecimal groups gives a non-empty text with no comma and no surrounding whitespace. */
  lemma JoinedGroupsArePlain(parts: seq<string>, c: char)
    requires |parts| >= 1 && c != ',' && !IsJsSpace(c)
    requires forall k | 0 <= k < |parts| :: HexGroup(parts[k])
    ensures var t := Join(parts, [c]); |t| > 0 && ',' !in t && !IsJsSpace(t[0]) && !IsJsSpace(t[|t| - 1])
  {
    forall k | 0 <= k < |parts|
      ensures |parts[k]| > 0 && ',' !in parts[k]
    {
      HexGroupIsPlain(parts[k]);
    }
    JoinAvoids(parts, c, ',');
    JoinEnds(parts, [c]);
    HexGroupIsPlain(parts[0]);
    HexGroupIsPlain(parts[|parts| - 1]);
  }

  /**
   A valid address is a dotted quad of bytes or eight colon-separated groups,
   so it is not empty, has no comma and no surrounding whitespace.
   */
  lemma ValidIPShape(ip: string)
    requires IsValidIP(ip)
    ensures IsIPv4(ip) ==> forall k | 0 <= k < 4 :: var p := Split(ip, '.')[k]; AllDigits(p) && DigitsValue(p) <= 255
    ensures |ip| > 0 && ',' !in ip && !IsJsSpace(ip[0]) && !IsJsSpace(ip[|ip| - 1])
  {
    if IsIPv4(ip) {
      OctetsAreBytes(ip);
      OctetsAreGroups(ip);
      GroupsArePlain(ip, '.');
    } else {
      GroupsArePlain(ip, ':');
    }
  }

  lemma OctetsAreBytes(ip: string)
    requires IsIPv4(ip)
    ensures forall k | 0 <= k < 4 :: var p := Split(ip, '.')[k]; AllDigits(p) && DigitsValue(p) <= 255
  {
    var parts := Split(ip, '.');
    forall k | 0 <= k < 4
      ensures AllDigits(parts[k]) && DigitsValue(parts[k]) <= 255
    {
      OctetIsByte(parts[k]);
    }
  }

  lemma OctetsAreGroups(ip: string)
    requires IsIPv4(ip)
    ensures forall k | 0 <= k < |Split(ip, '.')| :: HexGroup(Split(ip, '.')[k])
  {
    var parts := Split(ip, '.');
    forall k | 0 <= k < |parts|
      ensures HexGroup(parts[k])
    {
      OctetIsHexGroup(parts[k]);
    }
  }

  /** A text that splits into hexadecimal groups is non-empty, with no comma and no surrounding whitespace. */
  lemma GroupsArePlain(ip: string, c: char)
    requires c == '.' || c == ':'
    requires |Split(ip, c)| >= 1 && forall k | 0 <= k < |Split(ip, c)| :: HexGroup(Split(ip, c)[k])
    ensures |ip| > 0 && ',' !in ip && !IsJsSpace(ip[0]) && !IsJsSpace(ip[|ip| - 1])
  {
    JoinSplit(ip, c);
    JoinedGroupsArePlain(Split(ip, c), c);
  }

  /** Four octets joined by dots form a valid IPv4 address. */
  lemma DottedQuad(a: string, b: string, c: string, d: string)
    requires OctetPattern(a) && OctetPattern(b) && OctetPattern(c) && OctetPattern(d)
    ensures IsIPv4(a + ['.'] + (b + ['.'] + (c + ['.'] + d)))
  {
    NoDotInOctet(a);
    NoDotInOctet(b);
    NoDotInOctet(c);
    NoDotInOctet(d);
    var t3 := c + ['.'] + d;
    var t2 := b + ['.'] + t3;
    var t1 := a + ['.'] + t2;
    SplitNone(d, '.');
    SplitAfter(c, '.', d);
    SplitAfter(b, '.', t3);
    SplitAfter(a, '.', t2);
    assert Split(t1, '.') == [a, b, c, d];
  }

  lemma NoDotInOctet(s: string)
    requires OctetPattern(s)
    ensures '.' !in s
  {
  }

  /** The loopback address in dotted-quad form is valid; it is also the fallback. */
  lemma LoopbackIsValid()
    ensures IsValidIP("127.0.0.1")
  {
    DottedQuad("127", "0", "0", "1");
    assert "127" + ['.'] + ("0" + ['.'] + ("0" + ['.'] + "1")) == "127.0.0.1";
  }

  /**
   A text starting with a colon, as the compressed IPv6 forms `::1` and `::`
   do, is rejected: its first group is empty.
   */
  lemma CompressedIPv6Rejected(rest: string)
    ensures !IsValidIP(":" + rest)
  {
    var ip := "" + [':'] + rest;
    assert ":" + rest == ip;
    assert !IsIPv6(ip) by {
      SplitAfter("", ':', rest);
      assert Split(ip, ':')[0] == "";
      assert !HexGroup(Split(ip, ':')[0]);
    }
    assert !IsIPv4(ip) by {
      SplitHeadExtends(":", '.', rest);
      var p := Split(ip, '.')[0];
      assert p[0] == ':';
    }
  }

  /** Whatever follows, a text starting with the octet 256 is rejected. */
  lemma OctetAboveByteRejected(rest: string)
    ensures !IsValidIP("256." + rest)
  {
    var ip := "256" + ['.'] + rest;
    assert "256." + rest == ip;
    assert !IsIPv4(ip) by {
      SplitAfter("256", '.', rest);
      assert Split(ip, '.')[0] == "256";
    }
    assert !IsIPv6(ip) by {
      SplitHeadExtends("256.", ':', rest);
      var g := Split(ip, ':')[0];
      assert g[3] == '.';
    }
  }

  // ---------------------------------------------------------------------------
  // getClientIP

  /** The headers consulted, in priority order. */
  const IpHeaders: seq<string> := [
    "x-forwarded-for", "x-real-ip", "x-client-ip", "cf-connecting-ip",
    "x-forwarded", "forwarded-for", "forwarded"
  ]

  const Fallback := "127.0.0.1"

  /** `value.split(",")[0].trim()`: the first listed address. */
  function Candidate(value: string): (ip: string)
    ensures |ip| <= |value|
  {
    Trim(Split(value, ',')[0])
  }

  /** A header that is present, non-empty, and whose first token is a valid address. */
  predicate Qualifies(headers: map<string, string>, name: string) {
    name in headers && headers[name] != "" && IsValidIP(Candidate(headers[name]))
  }

  /** `names[i]` is the first of `names` that qualifies. */
  predicate FirstQualifying(headers: map<string, string>, names: seq<string>, i: int) {
    0 <= i < |names| && Qualifies(headers, names[i]) && forall j | 0 <= j < i :: !Qualifies(headers, names[j])
  }

  /** None of `names` qualifies. */
  predicate NoneQualifying(headers: map<string, string>, names: seq<string>) {
    forall i | 0 <= i < |names| :: !Qualifies(headers, names[i])
  }

  /** The scan over `names`: the first qualifying header's token, else the fallback. */
  function Scan(headers: map<string, string>, names: seq<string>): (ip: string)
    ensures (exists i :: FirstQualifying(headers, names, i) && ip == Candidate(headers[names[i]]))
         || (NoneQualifying(headers, names) && ip == Fallback)
  {
    if |names| == 0 then Fallback
    else if Qualifies(headers, names[0]) then
      assert FirstQualifying(headers, names, 0);
      Candidate(headers[names[0]])
    else
      var ip := Scan(headers, names[1..]);
      ScanSkips(headers, names);
      ip
  }

  /** Past a first name that does not qualify, the scan's answer for the rest is its answer. */
  lemma ScanSkips(headers: map<string, string>, names: seq<string>)
    requires |names| > 0 && !Qualifies(headers, names[0])
    ensures forall i | FirstQualifying(headers, names[1..], i) :: FirstQualifying(headers, names, i + 1)
    ensures NoneQualifying(headers, names[1..]) ==> NoneQualifying(headers, names)
  {
    forall i | FirstQualifying(headers, names[1..], i)
      ensures FirstQualifying(headers, names, i + 1)
    {
      forall j | 0 <= j < i + 1
        ensures !Qualifies(headers, names[j])
      {
        if j > 0 {
          assert names[j] == names[1..][j - 1];
        }
      }
      assert names[i + 1] == names[1..][i];
    }
    if NoneQualifying(headers, names[1..]) {
      forall i | 0 <= i < |names|
        ensures !Qualifies(headers, names[i])
      {
        if i > 0 {
          assert names[i] == names[1..][i - 1];
        }
      }
    }
  }

  /**
   `getClientIP(request)`, with the request headers as a map from lower-case
   name to value: the first address taken from the seven headers in priority
   order, or the loopback fallback. Whatever it returns passes `isValidIP`.
   */
  function GetClientIP(headers: map<string, string>): (ip: string)
    ensures (exists i :: FirstQualifying(headers, IpHeaders, i) && ip == Candidate(headers[IpHeaders[i]]))
         || (NoneQualifying(headers, IpHeaders) && ip == Fallback)
    ensures IsValidIP(ip)
  {
    LoopbackIsValid();
    Scan(headers, IpHeaders)
  }

  /** A forwarding chain yields its first hop, trimmed, when that hop is valid. */
  lemma ForwardedForFirstHop(headers: map<string, string>, hop: string, rest: string)
    requires "x-forwarded-for" in headers && headers["x-forwarded-for"] == hop + "," + rest
    requires IsValidIP(hop)
    ensures GetClientIP(headers) == hop
  {
    ValidIPShape(hop);
    assert IndexOf(hop + "," + rest, ',') == |hop| by {
      var v := hop + "," + rest;
      assert v[|hop|] == ',';
      assert forall j | 0 <= j < |hop| :: v[j] == hop[j];
    }
    assert (hop + "," + rest)[..|hop|] == hop;
    TrimValidIP(hop);
    assert Qualifies(headers, IpHeaders[0]);
  }

  /** A valid address has no surrounding whitespace, so trimming leaves it as it is. */
  lemma TrimValidIP(ip: string)
    requires IsValidIP(ip)
    ensures Trim(ip) == ip
  {
    ValidIPShape(ip);
    assert TrimStart(ip) == ip;
  }

  // ---------------------------------------------------------------------------
  // Error responses

  /** `{ ...base, ...extra }`: each property of `extra` in order, overriding one of the same name. */
  function Spread(base: seq<(string, Value)>, extra: seq<(string, Value)>): (r: seq<(string, Value)>)
    requires DistinctKeys(base) && DistinctKeys(extra)
    ensures DistinctKeys(r)
    ensures forall k :: Lookup(r, k) == if HasKey(extra, k) then Lookup(extra, k) else Lookup(base, k)
    decreases |extra|
  {
    if |extra| == 0 then base
    else
      var step := Put(base, extra[0].0, extra[0].1);
      PutKeepsDistinct(base, extra[0].0, extra[0].1);
      SpreadStep(base, extra, step);
      Spread(step, extra[1..])
  }

  lemma SpreadStep(base: seq<(string, Value)>, extra: seq<(string, Value)>, step: seq<(string, Value)>)
    requires |extra| > 0 && DistinctKeys(extra) && step == Put(base, extra[0].0, extra[0].1)
    ensures DistinctKeys(extra[1..])
    ensures forall k :: (if HasKey(extra[1..], k) then Lookup(extra[1..], k) else Lookup(step, k))
                     == (if HasKey(extra, k) then Lookup(extra, k) else Lookup(base, k))
  {
    forall k
      ensures (if HasKey(extra[1..], k) then Lookup(extra[1..], k) else Lookup(step, k))
           == (if HasKey(extra, k) then Lookup(extra, k) else Lookup(base, k))
    {
      if k == extra[0].0 {
        PutThenLookup(base, k, extra[0].1);
        assert !HasKey(extra[1..], k);
      } else {
        PutKeepsOthers(base, extra[0].0, extra[0].1, k);
        assert HasKey(extra, k) <==> HasKey(extra[1..], k);
      }
    }
  }

  /**
   `createErrorResponse(error, message?, statusCode = 500, metadata?)`: a
   failure body whose message is `message || error`, with the timestamp first
   in the metadata and the caller's metadata spread over it.
   */
  function CreateErrorResponse(error: string, message: Option<string>, statusCode: Option<int>,
                               metadata: seq<(string, Value)>, timestamp: string): (r: HttpResponse)
    requires DistinctKeys(metadata)
    ensures r.status == if statusCode.Some? then statusCode.value else 500
    ensures r.headers == []
    ensures r.body.Obj? && DistinctKeys(r.body.fields)
    ensures Get(r.body, "success") == Bool(false)
    ensures Get(r.body, "error") == Str(error)
    ensures Get(r.body, "message") == Str(if Given(message) then message.value else error)
    ensures Get(r.body, "metadata").Obj?
    ensures forall k ::
              GetPath(r.body, "metadata", k) ==
              (if HasKey(metadata, k) then Lookup(metadata, k) else if k == "timestamp" then Str(timestamp) else Undefined)
  {
    var meta := Spread([("timestamp", Str(timestamp))], metadata);
    var fields := ErrorFields(Str(error), Str(OrText(message, error)), Obj(meta));
    HttpResponse(if statusCode.Some? then statusCode.value else 500, [], Obj(fields))
  }

  /** The names of an error body's properties, in the order they are written. */
  const ErrorKeys: seq<string> := ["success", "error", "message", "metadata"]

  /** An error body's properties: `success: false`, then the error, the message and the metadata. */
  function ErrorFields(error: Value, message: Value, metadata: Value): (fields: seq<(string, Value)>)
    ensures DistinctKeys(fields)
    ensures Lookup(fields, "success") == Bool(false) && Lookup(fields, "error") == error
    ensures Lookup(fields, "message") == message && Lookup(fields, "metadata") == metadata
    ensures forall k | HasKey(fields, k) :: k in ErrorKeys
  {
    var fields := [("success", Bool(false)), ("error", error), ("message", message), ("metadata", metadata)];
    assert forall i | 0 <= i < 4 :: fields[i].0 == ErrorKeys[i];
    assert "success" != "error" && "success" != "message" && "success" != "metadata";
    assert "error" != "message" && "error" != "metadata" && "message" != "metadata";
    LookupDistinct(fields, 0);
    LookupDistinct(fields, 1);
    LookupDistinct(fields, 2);
    LookupDistinct(fields, 3);
    fields
  }

  const RateLimitExceeded := "Rate limit exceeded"

  /** A header's value, the first of that name. */
  function Header(headers: seq<(string, string)>, name: string): Option<string> {
    if |headers| == 0 then None
    else if headers[0].0 == name then Some(headers[0].1)
    else Header(headers[1..], name)
  }

  /** With no name repeated, a header reads back the value set under it. */
  lemma {:induction false} HeaderAt(headers: seq<(string, string)>, i: nat)
    requires i < |headers| && forall j | 0 <= j < i :: headers[j].0 != headers[i].0
    ensures Header(headers, headers[i].0) == Some(headers[i].1)
  {
    if i > 0 {
      HeaderAt(headers[1..], i - 1);
    }
  }

  /** The four headers of the rate-limit response, in the order they are set. */
  function RateLimitHeaders(retryAfter: int, resetAt: string): (h: seq<(string, string)>)
    ensures Header(h, "Retry-After") == Some(IntToString(retryAfter))
    ensures Header(h, "X-RateLimit-Limit") == Some("100")
    ensures Header(h, "X-RateLimit-Remaining") == Some("0")
    ensures Header(h, "X-RateLimit-Reset") == Some(resetAt)
  {
    var h := [("Retry-After", IntToString(retryAfter)), ("X-RateLimit-Limit", "100"),
              ("X-RateLimit-Remaining", "0"), ("X-RateLimit-Reset", resetAt)];
    assert "Retry-After" != "X-RateLimit-Limit" && "Retry-After" != "X-RateLimit-Remaining";
    assert "Retry-After" != "X-RateLimit-Reset" && "X-RateLimit-Limit" != "X-RateLimit-Remaining";
    assert "X-RateLimit-Limit" != "X-RateLimit-Reset" && "X-RateLimit-Remaining" != "X-RateLimit-Reset";
    HeaderAt(h, 1);
    HeaderAt(h, 2);
    HeaderAt(h, 3);
    h
  }

  /** The delay in text, as `retryAfter.toString()` renders it; a non-negative delay is bare digits. */
  lemma DelaySecondsForm(retryAfter: int)
    requires retryAfter >= 0
    ensures AllDigits(IntToString(retryAfter))
  {
  }

  /** The rate-limit metadata: the timestamp, then the request id (`undefined` when none was given). */
  function RateLimitMetadata(requestId: Option<string>, timestamp: string): (m: Value)
    ensures m.Obj? && DistinctKeys(m.fields)
    ensures Get(m, "requestId") == if requestId.Some? then Str(requestId.value) else Undefined
    ensures Get(m, "timestamp") == Str(timestamp)
  {
    var fields := [("timestamp", Str(timestamp)),
                   ("requestId", if requestId.Some? then Str(requestId.value) else Undefined)];
    assert "timestamp" != "requestId";
    LookupDistinct(fields, 0);
    LookupDistinct(fields, 1);
    Obj(fields)
  }

  /** The rate-limit message, with the delay in seconds as `retryAfter.toString()` renders it. */
  function RetryMessage(retryAfter: int): string {
    "Too many requests. Please try again in " + IntToString(retryAfter) + " seconds."
  }

  /** The rate-limit body: the fixed error, the delay in the message, and the id under the metadata only. */
  function RateLimitBody(retryAfter: int, requestId: Option<string>, timestamp: string): (b: Value)
    ensures b.Obj? && DistinctKeys(b.fields)
    ensures Get(b, "success") == Bool(false) && Get(b, "error") == Str(RateLimitExceeded)
    ensures Get(b, "message") == Str(RetryMessage(retryAfter))
    ensures !HasKey(b.fields, "retryAfter") && !HasKey(b.fields, "requestId")
    ensures Get(b, "metadata") == RateLimitMetadata(requestId, timestamp)
  {
    var fields := ErrorFields(Str(RateLimitExceeded), Str(RetryMessage(retryAfter)), RateLimitMetadata(requestId, timestamp));
    NotErrorKey(fields, "retryAfter");
    NotErrorKey(fields, "requestId");
    Obj(fields)
  }

  /** A name longer than every error key is no property of an error body. */
  lemma NotErrorKey(fields: seq<(string, Value)>, k: string)
    requires forall n | HasKey(fields, n) :: n in ErrorKeys
    requires |k| > 8
    ensures !HasKey(fields, k)
  {
  }

  /**
   `createRateLimitResponse(retryAfter, requestId?)`: status 429 with the
   rate-limit headers and body; `resetAt` is the ISO text of the moment the
   delay ends.
   */
  function CreateRateLimitResponse(retryAfter: int, requestId: Option<string>,
                                   timestamp: string, resetAt: string): (r: HttpResponse)
    ensures r.status == 429
    ensures Header(r.headers, "Retry-After") == Some(IntToString(retryAfter))
    ensures r.body.Obj? && !HasKey(r.body.fields, "retryAfter")
    ensures GetPath(r.body, "metadata", "requestId") == if requestId.Some? then Str(requestId.value) else Undefined
    ensures r.headers == RateLimitHeaders(retryAfter, resetAt) && r.body == RateLimitBody(retryAfter, requestId, timestamp)
  {
    HttpResponse(429, RateLimitHeaders(retryAfter, resetAt), RateLimitBody(retryAfter, requestId, timestamp))
  }
}

=== FILE: attachment_tools.dfy ===
/**
 `createAttachmentTool` of `TrelloTools/AttachmentTools/create-attachment.ts`:
 it attaches either a link, sent in the query, or a file, sent as a
 multipart form with an empty query. A file takes precedence over a link.
 */
module AttachmentTools {
  import opened Strings
  import opened Js
  import opened ToolSupport

  /** The tool's arguments; `file` is base64 text. */
  datatype AttachmentDraft = AttachmentDraft(cardId: string, url: Option<string>, name: Option<string>,
                                             mimeType: Option<string>, file: Option<string>)

  const NoSource: string := "Either URL or file data must be provided"

  /** Something to attach: a non-empty link or file. */
  predicate HasSource(a: AttachmentDraft) {
    Given(a.url) || Given(a.file)
  }

  /** A POST with its query and, for an upload, the `FormData` fields in append order. */
  datatype Upload = Upload(request: Request, form: Option<Query>)

  /** The attachment the tool reports, read field by field from the reply. */
  datatype Attachment = Attachment(
    id: Value, name: Value, url: Value, mimeType: Value, bytes: Value, date: Value, edgeColor: Value,
    idMember: Value, isUpload: Value, pos: Value, previews: Value)

  const LinkParams: seq<string> := ["key", "token", "url", "name", "mimeType"]
  const FormParams: seq<string> := ["key", "token", "file", "name", "mimeType"]

  function LinkEntries(c: Credentials, a: AttachmentDraft): (es: Entries)
    requires Configured(c)
    ensures NamedBy(es, LinkParams) && DistinctNames(es)
  {
    var es: Entries := [("key", c.apiKey), ("token", c.apiToken), ("url", IfGiven(a.url)),
                        ("name", IfGiven(a.name)), ("mimeType", IfGiven(a.mimeType))];
    assert Distinct(LinkParams);
    NamedDistinct(es, LinkParams);
    es
  }

  /** The appends to the `FormData`; `file` is only built when the file is given. */
  function FormEntries(c: Credentials, a: AttachmentDraft): (es: Entries)
    requires Configured(c) && Given(a.file)
    ensures NamedBy(es, FormParams) && DistinctNames(es)
  {
    var es: Entries := [("key", c.apiKey), ("token", c.apiToken), ("file", a.file),
                        ("name", IfGiven(a.name)), ("mimeType", IfGiven(a.mimeType))];
    assert Distinct(FormParams);
    NamedDistinct(es, FormParams);
    es
  }

  function AttachmentsPath(a: AttachmentDraft): string {
    "cards/" + a.cardId + "/attachments"
  }

  /** The multipart POST: nothing in the query, the file and its details in the form, never the link. */
  function FileUpload(c: Credentials, a: AttachmentDraft): (u: Upload)
    requires Configured(c) && Given(a.file)
    ensures u.request == Request(HttpPost, AttachmentsPath(a), []) && u.form.Some?
    ensures ValuesOf(u.form.value, "key") == [c.apiKey.value] && ValuesOf(u.form.value, "token") == [c.apiToken.value]
    ensures ValuesOf(u.form.value, "file") == [a.file.value]
    ensures ValuesOf(u.form.value, "name") == Listed(IfGiven(a.name))
    ensures ValuesOf(u.form.value, "mimeType") == Listed(IfGiven(a.mimeType))
    ensures forall k | k !in FormParams :: ValuesOf(u.form.value, k) == []
  {
    var es := FormEntries(c, a);
    PresentValues(es, 0); PresentValues(es, 1); PresentValues(es, 2); PresentValues(es, 3); PresentValues(es, 4);
    SentOnly(es, FormParams);
    Upload(Request(HttpPost, AttachmentsPath(a), []), Some(Present(es)))
  }

  /** The plain POST that attaches a link, everything in the query. */
  function LinkUpload(c: Credentials, a: AttachmentDraft): (u: Upload)
    requires Configured(c)
    ensures u.request.verb == HttpPost && u.request.path == AttachmentsPath(a) && u.form.None?
    ensures ValuesOf(u.request.query, "key") == [c.apiKey.value] && ValuesOf(u.request.query, "token") == [c.apiToken.value]
    ensures ValuesOf(u.request.query, "url") == Listed(IfGiven(a.url))
    ensures ValuesOf(u.request.query, "name") == Listed(IfGiven(a.name))
    ensures ValuesOf(u.request.query, "mimeType") == Listed(IfGiven(a.mimeType))
    ensures forall k | k !in LinkParams :: ValuesOf(u.request.query, k) == []
  {
    var es := LinkEntries(c, a);
    PresentValues(es, 0); PresentValues(es, 1); PresentValues(es, 2); PresentValues(es, 3); PresentValues(es, 4);
    SentOnly(es, LinkParams);
    Upload(Request(HttpPost, AttachmentsPath(a), Present(es)), None)
  }

  /** What the success payload reports; missing previews become an empty list. */
  function Reported(data: Value): (r: Attachment)
    ensures Truthy(r.previews)
    ensures Truthy(Get(data, "previews")) ==> r.previews == Get(data, "previews")
    ensures !Truthy(Get(data, "previews")) ==> r.previews == Arr([])
    ensures r.id == Get(data, "id") && r.name == Get(data, "name") && r.url == Get(data, "url")
  {
    Attachment(Get(data, "id"), Get(data, "name"), Get(data, "url"), Get(data, "mimeType"), Get(data, "bytes"),
               Get(data, "date"), Get(data, "edgeColor"), Get(data, "idMember"), Get(data, "isUpload"),
               Get(data, "pos"), Or(Get(data, "previews"), Arr([])))
  }

  /** The result of a successful call. */
  datatype Attached = Attached(attachment: Attachment, message: string)

  function AttachmentCaught(a: AttachmentDraft, f: Fault): (o: Outcome<Attached>)
    ensures o.Failed? && o.statusCode.None? && Truthy(o.error)
    ensures o.error == MessageOrThrown(f, "Failed to create attachment")
    ensures o.message == "Failed to create attachment on card \"" + a.cardId + "\". " + ToString(o.error)
  {
    var error := MessageOrThrown(f, "Failed to create attachment");
    Failed(error, None, "Failed to create attachment on card \"" + a.cardId + "\". " + ToString(error))
  }

  /** One call of the tool: the uploads it issued and what it returned. */
  datatype Attempt = Attempt(sent: seq<Upload>, outcome: Outcome<Attached>)

  /** `execute`: at most one upload, by file when one is given, else by link. */
  function CreateAttachment(c: Credentials, a: AttachmentDraft, answer: Answer<Value>): (r: Attempt)
    ensures r.sent != [] <==> Configured(c) && HasSource(a)
    ensures !Configured(c) ==> r.outcome == AttachmentCaught(a, Thrown(MissingCredentials))
    ensures Configured(c) && !HasSource(a) ==> r.outcome == AttachmentCaught(a, Thrown(NoSource))
    ensures Configured(c) && Given(a.file) ==> r.sent == [FileUpload(c, a)]
    ensures Configured(c) && !Given(a.file) && Given(a.url) ==> r.sent == [LinkUpload(c, a)]
    ensures Configured(c) && HasSource(a) && answer.Raised? ==> r.outcome == AttachmentCaught(a, answer.fault)
    ensures Configured(c) && HasSource(a) && answer.Answered? && Nullish(answer.data) ==>
              r.outcome == AttachmentCaught(a, ReadFault(answer.data, "id"))
    ensures Configured(c) && HasSource(a) && answer.Answered? && !Nullish(answer.data) ==>
              && r.outcome.Done? && r.outcome.value.attachment == Reported(answer.data)
              && r.outcome.value.message == "Successfully attached \"" + ToString(Get(answer.data, "name")) + "\" to card " + a.cardId
  {
    if !Configured(c) then Attempt([], AttachmentCaught(a, Thrown(MissingCredentials)))
    else if !HasSource(a) then Attempt([], AttachmentCaught(a, Thrown(NoSource)))
    else
      var upload := if Given(a.file) then FileUpload(c, a) else LinkUpload(c, a);
      match Touched(answer, "id")
      case Raised(f) => Attempt([upload], AttachmentCaught(a, f))
      case Answered(data) =>
        Attempt([upload], Done(Attached(Reported(data),
                                        "Successfully attached \"" + ToString(Get(data, "name")) + "\" to card " + a.cardId)))
  }

  /** With both a file and a link, the file is uploaded and the link is sent nowhere. */
  lemma FileWinsOverLink(c: Credentials, a: AttachmentDraft, answer: Answer<Value>)
    requires Configured(c) && Given(a.file) && Given(a.url)
    ensures var u := CreateAttachment(c, a, answer).sent[0];
            && u.request.query == [] && u.form.Some?
            && ValuesOf(u.form.value, "url") == []
  {
    assert "url" !in FormParams;
  }

  /** Every upload sent carries what is attached: a file in the form or a link in the query. */
  lemma UploadCarriesSource(c: Credentials, a: AttachmentDraft, answer: Answer<Value>)
    ensures forall u | u in CreateAttachment(c, a, answer).sent ::
              (u.form.Some? && ValuesOf(u.form.value, "file") != []) || ValuesOf(u.request.query, "url") != []
  {
  }
}

=== FILE: board_tools.dfy ===
/**
 The board tools of `TrelloTools/BoardTools/`: `createBoardTool`
 (`create-board.ts`), which fills in defaults before posting, and
 `updateBoardTool` (`update-board.ts`), which sends only what is given.
 Both append the board preferences as `prefs_<key>` pairs after the
 initialiser's pairs.
 */
module BoardTools {
  import opened Strings
  import opened Js
  import opened ToolSupport
  import opened Prefs

  /** What a non-null field `k` of an object without repeated keys contributes: its text, once. */
  function FieldText(fields: seq<(string, Value)>, k: string): (vs: seq<string>)
    ensures |vs| <= 1
    ensures vs == [] <==> Nullish(Lookup(fields, k))
  {
    if Nullish(Lookup(fields, k)) then [] else [ToString(Lookup(fields, k))]
  }

  /** The pairs an initialiser sends never carry a `prefs_` name unless it lists one. */
  lemma PrefixedOutside(es: Entries, names: seq<string>, p: string, k: string)
    requires NamedBy(es, names) && StartsWith(k, p)
    requires forall n | n in names :: !StartsWith(n, p)
    ensures ValuesOf(Present(es), k) == []
  {
    PresentAbsent(es, k);
  }

  // ---------------------------------------------------------------- createBoardTool

  /** The arguments of `createBoardTool`; an absent `prefs` object is an empty one. */
  datatype BoardDraft = BoardDraft(
    name: string, description: Option<string>, visibility: Option<string>, organizationId: Option<string>,
    defaultLists: Option<bool>, defaultLabels: Option<bool>, prefs: seq<(string, Value)>)

  /** `visibility = "private"` */
  function Visibility(a: BoardDraft): (v: string)
    ensures a.visibility.None? ==> v == "private"
    ensures a.visibility.Some? ==> v == a.visibility.value
  {
    if a.visibility.Some? then a.visibility.value else "private"
  }

  /** `b.toString()` of a boolean defaulting to `true`. */
  function TrueByDefault(o: Option<bool>): (t: string)
    ensures t == "false" <==> o == Some(false)
    ensures t == "true" || t == "false"
  {
    if o == Some(false) then "false" else "true"
  }

  const DraftParams: seq<string> := [
    "key", "token", "name", "desc", "defaultLists", "defaultLabels", "prefs_permissionLevel", "idOrganization"
  ]

  function DraftEntries(c: Credentials, a: BoardDraft): (es: Entries)
    requires Configured(c)
    ensures NamedBy(es, DraftParams) && DistinctNames(es)
  {
    [("key", c.apiKey), ("token", c.apiToken), ("name", Some(a.name)), ("desc", Some(OrText(a.description, ""))),
     ("defaultLists", Some(TrueByDefault(a.defaultLists))), ("defaultLabels", Some(TrueByDefault(a.defaultLabels))),
     ("prefs_permissionLevel", Some(Visibility(a))), ("idOrganization", IfGiven(a.organizationId))]
  }

  /** The initialiser's pairs, then the preferences. */
  function DraftQuery(c: Credentials, a: BoardDraft): Query
    requires Configured(c)
  {
    Present(DraftEntries(c, a)) + BoardPrefs(a.prefs)
  }

  /** What the initialiser alone sends. */
  lemma DraftInitial(c: Credentials, a: BoardDraft)
    requires Configured(c)
    ensures var q := Present(DraftEntries(c, a));
            && ValuesOf(q, "key") == [c.apiKey.value] && ValuesOf(q, "token") == [c.apiToken.value]
            && ValuesOf(q, "name") == [a.name]
            && ValuesOf(q, "desc") == [OrText(a.description, "")]
            && ValuesOf(q, "defaultLists") == [TrueByDefault(a.defaultLists)]
            && ValuesOf(q, "defaultLabels") == [TrueByDefault(a.defaultLabels)]
            && ValuesOf(q, "prefs_permissionLevel") == [Visibility(a)]
            && ValuesOf(q, "idOrganization") == Listed(IfGiven(a.organizationId))
  {
    var es := DraftEntries(c, a);
    PresentValues(es, 0); PresentValues(es, 1); PresentValues(es, 2); PresentValues(es, 3);
    PresentValues(es, 4); PresentValues(es, 5); PresentValues(es, 6); PresentValues(es, 7);
  }

  lemma DraftListed(c: Credentials, a: BoardDraft)
    requires Configured(c)
    ensures var q := DraftQuery(c, a);
            && ValuesOf(q, "key") == [c.apiKey.value] && ValuesOf(q, "token") == [c.apiToken.value]
            && ValuesOf(q, "name") == [a.name]
            && ValuesOf(q, "desc") == [OrText(a.description, "")]
            && ValuesOf(q, "defaultLists") == [TrueByDefault(a.defaultLists)]
            && ValuesOf(q, "defaultLabels") == [TrueByDefault(a.defaultLabels)]
            && ValuesOf(q, "idOrganization") == Listed(IfGiven(a.organizationId))
  {
    DraftInitial(c, a);
    DraftKeyKept(c, a, "key"); DraftKeyKept(c, a, "token"); DraftKeyKept(c, a, "name");
    DraftKeyKept(c, a, "desc"); DraftKeyKept(c, a, "defaultLists"); DraftKeyKept(c, a, "defaultLabels");
    DraftKeyKept(c, a, "idOrganization");
  }

  /** The preferences never add to a parameter whose name does not start with `p`. */
  lemma DraftKeyKept(c: Credentials, a: BoardDraft, k: string)
    requires Configured(c) && |k| > 0 && k[0] != 'p'
    ensures ValuesOf(DraftQuery(c, a), k) == ValuesOf(Present(DraftEntries(c, a)), k)
  {
    NotPreference(k);
    Extended(DraftEntries(c, a), BoardPrefs(a.prefs), "prefs_", k);
  }

  lemma PermissionLevelName()
    ensures "prefs_" + "permissionLevel" == "prefs_permissionLevel"
  {
  }

  lemma DraftPermissionLevel(c: Credentials, a: BoardDraft)
    requires Configured(c)
    ensures DistinctKeys(a.prefs) ==>
              ValuesOf(DraftQuery(c, a), "prefs_permissionLevel") == [Visibility(a)] + FieldText(a.prefs, "permissionLevel")
  {
    var es := DraftEntries(c, a);
    DraftInitial(c, a);
    ValuesOfAppend(Present(es), BoardPrefs(a.prefs), "prefs_permissionLevel");
    if DistinctKeys(a.prefs) {
      PermissionLevelName();
      FieldPairsValues("prefs_", a.prefs, "permissionLevel");
    }
  }

  lemma DraftPrefs(c: Credentials, a: BoardDraft)
    requires Configured(c)
    ensures DistinctKeys(a.prefs) ==>
              forall k | k != "permissionLevel" :: ValuesOf(DraftQuery(c, a), "prefs_" + k) == FieldText(a.prefs, k)
  {
    var es := DraftEntries(c, a);
    forall k | DistinctKeys(a.prefs) && k != "permissionLevel"
      ensures ValuesOf(DraftQuery(c, a), "prefs_" + k) == FieldText(a.prefs, k)
    {
      forall i | 0 <= i < |es|
        ensures es[i].0 != "prefs_" + k
      {
        if es[i].0 == "prefs_" + k {
          assert DraftParams[i][0] == 'p';
          AppendCancels("prefs_", k, "permissionLevel");
        }
      }
      Extended(es, BoardPrefs(a.prefs), "prefs_", "prefs_" + k);
    }
  }

  lemma DraftOnly(c: Credentials, a: BoardDraft)
    requires Configured(c)
    ensures forall k | k !in DraftParams && !StartsWith(k, "prefs_") :: ValuesOf(DraftQuery(c, a), k) == []
  {
    var es := DraftEntries(c, a);
    SentOnly(es, DraftParams);
    forall k | k !in DraftParams && !StartsWith(k, "prefs_")
      ensures ValuesOf(DraftQuery(c, a), k) == []
    {
      Extended(es, BoardPrefs(a.prefs), "prefs_", k);
    }
  }

  /**
   The POST to `boards`. The name, description, both switches and the
   visibility are always sent, the organisation only when given; every
   non-null preference follows as `prefs_<key>`, so a given
   `prefs.permissionLevel` is sent a second time after the visibility.
   */
  function DraftRequest(c: Credentials, a: BoardDraft): (r: Request)
    requires Configured(c)
    ensures r.verb == HttpPost && r.path == "boards"
    ensures ValuesOf(r.query, "key") == [c.apiKey.value] && ValuesOf(r.query, "token") == [c.apiToken.value]
    ensures ValuesOf(r.query, "name") == [a.name]
    ensures ValuesOf(r.query, "desc") == [OrText(a.description, "")]
    ensures ValuesOf(r.query, "defaultLists") == [TrueByDefault(a.defaultLists)]
    ensures ValuesOf(r.query, "defaultLabels") == [TrueByDefault(a.defaultLabels)]
    ensures ValuesOf(r.query, "idOrganization") == Listed(IfGiven(a.organizationId))
    ensures DistinctKeys(a.prefs) ==>
              ValuesOf(r.query, "prefs_permissionLevel") == [Visibility(a)] + FieldText(a.prefs, "permissionLevel")
    ensures DistinctKeys(a.prefs) ==>
              forall k | k != "permissionLevel" :: ValuesOf(r.query, "prefs_" + k) == FieldText(a.prefs, k)
    ensures forall k | k !in DraftParams && !StartsWith(k, "prefs_") :: ValuesOf(r.query, k) == []
  {
    DraftListed(c, a);
    DraftPermissionLevel(c, a);
    DraftPrefs(c, a);
    DraftOnly(c, a);
    Request(HttpPost, "boards", DraftQuery(c, a))
  }

  /** The success payload is reduced to the message, which names the requested board. */
  function CreateBoard(c: Credentials, a: BoardDraft, answer: Answer<Value>): (r: Run<string>)
    ensures !Configured(c) ==> r.sent == [] && r.outcome.Failed? && r.outcome.error == Str(MissingCredentials)
    ensures Configured(c) ==> r.sent == [DraftRequest(c, a)]
    ensures Configured(c) && answer.Raised? ==> r.outcome.Failed? && r.outcome.error == MessageOrThrown(answer.fault, "Failed to create board")
    ensures Configured(c) && answer.Answered? && Nullish(answer.data) ==>
              r.outcome.Failed? && r.outcome.error == Str(ReadFault(answer.data, "id").message)
    ensures r.outcome.Failed? ==> Truthy(r.outcome.error) && r.outcome.statusCode.None?
    ensures Configured(c) && answer.Answered? && !Nullish(answer.data) ==>
              r.outcome == Done("Successfully created board \"" + a.name + "\" with ID: " + ToString(Get(answer.data, "id")))
  {
    var seen := Touched(answer, "id");
    var f := if !Configured(c) then Thrown(MissingCredentials) else if seen.Raised? then seen.fault else Thrown("");
    var error := MessageOrThrown(f, "Failed to create board");
    var failed := Failed(error, None, "Failed to create board \"" + a.name + "\". " + ToString(error));
    if !Configured(c) then Run([], failed)
    else if seen.Raised? then Run([DraftRequest(c, a)], failed)
    else Run([DraftRequest(c, a)],
             Done("Successfully created board \"" + a.name + "\" with ID: " + ToString(Get(answer.data, "id"))))
  }

  /**
   A `prefs.permissionLevel` does not replace the visibility: both are sent,
   the visibility first.
   */
  lemma PermissionLevelSentTwice(c: Credentials, a: BoardDraft, level: Value)
    requires Configured(c) && DistinctKeys(a.prefs) && ("permissionLevel", level) in a.prefs && !Nullish(level)
    ensures ValuesOf(DraftRequest(c, a).query, "prefs_permissionLevel") == [Visibility(a), ToString(level)]
  {
    var i :| 0 <= i < |a.prefs| && a.prefs[i] == ("permissionLevel", level);
    LookupDistinct(a.prefs, i);
  }

  /** Without options the board is private, with an empty description and the default lists and labels. */
  lemma DraftDefaults(c: Credentials, a: BoardDraft)
    requires Configured(c) && a.description.None? && a.visibility.None?
    requires a.defaultLists.None? && a.defaultLabels.None? && a.prefs == []
    ensures ValuesOf(DraftRequest(c, a).query, "desc") == [""]
    ensures ValuesOf(DraftRequest(c, a).query, "prefs_permissionLevel") == ["private"]
    ensures ValuesOf(DraftRequest(c, a).query, "defaultLists") == ["true"]
    ensures ValuesOf(DraftRequest(c, a).query, "defaultLabels") == ["true"]
  {
    assert DistinctKeys(a.prefs);
  }

  // ---------------------------------------------------------------- updateBoardTool

  /** The arguments of `updateBoardTool`; absent `prefs` and `labelNames` objects are empty ones. */
  datatype BoardChanges = BoardChanges(
    boardId: string, name: Option<string>, description: Option<string>, closed: Option<bool>,
    subscribed: Option<bool>, idOrganization: Option<string>,
    prefs: seq<(string, Value)>, labelNames: seq<(string, Value)>)

  const ChangeParams: seq<string> := ["key", "token", "name", "desc", "closed", "subscribed", "idOrganization"]

  function ChangeEntries(c: Credentials, a: BoardChanges): (es: Entries)
    requires Configured(c)
    ensures NamedBy(es, ChangeParams) && DistinctNames(es)
  {
    [("key", c.apiKey), ("token", c.apiToken), ("name", IfGiven(a.name)), ("desc", a.description),
     ("closed", FlagText(a.closed)), ("subscribed", FlagText(a.subscribed)),
     ("idOrganization", IfGiven(a.idOrganization))]
  }

  /** The initialiser's pairs, then the preferences, then the label names. */
  function ChangeQuery(c: Credentials, a: BoardChanges): Query
    requires Configured(c)
  {
    Present(ChangeEntries(c, a)) + BoardPrefs(a.prefs) + FieldPairs("labelNames_", a.labelNames)
  }

  /** What the initialiser alone sends. */
  lemma ChangeInitial(c: Credentials, a: BoardChanges)
    requires Configured(c)
    ensures var q := Present(ChangeEntries(c, a));
            && ValuesOf(q, "key") == [c.apiKey.value] && ValuesOf(q, "token") == [c.apiToken.value]
            && ValuesOf(q, "name") == Listed(IfGiven(a.name))
            && ValuesOf(q, "desc") == Listed(a.description)
            && ValuesOf(q, "closed") == Listed(FlagText(a.closed))
            && ValuesOf(q, "subscribed") == Listed(FlagText(a.subscribed))
            && ValuesOf(q, "idOrganization") == Listed(IfGiven(a.idOrganization))
  {
    var es := ChangeEntries(c, a);
    PresentValues(es, 0); PresentValues(es, 1); PresentValues(es, 2); PresentValues(es, 3);
    PresentValues(es, 4); PresentValues(es, 5); PresentValues(es, 6);
  }

  /** Neither appended part can carry a name outside its prefix. */
  lemma ChangeUnprefixed(c: Credentials, a: BoardChanges, k: string)
    requires Configured(c) && !StartsWith(k, "prefs_") && !StartsWith(k, "labelNames_")
    ensures ValuesOf(ChangeQuery(c, a), k) == ValuesOf(Present(ChangeEntries(c, a)), k)
  {
    var es := ChangeEntries(c, a);
    var prefs := BoardPrefs(a.prefs);
    var labels := FieldPairs("labelNames_", a.labelNames);
    ValuesOfAppend(Present(es) + prefs, labels, k);
    ValuesOutsidePrefix(labels, "labelNames_", k);
    Extended(es, prefs, "prefs_", k);
  }

  /** A name is outside both prefixes as soon as its first letter is. */
  lemma Unprefixed(k: string)
    requires |k| > 0 && k[0] != 'p' && k[0] != 'l'
    ensures !StartsWith(k, "prefs_") && !StartsWith(k, "labelNames_")
  {
    assert "prefs_"[0] == 'p' && "labelNames_"[0] == 'l';
  }

  lemma ChangeListed(c: Credentials, a: BoardChanges)
    requires Configured(c)
    ensures var q := ChangeQuery(c, a);
            && ValuesOf(q, "key") == [c.apiKey.value] && ValuesOf(q, "token") == [c.apiToken.value]
            && ValuesOf(q, "name") == Listed(IfGiven(a.name))
            && ValuesOf(q, "desc") == Listed(a.description)
            && ValuesOf(q, "closed") == Listed(FlagText(a.closed))
            && ValuesOf(q, "subscribed") == Listed(FlagText(a.subscribed))
            && ValuesOf(q, "idOrganization") == Listed(IfGiven(a.idOrganization))
  {
    ChangeInitial(c, a);
    Unprefixed("key"); ChangeUnprefixed(c, a, "key");
    Unprefixed("token"); ChangeUnprefixed(c, a, "token");
    Unprefixed("name"); ChangeUnprefixed(c, a, "name");
    Unprefixed("desc"); ChangeUnprefixed(c, a, "desc");
    Unprefixed("closed"); ChangeUnprefixed(c, a, "closed");
    Unprefixed("subscribed"); ChangeUnprefixed(c, a, "subscribed");
    Unprefixed("idOrganization"); ChangeUnprefixed(c, a, "idOrganization");
  }

  lemma ChangeOnly(c: Credentials, a: BoardChanges)
    requires Configured(c)
    ensures forall k | k !in ChangeParams && !StartsWith(k, "prefs_") && !StartsWith(k, "labelNames_") ::
              ValuesOf(ChangeQuery(c, a), k) == []
  {
    SentOnly(ChangeEntries(c, a), ChangeParams);
    forall k | k !in ChangeParams && !StartsWith(k, "prefs_") && !StartsWith(k, "labelNames_")
      ensures ValuesOf(ChangeQuery(c, a), k) == []
    {
      ChangeUnprefixed(c, a, k);
    }
  }

  /** No listed name starts with `prefs_` or `labelNames_`. */
  lemma ChangeParamsUnprefixed(es: Entries, k: string)
    requires NamedBy(es, ChangeParams) && (StartsWith(k, "prefs_") || StartsWith(k, "labelNames_"))
    ensures forall i | 0 <= i < |es| :: es[i].0 != k
  {
    forall i | 0 <= i < |es|
      ensures es[i].0 != k
    {
      assert ChangeParams[i][0] != 'p' && ChangeParams[i][0] != 'l';
      assert k[0] == 'p' || k[0] == 'l';
    }
  }

  lemma ChangePrefs(c: Credentials, a: BoardChanges)
    requires Configured(c)
    ensures DistinctKeys(a.prefs) ==> forall k :: ValuesOf(ChangeQuery(c, a), "prefs_" + k) == FieldText(a.prefs, k)
  {
    var es := ChangeEntries(c, a);
    var prefs := BoardPrefs(a.prefs);
    var labels := FieldPairs("labelNames_", a.labelNames);
    forall k | DistinctKeys(a.prefs)
      ensures ValuesOf(ChangeQuery(c, a), "prefs_" + k) == FieldText(a.prefs, k)
    {
      var name := "prefs_" + k;
      PrefixOfAppend("prefs_", k);
      assert name[0] == 'p';
      ValuesOfAppend(Present(es) + prefs, labels, name);
      ValuesOutsidePrefix(labels, "labelNames_", name);
      ChangeParamsUnprefixed(es, name);
      Extended(es, prefs, "prefs_", name);
    }
  }

  lemma ChangeLabelNames(c: Credentials, a: BoardChanges)
    requires Configured(c)
    ensures DistinctKeys(a.labelNames) ==>
              forall k :: ValuesOf(ChangeQuery(c, a), "labelNames_" + k) == FieldText(a.labelNames, k)
  {
    var es := ChangeEntries(c, a);
    var prefs := BoardPrefs(a.prefs);
    var labels := FieldPairs("labelNames_", a.labelNames);
    forall k | DistinctKeys(a.labelNames)
      ensures ValuesOf(ChangeQuery(c, a), "labelNames_" + k) == FieldText(a.labelNames, k)
    {
      var name := "labelNames_" + k;
      PrefixOfAppend("labelNames_", k);
      assert name[0] == 'l';
      ValuesOfAppend(Present(es) + prefs, labels, name);
      ValuesOfAppend(Present(es), prefs, name);
      ValuesOutsidePrefix(prefs, "prefs_", name);
      ChangeParamsUnprefixed(es, name);
      PresentAbsent(es, name);
      FieldPairsValues("labelNames_", a.labelNames, k);
    }
  }

  /**
   The PUT to `boards/<boardId>`: the board id only in the path; the name
   only when non-empty but the description whenever given, so "" clears it;
   then `prefs_<key>` per non-null preference and `labelNames_<colour>` per
   non-null label name.
   */
  function ChangeRequest(c: Credentials, a: BoardChanges): (r: Request)
    requires Configured(c)
    ensures r.verb == HttpPut && r.path == "boards/" + a.boardId
    ensures ValuesOf(r.query, "key") == [c.apiKey.value] && ValuesOf(r.query, "token") == [c.apiToken.value]
    ensures ValuesOf(r.query, "name") == Listed(IfGiven(a.name))
    ensures ValuesOf(r.query, "desc") == Listed(a.description)
    ensures ValuesOf(r.query, "closed") == Listed(FlagText(a.closed))
    ensures ValuesOf(r.query, "subscribed") == Listed(FlagText(a.subscribed))
    ensures ValuesOf(r.query, "idOrganization") == Listed(IfGiven(a.idOrganization))
    ensures DistinctKeys(a.prefs) ==> forall k :: ValuesOf(r.query, "prefs_" + k) == FieldText(a.prefs, k)
    ensures DistinctKeys(a.labelNames) ==>
              forall k :: ValuesOf(r.query, "labelNames_" + k) == FieldText(a.labelNames, k)
    ensures forall k | k !in ChangeParams && !StartsWith(k, "prefs_") && !StartsWith(k, "labelNames_") ::
              ValuesOf(r.query, k) == []
  {
    ChangeListed(c, a);
    ChangePrefs(c, a);
    ChangeLabelNames(c, a);
    ChangeOnly(c, a);
    Request(HttpPut, "boards/" + a.boardId, ChangeQuery(c, a))
  }

  /** The success payload is reduced to the message, which names the board as the backend returns it. */
  function UpdateBoard(c: Credentials, a: BoardChanges, answer: Answer<Value>): (r: Run<string>)
    ensures !Configured(c) ==> r.sent == [] && r.outcome.Failed? && r.outcome.error == Str(MissingCredentials)
    ensures Configured(c) ==> r.sent == [ChangeRequest(c, a)]
    ensures Configured(c) && answer.Raised? ==> r.outcome.Failed? && r.outcome.error == MessageOrThrown(answer.fault, "Failed to update board")
    ensures Configured(c) && answer.Answered? && Nullish(answer.data) ==>
              r.outcome.Failed? && r.outcome.error == Str(ReadFault(answer.data, "id").message)
    ensures r.outcome.Failed? ==> Truthy(r.outcome.error) && r.outcome.statusCode.None?
    ensures Configured(c) && answer.Answered? && !Nullish(answer.data) ==>
              r.outcome == Done("Successfully updated board \"" + ToString(Get(answer.data, "name")) + "\" (ID: " + a.boardId + ")")
  {
    var seen := Touched(answer, "id");
    var f := if !Configured(c) then Thrown(MissingCredentials) else if seen.Raised? then seen.fault else Thrown("");
    var error := MessageOrThrown(f, "Failed to update board");
    var failed := Failed(error, None, "Failed to update board with ID \"" + a.boardId + "\". " + ToString(error));
    if !Configured(c) then Run([], failed)
    else if seen.Raised? then Run([ChangeRequest(c, a)], failed)
    else Run([ChangeRequest(c, a)],
             Done("Successfully updated board \"" + ToString(Get(answer.data, "name")) + "\" (ID: " + a.boardId + ")"))
  }

  /** An empty description is sent and clears it; an empty name is not sent. */
  lemma EmptyDescriptionClears(c: Credentials, a: BoardChanges)
    requires Configured(c) && a.description == Some("") && a.name == Some("")
    ensures ValuesOf(ChangeRequest(c, a).query, "desc") == [""]
    ensures ValuesOf(ChangeRequest(c, a).query, "name") == []
  {
  }
}

=== FILE: cache_service.dfy ===
/**
 The bounded time-to-live cache of `lib/cache-service.ts`. Entries live in a
 JavaScript `Map`, whose insertion order decides which entry is evicted
 first; the model keeps that order as a key sequence beside the map. The
 clock is a parameter.
 */
module CacheService {
  import opened Strings
  import opened Js
  import opened Operations

  const DefaultMaxSize: int := 100
  const DefaultTtl: int := 5 * 60 * 1000

  /* ---------------------------------------------------------------------
     Cache keys. The source renders `operation:` followed by the JSON text of
     the parameters re-inserted in sorted key order into a fresh object; the
     model keeps the operation and the sorted (name, value) pairs as that text
     shows them: the properties whose value is `undefined` are left out, each
     value is in its JSON form, and a `__proto__` property is gone, because
     assigning it to the fresh object sets the prototype instead.
     --------------------------------------------------------------------- */

  datatype CacheKey = CacheKey(operation: string, params: seq<(string, Value)>)

  /** Strictly increasing property names. */
  predicate Sorted(s: seq<(string, Value)>) {
    forall i, j | 0 <= i < j < |s| :: Less(s[i].0, s[j].0)
  }

  lemma SortedDistinct(s: seq<(string, Value)>)
    requires Sorted(s)
    ensures DistinctKeys(s)
  {
    forall i, j | 0 <= i < j < |s|
      ensures s[i].0 != s[j].0
    {
      if s[i].0 == s[j].0 {
        LessIrreflexive(s[i].0);
      }
    }
  }

  /** Place one property into a list sorted by name; a property of the same name is replaced. */
  function Insert(x: (string, Value), s: seq<(string, Value)>): (r: seq<(string, Value)>)
    ensures forall k :: Lookup(r, k) == (if k == x.0 then x.1 else Lookup(s, k))
    ensures forall e | e in r :: e == x || e in s
  {
    if |s| == 0 then [x]
    else if Less(x.0, s[0].0) then [x] + s
    else if x.0 == s[0].0 then [x] + s[1..]
    else [s[0]] + Insert(x, s[1..])
  }

  lemma {:induction false} InsertSorted(x: (string, Value), s: seq<(string, Value)>)
    requires Sorted(s)
    ensures Sorted(Insert(x, s))
  {
    var r := Insert(x, s);
    if |s| == 0 {
    } else if Less(x.0, s[0].0) {
      forall i, j | 0 <= i < j < |r|
        ensures Less(r[i].0, r[j].0)
      {
        if i == 0 && j > 1 {
          LessTransitive(x.0, s[0].0, s[j - 1].0);
        }
      }
    } else if x.0 == s[0].0 {
    } else {
      LessTotal(x.0, s[0].0);
      var rest := Insert(x, s[1..]);
      InsertSorted(x, s[1..]);
      forall i, j | 0 <= i < j < |r|
        ensures Less(r[i].0, r[j].0)
      {
        if i == 0 {
          assert r[j] == rest[j - 1];
          assert r[j] == x || r[j] in s[1..];
        }
      }
    }
  }

  /** The properties of an object sorted by name; for a repeated name the first one wins, as a read does. */
  function SortFields(f: seq<(string, Value)>): (r: seq<(string, Value)>)
    ensures forall k :: Lookup(r, k) == Lookup(f, k)
    ensures forall e | e in r :: e in f
  {
    if |f| == 0 then [] else Insert(f[0], SortFields(f[1..]))
  }

  lemma {:induction false} SortFieldsSorted(f: seq<(string, Value)>)
    ensures Sorted(SortFields(f))
  {
    if |f| > 0 {
      SortFieldsSorted(f[1..]);
      InsertSorted(f[0], SortFields(f[1..]));
    }
  }

  /** Drop the properties whose value is `undefined`, keeping the order of the rest. */
  function Defined(s: seq<(string, Value)>): (r: seq<(string, Value)>)
    ensures forall e :: e in r <==> e in s && e.1 != Undefined
  {
    if |s| == 0 then []
    else if s[0].1 == Undefined then Defined(s[1..])
    else [s[0]] + Defined(s[1..])
  }

  lemma {:induction false} DefinedSorted(s: seq<(string, Value)>)
    requires Sorted(s)
    ensures Sorted(Defined(s))
  {
    if |s| > 0 {
      DefinedSorted(s[1..]);
      var r := Defined(s);
      if s[0].1 != Undefined {
        forall i, j | 0 <= i < j < |r|
          ensures Less(r[i].0, r[j].0)
        {
          if i == 0 {
            assert r[j] in s[1..];
          }
        }
      }
    }
  }

  /** The pairs of the canonical form are exactly the defined properties of the object. */
  lemma CanonicalPairs(params: seq<(string, Value)>)
    ensures Sorted(Defined(SortFields(params)))
    ensures forall e :: e in Defined(SortFields(params)) <==> e.1 != Undefined && e.1 == Lookup(params, e.0)
  {
    var sorted := SortFields(params);
    var r := Defined(sorted);
    SortFieldsSorted(params);
    DefinedSorted(sorted);
    SortedDistinct(sorted);
    forall e: (string, Value) | e.1 != Undefined && e.1 == Lookup(params, e.0)
      ensures e in r
    {
      assert HasKey(sorted, e.0);
      var i :| 0 <= i < |sorted| && sorted[i].0 == e.0;
      LookupDistinct(sorted, i);
    }
    forall e: (string, Value) | e in r
      ensures e.1 != Undefined && e.1 == Lookup(params, e.0)
    {
      var i :| 0 <= i < |sorted| && sorted[i] == e;
      LookupDistinct(sorted, i);
    }
  }

  /** The pairs as the key's JSON text shows them: no `__proto__`, each value in its JSON form. */
  function Shown(s: seq<(string, Value)>): (r: seq<(string, Value)>)
    ensures |r| <= |s|
  {
    if |s| == 0 then []
    else if s[0].0 == ProtoKey then Shown(s[1..])
    else [(s[0].0, JsonForm(s[0].1))] + Shown(s[1..])
  }

  lemma {:induction false} ShownPairs(s: seq<(string, Value)>)
    ensures forall e | e in Shown(s) :: e.0 != ProtoKey && exists i | 0 <= i < |s| :: s[i].0 == e.0 && e.1 == JsonForm(s[i].1)
    ensures forall i | 0 <= i < |s| && s[i].0 != ProtoKey :: (s[i].0, JsonForm(s[i].1)) in Shown(s)
  {
    if |s| > 0 {
      ShownPairs(s[1..]);
      forall e | e in Shown(s)
        ensures e.0 != ProtoKey && exists i | 0 <= i < |s| :: s[i].0 == e.0 && e.1 == JsonForm(s[i].1)
      {
        if e in Shown(s[1..]) {
          var i :| 0 <= i < |s[1..]| && s[1..][i].0 == e.0 && e.1 == JsonForm(s[1..][i].1);
          assert s[i + 1] == s[1..][i];
        } else {
          assert s[0].0 == e.0 && e.1 == JsonForm(s[0].1);
        }
      }
      forall i | 0 <= i < |s| && s[i].0 != ProtoKey
        ensures (s[i].0, JsonForm(s[i].1)) in Shown(s)
      {
        if i > 0 {
          assert s[1..][i - 1] == s[i];
        }
      }
    }
  }

  lemma {:induction false} ShownSorted(s: seq<(string, Value)>)
    requires Sorted(s)
    ensures Sorted(Shown(s))
  {
    if |s| > 0 {
      ShownSorted(s[1..]);
      ShownPairs(s[1..]);
      var r := Shown(s);
      if s[0].0 != ProtoKey {
        forall i, j | 0 <= i < j < |r|
          ensures Less(r[i].0, r[j].0)
        {
          if i == 0 {
            assert r[j] in Shown(s[1..]);
            var m :| 0 <= m < |s[1..]| && s[1..][m].0 == r[j].0 && r[j].1 == JsonForm(s[1..][m].1);
            assert s[m + 1] == s[1..][m];
          }
        }
      }
    }
  }

  /**
   `generateKey(operation, params)`: the key shows exactly the properties of
   the parameter object that are defined and not `__proto__`, each in its
   JSON form, sorted by name.
   */
  function GenerateKey(operation: string, params: seq<(string, Value)>): (k: CacheKey)
    ensures k.operation == operation && Sorted(k.params)
    ensures forall e :: e in k.params <==>
      e.0 != ProtoKey && Lookup(params, e.0) != Undefined && e.1 == JsonForm(Lookup(params, e.0))
  {
    KeyPairs(params);
    CacheKey(operation, Shown(Defined(SortFields(params))))
  }

  lemma KeyPairs(params: seq<(string, Value)>)
    ensures Sorted(Shown(Defined(SortFields(params))))
    ensures forall e :: e in Shown(Defined(SortFields(params))) <==>
      e.0 != ProtoKey && Lookup(params, e.0) != Undefined && e.1 == JsonForm(Lookup(params, e.0))
  {
    var d := Defined(SortFields(params));
    CanonicalPairs(params);
    ShownSorted(d);
    ShownPairs(d);
    forall e: (string, Value) | e.0 != ProtoKey && Lookup(params, e.0) != Undefined && e.1 == JsonForm(Lookup(params, e.0))
      ensures e in Shown(d)
    {
      assert (e.0, Lookup(params, e.0)) in d;
      var i :| 0 <= i < |d| && d[i] == (e.0, Lookup(params, e.0));
    }
    forall e | e in Shown(d)
      ensures Lookup(params, e.0) != Undefined && e.1 == JsonForm(Lookup(params, e.0))
    {
      var i :| 0 <= i < |d| && d[i].0 == e.0 && e.1 == JsonForm(d[i].1);
      assert d[i] in d;
    }
  }

  /** Two strictly sorted lists with the same elements are the same list. */
  lemma {:induction false} SortedUnique(a: seq<(string, Value)>, b: seq<(string, Value)>)
    requires Sorted(a) && Sorted(b)
    requires forall e :: e in a <==> e in b
    ensures a == b
    decreases |a|
  {
    assert |a| > 0 ==> a[0] in b;
    assert |b| > 0 ==> b[0] in a;
    if |a| > 0 && |b| > 0 {
      if a[0] != b[0] {
        var i :| 0 <= i < |b| && b[i] == a[0];
        var j :| 0 <= j < |a| && a[j] == b[0];
        assert i > 0 && j > 0;
        LessAsymmetric(a[0].0, a[j].0);
      }
      forall e
        ensures e in a[1..] ==> e in b[1..]
        ensures e in b[1..] ==> e in a[1..]
      {
        if e in a[1..] {
          var i :| 1 <= i < |a| && a[i] == e;
          if e == b[0] {
            LessIrreflexive(e.0);
          }
          assert e in a && e in b;
          var j :| 0 <= j < |b| && b[j] == e;
          assert b[1..][j - 1] == e;
        }
        if e in b[1..] {
          var i :| 1 <= i < |b| && b[i] == e;
          if e == a[0] {
            LessIrreflexive(e.0);
          }
          assert e in b && e in a;
          var j :| 0 <= j < |a| && a[j] == e;
          assert a[1..][j - 1] == e;
        }
      }
      SortedUnique(a[1..], b[1..]);
    }
  }

  /**
   Keys depend only on the operation and on what the JSON text of the
   parameter object shows: two parameter objects give the same key exactly
   when every property other than `__proto__` has the same JSON form in
   both (the order in which they were written does not matter, an
   `undefined` property is the same as a missing one, and an `undefined`
   array item the same as `null`).
   */
  lemma KeyCanonical(op: string, p: seq<(string, Value)>, q: seq<(string, Value)>)
    ensures GenerateKey(op, p) == GenerateKey(op, q) <==>
      forall k | k != ProtoKey :: JsonForm(Lookup(p, k)) == JsonForm(Lookup(q, k))
  {
    if forall k | k != ProtoKey :: JsonForm(Lookup(p, k)) == JsonForm(Lookup(q, k)) {
      SameFormsSameKey(op, p, q);
    } else {
      var k :| k != ProtoKey && JsonForm(Lookup(p, k)) != JsonForm(Lookup(q, k));
      KeyReads(op, p, k);
      KeyReads(op, q, k);
    }
  }

  lemma SameFormsSameKey(op: string, p: seq<(string, Value)>, q: seq<(string, Value)>)
    requires forall k | k != ProtoKey :: JsonForm(Lookup(p, k)) == JsonForm(Lookup(q, k))
    ensures GenerateKey(op, p) == GenerateKey(op, q)
  {
    var kp, kq := GenerateKey(op, p), GenerateKey(op, q);
    forall e: (string, Value)
      ensures e in kp.params <==> e in kq.params
    {
      if e.0 != ProtoKey {
        assert JsonForm(Lookup(p, e.0)) == JsonForm(Lookup(q, e.0));
      }
    }
    SortedUnique(kp.params, kq.params);
  }

  /**
   Reading a property of the key gives the JSON form of what the parameter
   object holds, and `__proto__` reads nothing.
   */
  lemma KeyReads(op: string, p: seq<(string, Value)>, k: string)
    ensures Lookup(GenerateKey(op, p).params, k) == if k == ProtoKey then Undefined else JsonForm(Lookup(p, k))
  {
    var c := GenerateKey(op, p).params;
    SortedDistinct(c);
    if k != ProtoKey && Lookup(p, k) != Undefined {
      assert (k, JsonForm(Lookup(p, k))) in c;
      var i :| 0 <= i < |c| && c[i] == (k, JsonForm(Lookup(p, k)));
      LookupDistinct(c, i);
    }
  }

  /** A `__proto__` parameter does not reach the key: assigning it sets the prototype. */
  lemma ProtoParamIgnored(op: string)
    ensures GenerateKey(op, [(ProtoKey, Num(1))]) == GenerateKey(op, [])
  {
    KeyCanonical(op, [(ProtoKey, Num(1))], []);
  }

  /** An `undefined` array item and `null` give the same key, as JSON text writes both as `null`. */
  lemma UndefinedItemIsNull(op: string)
    ensures GenerateKey(op, [("a", Arr([Undefined]))]) == GenerateKey(op, [("a", Arr([Null]))])
  {
  }

  /** An `undefined` property of a nested object is left out of the key, as JSON text leaves it out. */
  lemma NestedUndefinedDropped(op: string)
    ensures GenerateKey(op, [("a", Obj([("x", Undefined)]))]) == GenerateKey(op, [("a", Obj([]))])
  {
  }

  /** Keys of different operations never collide. */
  lemma KeySeparatesOperations(a: string, b: string, p: seq<(string, Value)>, q: seq<(string, Value)>)
    requires a != b
    ensures GenerateKey(a, p) != GenerateKey(b, q)
  {
  }

  /* ---------------------------------------------------------------------
     The cache state.
     --------------------------------------------------------------------- */

  datatype CacheEntry = CacheEntry(data: Value, timestamp: int, ttl: int)

  datatype Stats = Stats(hits: nat, misses: nat, size: nat, maxSize: int)

  /** `entries` is the `Map`; `order` lists its keys oldest first. */
  datatype Cache = Cache(maxSize: int, defaultTtl: int, entries: map<CacheKey, CacheEntry>, order: seq<CacheKey>, stats: Stats)

  /** The result of `get`: the cache afterwards and the data, `null` on a miss. */
  datatype Got = Got(cache: Cache, data: Value)

  function New(maxSize: int, defaultTtl: int): (c: Cache)
    ensures Wf(c) && c.entries == map[] && c.stats == Stats(0, 0, 0, maxSize)
  {
    Cache(maxSize, defaultTtl, map[], [], Stats(0, 0, 0, maxSize))
  }

  /** The cache the application uses: 100 entries, five minutes. */
  function Default(): (c: Cache)
    ensures Wf(c) && c.maxSize == 100 && c.defaultTtl == 300000 && c.entries == map[]
  {
    New(DefaultMaxSize, DefaultTtl)
  }

  predicate DistinctSeq<T(==)>(s: seq<T>) {
    forall i, j | 0 <= i < j < |s| :: s[i] != s[j]
  }

  /**
   Well-formed: `order` lists each key of the map exactly once, and the
   statistics report the map's size and capacity.
   */
  ghost predicate Wf(c: Cache) {
    && DistinctSeq(c.order)
    && (forall k :: k in c.entries <==> k in c.order)
    && c.stats.size == |c.entries|
    && c.stats.maxSize == c.maxSize
  }

  /** A key list without `k`, order kept. */
  function RemoveKey(s: seq<CacheKey>, k: CacheKey): (r: seq<CacheKey>)
    ensures forall x :: x in r <==> x in s && x != k
    ensures DistinctSeq(s) ==> DistinctSeq(r)
  {
    if |s| == 0 then []
    else if s[0] == k then RemoveKey(s[1..], k)
    else
      var rest := RemoveKey(s[1..], k);
      assert DistinctSeq(s) ==> s[0] !in s[1..];
      [s[0]] + rest
  }

  /** A live entry has not passed its time to live; expiry is strict. */
  predicate Live(e: CacheEntry, now: int) {
    !(now > e.timestamp + e.ttl)
  }

  /**
   `get(operation, params)` at time `now`:
   - a key never set is a miss: `null`, one more miss, nothing else changes;
   - an expired entry is removed and is a miss;
   - a live entry returns its data and counts a hit.
   */
  function Get(c: Cache, operation: string, params: seq<(string, Value)>, now: int): (g: Got)
    ensures var key := GenerateKey(operation, params);
      && g.cache.maxSize == c.maxSize && g.cache.defaultTtl == c.defaultTtl
      && g.cache.stats.maxSize == c.stats.maxSize
      && (key !in c.entries ==>
            g.data == Null && g.cache == c.(stats := c.stats.(misses := c.stats.misses + 1)))
      && (key in c.entries && !Live(c.entries[key], now) ==>
            && g.data == Null
            && g.cache.entries == c.entries - {key}
            && g.cache.stats.misses == c.stats.misses + 1
            && g.cache.stats.hits == c.stats.hits)
      && (key in c.entries && Live(c.entries[key], now) ==>
            && g.data == c.entries[key].data
            && g.cache.entries == c.entries
            && g.cache.order == c.order
            && g.cache.stats == c.stats.(hits := c.stats.hits + 1))
    ensures Wf(c) ==> Wf(g.cache)
    ensures |g.cache.entries| <= |c.entries|
  {
    var key := GenerateKey(operation, params);
    if key !in c.entries then
      Got(c.(stats := c.stats.(misses := c.stats.misses + 1)), Null)
    else
      var e := c.entries[key];
      if now > e.timestamp + e.ttl then
        var entries := c.entries - {key};
        assert entries.Keys == c.entries.Keys - {key};
        Got(c.(entries := entries, order := RemoveKey(c.order, key),
               stats := c.stats.(misses := c.stats.misses + 1, size := |entries|)), Null)
      else
        Got(c.(stats := c.stats.(hits := c.stats.hits + 1)), e.data)
  }

  /** `ttl || defaultTtl`: a missing or zero time to live falls back to the default. */
  function EffectiveTtl(c: Cache, ttl: Option<int>): (t: int)
    ensures ttl.Some? && ttl.value != 0 ==> t == ttl.value
    ensures ttl.None? || ttl.value == 0 ==> t == c.defaultTtl
  {
    if ttl.Some? && ttl.value != 0 then ttl.value else c.defaultTtl
  }

  /** The map is full and the key is new: `set` evicts the oldest key first. */
  predicate Evicts(c: Cache, key: CacheKey) {
    |c.entries| >= c.maxSize && key !in c.entries && |c.order| > 0
  }

  /**
   `set(operation, params, data, ttl)` at time `now`: the key holds the new
   entry afterwards, and every other key that remains holds what it held.
   */
  function Set(c: Cache, operation: string, params: seq<(string, Value)>, data: Value, ttl: Option<int>, now: int): (r: Cache)
    ensures r.maxSize == c.maxSize && r.defaultTtl == c.defaultTtl
    ensures r.stats.hits == c.stats.hits && r.stats.misses == c.stats.misses
    ensures r.stats.maxSize == c.stats.maxSize && r.stats.size == |r.entries|
    ensures var key := GenerateKey(operation, params);
      && key in r.entries
      && r.entries[key] == CacheEntry(data, now, EffectiveTtl(c, ttl))
    ensures forall k | k in r.entries && k != GenerateKey(operation, params) ::
      k in c.entries && r.entries[k] == c.entries[k]
  {
    var key := GenerateKey(operation, params);
    var evict := Evicts(c, key);
    var entries := if evict then c.entries - {c.order[0]} else c.entries;
    var order := if evict then c.order[1..] else c.order;
    var entries' := entries[key := CacheEntry(data, now, EffectiveTtl(c, ttl))];
    var order' := if key in entries then order else order + [key];
    Cache(c.maxSize, c.defaultTtl, entries', order', c.stats.(size := |entries'|))
  }

  /** Writing an existing key keeps the key order and evicts nothing. */
  lemma SetOverwrite(c: Cache, operation: string, params: seq<(string, Value)>, data: Value, ttl: Option<int>, now: int)
    requires Wf(c) && GenerateKey(operation, params) in c.entries
    ensures var r := Set(c, operation, params, data, ttl, now);
      Wf(r) && r.order == c.order && r.entries.Keys == c.entries.Keys
  {
  }

  /** A new key in a map with room goes last and evicts nothing. */
  lemma SetAppend(c: Cache, operation: string, params: seq<(string, Value)>, data: Value, ttl: Option<int>, now: int)
    requires Wf(c)
    requires var key := GenerateKey(operation, params); key !in c.entries && !Evicts(c, key)
    ensures var r := Set(c, operation, params, data, ttl, now);
      var key := GenerateKey(operation, params);
      Wf(r) && r.order == c.order + [key] && r.entries.Keys == c.entries.Keys + {key}
  {
    var key := GenerateKey(operation, params);
    var r := Set(c, operation, params, data, ttl, now);
    assert key !in c.order;
    assert r.entries.Keys == c.entries.Keys + {key};
  }

  /** A new key in a full map evicts the oldest key and goes last. */
  lemma SetEvict(c: Cache, operation: string, params: seq<(string, Value)>, data: Value, ttl: Option<int>, now: int)
    requires Wf(c) && Evicts(c, GenerateKey(operation, params))
    ensures var r := Set(c, operation, params, data, ttl, now);
      var key := GenerateKey(operation, params);
      && Wf(r)
      && r.order == c.order[1..] + [key]
      && r.entries.Keys == c.entries.Keys - {c.order[0]} + {key}
  {
    var key := GenerateKey(operation, params);
    var r := Set(c, operation, params, data, ttl, now);
    var oldest := c.order[0];
    assert oldest in c.entries;
    assert r.entries.Keys == c.entries.Keys - {oldest} + {key};
    assert r.order == c.order[1..] + [key];
    Rotated(c.order, key);
    forall k
      ensures k in r.entries <==> k in r.order
    {
    }
  }

  /** Dropping the first key of a repeat-free order and appending a new one keeps it repeat-free. */
  lemma Rotated(order: seq<CacheKey>, key: CacheKey)
    requires DistinctSeq(order) && |order| > 0 && key !in order
    ensures forall k :: k in order[1..] + [key] <==> (k in order && k != order[0]) || k == key
    ensures DistinctSeq(order[1..] + [key])
  {
    var r := order[1..] + [key];
    forall k
      ensures k in r <==> (k in order && k != order[0]) || k == key
    {
      if k in order && k != order[0] {
        var i :| 0 <= i < |order| && order[i] == k;
        assert i > 0 && r[i - 1] == k;
      }
      if k in order[1..] {
        var i :| 0 <= i < |order| - 1 && order[1..][i] == k;
        assert k == order[i + 1];
      }
    }
    forall i, j | 0 <= i < j < |r|
      ensures r[i] != r[j]
    {
      if j < |r| - 1 {
        assert r[i] == order[i + 1] && r[j] == order[j + 1];
      } else {
        assert r[i] in order;
      }
    }
  }

  /** `set` keeps the cache well formed. */
  lemma SetPreservesWf(c: Cache, operation: string, params: seq<(string, Value)>, data: Value, ttl: Option<int>, now: int)
    requires Wf(c)
    ensures Wf(Set(c, operation, params, data, ttl, now))
  {
    var key := GenerateKey(operation, params);
    if key in c.entries {
      SetOverwrite(c, operation, params, data, ttl, now);
    } else if Evicts(c, key) {
      SetEvict(c, operation, params, data, ttl, now);
    } else {
      SetAppend(c, operation, params, data, ttl, now);
    }
  }

  /** With room for at least one entry, `set` never lets the map outgrow its capacity. */
  lemma SetWithinCapacity(c: Cache, operation: string, params: seq<(string, Value)>, data: Value, ttl: Option<int>, now: int)
    requires Wf(c) && c.maxSize >= 1 && |c.entries| <= c.maxSize
    ensures |Set(c, operation, params, data, ttl, now).entries| <= c.maxSize
  {
    var key := GenerateKey(operation, params);
    var r := Set(c, operation, params, data, ttl, now);
    if key in c.entries {
      SetOverwrite(c, operation, params, data, ttl, now);
    } else if Evicts(c, key) {
      SetEvict(c, operation, params, data, ttl, now);
      assert c.order[0] in c.entries;
      assert |r.entries.Keys| == |c.entries.Keys - {c.order[0]}| + 1;
    } else {
      SetAppend(c, operation, params, data, ttl, now);
      assert |c.entries| < c.maxSize || |c.order| == 0;
      assert |r.entries.Keys| == |c.entries.Keys| + 1;
    }
  }

  /**
   A lookup with parameters whose JSON text is the same (written in any
   order) within the time to live returns the data just written and counts a
   hit.
   */
  lemma SetThenGet(c: Cache, operation: string, p: seq<(string, Value)>, q: seq<(string, Value)>,
                   data: Value, ttl: Option<int>, now: int, later: int)
    requires Wf(c)
    requires forall k | k != ProtoKey :: JsonForm(Lookup(p, k)) == JsonForm(Lookup(q, k))
    requires now <= later <= now + EffectiveTtl(c, ttl)
    ensures var g := Get(Set(c, operation, p, data, ttl, now), operation, q, later);
      g.data == data && g.cache.stats.hits == c.stats.hits + 1
  {
    KeyCanonical(operation, p, q);
  }

  /**
   The test `invalidate` applies to every key: its text starts with
   `operation:`. The text after the first colon is the parameters' JSON,
   which cannot matter for an operation name without a colon (see
   `PrefixIgnoresParams`), so the model tests the operation part only.
   */
  predicate InvalidatedBy(k: CacheKey, operation: string) {
    StartsWith(k.operation + ":", operation + ":")
  }

  /** If `y:` is a prefix of `x:` followed by anything, then `y` is no longer than `x` or has a colon itself. */
  lemma ColonBound(x: string, y: string, rest: string)
    ensures StartsWith(x + ":" + rest, y + ":") ==> |y| <= |x| || ':' in y
  {
    var t := x + ":" + rest;
    if StartsWith(t, y + ":") && |y| > |x| {
      assert y[|x|] == (y + ":")[|x|] == t[|x|] == ':';
    }
  }

  /** If `y:` is a prefix of `x:`, then `x` is no longer than `y` or has a colon itself. */
  lemma ColonReach(x: string, y: string)
    ensures StartsWith(x + ":", y + ":") ==> |x| <= |y| || ':' in x
  {
    if StartsWith(x + ":", y + ":") && |x| > |y| {
      assert x[|y|] == (x + ":")[|y|] == (y + ":")[|y|] == ':';
    }
  }

  /** For a colon-free name, the prefix test never reads past the key's first colon. */
  lemma PrefixIgnoresParams(keyOp: string, operation: string, json: string)
    requires ':' !in operation
    ensures StartsWith(keyOp + ":" + json, operation + ":") <==> StartsWith(keyOp + ":", operation + ":")
  {
    var t := keyOp + ":" + json;
    var p := operation + ":";
    if StartsWith(t, p) {
      ColonBound(keyOp, operation, json);
      assert (keyOp + ":")[..|p|] == t[..|p|];
    }
    if StartsWith(keyOp + ":", p) {
      assert t[..|p|] == (keyOp + ":")[..|p|];
    }
  }

  /** For colon-free names the prefix test is exactly "same operation". */
  lemma InvalidatedByIffSameOperation(k: CacheKey, operation: string)
    requires ':' !in operation && ':' !in k.operation
    ensures InvalidatedBy(k, operation) <==> k.operation == operation
  {
    var t, p := k.operation + ":", operation + ":";
    if InvalidatedBy(k, operation) {
      ColonReach(k.operation, operation);
      assert |p| == |t|;
      assert operation == p[..|operation|] == t[..|operation|] == k.operation;
    }
  }

  function KeepKeys(s: seq<CacheKey>, operation: string): (r: seq<CacheKey>)
    ensures forall x :: x in r <==> x in s && !InvalidatedBy(x, operation)
    ensures DistinctSeq(s) ==> DistinctSeq(r)
  {
    if |s| == 0 then []
    else
      var rest := KeepKeys(s[1..], operation);
      if InvalidatedBy(s[0], operation) then rest
      else
        assert DistinctSeq(s) ==> s[0] !in s[1..];
        [s[0]] + rest
  }

  /** `invalidate(operation)`: drop exactly the keys of that operation, keep every other entry. */
  function Invalidate(c: Cache, operation: string): (r: Cache)
    requires Wf(c)
    ensures Wf(r)
    ensures forall k :: k in r.entries <==> k in c.entries && !InvalidatedBy(k, operation)
    ensures forall k | k in r.entries :: r.entries[k] == c.entries[k]
    ensures r.stats.hits == c.stats.hits && r.stats.misses == c.stats.misses
    ensures r.maxSize == c.maxSize && r.defaultTtl == c.defaultTtl
  {
    var entries := map k | k in c.entries && !InvalidatedBy(k, operation) :: c.entries[k];
    Cache(c.maxSize, c.defaultTtl, entries, KeepKeys(c.order, operation), c.stats.(size := |entries|))
  }

  /** `clear()`: no entries, no statistics; the capacity stays. */
  function Clear(c: Cache): (r: Cache)
    requires Wf(c)
    ensures Wf(r)
    ensures |r.entries| == 0 && r.stats == Stats(0, 0, 0, c.maxSize)
    ensures r.maxSize == c.maxSize && r.defaultTtl == c.defaultTtl
  {
    c.(entries := map[], order := [], stats := c.stats.(hits := 0, misses := 0, size := 0))
  }

  /** `getStats()`: the counters plus the share of lookups that hit. */
  datatype Report = Report(hits: nat, misses: nat, size: nat, maxSize: int, hitRate: real)

  function GetStats(c: Cache): (r: Report)
    ensures r.hits == c.stats.hits && r.misses == c.stats.misses && r.size == c.stats.size && r.maxSize == c.stats.maxSize
    ensures 0.0 <= r.hitRate <= 1.0
    ensures r.hits + r.misses == 0 ==> r.hitRate == 0.0
    ensures r.hits + r.misses > 0 ==> r.hitRate * ((r.hits + r.misses) as real) == r.hits as real
  {
    var total := c.stats.hits + c.stats.misses;
    var rate := if total > 0 then (c.stats.hits as real) / (total as real) else 0.0;
    Report(c.stats.hits, c.stats.misses, c.stats.size, c.stats.maxSize, rate)
  }
}

=== FILE: cacheable.dfy ===
/**
 The read operations of `lib/cache-service.ts`: `shouldCache` admits an
 operation's result to the cache by its name, and the names it lists are
 exactly those of the operations that only read.
 */
module Cacheable {
  import opened Operations

  /** `shouldCache`: the sixteen read operations, by name. */
  const ReadOperations: seq<string> := [
    "getBoard", "listBoards", "getList", "listLists", "getCard", "listCards",
    "getLabel", "listLabels", "getAttachment", "listAttachments",
    "getChecklist", "listChecklists", "getMember", "listMembers",
    "getWorkspace", "listWorkspaces"
  ]

  predicate ShouldCache(operation: string) {
    operation in ReadOperations
  }

  /** The operations that only read: every `list…` and `get…` operation. */
  predicate IsRead(op: TrelloOperation) {
    op.ListBoards? || op.GetBoard? || op.ListLists? || op.GetList? || op.ListCards? || op.GetCard?
    || op.ListLabels? || op.GetLabel? || op.ListAttachments? || op.GetAttachment?
    || op.ListChecklists? || op.GetChecklist? || op.ListMembers? || op.GetMember?
    || op.ListWorkspaces? || op.GetWorkspace?
  }

  /** An operation name is cached exactly when the operation only reads. */
  lemma ShouldCacheIffRead(op: TrelloOperation)
    ensures ShouldCache(Name(op)) <==> IsRead(op)
  {
    if ShouldCache(Name(op)) {
      CachedIsRead(op);
    }
    if IsRead(op) {
      ReadIsCached(op);
    }
  }

  /** Only reads have names that begin with `g` or `l`, and every cached name does. */
  lemma CachedIsRead(op: TrelloOperation)
    requires ShouldCache(Name(op))
    ensures IsRead(op)
  {
    ReadInitials();
    ReadInitial(op);
  }

  /** Every listed name begins with `g` or `l`. */
  lemma ReadInitials()
    ensures forall n | n in ReadOperations :: |n| > 0 && (n[0] == 'g' || n[0] == 'l')
  {
  }

  /** The operations whose names begin with `g` or `l` are the reads. */
  lemma ReadInitial(op: TrelloOperation)
    requires |Name(op)| > 0 && (Name(op)[0] == 'g' || Name(op)[0] == 'l')
    ensures IsRead(op)
  {
  }

  /** Each read operation's name is in the list. */
  lemma ReadIsCached(op: TrelloOperation)
    requires IsRead(op)
    ensures ShouldCache(Name(op))
  {
  }
}

=== FILE: card_tools.dfy ===
/**
 The card tools of `TrelloTools/CardTools/`: `listCardsTool`
 (`list-cards.ts`), which picks the board or list endpoint and fills
 defaults into every returned card, and `createCardTool` / `updateCardTool`
 (`create-card.ts`, `update-card.ts`), which differ in which fields they
 send when empty.
 */
module CardTools {
  import opened Strings
  import opened Js
  import opened ToolSupport

  /** How a reported card property is obtained from the backend's card. */
  datatype Rule =
    | Copied(from: string)        // `card.<from>`
    | Defaulted(fallback: Value)  // `card.<name> || fallback`

  /**
   The properties of a reported card, in order. The listing uses all of
   them; creation and update stop after `cover`.
   */
  const CardRules: seq<(string, Rule)> := [
    ("id", Copied("id")), ("name", Copied("name")), ("description", Copied("desc")),
    ("listId", Copied("idList")), ("boardId", Copied("idBoard")), ("position", Copied("pos")),
    ("closed", Copied("closed")), ("due", Copied("due")), ("dueComplete", Copied("dueComplete")),
    ("start", Copied("start")), ("url", Copied("url")), ("shortUrl", Copied("shortUrl")),
    ("labels", Defaulted(Arr([]))), ("members", Defaulted(Arr([]))),
    ("attachments", Defaulted(Arr([]))), ("checklists", Defaulted(Arr([]))),
    ("badges", Defaulted(Obj([]))), ("cover", Defaulted(Obj([]))),
    ("actions", Defaulted(Arr([]))), ("checkItemStates", Defaulted(Arr([]))),
    ("stickers", Defaulted(Arr([]))), ("customFieldItems", Defaulted(Arr([])))
  ]

  lemma CardRulesDistinct()
    ensures |CardRules| == 22
    ensures forall i, j | 0 <= i < j < |CardRules| :: CardRules[i].0 != CardRules[j].0
  {
  }

  /** The number of properties reported: 22 in a listing, 18 otherwise. */
  function RuleCount(listing: bool): (n: nat)
    ensures n <= |CardRules|
  {
    if listing then 22 else 18
  }

  /** One reported property. */
  function Apply(card: Value, name: string, rule: Rule): Value {
    match rule
    case Copied(from) => Get(card, from)
    case Defaulted(fallback) => Or(Get(card, name), fallback)
  }

  /**
   The object a card is reported as: copied properties read from the
   backend's card, defaulted ones taken from it when truthy and replaced by
   `[]` or `{}` otherwise.
   */
  function CardView(card: Value, listing: bool): (v: Value)
    ensures v.Obj? && DistinctKeys(v.fields) && |v.fields| == RuleCount(listing)
    ensures forall i | 0 <= i < RuleCount(listing) :: v.fields[i].0 == CardRules[i].0
    ensures forall i | 0 <= i < RuleCount(listing) && CardRules[i].1.Copied? ::
              Get(v, CardRules[i].0) == Get(card, CardRules[i].1.from)
    ensures forall i | 0 <= i < RuleCount(listing) && CardRules[i].1.Defaulted? ::
              && (Truthy(Get(card, CardRules[i].0)) ==> Get(v, CardRules[i].0) == Get(card, CardRules[i].0))
              && (!Truthy(Get(card, CardRules[i].0)) ==> Get(v, CardRules[i].0) == CardRules[i].1.fallback)
  {
    var n := RuleCount(listing);
    var fields := seq(n, i requires 0 <= i < n => (CardRules[i].0, Apply(card, CardRules[i].0, CardRules[i].1)));
    CardRulesDistinct();
    forall i | 0 <= i < n
      ensures Lookup(fields, CardRules[i].0) == Apply(card, CardRules[i].0, CardRules[i].1)
    {
      LookupDistinct(fields, i);
    }
    Obj(fields)
  }

  // ---------------------------------------------------------------- listCardsTool

  /** The arguments of `listCardsTool`; the boolean switches are sent whenever defined. */
  datatype CardListing = CardListing(
    boardId: Option<string>, listId: Option<string>, filter: Option<string>,
    fields: Option<seq<string>>, actions: Option<string>, actionFields: Option<seq<string>>,
    actionsLimit: Option<int>, actionSince: Option<string>, actionBefore: Option<string>,
    attachments: Option<bool>, attachmentFields: Option<seq<string>>,
    members: Option<bool>, memberFields: Option<seq<string>>,
    membersVoted: Option<bool>, memberVotedFields: Option<seq<string>>,
    checkItemStates: Option<bool>, checkItemStateFields: Option<seq<string>>,
    checklists: Option<string>, checklistFields: Option<seq<string>>,
    stickers: Option<bool>, stickerFields: Option<seq<string>>,
    customFieldItems: Option<bool>)

  const NoContainer: string := "Either boardId or listId must be provided"

  /** `filter = "all"`: the default of the destructuring. */
  function Filter(a: CardListing): (f: string)
    ensures a.filter.None? ==> f == "all"
    ensures a.filter.Some? ==> f == a.filter.value
  {
    if a.filter.Some? then a.filter.value else "all"
  }

  /** The cards endpoint: the board's when a board id is given, else the list's. */
  function CardsPath(a: CardListing): (p: Option<string>)
    ensures Given(a.boardId) ==> p == Some("boards/" + a.boardId.value + "/cards")
    ensures !Given(a.boardId) && Given(a.listId) ==> p == Some("lists/" + a.listId.value + "/cards")
    ensures p.None? <==> !Given(a.boardId) && !Given(a.listId)
  {
    if Given(a.boardId) then Some("boards/" + a.boardId.value + "/cards")
    else if Given(a.listId) then Some("lists/" + a.listId.value + "/cards")
    else None
  }

  const ListingParams: seq<string> := [
    "key", "token", "filter", "fields", "actions", "action_fields", "actions_limit", "actions_since",
    "actions_before", "attachments", "attachment_fields", "members", "member_fields", "membersVoted",
    "member_voted_fields", "checkItemStates", "checkItemState_fields", "checklists", "checklist_fields",
    "stickers", "sticker_fields", "customFieldItems"
  ]

  /** No name is listed twice, checked in three blocks of rows. */
  lemma ListingParamsDistinct()
    ensures Distinct(ListingParams)
  {
    ListingParamsRows(0, 4); ListingParamsRows(4, 9); ListingParamsRows(9, 22);
    DistinctByRows(ListingParams, 4, 9);
  }

  lemma ListingParamsRows(lo: nat, hi: nat)
    requires (lo, hi) == (0, 4) || (lo, hi) == (4, 9) || (lo, hi) == (9, 22)
    ensures RowsDistinct(ListingParams, lo, hi)
  {
  }

  function ListingEntries(c: Credentials, a: CardListing): (es: Entries)
    requires Configured(c)
    ensures NamedBy(es, ListingParams) && DistinctNames(es)
  {
    var es: Entries := [("key", c.apiKey), ("token", c.apiToken), ("filter", Some(Filter(a))),
     ("fields", Joined(a.fields)), ("actions", IfGiven(a.actions)),
     ("action_fields", Joined(a.actionFields)), ("actions_limit", IfNonZero(a.actionsLimit)),
     ("actions_since", IfGiven(a.actionSince)), ("actions_before", IfGiven(a.actionBefore)),
     ("attachments", FlagText(a.attachments)), ("attachment_fields", Joined(a.attachmentFields)),
     ("members", FlagText(a.members)), ("member_fields", Joined(a.memberFields)),
     ("membersVoted", FlagText(a.membersVoted)), ("member_voted_fields", Joined(a.memberVotedFields)),
     ("checkItemStates", FlagText(a.checkItemStates)),
     ("checkItemState_fields", Joined(a.checkItemStateFields)),
     ("checklists", IfGiven(a.checklists)), ("checklist_fields", Joined(a.checklistFields)),
     ("stickers", FlagText(a.stickers)), ("sticker_fields", Joined(a.stickerFields)),
     ("customFieldItems", FlagText(a.customFieldItems))];
    ListingParamsDistinct();
    NamedDistinct(es, ListingParams);
    es
  }

  /** The GET for a listing whose endpoint is known. */
  function ListingRequest(c: Credentials, a: CardListing): (r: Request)
    requires Configured(c) && CardsPath(a).Some?
    ensures r.verb == HttpGet && r.path == CardsPath(a).value
    ensures ValuesOf(r.query, "key") == [c.apiKey.value] && ValuesOf(r.query, "token") == [c.apiToken.value]
    ensures ValuesOf(r.query, "filter") == [Filter(a)]
    ensures ValuesOf(r.query, "fields") == Listed(Joined(a.fields))
    ensures ValuesOf(r.query, "actions") == Listed(IfGiven(a.actions))
    ensures ValuesOf(r.query, "action_fields") == Listed(Joined(a.actionFields))
    ensures ValuesOf(r.query, "actions_limit") == Listed(IfNonZero(a.actionsLimit))
    ensures ValuesOf(r.query, "actions_since") == Listed(IfGiven(a.actionSince))
    ensures ValuesOf(r.query, "actions_before") == Listed(IfGiven(a.actionBefore))
    ensures ValuesOf(r.query, "attachments") == Listed(FlagText(a.attachments))
    ensures ValuesOf(r.query, "attachment_fields") == Listed(Joined(a.attachmentFields))
    ensures ValuesOf(r.query, "members") == Listed(FlagText(a.members))
    ensures ValuesOf(r.query, "member_fields") == Listed(Joined(a.memberFields))
    ensures ValuesOf(r.query, "membersVoted") == Listed(FlagText(a.membersVoted))
    ensures ValuesOf(r.query, "member_voted_fields") == Listed(Joined(a.memberVotedFields))
    ensures ValuesOf(r.query, "checkItemStates") == Listed(FlagText(a.checkItemStates))
    ensures ValuesOf(r.query, "checkItemState_fields") == Listed(Joined(a.checkItemStateFields))
    ensures ValuesOf(r.query, "checklists") == Listed(IfGiven(a.checklists))
    ensures ValuesOf(r.query, "checklist_fields") == Listed(Joined(a.checklistFields))
    ensures ValuesOf(r.query, "stickers") == Listed(FlagText(a.stickers))
    ensures ValuesOf(r.query, "sticker_fields") == Listed(Joined(a.stickerFields))
    ensures ValuesOf(r.query, "customFieldItems") == Listed(FlagText(a.customFieldItems))
    ensures forall k | k !in ListingParams :: ValuesOf(r.query, k) == []
  {
    var es := ListingEntries(c, a);
    PresentValues(es, 0);  PresentValues(es, 1);  PresentValues(es, 2);  PresentValues(es, 3);
    PresentValues(es, 4);  PresentValues(es, 5);  PresentValues(es, 6);  PresentValues(es, 7);
    PresentValues(es, 8);  PresentValues(es, 9);  PresentValues(es, 10); PresentValues(es, 11);
    PresentValues(es, 12); PresentValues(es, 13); PresentValues(es, 14); PresentValues(es, 15);
    PresentValues(es, 16); PresentValues(es, 17); PresentValues(es, 18); PresentValues(es, 19);
    PresentValues(es, 20); PresentValues(es, 21);
    SentOnly(es, ListingParams);
    Request(HttpGet, CardsPath(a).value, Present(es))
  }

  datatype Cards = Cards(cards: seq<Value>, count: int, message: string)

  /** `catch`: only a backend message survives; anything the tool threw becomes the default. */
  function ListingCaught(f: Fault): (o: Outcome<Cards>)
    ensures o.Failed? && o.statusCode.None? && Truthy(o.error)
    ensures f.response.None? ==> o.error == Str("Failed to retrieve cards")
  {
    var error := MessageOrDefault(f, "Failed to retrieve cards");
    Failed(error, None, "Failed to retrieve cards: " + ToString(error))
  }

  function ListingMessage(a: CardListing, n: nat): string
    requires CardsPath(a).Some?
  {
    "Successfully retrieved " + NatToString(n) + " card(s) from "
    + (if Given(a.boardId) then "board " + a.boardId.value else "list " + a.listId.value)
  }

  /**
   `execute` of `listCardsTool`, the backend's reply body being `answer`: it
   must be an array whose every card has an `id` to read.
   */
  function ListCards(c: Credentials, a: CardListing, answer: Answer<Value>): (r: Run<Cards>)
    ensures !Configured(c) ==> r.sent == [] && r.outcome == ListingCaught(Thrown(MissingCredentials))
    ensures Configured(c) && CardsPath(a).None? ==> r.sent == [] && r.outcome == ListingCaught(Thrown(NoContainer))
    ensures Configured(c) && CardsPath(a).Some? ==> r.sent == [ListingRequest(c, a)]
    ensures Configured(c) && CardsPath(a).Some? && answer.Raised? ==> r.outcome == ListingCaught(answer.fault)
    ensures Configured(c) && CardsPath(a).Some? && answer.Answered? && !(answer.data.Arr? && Readable(answer.data.items)) ==>
              r.outcome.Failed? && r.outcome.error == Str("Failed to retrieve cards")
    ensures Configured(c) && CardsPath(a).Some? && answer.Answered? && answer.data.Arr? && Readable(answer.data.items) ==>
              var data := answer.data.items;
              && r.outcome.Done?
              && |r.outcome.value.cards| == |data| == r.outcome.value.count
              && (forall i | 0 <= i < |data| :: r.outcome.value.cards[i] == CardView(data[i], true))
              && r.outcome.value.message == ListingMessage(a, |data|)
  {
    if !Configured(c) then Run([], ListingCaught(Thrown(MissingCredentials)))
    else if CardsPath(a).None? then Run([], ListingCaught(Thrown(NoContainer)))
    else
      var request := ListingRequest(c, a);
      match EachTouched(AsList(answer, "response.data", "map"), "id")
      case Raised(f) => Run([request], ListingCaught(f))
      case Answered(data) => Run([request], Done(ListingResult(a, data)))
  }

  /** The success result for the backend's cards: each one reported, with their number. */
  function ListingResult(a: CardListing, data: seq<Value>): (r: Cards)
    requires CardsPath(a).Some?
    ensures |r.cards| == |data| == r.count
    ensures forall i | 0 <= i < |data| :: r.cards[i] == CardView(data[i], true)
    ensures r.message == ListingMessage(a, |data|)
  {
    var cards := seq(|data|, i requires 0 <= i < |data| => CardView(data[i], true));
    Cards(cards, |data|, ListingMessage(a, |data|))
  }

  /** A board id wins over a list id: the board endpoint is used when both are given. */
  lemma BoardIdWins(c: Credentials, a: CardListing, answer: Answer<Value>)
    requires Configured(c) && Given(a.boardId)
    ensures ListCards(c, a, answer).sent[0].path == "boards/" + a.boardId.value + "/cards"
  {
  }

  /**
   With neither id the call fails without a request, and the reason thrown is
   lost: only the default text is reported.
   */
  lemma NoContainerReportsDefault(c: Credentials, a: CardListing, answer: Answer<Value>)
    requires Configured(c) && !Given(a.boardId) && !Given(a.listId)
    ensures ListCards(c, a, answer).sent == []
    ensures ListCards(c, a, answer).outcome.error == Str("Failed to retrieve cards")
    ensures ListCards(c, a, answer).outcome.error != Str(NoContainer)
  {
  }

  /** A listed card without labels, members, badges, … is reported with `[]` or `{}` in their place. */
  lemma MissingListsBecomeEmpty(card: Value, i: nat)
    requires 12 <= i < 22 && !Truthy(Get(card, CardRules[i].0))
    ensures Get(CardView(card, true), CardRules[i].0) == Arr([]) || Get(CardView(card, true), CardRules[i].0) == Obj([])
  {
  }

  // ---------------------------------------------------------------- createCardTool

  /** The arguments of `createCardTool`; `pos` is a number or a text such as "top". */
  datatype CardDraft = CardDraft(
    name: string, desc: Option<string>, idList: string,
    idLabels: Option<seq<string>>, idMembers: Option<seq<string>>,
    due: Option<string>, dueComplete: Option<bool>, pos: Value, start: Option<string>,
    idCardSource: Option<string>, keepFromSource: Option<string>,
    address: Option<string>, locationName: Option<string>, coordinates: Option<string>)

  const DraftParams: seq<string> := [
    "key", "token", "name", "idList", "desc", "idLabels", "idMembers", "due", "dueComplete", "pos",
    "start", "idCardSource", "keepFromSource", "address", "locationName", "coordinates"
  ]

  /** No name is listed twice, checked in three blocks of rows. */
  lemma DraftParamsDistinct()
    ensures Distinct(DraftParams)
  {
    DraftParamsRows(0, 4); DraftParamsRows(4, 9); DraftParamsRows(9, 16);
    DistinctByRows(DraftParams, 4, 9);
  }

  lemma DraftParamsRows(lo: nat, hi: nat)
    requires (lo, hi) == (0, 4) || (lo, hi) == (4, 9) || (lo, hi) == (9, 16)
    ensures RowsDistinct(DraftParams, lo, hi)
  {
  }

  function DraftEntries(c: Credentials, a: CardDraft): (es: Entries)
    requires Configured(c)
    ensures NamedBy(es, DraftParams) && DistinctNames(es)
  {
    var es: Entries := [("key", c.apiKey), ("token", c.apiToken), ("name", Some(a.name)), ("idList", Some(a.idList)),
     ("desc", IfGiven(a.desc)), ("idLabels", Joined(a.idLabels)), ("idMembers", Joined(a.idMembers)),
     ("due", IfGiven(a.due)), ("dueComplete", FlagText(a.dueComplete)), ("pos", IfDefined(a.pos)),
     ("start", IfGiven(a.start)), ("idCardSource", IfGiven(a.idCardSource)),
     ("keepFromSource", IfGiven(a.keepFromSource)), ("address", IfGiven(a.address)),
     ("locationName", IfGiven(a.locationName)), ("coordinates", IfGiven(a.coordinates))];
    DraftParamsDistinct();
    NamedDistinct(es, DraftParams);
    es
  }

  /** The POST to `cards`: the name and list always, the text options only when non-empty. */
  function DraftRequest(c: Credentials, a: CardDraft): (r: Request)
    requires Configured(c)
    ensures r.verb == HttpPost && r.path == "cards"
    ensures ValuesOf(r.query, "key") == [c.apiKey.value] && ValuesOf(r.query, "token") == [c.apiToken.value]
    ensures ValuesOf(r.query, "name") == [a.name] && ValuesOf(r.query, "idList") == [a.idList]
    ensures ValuesOf(r.query, "desc") == Listed(IfGiven(a.desc))
    ensures ValuesOf(r.query, "idLabels") == Listed(Joined(a.idLabels))
    ensures ValuesOf(r.query, "idMembers") == Listed(Joined(a.idMembers))
    ensures ValuesOf(r.query, "due") == Listed(IfGiven(a.due))
    ensures ValuesOf(r.query, "dueComplete") == Listed(FlagText(a.dueComplete))
    ensures ValuesOf(r.query, "pos") == Listed(IfDefined(a.pos))
    ensures ValuesOf(r.query, "start") == Listed(IfGiven(a.start))
    ensures ValuesOf(r.query, "idCardSource") == Listed(IfGiven(a.idCardSource))
    ensures ValuesOf(r.query, "keepFromSource") == Listed(IfGiven(a.keepFromSource))
    ensures ValuesOf(r.query, "address") == Listed(IfGiven(a.address))
    ensures ValuesOf(r.query, "locationName") == Listed(IfGiven(a.locationName))
    ensures ValuesOf(r.query, "coordinates") == Listed(IfGiven(a.coordinates))
    ensures forall k | k !in DraftParams :: ValuesOf(r.query, k) == []
  {
    var es := DraftEntries(c, a);
    PresentValues(es, 0);  PresentValues(es, 1);  PresentValues(es, 2);  PresentValues(es, 3);
    PresentValues(es, 4);  PresentValues(es, 5);  PresentValues(es, 6);  PresentValues(es, 7);
    PresentValues(es, 8);  PresentValues(es, 9);  PresentValues(es, 10); PresentValues(es, 11);
    PresentValues(es, 12); PresentValues(es, 13); PresentValues(es, 14); PresentValues(es, 15);
    SentOnly(es, DraftParams);
    Request(HttpPost, "cards", Present(es))
  }

  datatype CardResult = CardResult(card: Value, message: string)

  /** The `catch` of the create and update tools: the reply's status or 500, and its message or the default. */
  function CardCaught(f: Fault, fallback: string, subject: string): (o: Outcome<CardResult>)
    requires fallback != ""
    ensures o.Failed? && o.statusCode == Some(StatusCode(f))
    ensures f.response.None? ==> o.error == Str(f.message)
    ensures f.response.Some? ==> Truthy(o.error)
  {
    var error := ClassifiedMessage(f, fallback);
    Failed(error, Some(StatusCode(f)), subject + ToString(error))
  }

  /** `execute` of `createCardTool`. */
  function CreateCard(c: Credentials, a: CardDraft, answer: Answer<Value>): (r: Run<CardResult>)
    ensures !Configured(c) ==> r.sent == [] && r.outcome.Failed? && r.outcome.error == Str(MissingCredentials)
    ensures Configured(c) ==> r.sent == [DraftRequest(c, a)]
    ensures r.outcome.Failed? ==> r.outcome.statusCode.Some? && r.outcome.statusCode.value != 0
    ensures Configured(c) && answer.Answered? && Nullish(answer.data) ==>
              r.outcome.Failed? && r.outcome.error == Str(ReadFault(answer.data, "id").message)
    ensures Configured(c) && answer.Answered? && !Nullish(answer.data) ==>
              && r.outcome.Done?
              && r.outcome.value.card == CardView(answer.data, false)
              && r.outcome.value.message == "Successfully created card \"" + a.name + "\" in list " + a.idList
  {
    var subject := "Failed to create card \"" + a.name + "\". ";
    if !Configured(c) then Run([], CardCaught(Thrown(MissingCredentials), "Failed to create card", subject))
    else
      match Touched(answer, "id")
      case Raised(f) => Run([DraftRequest(c, a)], CardCaught(f, "Failed to create card", subject))
      case Answered(data) =>
        Run([DraftRequest(c, a)],
            Done(CardResult(CardView(data, false),
                            "Successfully created card \"" + a.name + "\" in list " + a.idList)))
  }

  /** A position of 0 is still sent, and an empty label list is sent as empty text. */
  lemma DraftSendsZeroAndEmpty(c: Credentials, a: CardDraft)
    requires Configured(c) && a.pos == Num(0) && a.idLabels == Some([])
    ensures ValuesOf(DraftRequest(c, a).query, "pos") == ["0"]
    ensures ValuesOf(DraftRequest(c, a).query, "idLabels") == [""]
  {
  }

  // ---------------------------------------------------------------- updateCardTool

  /** The arguments of `updateCardTool`. */
  datatype CardChanges = CardChanges(
    cardId: string, name: Option<string>, desc: Option<string>, closed: Option<bool>,
    idList: Option<string>, idBoard: Option<string>, pos: Value, due: Option<string>,
    dueComplete: Option<bool>, start: Option<string>,
    idLabels: Option<seq<string>>, idMembers: Option<seq<string>>,
    idAttachmentCover: Option<string>, keepFromSource: Option<string>,
    address: Option<string>, locationName: Option<string>, coordinates: Option<string>,
    subscribed: Option<bool>)

  const ChangeParams: seq<string> := [
    "key", "token", "name", "desc", "closed", "idList", "idBoard", "pos", "due", "dueComplete", "start",
    "idLabels", "idMembers", "idAttachmentCover", "keepFromSource", "address", "locationName",
    "coordinates", "subscribed"
  ]

  /** No name is listed twice, checked in three blocks of rows. */
  lemma ChangeParamsDistinct()
    ensures Distinct(ChangeParams)
  {
    ChangeParamsRows(0, 4); ChangeParamsRows(4, 9); ChangeParamsRows(9, 19);
    DistinctByRows(ChangeParams, 4, 9);
  }

  lemma ChangeParamsRows(lo: nat, hi: nat)
    requires (lo, hi) == (0, 4) || (lo, hi) == (4, 9) || (lo, hi) == (9, 19)
    ensures RowsDistinct(ChangeParams, lo, hi)
  {
  }

  function ChangeEntries(c: Credentials, a: CardChanges): (es: Entries)
    requires Configured(c)
    ensures NamedBy(es, ChangeParams) && DistinctNames(es)
  {
    var es: Entries := [("key", c.apiKey), ("token", c.apiToken), ("name", IfGiven(a.name)), ("desc", a.desc),
     ("closed", FlagText(a.closed)), ("idList", IfGiven(a.idList)), ("idBoard", IfGiven(a.idBoard)),
     ("pos", IfDefined(a.pos)), ("due", a.due), ("dueComplete", FlagText(a.dueComplete)),
     ("start", a.start), ("idLabels", Joined(a.idLabels)), ("idMembers", Joined(a.idMembers)),
     ("idAttachmentCover", IfGiven(a.idAttachmentCover)), ("keepFromSource", IfGiven(a.keepFromSource)),
     ("address", a.address), ("locationName", a.locationName), ("coordinates", a.coordinates),
     ("subscribed", FlagText(a.subscribed))];
    ChangeParamsDistinct();
    NamedDistinct(es, ChangeParams);
    es
  }

  /**
   The PUT to `cards/<cardId>`. The card id is only in the path; the texts
   `desc`, `due`, `start`, `address`, `locationName` and `coordinates` are
   sent whenever given, so "" clears them, the others only when non-empty.
   */
  function ChangeRequest(c: Credentials, a: CardChanges): (r: Request)
    requires Configured(c)
    ensures r.verb == HttpPut && r.path == "cards/" + a.cardId
    ensures ValuesOf(r.query, "key") == [c.apiKey.value] && ValuesOf(r.query, "token") == [c.apiToken.value]
    ensures ValuesOf(r.query, "name") == Listed(IfGiven(a.name))
    ensures ValuesOf(r.query, "desc") == Listed(a.desc)
    ensures ValuesOf(r.query, "closed") == Listed(FlagText(a.closed))
    ensures ValuesOf(r.query, "idList") == Listed(IfGiven(a.idList))
    ensures ValuesOf(r.query, "idBoard") == Listed(IfGiven(a.idBoard))
    ensures ValuesOf(r.query, "pos") == Listed(IfDefined(a.pos))
    ensures ValuesOf(r.query, "due") == Listed(a.due)
    ensures ValuesOf(r.query, "dueComplete") == Listed(FlagText(a.dueComplete))
    ensures ValuesOf(r.query, "start") == Listed(a.start)
    ensures ValuesOf(r.query, "idLabels") == Listed(Joined(a.idLabels))
    ensures ValuesOf(r.query, "idMembers") == Listed(Joined(a.idMembers))
    ensures ValuesOf(r.query, "idAttachmentCover") == Listed(IfGiven(a.idAttachmentCover))
    ensures ValuesOf(r.query, "keepFromSource") == Listed(IfGiven(a.keepFromSource))
    ensures ValuesOf(r.query, "address") == Listed(a.address)
    ensures ValuesOf(r.query, "locationName") == Listed(a.locationName)
    ensures ValuesOf(r.query, "coordinates") == Listed(a.coordinates)
    ensures ValuesOf(r.query, "subscribed") == Listed(FlagText(a.subscribed))
    ensures forall k | k !in ChangeParams :: ValuesOf(r.query, k) == []
  {
    var es := ChangeEntries(c, a);
    PresentValues(es, 0);  PresentValues(es, 1);  PresentValues(es, 2);  PresentValues(es, 3);
    PresentValues(es, 4);  PresentValues(es, 5);  PresentValues(es, 6);  PresentValues(es, 7);
    PresentValues(es, 8);  PresentValues(es, 9);  PresentValues(es, 10); PresentValues(es, 11);
    PresentValues(es, 12); PresentValues(es, 13); PresentValues(es, 14); PresentValues(es, 15);
    PresentValues(es, 16); PresentValues(es, 17); PresentValues(es, 18);
    SentOnly(es, ChangeParams);
    Request(HttpPut, "cards/" + a.cardId, Present(es))
  }

  /** `execute` of `updateCardTool`; the success message names the card as the backend returns it. */
  function UpdateCard(c: Credentials, a: CardChanges, answer: Answer<Value>): (r: Run<CardResult>)
    ensures !Configured(c) ==> r.sent == [] && r.outcome.Failed? && r.outcome.error == Str(MissingCredentials)
    ensures Configured(c) ==> r.sent == [ChangeRequest(c, a)]
    ensures r.outcome.Failed? ==> r.outcome.statusCode.Some? && r.outcome.statusCode.value != 0
    ensures Configured(c) && answer.Answered? && Nullish(answer.data) ==>
              r.outcome.Failed? && r.outcome.error == Str(ReadFault(answer.data, "id").message)
    ensures Configured(c) && answer.Answered? && !Nullish(answer.data) ==>
              && r.outcome.Done?
              && r.outcome.value.card == CardView(answer.data, false)
              && r.outcome.value.message == "Successfully updated card \"" + ToString(Get(answer.data, "name")) + "\""
  {
    var subject := "Failed to update card with ID \"" + a.cardId + "\". ";
    if !Configured(c) then Run([], CardCaught(Thrown(MissingCredentials), "Failed to update card", subject))
    else
      match Touched(answer, "id")
      case Raised(f) => Run([ChangeRequest(c, a)], CardCaught(f, "Failed to update card", subject))
      case Answered(data) =>
        Run([ChangeRequest(c, a)],
            Done(CardResult(CardView(data, false),
                            "Successfully updated card \"" + ToString(Get(data, "name")) + "\"")))
  }

  /**
   An empty description clears the card's description, while an empty name
   is not sent at all: the update cannot rename a card to "".
   */
  lemma EmptyDescClearsEmptyNameSkipped(c: Credentials, a: CardChanges)
    requires Configured(c) && a.desc == Some("") && a.name == Some("")
    ensures ValuesOf(ChangeRequest(c, a).query, "desc") == [""]
    ensures ValuesOf(ChangeRequest(c, a).query, "name") == []
  {
  }
}

=== FILE: chat_route.dfy ===
/**
 The decision logic of the chat endpoint (`POST /api/chat`) up to the point
 where the conversation is handed to the language model: monitoring starts,
 the rate limiter is consulted before the body is read, the body is checked
 for a `messages` array of role/parts objects, and whatever the handler
 throws is classified into 400 or 500. The streaming that follows a
 successful check is not part of this model.
 */
module ChatRoute {
  import opened Strings
  import opened Js
  import opened ApiHelpers
  import RateLimiter
  import MonitoringService

  /** The error classes the handler can meet before streaming: `instanceof Error` holds for each. */
  datatype ErrorClass = PlainError | SyntaxError | TypeError

  /** A thrown value: an `Error` of some class with its message, or anything else. */
  datatype Raised = ErrorOf(cls: ErrorClass, message: string) | NonError(v: Value)

  /** What `await req.json()` gives: the parsed body, or the `SyntaxError` text it rejects with. */
  datatype Body = Parsed(v: Value) | Unparsable(message: string)

  /** The process-wide limiter and monitor the handler works on. */
  datatype State = State(limiter: RateLimiter.Limiter, monitor: MonitoringService.Monitor)

  /** The new state, and the response sent; `None` when the request goes on to the model. */
  datatype Outcome = Outcome(state: State, response: Option<HttpResponse>)

  const Url := "/api/chat"

  // ---------------------------------------------------------------------------
  // The catch block

  /** `error instanceof Error ? error.message : "Unknown error"` */
  function ErrorText(e: Raised): string {
    if e.ErrorOf? then e.message else "Unknown error"
  }

  /**
   The status the catch block chooses: a `SyntaxError` mentioning JSON, or
   any message containing "validation" or "invalid" (in that case), is the
   client's fault; everything else is the server's.
   */
  function CatchStatus(e: Raised): (status: int)
    ensures status == 400 || status == 500
    ensures e.ErrorOf? && e.cls == SyntaxError && Contains(e.message, "JSON") ==> status == 400
    ensures Contains(ErrorText(e), "validation") || Contains(ErrorText(e), "invalid") ==> status == 400
    ensures status == 400 ==>
      (e.ErrorOf? && e.cls == SyntaxError && Contains(e.message, "JSON"))
      || Contains(ErrorText(e), "validation") || Contains(ErrorText(e), "invalid")
  {
    if e.ErrorOf? && e.cls == SyntaxError && Contains(e.message, "JSON") then 400
    else if Contains(ErrorText(e), "validation") || Contains(ErrorText(e), "invalid") then 400
    else 500
  }

  /** The response label: "Bad Request" exactly for 400. */
  function CatchLabel(status: int): (text: string)
    ensures text == "Bad Request" <==> status == 400
  {
    if status == 400 then "Bad Request" else "Internal Server Error"
  }

  /** The catch block's response: label, the error text as message, the chosen status and the request id. */
  function CatchResponse(e: Raised, requestId: string, timestamp: string): (r: HttpResponse)
    ensures r.status == CatchStatus(e)
    ensures Get(r.body, "error") == Str(CatchLabel(r.status))
    ensures ErrorText(e) != "" ==> Get(r.body, "message") == Str(ErrorText(e))
    ensures GetPath(r.body, "metadata", "requestId") == Str(requestId)
  {
    var status := CatchStatus(e);
    var meta := [("requestId", Str(requestId))];
    LookupDistinct(meta, 0);
    CreateErrorResponse(CatchLabel(status), Some(ErrorText(e)), Some(status), meta, timestamp)
  }

  /** A thrown non-`Error` is reported as "Unknown error" with status 500. */
  lemma NonErrorIsServerError(v: Value)
    ensures ErrorText(NonError(v)) == "Unknown error" && CatchStatus(NonError(v)) == 500
  {
    var t := "Unknown error";
    assert !Contains(t, "validation") by {
      forall i | 0 <= i <= |t| - |"validation"| ensures !OccursAt(t, i, "validation") {
        assert t[i + 1] != "validation"[1];
      }
    }
    assert !Contains(t, "invalid") by {
      forall i | 0 <= i <= |t| - |"invalid"| ensures !OccursAt(t, i, "invalid") {
        assert t[i + 2] != "invalid"[2] || t[i] != "invalid"[0];
      }
    }
  }

  /** The word test is case-sensitive: an error saying "Invalid" is a server error. */
  lemma CapitalisedInvalidIsServerError()
    ensures CatchStatus(ErrorOf(PlainError, "Invalid")) == 500
  {
    assert "Invalid"[0..7][0] != "invalid"[0];
  }

  // ---------------------------------------------------------------------------
  // Body validation

  /** `msg && typeof msg === "object" && "role" in msg && "parts" in msg` */
  predicate WellFormedMessage(m: Value) {
    Truthy(m) && TypeofObject(m) && HasProperty(m, "role") && HasProperty(m, "parts")
  }

  /**
   The V8 `TypeError` for destructuring `{ messages }` out of a `null` or
   `undefined` body.
   */
  function DestructureText(v: Value): string
    requires Nullish(v)
  {
    "Cannot destructure property 'messages' of '(intermediate value)' as it is "
      + (if v.Null? then "null" else "undefined") + "."
  }

  /** How the body check ends: on to the model, an early 400, or a throw into the catch block. */
  datatype Verdict =
    | Pass
    | Refuse(logged: string, error: string, message: string)
    | Throws(e: Raised)

  const BadFormat := Refuse("Invalid messages format", "Invalid request format",
                            "Expected messages array in request body")
  const BadStructure := Refuse("Invalid message structure", "Invalid message structure",
                               "Each message must have 'role' and 'parts' properties")

  /**
   The body check: an unparsable body and a `null` one throw; a missing or
   non-array `messages` is a format error; an element that is falsy, not an
   object, or lacks `role` or `parts` is a structure error. Role values are
   not checked, and an empty array passes.
   */
  function ValidateBody(body: Body): (r: Verdict)
    ensures body.Unparsable? ==> r == Throws(ErrorOf(SyntaxError, body.message))
    ensures body.Parsed? && Nullish(body.v) ==> r == Throws(ErrorOf(TypeError, DestructureText(body.v)))
    ensures body.Parsed? && !Nullish(body.v) ==>
      var messages := Get(body.v, "messages");
      && (!(Truthy(messages) && messages.Arr?) ==> r == BadFormat)
      && (Truthy(messages) && messages.Arr? ==>
            (r.Pass? <==> forall i | 0 <= i < |messages.items| :: WellFormedMessage(messages.items[i]))
            && (!r.Pass? ==> r == BadStructure))
    ensures r.Refuse? ==> r == BadFormat || r == BadStructure
  {
    match body
    case Unparsable(msg) => Throws(ErrorOf(SyntaxError, msg))
    case Parsed(v) =>
      if Nullish(v) then Throws(ErrorOf(TypeError, DestructureText(v)))
      else
        var messages := Get(v, "messages");
        if !Truthy(messages) || !messages.Arr? then BadFormat
        else if forall i | 0 <= i < |messages.items| :: WellFormedMessage(messages.items[i]) then Pass
        else BadStructure
  }

  /** An empty message list passes the check. */
  lemma EmptyMessagesPass()
    ensures ValidateBody(Parsed(Obj([("messages", Arr([]))]))) == Pass
  {
  }

  /** Any role text passes, including ones no chat participant has. */
  lemma RoleNotChecked(role: string)
    ensures ValidateBody(Parsed(Obj([("messages", Arr([Obj([("role", Str(role)), ("parts", Arr([]))])]))]))) == Pass
  {
    var m := Obj([("role", Str(role)), ("parts", Arr([]))]);
    assert HasKey(m.fields, "role") && HasKey(m.fields, "parts") by {
      assert m.fields[0].0 == "role" && m.fields[1].0 == "parts";
    }
    assert WellFormedMessage(m);
  }

  // ---------------------------------------------------------------------------
  // The handler

  /** `rateLimitResult.retryAfter || 60`: an absent or zero delay becomes 60 seconds. */
  function RetryAfter(r: Option<int>): (seconds: int)
    ensures r.Some? && r.value != 0 ==> seconds == r.value
    ensures r.None? || r.value == 0 ==> seconds == 60
  {
    if r.Some? && r.value != 0 then r.value else 60
  }

  /** `endRequest(requestId, status, error)`: no `toolCalls` argument, so the log's calls become `undefined`. */
  function End(m: MonitoringService.Monitor, requestId: string, status: int, error: string, now: int): MonitoringService.Monitor {
    MonitoringService.EndRequest(m, requestId, status, Some(error), None, now)
  }

  /** `headers.get("user-agent") || undefined` */
  function UserAgent(headers: map<string, string>): Option<string> {
    if "user-agent" in headers && headers["user-agent"] != "" then Some(headers["user-agent"]) else None
  }

  /** The monitor once the request has been registered under its id. */
  function Started(s: State, requestId: string, headers: map<string, string>, now: int): MonitoringService.Monitor {
    MonitoringService.StartRequest(s.monitor, requestId, GetClientIP(headers), "POST", Url, UserAgent(headers), now)
  }

  /**
   `POST(req)` up to streaming, with a fresh `requestId`, the request headers,
   the body as `req.json()` resolves it, and the clock given as `now`,
   `timestamp` and `resetAt` (the moment a refused client may retry).
   */
  function Post(s: State, requestId: string, headers: map<string, string>, body: Body,
                now: int, timestamp: string, resetAt: string): (o: Outcome)
    ensures var checked := RateLimiter.Check(s.limiter, GetClientIP(headers), now);
      && o.state.limiter == checked.limiter
      && (!checked.decision.allowed ==>
            && o.response.Some? && o.response.value.status == 429
            && Header(o.response.value.headers, "Retry-After") == Some(IntToString(RetryAfter(checked.decision.retryAfter)))
            && o.state.monitor == End(Started(s, requestId, headers, now), requestId, 429, "Rate limit exceeded", now))
      && (checked.decision.allowed ==>
            match ValidateBody(body)
            case Pass => o.response.None? && o.state.monitor == Started(s, requestId, headers, now)
            case Refuse(logged, _, message) =>
              && o.response.Some? && o.response.value.status == 400
              && Get(o.response.value.body, "message") == Str(message)
              && o.state.monitor == End(Started(s, requestId, headers, now), requestId, 400, logged, now)
            case Throws(e) =>
              && o.response == Some(CatchResponse(e, requestId, timestamp))
              && o.state.monitor == End(Started(s, requestId, headers, now), requestId, CatchStatus(e), ErrorText(e), now))
  {
    var checked := RateLimiter.Check(s.limiter, GetClientIP(headers), now);
    var started := Started(s, requestId, headers, now);
    if !checked.decision.allowed then Refused(checked, started, requestId, now, timestamp, resetAt)
    else Admitted(checked.limiter, started, requestId, body, now, timestamp)
  }

  /** The answer to a refused client: 429, with the delay in `Retry-After`. */
  function Refused(checked: RateLimiter.Checked, started: MonitoringService.Monitor, requestId: string,
                   now: int, timestamp: string, resetAt: string): (o: Outcome)
    ensures o.state.limiter == checked.limiter
    ensures o.response.Some? && o.response.value.status == 429
    ensures Header(o.response.value.headers, "Retry-After") == Some(IntToString(RetryAfter(checked.decision.retryAfter)))
    ensures o.state.monitor == End(started, requestId, 429, "Rate limit exceeded", now)
  {
    var response := CreateRateLimitResponse(RetryAfter(checked.decision.retryAfter), Some(requestId), timestamp, resetAt);
    Outcome(State(checked.limiter, End(started, requestId, 429, "Rate limit exceeded", now)), Some(response))
  }

  /** The 400 answer to a body that fails the check, carrying the check's message. */
  function RefusalResponse(v: Verdict, requestId: string, timestamp: string): (r: HttpResponse)
    requires v == BadFormat || v == BadStructure
    ensures r.status == 400 && Get(r.body, "message") == Str(v.message) && Get(r.body, "error") == Str(v.error)
  {
    CreateErrorResponse(v.error, Some(v.message), Some(400), [("requestId", Str(requestId))], timestamp)
  }

  /** What follows an admission: the body check decides. */
  function Admitted(limiter: RateLimiter.Limiter, started: MonitoringService.Monitor, requestId: string, body: Body,
                    now: int, timestamp: string): (o: Outcome)
    ensures o.state.limiter == limiter
    ensures match ValidateBody(body)
            case Pass => o.response.None? && o.state.monitor == started
            case Refuse(logged, _, message) =>
              && o.response.Some? && o.response.value.status == 400
              && Get(o.response.value.body, "message") == Str(message)
              && o.state.monitor == End(started, requestId, 400, logged, now)
            case Throws(e) =>
              && o.response == Some(CatchResponse(e, requestId, timestamp))
              && o.state.monitor == End(started, requestId, CatchStatus(e), ErrorText(e), now)
  {
    match ValidateBody(body)
    case Pass => Outcome(State(limiter, started), None)
    case Refuse(logged, _, _) =>
      Outcome(State(limiter, End(started, requestId, 400, logged, now)),
              Some(RefusalResponse(ValidateBody(body), requestId, timestamp)))
    case Throws(e) =>
      Outcome(State(limiter, End(started, requestId, CatchStatus(e), ErrorText(e), now)),
              Some(CatchResponse(e, requestId, timestamp)))
  }

  /** The limiter is consulted before the body: a refused client gets the same answer whatever it sent. */
  lemma RateLimitBeforeBody(s: State, requestId: string, headers: map<string, string>, b1: Body, b2: Body,
                            now: int, timestamp: string, resetAt: string)
    requires !RateLimiter.Check(s.limiter, GetClientIP(headers), now).decision.allowed
    ensures Post(s, requestId, headers, b1, now, timestamp, resetAt) == Post(s, requestId, headers, b2, now, timestamp, resetAt)
  {
  }

  /**
   Every early exit reports to monitoring the status it returns: the log
   registered for the request ends with the response's status code.
   */
  lemma EveryExitReportsItsStatus(s: State, requestId: string, headers: map<string, string>, body: Body,
                                  now: int, timestamp: string, resetAt: string)
    requires MonitoringService.Bounded(s.monitor)
    ensures var o := Post(s, requestId, headers, body, now, timestamp, resetAt);
      var started := Started(s, requestId, headers, now);
      var i := LogIndex(started, requestId);
      o.response.Some? ==>
        && i < |started.requests| && i < |o.state.monitor.requests|
        && o.state.monitor.requests[i].statusCode == Some(o.response.value.status)
  {
    var o := Post(s, requestId, headers, body, now, timestamp, resetAt);
    var started := Started(s, requestId, headers, now);
    assert MonitoringService.HasId(started.requests, requestId) by {
      assert MonitoringService.Get(started, requestId).Some?;
    }
    if o.response.Some? {
      var checked := RateLimiter.Check(s.limiter, GetClientIP(headers), now);
      if !checked.decision.allowed {
        EndSetsStatus(started, requestId, 429, "Rate limit exceeded", now);
      } else {
        match ValidateBody(body)
        case Pass =>
        case Refuse(logged, _, _) => EndSetsStatus(started, requestId, 400, logged, now);
        case Throws(e) => EndSetsStatus(started, requestId, CatchStatus(e), ErrorText(e), now);
      }
    }
  }

  /** Ending a registered request records the status at the request's position. */
  lemma EndSetsStatus(m: MonitoringService.Monitor, requestId: string, status: int, error: string, now: int)
    requires MonitoringService.HasId(m.requests, requestId)
    ensures var i := LogIndex(m, requestId);
      i < |m.requests| && i < |End(m, requestId, status, error, now).requests|
      && End(m, requestId, status, error, now).requests[i].statusCode == Some(status)
  {
  }

  function LogIndex(m: MonitoringService.Monitor, id: string): nat {
    MonitoringService.Find(m.requests, id)
  }

  /**
   A client refused in the last millisecond of its window, when the rounded
   delay is zero, is told to wait a full minute; otherwise the delay is
   passed on. The delay sent is never zero.
   */
  lemma RetryAfterZeroBecomesSixty(l: RateLimiter.Limiter, ip: string, now: int)
    requires ip in l.requests && l.requests[ip].count >= l.limit && now == l.requests[ip].resetTime
    ensures var d := RateLimiter.Check(l, ip, now).decision;
      !d.allowed && d.retryAfter == Some(0) && RetryAfter(d.retryAfter) == 60
  {
  }

  /** Whatever the limiter says, the delay sent to a refused client is at least one second. */
  lemma RetryAfterPositive(l: RateLimiter.Limiter, ip: string, now: int)
    requires !RateLimiter.Check(l, ip, now).decision.allowed
    ensures RetryAfter(RateLimiter.Check(l, ip, now).decision.retryAfter) >= 1
  {
  }
}

=== FILE: envelope.dfy ===
/**
 The response envelope both Trello services return (`TrelloResponse` in
 `lib/types/trello.ts`), and the three ways they build one: normalising
 whatever a tool returned (`standardizeResponse`), wrapping something thrown
 (`handleError`), and reporting a plain error (`createErrorResponse`). The
 code of these three is the same in `lib/Services/trello-service.ts` and in
 `lib/trello-service.ts`, so it is defined once here.
 */
module Envelope {
  import opened Strings
  import opened Js

  /**
   A failure carries an error and a message; a success carries the data, an
   optional count (`undefined` when absent) and a message. The fields are
   whatever values the tool put there: the source only casts them.
   */
  datatype Response =
    | Failure(error: Value, message: Value)
    | Success(data: Value, count: Value, message: Value)

  /** The names of an envelope's properties, of either kind. */
  const EnvelopeKeys: seq<string> := ["success", "error", "data", "count", "message"]

  /** The envelope as the object literal the services build, fields in source order. */
  function ToValue(r: Response): (v: Value)
    ensures v.Obj? && DistinctKeys(v.fields)
    ensures forall i | 0 <= i < |v.fields| :: v.fields[i].0 in EnvelopeKeys
    ensures Get(v, "success") == Bool(r.Success?)
    ensures Get(v, "message") == r.message
    ensures r.Failure? ==> Get(v, "error") == r.error
    ensures r.Success? ==> Get(v, "data") == r.data && Get(v, "count") == r.count
  {
    var fields := match r
      case Failure(e, m) => [("success", Bool(false)), ("error", e), ("message", m)]
      case Success(d, c, m) => [("success", Bool(true)), ("data", d), ("count", c), ("message", m)];
    assert "success" != "message" && "success" != "error" && "success" != "data" && "success" != "count";
    assert "error" != "message" && "data" != "count" && "data" != "message" && "count" != "message";
    assert DistinctKeys(fields);
    assert forall i | 0 <= i < |fields| :: fields[i].0 in EnvelopeKeys;
    LookupDistinct(fields, 0);
    LookupDistinct(fields, 1);
    LookupDistinct(fields, 2);
    if r.Success? then LookupDistinct(fields, 3); Obj(fields) else Obj(fields)
  }

  /** Read an envelope back from its object form; anything whose `success` is not a boolean is not one. */
  function FromValue(v: Value): (r: Option<Response>)
    ensures r.Some? <==> Get(v, "success").Bool?
    ensures r.Some? ==> r.value.message == Get(v, "message")
  {
    match Get(v, "success")
    case Bool(b) =>
      if b then Some(Success(Get(v, "data"), Get(v, "count"), Get(v, "message")))
      else Some(Failure(Get(v, "error"), Get(v, "message")))
    case _ => None
  }

  /** Every envelope is recovered exactly from its object form. */
  lemma FromValueToValue(r: Response)
    ensures FromValue(ToValue(r)) == Some(r)
  {
    var v := ToValue(r);
    if r.Success? {
      assert Get(v, "success") == Bool(true);
    } else {
      assert Get(v, "success") == Bool(false);
    }
  }

  /** The collection keys, checked first and in this order; each also yields `count`. */
  const PluralKeys: seq<string> :=
    ["boards", "lists", "cards", "labels", "attachments", "checklists", "members", "workspaces"]

  /** The single-object keys, checked after every collection key. */
  const SingularKeys: seq<string> :=
    ["board", "list", "card", "label", "attachment", "checklist", "member", "workspace"]

  /** The recognised data keys in the order `standardizeResponse` tests them. */
  const DataKeys: seq<string> := PluralKeys + SingularKeys

  /** The position of the first key in `keys` whose value in `v` is truthy, or `|keys|` when there is none. */
  function FirstTruthy(v: Value, keys: seq<string>): (i: nat)
    ensures i <= |keys|
    ensures forall j | 0 <= j < i :: !Truthy(Get(v, keys[j]))
    ensures i < |keys| ==> Truthy(Get(v, keys[i]))
  {
    if |keys| == 0 then 0
    else if Truthy(Get(v, keys[0])) then 0
    else 1 + FirstTruthy(v, keys[1..])
  }

  /**
   `standardizeResponse(result)` for a result that is not `null` or
   `undefined`. `success === false` gives a failure whose error and message
   fall back to fixed texts when falsy. Otherwise the first truthy data key
   supplies the data, with `count` copied only for a collection key; when no
   key is truthy the whole result is the data.
   */
  function Standardize(v: Value): (r: Response)
    requires !Nullish(v)
    ensures r.Failure? <==> Get(v, "success") == Bool(false)
    ensures r.Failure? ==>
      && r.error == Or(Get(v, "error"), Str("Operation failed"))
      && r.message == Or(Get(v, "message"), Str("Unknown error occurred"))
    ensures r.Success? ==>
      var i := FirstTruthy(v, DataKeys);
      && r.message == Or(Get(v, "message"), Str("Operation completed successfully"))
      && (i < |DataKeys| ==> r.data == Get(v, DataKeys[i]))
      && (i == |DataKeys| ==> r.data == v)
      && (r.count == if i < |PluralKeys| then Get(v, "count") else Undefined)
  {
    if Get(v, "success") == Bool(false) then
      Failure(Or(Get(v, "error"), Str("Operation failed")), Or(Get(v, "message"), Str("Unknown error occurred")))
    else
      var i := FirstTruthy(v, DataKeys);
      var data := if i < |DataKeys| then Get(v, DataKeys[i]) else v;
      var count := if i < |PluralKeys| then Get(v, "count") else Undefined;
      Success(data, count, Or(Get(v, "message"), Str("Operation completed successfully")))
  }

  /**
   A truthy collection key wins over every single-object key, whatever their
   order in the result: the data comes from a collection key and `count` is
   copied.
   */
  lemma PluralBeforeSingular(v: Value, p: nat, s: nat)
    requires !Nullish(v) && Get(v, "success") != Bool(false)
    requires p < |PluralKeys| && s < |SingularKeys|
    requires Truthy(Get(v, PluralKeys[p])) && Truthy(Get(v, SingularKeys[s]))
    ensures var r := Standardize(v);
      && r.count == Get(v, "count")
      && exists q | 0 <= q <= p :: r.data == Get(v, PluralKeys[q])
  {
    var i := FirstTruthy(v, DataKeys);
    assert DataKeys[p] == PluralKeys[p];
    assert i <= p;
    assert DataKeys[i] == PluralKeys[i];
  }

  /** A single-object key supplies data without a count only when no collection key is truthy. */
  lemma SingularHasNoCount(v: Value, s: nat)
    requires !Nullish(v) && Get(v, "success") != Bool(false)
    requires s < |SingularKeys| && Truthy(Get(v, SingularKeys[s]))
    requires forall p | 0 <= p < |PluralKeys| :: !Truthy(Get(v, PluralKeys[p]))
    ensures var r := Standardize(v);
      && r.count == Undefined
      && exists q | 0 <= q <= s :: r.data == Get(v, SingularKeys[q])
  {
    var i := FirstTruthy(v, DataKeys);
    assert DataKeys[|PluralKeys| + s] == SingularKeys[s];
    assert forall p | 0 <= p < |PluralKeys| :: DataKeys[p] == PluralKeys[p];
    assert |PluralKeys| <= i <= |PluralKeys| + s;
    assert DataKeys[i] == SingularKeys[i - |PluralKeys|];
  }

  /** An envelope's object form has no property outside the envelope's own names. */
  lemma OnlyEnvelopeKeys(r: Response, k: string)
    requires k !in EnvelopeKeys
    ensures Get(ToValue(r), k) == Undefined
  {
    var v := ToValue(r);
    assert !HasKey(v.fields, k);
  }

  /** No recognised data key is one of the envelope's own names. */
  lemma DataKeysAreNotEnvelopeKeys()
    ensures forall j | 0 <= j < |DataKeys| :: DataKeys[j] !in EnvelopeKeys
  {
    forall j | 0 <= j < |DataKeys|
      ensures DataKeys[j] !in EnvelopeKeys
    {
      var k := DataKeys[j];
      assert |k| >= 4 && (k[0] == 'b' || k[0] == 'l' || k[0] == 'a' || k[0] == 'w' || k[..3] == "car" || k[..3] == "che" || k[..3] == "mem");
    }
  }

  /** None of the envelope fields is a recognised data key. */
  lemma EnvelopeHasNoDataKey(r: Response, j: nat)
    requires j < |DataKeys|
    ensures Get(ToValue(r), DataKeys[j]) == Undefined
  {
    DataKeysAreNotEnvelopeKeys();
    OnlyEnvelopeKeys(r, DataKeys[j]);
  }

  /**
   Normalising a success envelope a second time does not give it back: the
   whole envelope becomes the data, the count is lost and only the message
   survives. `standardizeResponse` is not idempotent.
   */
  lemma {:induction false} StandardizeWrapsEnvelope(r: Response)
    requires r.Success?
    ensures Standardize(ToValue(r)) == Success(ToValue(r), Undefined, Or(r.message, Str("Operation completed successfully")))
    ensures Standardize(ToValue(r)) != r
  {
    var v := ToValue(r);
    forall j | 0 <= j < |DataKeys| ensures !Truthy(Get(v, DataKeys[j])) {
      EnvelopeHasNoDataKey(r, j);
    }
    NoTruthyKey(v, DataKeys);
    assert v.fields[1].1 == r.data;
    assert r.data < v;
  }

  /** When no key of `keys` is truthy, the search runs to the end. */
  lemma {:induction false} NoTruthyKey(v: Value, keys: seq<string>)
    requires forall j | 0 <= j < |keys| :: !Truthy(Get(v, keys[j]))
    ensures FirstTruthy(v, keys) == |keys|
  {
    if |keys| > 0 {
      NoTruthyKey(v, keys[1..]);
    }
  }

  /** A failure envelope with a truthy error and message is normalised to itself. */
  lemma StandardizeKeepsFailure(r: Response)
    requires r.Failure? && Truthy(r.error) && Truthy(r.message)
    ensures Standardize(ToValue(r)) == r
  {
  }

  /** What a tool or the runtime can throw: an `Error` object, or any other value. */
  datatype Thrown =
    | ErrorObject(message: string)
    | Raw(v: Value)

  /**
   The message `handleError` extracts: an `Error`'s message; a thrown string
   itself; the `message` property of a truthy object that has one; otherwise
   a fixed text.
   */
  function ErrorMessage(t: Thrown): (m: Value)
    ensures t.ErrorObject? ==> m == Str(t.message)
    ensures t.Raw? && t.v.Str? ==> m == t.v
    ensures t.Raw? && t.v.Obj? && HasKey(t.v.fields, "message") ==> m == Lookup(t.v.fields, "message")
    ensures t.Raw? && !t.v.Str? && !t.v.Obj? ==> m == Str("An unexpected error occurred")
  {
    match t
    case ErrorObject(msg) => Str(msg)
    case Raw(v) =>
      IndexNameIsDigits("message", if v.Arr? then |v.items| else 0);
      if v.Str? then v
      else if Truthy(v) && TypeofObject(v) && HasProperty(v, "message") then Get(v, "message")
      else Str("An unexpected error occurred")
  }

  /**
   `handleError(error)`: always a failure whose error is the extracted message
   and whose message is that text after "Trello operation failed: ". The
   status it classifies (`ErrorStatus`) is only logged.
   */
  function HandleError(t: Thrown): (r: Response)
    ensures r.Failure? && r.error == ErrorMessage(t)
    ensures r.message.Str? && StartsWith(r.message.s, "Trello operation failed: ")
    ensures r.message.s[|"Trello operation failed: "|..] == ToString(r.error)
  {
    var m := ErrorMessage(t);
    Failure(m, Str("Trello operation failed: " + ToString(m)))
  }

  /**
   The status `handleError` assigns an `Error` by the first phrase its
   message contains; anything else thrown is 500. It never reaches the
   response.
   */
  function ErrorStatus(t: Thrown): (status: int)
    ensures status in {400, 401, 403, 404, 500}
    ensures t.ErrorObject? && Contains(t.message, "API credentials") ==> status == 401
    ensures t.ErrorObject? && !Contains(t.message, "API credentials") && Contains(t.message, "not found") ==> status == 404
    ensures status == 500 <==>
      t.Raw? || !(Contains(t.message, "API credentials") || Contains(t.message, "not found")
                  || Contains(t.message, "permission") || Contains(t.message, "validation"))
  {
    match t
    case Raw(_) => 500
    case ErrorObject(m) =>
      if Contains(m, "API credentials") then 401
      else if Contains(m, "not found") then 404
      else if Contains(m, "permission") then 403
      else if Contains(m, "validation") then 400
      else 500
  }

  /** `createErrorResponse(message)`: a failure carrying the text, and the text after "Error: ". */
  function CreateErrorResponse(message: string): (r: Response)
    ensures r.Failure? && r.error == Str(message)
    ensures r.message.Str? && StartsWith(r.message.s, "Error: ") && r.message.s[7..] == message
  {
    Failure(Str(message), Str("Error: " + message))
  }

  /** The text `String(error)` gives a thrown value, as logged for a failed tool call. */
  function ThrownText(t: Thrown): (s: string)
    ensures t.ErrorObject? ==> s == t.message
  {
    match t
    case ErrorObject(m) => m
    case Raw(v) => ToString(v)
  }

  /**
   The `TypeError` V8 throws when `standardizeResponse` reads `success` of
   `null` or `undefined`.
   */
  function ReadOfNullish(v: Value, property: string): (t: Thrown)
    requires Nullish(v)
    ensures t.ErrorObject? && Contains(t.message, property)
  {
    ErrorObject(ReadError(v, property))
  }
}

=== FILE: form_detection.dfy ===
/**
 Intent classification of `components/form-detection.ts`: an assistant
 message is lower-cased and matched against 22 regular expressions, one per
 form the chat can offer. Every pattern has the same two-alternative shape

   \b(?:VERB|…)\s+(?:ARTICLE\s+)?(?:NOUN|…)\b | HEAD\s+(?:WORD|…)\s+form

 with the `i` flag, so a pattern is modelled by its word lists and the
 regular-expression search by `Test`, whose agreement with the backtracking
 semantics of the two alternatives is proved in `TestIsRegexSearch`.
 */
module FormDetection {
  import opened Strings
  import opened Js

  /** The 22 forms, in the declaration order of `FormDetectionResult`. */
  datatype FormKind =
    | BoardCreation | BoardUpdate | BoardDelete | BoardClose
    | ListCreation | ListUpdate | ListDelete | ListClose
    | CardCreation | CardUpdate | CardDelete
    | WorkspaceCreation | WorkspaceUpdate | WorkspaceDelete
    | LabelCreation | LabelUpdate | LabelDelete
    | AttachmentCreation | AttachmentDelete
    | ChecklistCreation | ChecklistUpdate | ChecklistDelete

  const KindCount: nat := 22

  function KindAt(i: nat): FormKind
    requires i < KindCount
  {
    if i == 0 then BoardCreation
    else if i == 1 then BoardUpdate
    else if i == 2 then BoardDelete
    else if i == 3 then BoardClose
    else if i == 4 then ListCreation
    else if i == 5 then ListUpdate
    else if i == 6 then ListDelete
    else if i == 7 then ListClose
    else if i == 8 then CardCreation
    else if i == 9 then CardUpdate
    else if i == 10 then CardDelete
    else if i == 11 then WorkspaceCreation
    else if i == 12 then WorkspaceUpdate
    else if i == 13 then WorkspaceDelete
    else if i == 14 then LabelCreation
    else if i == 15 then LabelUpdate
    else if i == 16 then LabelDelete
    else if i == 17 then AttachmentCreation
    else if i == 18 then AttachmentDelete
    else if i == 19 then ChecklistCreation
    else if i == 20 then ChecklistUpdate
    else ChecklistDelete
  }

  /** The position of a form in the declaration order. */
  function Index(k: FormKind): (i: nat)
    ensures i < KindCount && KindAt(i) == k
  {
    match k
    case BoardCreation => 0
    case BoardUpdate => 1
    case BoardDelete => 2
    case BoardClose => 3
    case ListCreation => 4
    case ListUpdate => 5
    case ListDelete => 6
    case ListClose => 7
    case CardCreation => 8
    case CardUpdate => 9
    case CardDelete => 10
    case WorkspaceCreation => 11
    case WorkspaceUpdate => 12
    case WorkspaceDelete => 13
    case LabelCreation => 14
    case LabelUpdate => 15
    case LabelDelete => 16
    case AttachmentCreation => 17
    case AttachmentDelete => 18
    case ChecklistCreation => 19
    case ChecklistUpdate => 20
    case ChecklistDelete => 21
  }

  /** `Index` undoes `KindAt`: the declaration order has no repeats. */
  lemma IndexOfKindAt(i: nat)
    requires i < KindCount
    ensures Index(KindAt(i)) == i
  {
  }

  // ---------------------------------------------------------------------
  // The patterns
  // ---------------------------------------------------------------------

  /**
   One detection pattern: the verbs of the first alternative, its optional
   article and its nouns, and the head noun and form words of the second.
   */
  datatype Pattern = Pattern(verbs: seq<string>, article: string, nouns: seq<string>,
                             head: string, formWords: seq<string>)

  const CreateVerbs: seq<string> := ["create", "make", "new", "add"]
  const UpdateVerbs: seq<string> := ["update", "edit", "modify", "change"]
  const DeleteVerbs: seq<string> := ["delete", "remove", "destroy"]
  const CloseVerbs: seq<string> := ["close", "reopen", "archive"]
  const AttachVerbs: seq<string> := ["add", "attach", "upload", "create"]

  const CreationWords: seq<string> := ["creation", "create"]
  const UpdateWords: seq<string> := ["update", "edit", "modify"]
  const DeleteWords: seq<string> := ["delete", "remove"]
  const CloseWords: seq<string> := ["close", "reopen"]

  /** The pattern of `formDetectionPatterns` for each form. */
  function PatternOf(k: FormKind): (p: Pattern)
    ensures p.head in p.nouns
  {
    match k
    case BoardCreation => Pattern(CreateVerbs, "a", ["board"], "board", CreationWords)
    case BoardUpdate => Pattern(UpdateVerbs, "a", ["board"], "board", UpdateWords)
    case BoardDelete => Pattern(DeleteVerbs, "a", ["board"], "board", DeleteWords)
    case BoardClose => Pattern(CloseVerbs, "a", ["board"], "board", CloseWords)
    case ListCreation => Pattern(CreateVerbs, "a", ["list"], "list", CreationWords)
    case ListUpdate => Pattern(UpdateVerbs, "a", ["list"], "list", UpdateWords)
    case ListDelete => Pattern(DeleteVerbs, "a", ["list"], "list", DeleteWords)
    case ListClose => Pattern(CloseVerbs, "a", ["list"], "list", CloseWords)
    case CardCreation => Pattern(CreateVerbs, "a", ["card"], "card", CreationWords)
    case CardUpdate => Pattern(UpdateVerbs, "a", ["card"], "card", UpdateWords)
    case CardDelete => Pattern(DeleteVerbs, "a", ["card"], "card", DeleteWords)
    case WorkspaceCreation => Pattern(CreateVerbs, "a", ["workspace"], "workspace", CreationWords)
    case WorkspaceUpdate => Pattern(UpdateVerbs, "a", ["workspace"], "workspace", UpdateWords)
    case WorkspaceDelete => Pattern(DeleteVerbs, "a", ["workspace"], "workspace", DeleteWords)
    case LabelCreation => Pattern(CreateVerbs, "a", ["label"], "label", CreationWords)
    case LabelUpdate => Pattern(UpdateVerbs, "a", ["label"], "label", UpdateWords)
    case LabelDelete => Pattern(DeleteVerbs, "a", ["label"], "label", DeleteWords)
    case AttachmentCreation => Pattern(AttachVerbs, "an", ["attachment", "file"], "attachment", CreationWords)
    case AttachmentDelete => Pattern(DeleteVerbs, "an", ["attachment", "file"], "attachment", DeleteWords)
    case ChecklistCreation => Pattern(CreateVerbs, "a", ["checklist"], "checklist", CreationWords)
    case ChecklistUpdate => Pattern(UpdateVerbs, "a", ["checklist"], "checklist", UpdateWords)
    case ChecklistDelete => Pattern(DeleteVerbs, "a", ["checklist"], "checklist", DeleteWords)
  }

  predicate StartsWithLetter(w: string) {
    |w| > 0 && 'a' <= w[0] <= 'z'
  }

  /**
   What the search relies on: every word that follows a `\s+` starts with a
   letter, so a whitespace run before it cannot be cut short.
   */
  predicate WellFormed(p: Pattern) {
    && StartsWithLetter(p.article)
    && (forall n | n in p.nouns :: StartsWithLetter(n))
    && (forall f | f in p.formWords :: StartsWithLetter(f))
  }

  lemma PatternsWellFormed(k: FormKind)
    ensures WellFormed(PatternOf(k))
  {
  }

  // ---------------------------------------------------------------------
  // The search
  // ---------------------------------------------------------------------

  /** `\w`: ASCII letters, digits and `_`. */
  predicate IsWordChar(c: char) {
    ('a' <= c <= 'z') || ('A' <= c <= 'Z') || ('0' <= c <= '9') || c == '_'
  }

  predicate WordAt(s: string, i: int) {
    0 <= i < |s| && IsWordChar(s[i])
  }

  /** `\b` at position `i`: exactly one of the neighbouring characters is a word character. */
  predicate Boundary(s: string, i: int) {
    WordAt(s, i - 1) != WordAt(s, i)
  }

  /** The end of the longest run of `\s` characters starting at `i`. */
  function SkipSpaces(s: string, i: nat): (j: nat)
    requires i <= |s|
    ensures i <= j <= |s|
    ensures forall t | i <= t < j :: IsJsSpace(s[t])
    ensures j == |s| || !IsJsSpace(s[j])
    decreases |s| - i
  {
    if i < |s| && IsJsSpace(s[i]) then SkipSpaces(s, i + 1) else i
  }

  /** Noun `n`, ending at a word boundary, starts at `k`. */
  predicate NounWordAt(p: Pattern, s: string, k: nat, n: string) {
    n in p.nouns && OccursAt(s, k, n) && Boundary(s, k + |n|)
  }

  predicate NounAt(p: Pattern, s: string, k: nat) {
    exists n | n in p.nouns :: NounWordAt(p, s, k, n)
  }

  /** `(?:ARTICLE\s+)?NOUN\b` starting at `j`. */
  predicate ObjectAt(p: Pattern, s: string, j: nat) {
    || NounAt(p, s, j)
    || (OccursAt(s, j, p.article)
        && var k := SkipSpaces(s, j + |p.article|);
        k > j + |p.article| && NounAt(p, s, k))
  }

  /** Verb `v`, at least one `\s`, and the object of the first alternative, from `i`. */
  predicate VerbWordAt(p: Pattern, s: string, i: nat, v: string) {
    && v in p.verbs && OccursAt(s, i, v)
    && var j := SkipSpaces(s, i + |v|);
    j > i + |v| && ObjectAt(p, s, j)
  }

  /** The first alternative, `\bVERB\s+(?:ARTICLE\s+)?NOUN\b`, matches at `i`. */
  predicate VerbPhraseAt(p: Pattern, s: string, i: nat) {
    Boundary(s, i) && exists v | v in p.verbs :: VerbWordAt(p, s, i, v)
  }

  /** Form word `f`, at least one `\s` and "form", from `j`. */
  predicate FormWordAt(p: Pattern, s: string, j: nat, f: string) {
    && f in p.formWords && OccursAt(s, j, f)
    && var k := SkipSpaces(s, j + |f|);
    k > j + |f| && OccursAt(s, k, "form")
  }

  /** The second alternative, `HEAD\s+WORD\s+form`, matches at `i`: no word boundary is required. */
  predicate FormPhraseAt(p: Pattern, s: string, i: nat) {
    OccursAt(s, i, p.head)
    && var j := SkipSpaces(s, i + |p.head|);
    j > i + |p.head| && exists f | f in p.formWords :: FormWordAt(p, s, j, f)
  }

  /** `pattern.test(s)`: a match starts somewhere in `s`. */
  predicate Test(p: Pattern, s: string) {
    exists i | 0 <= i <= |s| :: VerbPhraseAt(p, s, i) || FormPhraseAt(p, s, i)
  }

  // ---------------------------------------------------------------------
  // Agreement with the regular-expression semantics
  // ---------------------------------------------------------------------

  /** `s[a..b]` is a non-empty run of `\s` characters, as `\s+` may match it. */
  predicate SpaceRun(s: string, a: int, b: int) {
    0 <= a < b <= |s| && forall t | a <= t < b :: IsJsSpace(s[t])
  }

  /**
   One way the first alternative can match from `i`, as a backtracking
   engine may find it: verb `v`, a whitespace run up to `j`, the optional
   article and its run up to `k` (or `k == j` without one), and noun `n`.
   */
  ghost predicate VerbMatch(p: Pattern, s: string, i: int, v: string, j: int, k: int, n: string) {
    && v in p.verbs && n in p.nouns
    && Boundary(s, i) && OccursAt(s, i, v)
    && SpaceRun(s, i + |v|, j)
    && (k == j || (OccursAt(s, j, p.article) && SpaceRun(s, j + |p.article|, k)))
    && OccursAt(s, k, n) && Boundary(s, k + |n|)
  }

  /** One way the second alternative can match from `i`. */
  ghost predicate FormMatch(p: Pattern, s: string, i: int, j: int, f: string, k: int) {
    && f in p.formWords
    && OccursAt(s, i, p.head) && SpaceRun(s, i + |p.head|, j)
    && OccursAt(s, j, f) && SpaceRun(s, j + |f|, k)
    && OccursAt(s, k, "form")
  }

  ghost predicate RegexSearch(p: Pattern, s: string) {
    || (exists i, v, j, k, n :: VerbMatch(p, s, i, v, j, k, n))
    || (exists i, j, f, k :: FormMatch(p, s, i, j, f, k))
  }

  /** A `\s+` that must be followed by a non-space ends where the longest run ends. */
  lemma RunEndIsMaximal(s: string, a: nat, b: nat)
    requires SpaceRun(s, a, b) && b < |s| && !IsJsSpace(s[b])
    ensures SkipSpaces(s, a) == b
  {
  }

  lemma VerbPhraseHasMatch(p: Pattern, s: string, i: nat)
    requires VerbPhraseAt(p, s, i)
    ensures exists v, j, k, n :: VerbMatch(p, s, i, v, j, k, n)
  {
    var v :| v in p.verbs && VerbWordAt(p, s, i, v);
    var j := SkipSpaces(s, i + |v|);
    assert SpaceRun(s, i + |v|, j);
    var k, n := ObjectWitness(p, s, j);
    assert VerbMatch(p, s, i, v, j, k, n);
  }

  /** The article run and noun that make `ObjectAt` hold. */
  lemma ObjectWitness(p: Pattern, s: string, j: nat) returns (k: nat, n: string)
    requires ObjectAt(p, s, j)
    ensures NounWordAt(p, s, k, n)
    ensures k == j || (OccursAt(s, j, p.article) && SpaceRun(s, j + |p.article|, k))
  {
    if NounAt(p, s, j) {
      k := j;
      n :| n in p.nouns && NounWordAt(p, s, j, n);
    } else {
      assert OccursAt(s, j, p.article);
      k := SkipSpaces(s, j + |p.article|);
      assert SpaceRun(s, j + |p.article|, k);
      n :| n in p.nouns && NounWordAt(p, s, k, n);
    }
  }

  lemma VerbMatchIsPhrase(p: Pattern, s: string, i: nat, v: string, j: int, k: int, n: string)
    requires WellFormed(p) && VerbMatch(p, s, i, v, j, k, n)
    ensures VerbPhraseAt(p, s, i)
  {
    MatchObject(p, s, j, k, n);
    RunEndIsMaximal(s, i + |v|, j);
    assert VerbWordAt(p, s, i, v);
  }

  /** The object part of a match: it starts with a letter, so the spaces before it end there. */
  lemma MatchObject(p: Pattern, s: string, j: nat, k: int, n: string)
    requires WellFormed(p) && n in p.nouns && OccursAt(s, k, n) && Boundary(s, k + |n|)
    requires k == j || (OccursAt(s, j, p.article) && SpaceRun(s, j + |p.article|, k))
    ensures ObjectAt(p, s, j) && j < |s| && !IsJsSpace(s[j])
  {
    if k == j {
      assert StartsWithLetter(n) && s[k] == n[0];
      assert NounWordAt(p, s, j, n);
    } else {
      assert StartsWithLetter(p.article) && s[j] == p.article[0];
      ArticleMatchIsObject(p, s, j, k, n);
    }
  }

  lemma ArticleMatchIsObject(p: Pattern, s: string, j: nat, k: int, n: string)
    requires WellFormed(p) && n in p.nouns && OccursAt(s, k, n) && Boundary(s, k + |n|)
    requires OccursAt(s, j, p.article) && SpaceRun(s, j + |p.article|, k)
    ensures ObjectAt(p, s, j)
  {
    assert StartsWithLetter(n) && s[k] == n[0];
    RunEndIsMaximal(s, j + |p.article|, k);
    assert NounWordAt(p, s, k, n);
  }

  lemma FormPhraseHasMatch(p: Pattern, s: string, i: nat)
    requires FormPhraseAt(p, s, i)
    ensures exists j, f, k :: FormMatch(p, s, i, j, f, k)
  {
    var j := SkipSpaces(s, i + |p.head|);
    var f :| f in p.formWords && FormWordAt(p, s, j, f);
    var k := SkipSpaces(s, j + |f|);
    assert FormMatch(p, s, i, j, f, k);
  }

  lemma FormMatchIsPhrase(p: Pattern, s: string, i: nat, j: int, f: string, k: int)
    requires WellFormed(p) && FormMatch(p, s, i, j, f, k)
    ensures FormPhraseAt(p, s, i)
  {
    assert StartsWithLetter(f) && s[j] == f[0];
    RunEndIsMaximal(s, i + |p.head|, j);
    assert s[k] == "form"[0];
    RunEndIsMaximal(s, j + |f|, k);
    assert FormWordAt(p, s, j, f);
  }

  /**
   `Test` is the search the regular expression performs: it succeeds exactly
   when one of the two alternatives matches somewhere, for some choice of
   verb, whitespace runs, article and noun.
   */
  lemma TestIsRegexSearch(k: FormKind, s: string)
    ensures Test(PatternOf(k), s) <==> RegexSearch(PatternOf(k), s)
  {
    var p := PatternOf(k);
    PatternsWellFormed(k);
    if Test(p, s) {
      var i :| 0 <= i <= |s| && (VerbPhraseAt(p, s, i) || FormPhraseAt(p, s, i));
      if VerbPhraseAt(p, s, i) {
        VerbPhraseHasMatch(p, s, i);
      } else {
        FormPhraseHasMatch(p, s, i);
      }
    }
    if exists i, v, j, k, n :: VerbMatch(p, s, i, v, j, k, n) {
      var i, v, j, k, n :| VerbMatch(p, s, i, v, j, k, n);
      VerbMatchIsPhrase(p, s, i, v, j, k, n);
    }
    if exists i, j, f, k :: FormMatch(p, s, i, j, f, k) {
      var i, j, f, k :| FormMatch(p, s, i, j, f, k);
      FormMatchIsPhrase(p, s, i, j, f, k);
    }
  }

  /** Wherever a pattern matches, one of its nouns occurs. */
  lemma MatchMentionsNoun(p: Pattern, s: string, i: nat)
    requires p.head in p.nouns
    ensures VerbPhraseAt(p, s, i) || FormPhraseAt(p, s, i) ==>
      exists n | n in p.nouns :: Contains(s, n)
  {
    if FormPhraseAt(p, s, i) {
      ContainsWitness(s, i, p.head);
    } else if VerbPhraseAt(p, s, i) {
      var v :| v in p.verbs && VerbWordAt(p, s, i, v);
      var k, n := ObjectWitness(p, s, SkipSpaces(s, i + |v|));
      ContainsWitness(s, k, n);
    }
  }

  /** A message that never mentions any noun of a pattern cannot match it. */
  lemma UnmentionedNounNoMatch(p: Pattern, s: string)
    requires p.head in p.nouns
    requires forall n | n in p.nouns :: !Contains(s, n)
    ensures !Test(p, s)
  {
    forall i | 0 <= i <= |s| ensures !(VerbPhraseAt(p, s, i) || FormPhraseAt(p, s, i)) {
      MatchMentionsNoun(p, s, i);
    }
  }

  // ---------------------------------------------------------------------
  // detectFormType and shouldShowAnyForm
  // ---------------------------------------------------------------------

  /**
   `detectFormType(messageContent, role)`: the 22 flags in declaration
   order. Only assistant messages are classified; each flag is its own
   pattern matched against the lower-cased message, independently of the others.
   */
  function DetectFormType(content: string, role: string): (flags: seq<bool>)
    ensures |flags| == KindCount
    ensures role != "assistant" ==> forall i | 0 <= i < KindCount :: !flags[i]
    ensures role == "assistant" ==>
      forall k: FormKind :: flags[Index(k)] == Test(PatternOf(k), Lower(content))
  {
    if role != "assistant" then seq(KindCount, i => false)
    else
      var lowered := Lower(content);
      seq(KindCount, i requires 0 <= i < KindCount => Test(PatternOf(KindAt(i)), lowered))
  }

  /** The flag of one form. */
  predicate Shows(flags: seq<bool>, k: FormKind)
    requires |flags| == KindCount
  {
    flags[Index(k)]
  }

  /** Letter case never matters: a message and its lower-cased text raise the same flags. */
  lemma DetectIgnoresCase(content: string, role: string)
    ensures DetectFormType(Lower(content), role) == DetectFormType(content, role)
  {
    LowerIdempotent(content);
  }

  /** A message that never mentions a form's nouns, in any letter case, does not raise its flag. */
  lemma UnmentionedFormNotShown(content: string, role: string, k: FormKind)
    requires forall n | n in PatternOf(k).nouns :: !Contains(Lower(content), n)
    ensures !Shows(DetectFormType(content, role), k)
  {
    if role == "assistant" {
      UnmentionedNounNoMatch(PatternOf(k), Lower(content));
    }
  }

  /** An assistant message reading "create a board", in any letter case, asks for the board-creation form. */
  lemma CreateABoardShown(content: string)
    requires Lower(content) == "create a board"
    ensures Shows(DetectFormType(content, "assistant"), BoardCreation)
  {
    CreateABoardMatches(Lower(content));
  }

  lemma CreateABoardMatches(s: string)
    requires s == "create a board"
    ensures VerbPhraseAt(PatternOf(BoardCreation), s, 0)
  {
    var p := PatternOf(BoardCreation);
    assert OccursAt(s, 0, "create") && SkipSpaces(s, 6) == 7;
    assert OccursAt(s, 7, "a") && SkipSpaces(s, 8) == 9;
    assert NounWordAt(p, s, 9, "board");
    assert VerbWordAt(p, s, 0, "create");
  }

  /**
   The second alternative needs no word boundary, so "clipboard creation
   form" raises the board-creation flag.
   */
  lemma ClipboardFormShown(content: string)
    requires Lower(content) == "clipboard creation form"
    ensures Shows(DetectFormType(content, "assistant"), BoardCreation)
  {
    ClipboardFormMatches(Lower(content));
  }

  lemma ClipboardFormMatches(s: string)
    requires s == "clipboard creation form"
    ensures FormPhraseAt(PatternOf(BoardCreation), s, 4)
  {
    assert OccursAt(s, 4, "board");
    assert SkipSpaces(s, 9) == 10;
    assert OccursAt(s, 10, "creation");
    assert SkipSpaces(s, 18) == 19;
    assert OccursAt(s, 19, "form");
    assert FormWordAt(PatternOf(BoardCreation), s, 10, "creation");
  }

  /** "new board, new list" matches the board-creation pattern at its start. */
  lemma NewBoardMatches(s: string)
    requires s == "new board, new list"
    ensures VerbPhraseAt(PatternOf(BoardCreation), s, 0)
  {
    assert OccursAt(s, 0, "new") && SkipSpaces(s, 3) == 4;
    assert NounWordAt(PatternOf(BoardCreation), s, 4, "board");
    assert VerbWordAt(PatternOf(BoardCreation), s, 0, "new");
  }

  /** "new board, new list" matches the list-creation pattern after the comma. */
  lemma NewListMatches(s: string)
    requires s == "new board, new list"
    ensures VerbPhraseAt(PatternOf(ListCreation), s, 11)
  {
    assert s[10] == ' ' && s[11] == 'n';
    assert OccursAt(s, 11, "new");
    assert SkipSpaces(s, 14) == 15;
    assert NounWordAt(PatternOf(ListCreation), s, 15, "list");
    assert VerbWordAt(PatternOf(ListCreation), s, 11, "new");
  }

  /** Flags are independent: one message can raise two of them. */
  lemma TwoFormsAtOnce(content: string)
    requires Lower(content) == "new board, new list"
    ensures var flags := DetectFormType(content, "assistant");
      Shows(flags, BoardCreation) && Shows(flags, ListCreation)
  {
    NewBoardMatches(Lower(content));
    NewListMatches(Lower(content));
  }

  /** The property name of each flag in the returned object. */
  function FieldName(k: FormKind): (name: string)
    ensures |name| > 0 && name[0] == 's'
  {
    match k
    case BoardCreation => "shouldShowBoardCreationForm"
    case BoardUpdate => "shouldShowBoardUpdateForm"
    case BoardDelete => "shouldShowBoardDeleteForm"
    case BoardClose => "shouldShowBoardCloseForm"
    case ListCreation => "shouldShowListCreationForm"
    case ListUpdate => "shouldShowListUpdateForm"
    case ListDelete => "shouldShowListDeleteForm"
    case ListClose => "shouldShowListCloseForm"
    case CardCreation => "shouldShowCardCreationForm"
    case CardUpdate => "shouldShowCardUpdateForm"
    case CardDelete => "shouldShowCardDeleteForm"
    case WorkspaceCreation => "shouldShowWorkspaceCreationForm"
    case WorkspaceUpdate => "shouldShowWorkspaceUpdateForm"
    case WorkspaceDelete => "shouldShowWorkspaceDeleteForm"
    case LabelCreation => "shouldShowLabelCreationForm"
    case LabelUpdate => "shouldShowLabelUpdateForm"
    case LabelDelete => "shouldShowLabelDeleteForm"
    case AttachmentCreation => "shouldShowAttachmentCreationForm"
    case AttachmentDelete => "shouldShowAttachmentDeleteForm"
    case ChecklistCreation => "shouldShowChecklistCreationForm"
    case ChecklistUpdate => "shouldShowChecklistUpdateForm"
    case ChecklistDelete => "shouldShowChecklistDeleteForm"
  }

  /** The flags as the JavaScript object `detectFormType` returns. */
  function AsObject(flags: seq<bool>): (obj: Value)
    requires |flags| == KindCount
    ensures obj.Obj? && |obj.fields| == KindCount
    ensures forall i | 0 <= i < KindCount ::
      obj.fields[i] == (FieldName(KindAt(i)), Bool(flags[i]))
  {
    Obj(seq(KindCount, i requires 0 <= i < KindCount => (FieldName(KindAt(i)), Bool(flags[i]))))
  }

  /** `shouldShowAnyForm(result)`: `Object.values(result).some(Boolean)`. */
  predicate ShouldShowAnyForm(flags: seq<bool>)
    requires |flags| == KindCount
  {
    var fields := AsObject(flags).fields;
    exists i | 0 <= i < |fields| :: Truthy(fields[i].1)
  }

  /** Some form is shown exactly when some flag is raised. */
  lemma AnyFormIffSomeFlag(flags: seq<bool>)
    requires |flags| == KindCount
    ensures ShouldShowAnyForm(flags) <==> exists k: FormKind :: Shows(flags, k)
  {
    var fields := AsObject(flags).fields;
    if ShouldShowAnyForm(flags) {
      var i :| 0 <= i < |fields| && Truthy(fields[i].1);
      IndexOfKindAt(i);
      assert Shows(flags, KindAt(i));
    }
    if exists k: FormKind :: Shows(flags, k) {
      var k: FormKind :| Shows(flags, k);
      assert Truthy(fields[Index(k)].1);
    }
  }

  /** A message from anyone but the assistant shows no form. */
  lemma OnlyAssistantShowsForms(content: string, role: string)
    requires role != "assistant"
    ensures !ShouldShowAnyForm(DetectFormType(content, role))
  {
    var flags := DetectFormType(content, role);
    AnyFormIffSomeFlag(flags);
  }

  // ---------------------------------------------------------------------
  // getPrimaryFormType
  // ---------------------------------------------------------------------

  /** The `key` column of the `formTypes` table. */
  function Key(k: FormKind): (key: string)
    ensures |key| > 0 && key[0] != 's'
  {
    match k
    case BoardCreation => "boardCreation"
    case BoardUpdate => "boardUpdate"
    case BoardDelete => "boardDelete"
    case BoardClose => "boardClose"
    case ListCreation => "listCreation"
    case ListUpdate => "listUpdate"
    case ListDelete => "listDelete"
    case ListClose => "listClose"
    case CardCreation => "cardCreation"
    case CardUpdate => "cardUpdate"
    case CardDelete => "cardDelete"
    case WorkspaceCreation => "workspaceCreation"
    case WorkspaceUpdate => "workspaceUpdate"
    case WorkspaceDelete => "workspaceDelete"
    case LabelCreation => "labelCreation"
    case LabelUpdate => "labelUpdate"
    case LabelDelete => "labelDelete"
    case AttachmentCreation => "attachmentCreation"
    case AttachmentDelete => "attachmentDelete"
    case ChecklistCreation => "checklistCreation"
    case ChecklistUpdate => "checklistUpdate"
    case ChecklistDelete => "checklistDelete"
  }

  /** The `name` column of the `formTypes` table. */
  function DisplayName(k: FormKind): string {
    match k
    case BoardCreation => "Board Creation"
    case BoardUpdate => "Board Update"
    case BoardDelete => "Board Delete"
    case BoardClose => "Board Close"
    case ListCreation => "List Creation"
    case ListUpdate => "List Update"
    case ListDelete => "List Delete"
    case ListClose => "List Close"
    case CardCreation => "Card Creation"
    case CardUpdate => "Card Update"
    case CardDelete => "Card Delete"
    case WorkspaceCreation => "Workspace Creation"
    case WorkspaceUpdate => "Workspace Update"
    case WorkspaceDelete => "Workspace Delete"
    case LabelCreation => "Label Creation"
    case LabelUpdate => "Label Update"
    case LabelDelete => "Label Delete"
    case AttachmentCreation => "Attachment Creation"
    case AttachmentDelete => "Attachment Delete"
    case ChecklistCreation => "Checklist Creation"
    case ChecklistUpdate => "Checklist Update"
    case ChecklistDelete => "Checklist Delete"
  }

  /**
   The loop of `getPrimaryFormType` as written, from table row `i` on: it
   reads `detectionResult[formType.key]`, a property the object does not have.
   */
  function PrimaryFromAsWritten(obj: Value, i: nat): Option<string>
    requires i <= KindCount
    decreases KindCount - i
  {
    if i == KindCount then None
    else if Truthy(Get(obj, Key(KindAt(i)))) then Some(DisplayName(KindAt(i)))
    else PrimaryFromAsWritten(obj, i + 1)
  }

  /** `getPrimaryFormType(detectionResult)` as written. */
  function GetPrimaryFormTypeAsWritten(flags: seq<bool>): Option<string>
    requires |flags| == KindCount
  {
    PrimaryFromAsWritten(AsObject(flags), 0)
  }

  /** No table key is a property of the detection object: every property name starts with "shouldShow". */
  lemma KeyIsNoField(flags: seq<bool>, k: FormKind)
    requires |flags| == KindCount
    ensures Get(AsObject(flags), Key(k)) == Undefined
  {
    var fields := AsObject(flags).fields;
    forall i | 0 <= i < |fields| ensures fields[i].0 != Key(k) {
      assert fields[i].0[0] == 's';
    }
  }

  lemma {:induction false} PrimaryFromAsWrittenNone(flags: seq<bool>, i: nat)
    requires |flags| == KindCount && i <= KindCount
    ensures PrimaryFromAsWritten(AsObject(flags), i) == None
    decreases KindCount - i
  {
    if i < KindCount {
      KeyIsNoField(flags, KindAt(i));
      PrimaryFromAsWrittenNone(flags, i + 1);
    }
  }

  /** As written, `getPrimaryFormType` answers `null` for every detection result, even when forms are shown. */
  lemma PrimaryFormTypeAlwaysNull(flags: seq<bool>)
    requires |flags| == KindCount
    ensures GetPrimaryFormTypeAsWritten(flags) == None
  {
    PrimaryFromAsWrittenNone(flags, 0);
  }

  /** The loop reading each row's own flag, from row `i` on. */
  function PrimaryFrom(flags: seq<bool>, i: nat): (r: Option<FormKind>)
    requires |flags| == KindCount && i <= KindCount
    ensures r.Some? ==> i <= Index(r.value) && flags[Index(r.value)]
    ensures r.Some? ==> forall j | i <= j < Index(r.value) :: !flags[j]
    ensures r.None? <==> forall j | i <= j < KindCount :: !flags[j]
    decreases KindCount - i
  {
    if i == KindCount then None
    else if flags[i] then Some(KindAt(i))
    else PrimaryFrom(flags, i + 1)
  }

  /**
   `getPrimaryFormType` reading the flag each table row names: the display
   name of the first shown form in table order, or `null` when none is shown.
   */
  function GetPrimaryFormType(flags: seq<bool>): (r: Option<string>)
    requires |flags| == KindCount
    ensures r.Some? <==> ShouldShowAnyForm(flags)
    ensures r.Some? ==>
              exists k: FormKind ::
                && Shows(flags, k) && r.value == DisplayName(k)
                && forall j: FormKind :: Index(j) < Index(k) ==> !Shows(flags, j)
  {
    AnyFormIffSomeFlag(flags);
    match PrimaryFrom(flags, 0)
    case None =>
      assert forall k: FormKind :: !Shows(flags, k) by {
        forall k: FormKind ensures !Shows(flags, k) {
          assert !flags[Index(k)];
        }
      }
      None
    case Some(k) =>
      assert Shows(flags, k);
      assert forall j: FormKind :: Index(j) < Index(k) ==> !Shows(flags, j);
      Some(DisplayName(k))
  }

  /** With the flags read by their own names, the board-creation example is reported by name. */
  lemma CreateABoardIsPrimary(content: string)
    requires Lower(content) == "create a board"
    ensures GetPrimaryFormType(DetectFormType(content, "assistant")) == Some("Board Creation")
  {
    CreateABoardShown(content);
    var flags := DetectFormType(content, "assistant");
    assert flags[0];
    assert PrimaryFrom(flags, 0) == Some(BoardCreation);
  }
}

=== FILE: form_tools.dfy ===
/**
 The seven form-generation tools of `TrelloTools/UIGenerationTools/`
 (`generate-board-form.ts` … `generate-checklist-form.ts`). Each validates
 its input against a schema whose `action` is an enumeration, maps the action
 to the name of the card component the front end renders, and echoes its
 input. The seven files differ only in their tables, which are the tables
 here, indexed by the entity the form manages.
 */
module FormTools {
  import opened Js
  import ToolRegistry

  datatype Entity = Board | List | Card | Workspace | Label | Attachment | Checklist

  datatype Action = Create | Update | Delete | Archive | Close

  function ActionName(a: Action): (name: string) {
    match a
    case Create => "create"
    case Update => "update"
    case Delete => "delete"
    case Archive => "archive"
    case Close => "close"
  }

  /** The `action` enumeration of each tool's schema, in declaration order. */
  function Actions(e: Entity): (actions: seq<Action>)
    ensures Create in actions && Delete in actions
  {
    match e
    case Board => [Create, Update, Delete, Close]
    case List => [Create, Update, Delete, Archive, Close]
    case Attachment => [Create, Delete]
    case _ => [Create, Update, Delete]
  }

  /** The schema's check of the `action` text against the enumeration. */
  function ParseAction(e: Entity, text: string): (r: Option<Action>)
    ensures r.Some? ==> r.value in Actions(e) && ActionName(r.value) == text
    ensures r.None? ==> forall a | a in Actions(e) :: ActionName(a) != text
  {
    if text == "create" then Some(Create)
    else if text == "update" && Update in Actions(e) then Some(Update)
    else if text == "delete" then Some(Delete)
    else if text == "archive" && Archive in Actions(e) then Some(Archive)
    else if text == "close" && Close in Actions(e) then Some(Close)
    else None
  }

  /** The `componentMap` of each tool: the card component for an action. */
  function Component(e: Entity, a: Action): Option<string> {
    match (e, a)
    case (Board, Create) => Some("BoardCreationCard")
    case (Board, Update) => Some("BoardUpdateCard")
    case (Board, Delete) => Some("BoardDeleteCard")
    case (Board, Close) => Some("BoardCloseCard")
    case (List, Create) => Some("ListCreationCard")
    case (List, Update) => Some("ListUpdateCard")
    case (List, Delete) => Some("ListDeleteCard")
    case (List, Archive) => Some("ListArchiveCard")
    case (List, Close) => Some("ListCloseCard")
    case (Card, Create) => Some("CardCreationCard")
    case (Card, Update) => Some("CardUpdateCard")
    case (Card, Delete) => Some("CardDeleteCard")
    case (Workspace, Create) => Some("WorkspaceCreationCard")
    case (Workspace, Update) => Some("WorkspaceUpdateCard")
    case (Workspace, Delete) => Some("WorkspaceDeleteCard")
    case (Label, Create) => Some("LabelCreationCard")
    case (Label, Update) => Some("LabelUpdateCard")
    case (Label, Delete) => Some("LabelDeleteCard")
    case (Attachment, Create) => Some("AttachmentCreationCard")
    case (Attachment, Delete) => Some("AttachmentDeleteCard")
    case (Checklist, Create) => Some("ChecklistCreationCard")
    case (Checklist, Update) => Some("ChecklistUpdateCard")
    case (Checklist, Delete) => Some("ChecklistDeleteCard")
    case _ => None
  }

  /** Each table has an entry for exactly the actions of its enumeration. */
  lemma ComponentDefinedOnEnumeration(e: Entity, a: Action)
    ensures Component(e, a).Some? <==> a in Actions(e)
  {
  }

  /**
   The entity and action a component name was generated for, read by
   entity prefix first.
   */
  function ParseComponent(name: string): (r: Option<(Entity, Action)>)
    ensures r.Some? ==> Component(r.value.0, r.value.1) == Some(name)
  {
    if |name| < 2 then None
    else if name[0] == 'B' then ParseFor(Board, name)
    else if name[0] == 'L' && name[1] == 'i' then ParseFor(List, name)
    else if name[0] == 'L' then ParseFor(Label, name)
    else if name[0] == 'C' && name[1] == 'a' then ParseFor(Card, name)
    else if name[0] == 'C' then ParseFor(Checklist, name)
    else if name[0] == 'W' then ParseFor(Workspace, name)
    else if name[0] == 'A' then ParseFor(Attachment, name)
    else None
  }

  /** The action of one entity's table whose component is `name`. */
  function ParseFor(e: Entity, name: string): (r: Option<(Entity, Action)>)
    ensures r.Some? ==> r.value.0 == e && Component(e, r.value.1) == Some(name)
  {
    if Component(e, Create) == Some(name) then Some((e, Create))
    else if Component(e, Update) == Some(name) then Some((e, Update))
    else if Component(e, Delete) == Some(name) then Some((e, Delete))
    else if Component(e, Archive) == Some(name) then Some((e, Archive))
    else if Component(e, Close) == Some(name) then Some((e, Close))
    else None
  }

  lemma ParseForInverts(e: Entity, a: Action)
    requires Component(e, a).Some?
    ensures ParseFor(e, Component(e, a).value) == Some((e, a))
  {
  }

  /** Every component name is read back as the entity and action it came from. */
  lemma ParseComponentInverts(e: Entity, a: Action)
    requires Component(e, a).Some?
    ensures ParseComponent(Component(e, a).value) == Some((e, a))
  {
    ParseComponentDispatches(e, a);
    ParseForInverts(e, a);
  }

  /** The first letters of a component name lead to its own entity's table. */
  lemma ParseComponentDispatches(e: Entity, a: Action)
    requires Component(e, a).Some?
    ensures ParseComponent(Component(e, a).value) == ParseFor(e, Component(e, a).value)
  {
    var n := Component(e, a).value;
    match e
    case Board => assert n[0] == 'B';
    case List => assert n[0] == 'L' && n[1] == 'i';
    case Label => assert n[0] == 'L' && n[1] == 'a';
    case Card => assert n[0] == 'C' && n[1] == 'a';
    case Checklist => assert n[0] == 'C' && n[1] == 'h';
    case Workspace => assert n[0] == 'W';
    case Attachment => assert n[0] == 'A';
  }

  /**
   No two forms share a component, within one tool or across tools, so the
   front end can tell from `ui` alone which form to render.
   */
  lemma ComponentInjective(e1: Entity, a1: Action, e2: Entity, a2: Action)
    requires Component(e1, a1).Some? && Component(e1, a1) == Component(e2, a2)
    ensures e1 == e2 && a1 == a2
  {
    ParseComponentInverts(e1, a1);
    ParseComponentInverts(e2, a2);
  }

  /** The entity's word in the generated message. */
  function Noun(e: Entity): string {
    match e
    case Board => "board"
    case List => "list"
    case Card => "card"
    case Workspace => "workspace"
    case Label => "label"
    case Attachment => "attachment"
    case Checklist => "checklist"
  }

  /** The property holding the id of the entity the form manages; the schema makes it optional. */
  function OwnIdKey(e: Entity): string {
    match e
    case Board => "boardId"
    case List => "listId"
    case Card => "cardId"
    case Workspace => "workspaceId"
    case Label => "labelId"
    case Attachment => "attachmentId"
    case Checklist => "checklistId"
  }

  /** The property holding the id of the containing entity, which the schema requires, if any. */
  function ParentIdKey(e: Entity): Option<string> {
    match e
    case List => Some("boardId")
    case Label => Some("boardId")
    case Card => Some("listId")
    case Attachment => Some("cardId")
    case Checklist => Some("cardId")
    case _ => None
  }

  /** `metadata.generatedBy`: the name the tool is exported under. */
  function GeneratedBy(e: Entity): string {
    match e
    case Board => "generateBoardFormTool"
    case List => "generateListFormTool"
    case Card => "generateCardFormTool"
    case Workspace => "generateWorkspaceFormTool"
    case Label => "generateLabelFormTool"
    case Attachment => "generateAttachmentFormTool"
    case Checklist => "generateChecklistFormTool"
  }

  /**
   A tool call's arguments: the action text, the containing entity's id (only
   read by tools whose schema has one), the form entity's id and the optional
   `initialData`, which is passed through unexamined.
   */
  datatype FormInput = FormInput(action: string, parentId: Option<string>, ownId: Option<string>,
                                 initialData: Value)

  /** The object `execute` returns; `ids` are the echoed id properties in order. */
  datatype FormOutput = FormOutput(ui: string, message: string, action: string,
                                   ids: seq<(string, Option<string>)>, initialData: Value,
                                   timestamp: int, generatedBy: string)

  /**
   The tool: the schema rejects an action outside the enumeration or a
   missing required parent id (`None`), otherwise `execute` builds the form
   description. `now` stands for `Date.now()`.
   */
  function Generate(e: Entity, input: FormInput, now: int): (r: Option<FormOutput>)
    ensures r.Some? <==>
              && (exists a | a in Actions(e) :: ActionName(a) == input.action)
              && (ParentIdKey(e).Some? ==> input.parentId.Some?)
    ensures r.Some? ==>
              && ParseAction(e, input.action).Some?
              && Component(e, ParseAction(e, input.action).value) == Some(r.value.ui)
              && r.value.message == "Generated " + input.action + " " + Noun(e) + " form"
              && r.value.action == input.action
              && r.value.initialData == input.initialData
              && r.value.timestamp == now
              && r.value.generatedBy == GeneratedBy(e)
    ensures r.Some? && ParentIdKey(e).None? ==> r.value.ids == [(OwnIdKey(e), input.ownId)]
    ensures r.Some? && ParentIdKey(e).Some? ==>
              r.value.ids == [(ParentIdKey(e).value, input.parentId), (OwnIdKey(e), input.ownId)]
  {
    match ParseAction(e, input.action)
    case None => None
    case Some(a) =>
      if ParentIdKey(e).Some? && input.parentId.None? then None
      else
        ComponentDefinedOnEnumeration(e, a);
        var ids := if ParentIdKey(e).Some? then [(ParentIdKey(e).value, input.parentId)] else [];
        Some(FormOutput(Component(e, a).value, "Generated " + input.action + " " + Noun(e) + " form",
                        input.action, ids + [(OwnIdKey(e), input.ownId)], input.initialData,
                        now, GeneratedBy(e)))
  }

  /**
   The form entity's own id is optional for every action, including the
   update, delete and close forms that need one to act on.
   */
  lemma OwnIdNeverRequired(e: Entity, input: FormInput, now: int)
    ensures Generate(e, input, now).Some? <==> Generate(e, input.(ownId := None), now).Some?
  {
  }

  /** Two accepted calls with the same action text render the same component. */
  lemma ComponentFollowsAction(e: Entity, x: FormInput, y: FormInput, now: int)
    requires Generate(e, x, now).Some? && Generate(e, y, now).Some? && x.action == y.action
    ensures Generate(e, x, now).value.ui == Generate(e, y, now).value.ui
  {
  }

  /** Different accepted actions render different components: the `ui` value identifies the action. */
  lemma UiIdentifiesAction(e: Entity, x: FormInput, y: FormInput, now: int)
    requires Generate(e, x, now).Some? && Generate(e, y, now).Some?
    requires Generate(e, x, now).value.ui == Generate(e, y, now).value.ui
    ensures x.action == y.action
  {
    var a := ParseAction(e, x.action).value;
    var b := ParseAction(e, y.action).value;
    ComponentInjective(e, a, e, b);
  }

  /** The attachment tool has no update form: "update" is refused by its schema. */
  lemma AttachmentHasNoUpdate(input: FormInput, now: int)
    requires input.action == "update"
    ensures Generate(Attachment, input, now).None?
  {
  }

  /**
   None of the tools is offered to the language model: their names are not
   keys of the tool registry.
   */
  lemma FormToolsUnreachableFromChat(e: Entity)
    ensures GeneratedBy(e) in ToolRegistry.FormToolNames
    ensures ToolRegistry.GetToolByName(GeneratedBy(e)).Missing?
  {
    ToolRegistry.FormToolsNotRegistered(GeneratedBy(e));
  }
}

=== FILE: js.dfy ===
/**
 JavaScript values as the application handles them: loosely typed records
 (`Record<string, unknown>`), arrays, strings, integers, booleans, `null`
 and `undefined`. Objects keep their properties in insertion order, as
 JavaScript objects do; a well-formed object has no repeated key.
 */
module Js {
  import opened Strings

  datatype Option<T> = None | Some(value: T)

  datatype Value =
    | Undefined
    | Null
    | Bool(b: bool)
    | Num(n: int)
    | Str(s: string)
    | Arr(items: seq<Value>)
    | Obj(fields: seq<(string, Value)>)

  /** JavaScript truthiness: `undefined`, `null`, `false`, `0` and `""` are falsy. */
  predicate Truthy(v: Value) {
    match v
    case Undefined => false
    case Null => false
    case Bool(b) => b
    case Num(n) => n != 0
    case Str(s) => s != ""
    case Arr(_) => true
    case Obj(_) => true
  }

  predicate Nullish(v: Value) {
    v.Undefined? || v.Null?
  }

  /**
   The text of the `TypeError` V8 throws when code reads `property` of `null`
   or `undefined`; it names the property read.
   */
  function ReadError(v: Value, property: string): (text: string)
    requires Nullish(v)
    ensures Contains(text, property)
    ensures |text| > |property|
  {
    var text := "Cannot read properties of " + (if v.Null? then "null" else "undefined") + " (reading '" + property + "')";
    assert text[|text| - 2 - |property|..|text| - 2] == property;
    ContainsWitness(text, |text| - 2 - |property|, property);
    text
  }

  /** `a || b` */
  function Or(a: Value, b: Value): (r: Value)
    ensures Truthy(a) ==> r == a
    ensures !Truthy(a) ==> r == b
  {
    if Truthy(a) then a else b
  }

  /** An optional string argument used as `s || fallback`. */
  function OrText(o: Option<string>, fallback: string): (r: string)
    ensures o.Some? && o.value != "" ==> r == o.value
    ensures (o.None? || o.value == "") ==> r == fallback
  {
    if o.Some? && o.value != "" then o.value else fallback
  }

  /** The optional string is present and non-empty, i.e. truthy. */
  predicate Given(o: Option<string>) {
    o.Some? && o.value != ""
  }

  function Keys(fields: seq<(string, Value)>): (ks: seq<string>)
    ensures |ks| == |fields|
    ensures forall i | 0 <= i < |fields| :: ks[i] == fields[i].0
  {
    if |fields| == 0 then [] else [fields[0].0] + Keys(fields[1..])
  }

  predicate DistinctKeys(fields: seq<(string, Value)>) {
    forall i, j | 0 <= i < j < |fields| :: fields[i].0 != fields[j].0
  }

  predicate HasKey(fields: seq<(string, Value)>, k: string) {
    exists i | 0 <= i < |fields| :: fields[i].0 == k
  }

  /** The value of the first property named `k`, or `undefined`. */
  function Lookup(fields: seq<(string, Value)>, k: string): (v: Value)
    ensures !HasKey(fields, k) ==> v == Undefined
    ensures HasKey(fields, k) ==> (k, v) in fields
  {
    if |fields| == 0 then Undefined
    else if fields[0].0 == k then fields[0].1
    else
      assert HasKey(fields, k) ==> HasKey(fields[1..], k);
      Lookup(fields[1..], k)
  }

  /** In an object without repeated keys, a read returns the one value stored under the key. */
  lemma {:induction false} LookupDistinct(fields: seq<(string, Value)>, i: int)
    requires DistinctKeys(fields) && 0 <= i < |fields|
    ensures Lookup(fields, fields[i].0) == fields[i].1
  {
    if i > 0 {
      LookupDistinct(fields[1..], i - 1);
    }
  }

  /**
   Property read `v[k]` for own properties of an object; anything else reads
   as `undefined` (inherited members and the properties of primitives and
   arrays are not part of this model).
   */
  function Get(v: Value, k: string): Value {
    if v.Obj? then Lookup(v.fields, k) else Undefined
  }

  /** `v[k1][k2]` through optional chaining (`v?.k1?.k2`). */
  function GetPath(v: Value, k1: string, k2: string): Value {
    Get(Get(v, k1), k2)
  }

  /**
   Defining the own data property `k`, as a spread or an object literal does
   and as assignment does for any name but `__proto__`: an existing property
   keeps its position and takes the new value, a new property is appended.
   */
  function Put(fields: seq<(string, Value)>, k: string, v: Value): (r: seq<(string, Value)>)
    ensures HasKey(fields, k) ==> |r| == |fields|
    ensures !HasKey(fields, k) ==> r == fields + [(k, v)]
    ensures forall i | 0 <= i < |fields| :: r[i].0 == fields[i].0
    ensures forall i | 0 <= i < |fields| && fields[i].0 != k :: r[i] == fields[i]
  {
    if |fields| == 0 then [(k, v)]
    else if fields[0].0 == k then [(k, v)] + fields[1..]
    else
      var rest := Put(fields[1..], k, v);
      assert HasKey(fields, k) ==> HasKey(fields[1..], k);
      [fields[0]] + rest
  }

  lemma {:induction false} PutThenLookup(fields: seq<(string, Value)>, k: string, v: Value)
    ensures Lookup(Put(fields, k, v), k) == v
  {
    if |fields| > 0 && fields[0].0 != k {
      PutThenLookup(fields[1..], k, v);
    }
  }

  lemma {:induction false} PutKeepsOthers(fields: seq<(string, Value)>, k: string, v: Value, j: string)
    requires j != k
    ensures Lookup(Put(fields, k, v), j) == Lookup(fields, j)
  {
    if |fields| > 0 && fields[0].0 != k && fields[0].0 != j {
      PutKeepsOthers(fields[1..], k, v, j);
    }
  }

  /** Defining a property adds exactly its own name to the names present. */
  lemma PutKeys(fields: seq<(string, Value)>, k: string, v: Value, j: string)
    ensures HasKey(Put(fields, k, v), j) <==> HasKey(fields, j) || j == k
  {
    var r := Put(fields, k, v);
    if HasKey(fields, j) {
      var i :| 0 <= i < |fields| && fields[i].0 == j;
      assert r[i].0 == j;
    }
    if j == k && !HasKey(fields, k) {
      assert r[|fields|].0 == k;
    }
    if j == k && HasKey(fields, k) {
      var i :| 0 <= i < |fields| && fields[i].0 == k;
      assert r[i].0 == k;
    }
    if HasKey(r, j) && j != k && !HasKey(fields, k) {
      var i :| 0 <= i < |r| && r[i].0 == j;
      assert i < |fields|;
    }
  }

  lemma {:induction false} PutKeepsDistinct(fields: seq<(string, Value)>, k: string, v: Value)
    requires DistinctKeys(fields)
    ensures DistinctKeys(Put(fields, k, v))
  {
    var r := Put(fields, k, v);
    if !HasKey(fields, k) {
      forall i, j | 0 <= i < j < |r|
        ensures r[i].0 != r[j].0
      {
        if j == |fields| {
          assert r[i].0 == fields[i].0;
        }
      }
    }
  }

  /** The name of the accessor every plain object inherits from `Object.prototype`. */
  const ProtoKey: string := "__proto__"

  /**
   Assignment `obj[k] = v` on a plain object. Assigning `__proto__` calls the
   inherited setter, which ignores a primitive and replaces the prototype
   with an object, and adds no own property; any other name is defined as
   by `Put`.
   */
  function Assign(fields: seq<(string, Value)>, k: string, v: Value): (r: seq<(string, Value)>)
  {
    if k == ProtoKey then fields else Put(fields, k, v)
  }

  /** Assignment adds exactly its own name, unless that name is `__proto__`, to the names present. */
  lemma AssignKeys(fields: seq<(string, Value)>, k: string, v: Value, j: string)
    ensures HasKey(Assign(fields, k, v), j) <==> HasKey(fields, j) || (j == k && k != ProtoKey)
  {
    if k != ProtoKey {
      PutKeys(fields, k, v, j);
    }
  }

  /** Assignment to any name but `__proto__` reads back, and leaves the other names as they were. */
  lemma AssignThenLookup(fields: seq<(string, Value)>, k: string, v: Value, j: string)
    ensures Lookup(Assign(fields, k, v), j) == if j == k && k != ProtoKey then v else Lookup(fields, j)
  {
    if k != ProtoKey {
      if j == k {
        PutThenLookup(fields, k, v);
      } else {
        PutKeepsOthers(fields, k, v, j);
      }
    }
  }

  /** Assignment keeps the names distinct. */
  lemma AssignKeepsDistinct(fields: seq<(string, Value)>, k: string, v: Value)
    requires DistinctKeys(fields)
    ensures DistinctKeys(Assign(fields, k, v))
  {
    if k != ProtoKey {
      PutKeepsDistinct(fields, k, v);
    }
  }

  /** Names every plain object inherits from `Object.prototype`, so `name in {}` holds for them. */
  const ObjectPrototypeNames: set<string> := {
    "constructor", "hasOwnProperty", "isPrototypeOf", "propertyIsEnumerable",
    "toLocaleString", "toString", "valueOf", "__proto__",
    "__defineGetter__", "__defineSetter__", "__lookupGetter__", "__lookupSetter__"
  }

  /**
   Names every array inherits from `Array.prototype` (as of ECMAScript 2023),
   so `name in []` holds for them as well as for the `Object.prototype` names.
   */
  const ArrayPrototypeNames: set<string> := {
    "at", "concat", "constructor", "copyWithin", "entries", "every", "fill", "filter",
    "find", "findIndex", "findLast", "findLastIndex", "flat", "flatMap", "forEach",
    "includes", "indexOf", "join", "keys", "lastIndexOf", "length", "map", "pop", "push",
    "reduce", "reduceRight", "reverse", "shift", "slice", "some", "sort", "splice",
    "toLocaleString", "toReversed", "toSorted", "toSpliced", "toString", "unshift",
    "values", "with"
  }

  /** The decimal name of an array index, as `String(i)`. */
  predicate IsIndexName(k: string, n: nat) {
    exists i | 0 <= i < n :: k == NatToString(i)
  }

  /** Only text that starts with a digit can name an array index. */
  lemma IndexNameIsDigits(k: string, n: nat)
    requires |k| > 0
    ensures IsIndexName(k, n) ==> '0' <= k[0] <= '9'
  {
    if IsIndexName(k, n) {
      var i :| 0 <= i < n && k == NatToString(i);
    }
  }

  /**
   The `in` operator: own properties, the array's `length` and index names,
   and the names inherited from `Array.prototype` and `Object.prototype`.
   */
  predicate HasProperty(v: Value, k: string) {
    match v
    case Obj(fields) => HasKey(fields, k) || k in ObjectPrototypeNames
    case Arr(items) => IsIndexName(k, |items|) || k in ArrayPrototypeNames || k in ObjectPrototypeNames
    case _ => false
  }

  /** `typeof v === "object"` (note: also true of `null` and of arrays). */
  predicate TypeofObject(v: Value) {
    v.Null? || v.Arr? || v.Obj?
  }

  /** `String(v)`, the conversion used by template literals, `toString()` and `join`. */
  function ToString(v: Value): string
    decreases v, 1
  {
    match v
    case Undefined => "undefined"
    case Null => "null"
    case Bool(b) => if b then "true" else "false"
    case Num(n) => IntToString(n)
    case Str(s) => s
    case Arr(items) => JoinItems(v, items)
    case Obj(_) => "[object Object]"
  }

  /** `Array.prototype.join(",")`: `null` and `undefined` items become empty text. */
  function JoinItems(ghost parent: Value, items: seq<Value>): string
    requires parent.Arr? && |items| <= |parent.items|
    requires items == parent.items[|parent.items| - |items|..]
    decreases parent, 0, |items|
  {
    if |items| == 0 then ""
    else
      var first := if Nullish(items[0]) then "" else ToString(items[0]);
      if |items| == 1 then first else first + "," + JoinItems(parent, items[1..])
  }

  /**
   Whether `String(v)` throws a `TypeError`: an object with an own
   `toString` property that is not a function (JSON data holds no functions)
   has neither a callable `toString` nor a `valueOf` giving a primitive, and
   an array passes on the throw of any item it joins. `ToString` gives the
   text of every other value.
   */
  predicate StringThrows(v: Value) {
    match v
    case Obj(fields) => HasKey(fields, "toString")
    case Arr(items) => exists i | 0 <= i < |items| :: StringThrows(items[i])
    case _ => false
  }

  /**
   The value as `JSON.stringify` writes it: an object leaves out its
   properties holding `undefined`, and an array writes an `undefined` item as
   `null`. Two values have the same JSON text exactly when their forms are
   equal (for objects whose property names are distinct).
   */
  function JsonForm(v: Value): (w: Value)
    ensures w == Undefined <==> v == Undefined
    ensures v.Arr? <==> w.Arr?
    ensures v.Arr? ==> |w.items| == |v.items|
    decreases v, 1
  {
    match v
    case Arr(items) => Arr(JsonItems(v, items))
    case Obj(fields) => Obj(JsonFields(v, fields))
    case _ => v
  }

  /** The items of an array in JSON form, an `undefined` item as `null`. */
  function JsonItems(ghost parent: Value, items: seq<Value>): (r: seq<Value>)
    requires parent.Arr? && |items| <= |parent.items|
    requires items == parent.items[|parent.items| - |items|..]
    ensures |r| == |items|
    decreases parent, 0, |items|
  {
    if |items| == 0 then []
    else [if items[0] == Undefined then Null else JsonForm(items[0])] + JsonItems(parent, items[1..])
  }

  /** The properties of an object in JSON form, leaving out those holding `undefined`. */
  function JsonFields(ghost parent: Value, fields: seq<(string, Value)>): seq<(string, Value)>
    requires parent.Obj? && |fields| <= |parent.fields|
    requires fields == parent.fields[|parent.fields| - |fields|..]
    decreases parent, 0, |fields|
  {
    if |fields| == 0 then []
    else if fields[0].1 == Undefined then JsonFields(parent, fields[1..])
    else [(fields[0].0, JsonForm(fields[0].1))] + JsonFields(parent, fields[1..])
  }

  /** A list of strings as an array value. */
  function StrArr(ss: seq<string>): (r: Value)
    ensures r.Arr? && |r.items| == |ss|
    ensures forall i | 0 <= i < |ss| :: r.items[i] == Str(ss[i])
  {
    Arr(seq(|ss|, i requires 0 <= i < |ss| => Str(ss[i])))
  }

  /** `a.slice(0, end)`: a negative end counts back from the end of the array. */
  function SliceTo<T>(a: seq<T>, end: int): (r: seq<T>)
    ensures end >= 0 ==> r == a[..if end < |a| then end else |a|]
    ensures end < 0 ==> r == a[..if |a| + end > 0 then |a| + end else 0]
  {
    var stop := if end < 0 then (if |a| + end > 0 then |a| + end else 0)
                else (if end < |a| then end else |a|);
    a[..stop]
  }

  /** `a.slice(-n)` for `n > 0`: the last `n` elements, or all of them when there are fewer. */
  function LastN<T>(a: seq<T>, n: nat): (r: seq<T>)
    requires n > 0
    ensures |r| == if |a| < n then |a| else n
    ensures forall i | 0 <= i < |r| :: r[i] == a[|a| - |r| + i]
  {
    if |a| <= n then a else a[|a| - n..]
  }
}

=== FILE: label_tools.dfy ===
/**
 `listLabelsTool` of `TrelloTools/LabelTools/list-labels.ts`: it fetches a
 board's labels, then filters them by colour and cuts them to `limit` on the
 client side before reporting how many it kept.
 */
module LabelTools {
  import opened Strings
  import opened Js
  import opened ToolSupport

  /**
   The tool's arguments. `limit` is any number the schema admits, so it may be
   zero or negative; `filter` and `color` are enumerations, never empty.
   */
  datatype LabelQuery = LabelQuery(boardId: string, fields: Option<seq<string>>, limit: Option<int>,
                                    filter: Option<string>, color: Option<string>)

  /** The `filters` object of the result: each argument, or `null` when falsy. */
  datatype Filters = Filters(color: Value, filter: Value, limit: Value)

  /** The result of a successful call. */
  datatype Labels = Labels(labels: seq<Value>, count: int, totalCount: int, filters: Filters, message: string)

  /** Every name the request can carry. */
  const LabelParams: seq<string> := ["key", "token", "fields", "limit", "filter"]

  function LabelEntries(c: Credentials, a: LabelQuery): (es: Entries)
    requires Configured(c)
    ensures NamedBy(es, LabelParams) && DistinctNames(es)
  {
    var es: Entries := [("key", c.apiKey), ("token", c.apiToken), ("fields", Joined(a.fields)),
                        ("limit", IfNonZero(a.limit)), ("filter", IfGiven(a.filter))];
    assert Distinct(LabelParams);
    NamedDistinct(es, LabelParams);
    es
  }

  /** The GET to `boards/<boardId>/labels`. */
  function LabelsRequest(c: Credentials, a: LabelQuery): (r: Request)
    requires Configured(c)
    ensures r.verb == HttpGet && r.path == "boards/" + a.boardId + "/labels"
    ensures ValuesOf(r.query, "key") == [c.apiKey.value] && ValuesOf(r.query, "token") == [c.apiToken.value]
    ensures ValuesOf(r.query, "fields") == Listed(Joined(a.fields))
    ensures ValuesOf(r.query, "limit") == if a.limit.Some? && a.limit.value != 0 then [IntToString(a.limit.value)] else []
    ensures ValuesOf(r.query, "filter") == if Given(a.filter) then [a.filter.value] else []
    ensures forall k | k !in LabelParams :: ValuesOf(r.query, k) == []
  {
    var es := LabelEntries(c, a);
    PresentValues(es, 0); PresentValues(es, 1); PresentValues(es, 2); PresentValues(es, 3); PresentValues(es, 4);
    SentOnly(es, LabelParams);
    Request(HttpGet, "boards/" + a.boardId + "/labels", Present(es))
  }

  /** `label.color === color` for a label value `l`. */
  predicate HasColor(l: Value, color: string) {
    Get(l, "color") == Str(color)
  }

  /** `a` is `b` with some elements left out, the rest in their order. */
  predicate Subsequence<T(==)>(a: seq<T>, b: seq<T>)
    decreases |b|
  {
    |a| == 0 || (|b| > 0 && if a[0] == b[0] then Subsequence(a[1..], b[1..]) else Subsequence(a, b[1..]))
  }

  lemma {:induction false} SubsequenceShorter<T>(a: seq<T>, b: seq<T>)
    requires Subsequence(a, b)
    ensures |a| <= |b|
    decreases |b|
  {
    if |a| > 0 {
      if a[0] == b[0] {
        SubsequenceShorter(a[1..], b[1..]);
      } else {
        SubsequenceShorter(a, b[1..]);
      }
    }
  }

  /** `labels.filter((label) => label.color === color)` */
  function ByColor(labels: seq<Value>, color: string): (r: seq<Value>)
    ensures Subsequence(r, labels)
    ensures forall i | 0 <= i < |r| :: HasColor(r[i], color)
    ensures forall i | 0 <= i < |labels| && HasColor(labels[i], color) :: labels[i] in r
  {
    if |labels| == 0 then []
    else
      var rest := ByColor(labels[1..], color);
      assert forall i | 1 <= i < |labels| :: labels[i] == labels[1..][i - 1];
      if HasColor(labels[0], color) then [labels[0]] + rest
      else
        assert |rest| > 0 ==> rest[0] != labels[0];
        rest
  }

  /** The filter keeps every label of the colour as many times as it occurs, and drops every other label. */
  lemma {:induction false} ByColorCounts(labels: seq<Value>, color: string, x: Value)
    ensures multiset(ByColor(labels, color))[x] == if HasColor(x, color) then multiset(labels)[x] else 0
  {
    if |labels| > 0 {
      ByColorCounts(labels[1..], color, x);
      assert labels == [labels[0]] + labels[1..];
    }
  }

  /** `if (limit && labels.length > limit) labels = labels.slice(0, limit)` */
  function Capped(labels: seq<Value>, limit: Option<int>): (r: seq<Value>)
    ensures r <= labels
    ensures limit.None? || limit.value == 0 ==> r == labels
    ensures limit.Some? && limit.value > 0 ==> |r| == if |labels| < limit.value then |labels| else limit.value
    ensures limit.Some? && limit.value < 0 ==> |r| == if |labels| + limit.value > 0 then |labels| + limit.value else 0
  {
    if limit.Some? && limit.value != 0 && |labels| > limit.value then SliceTo(labels, limit.value) else labels
  }

  /** The labels the tool returns for the backend's list. */
  function Select(data: seq<Value>, a: LabelQuery): (r: seq<Value>)
    ensures |r| <= |data|
  {
    if Given(a.color) then
      var filtered := ByColor(data, a.color.value);
      SubsequenceShorter(filtered, data);
      Capped(filtered, a.limit)
    else Capped(data, a.limit)
  }

  function SuccessMessage(a: LabelQuery, count: nat): string {
    "Successfully retrieved " + NatToString(count) + " labels from board " + a.boardId
    + (if Given(a.color) then " (filtered by color: " + a.color.value + ")" else "")
    + (if Given(a.filter) then " (filtered by usage: " + a.filter.value + ")" else "")
  }

  function FailureMessage(a: LabelQuery, error: Value): string {
    "Failed to list labels for board \"" + a.boardId + "\". " + ToString(error)
  }

  /** The error outcome of the tool's `catch`. */
  function Caught(a: LabelQuery, f: Fault): (o: Outcome<Labels>)
    ensures o.Failed? && o.statusCode == Some(StatusCode(f))
    ensures f.response.None? ==> o.error == Str(f.message)
    ensures f.response.Some? ==> Truthy(o.error)
  {
    var error := ClassifiedMessage(f, "Failed to list labels");
    Failed(error, Some(StatusCode(f)), FailureMessage(a, error))
  }

  /** The `filters` object: each argument, or `null` when it is absent, empty or zero. */
  function Applied(a: LabelQuery): (f: Filters)
    ensures f.color == (if Given(a.color) then Str(a.color.value) else Null)
    ensures f.filter == (if Given(a.filter) then Str(a.filter.value) else Null)
    ensures f.limit == (if a.limit.Some? && a.limit.value != 0 then Num(a.limit.value) else Null)
  {
    var limit := if a.limit.Some? then Num(a.limit.value) else Undefined;
    Filters(Or(if a.color.Some? then Str(a.color.value) else Undefined, Null),
            Or(if a.filter.Some? then Str(a.filter.value) else Undefined, Null),
            Or(limit, Null))
  }

  /**
   `execute`: without credentials nothing is sent and the thrown message is
   reported with status 500; otherwise the one GET is sent and its answer
   is filtered, cut and counted.
   */
  function ListLabels(c: Credentials, a: LabelQuery, answer: Answer<seq<Value>>): (r: Run<Labels>)
    ensures !Configured(c) ==> r.sent == [] && r.outcome == Caught(a, Thrown(MissingCredentials))
    ensures !Configured(c) ==> r.outcome.error == Str(MissingCredentials) && r.outcome.statusCode == Some(500)
    ensures Configured(c) ==> r.sent == [LabelsRequest(c, a)]
    ensures Configured(c) && answer.Raised? ==> r.outcome == Caught(a, answer.fault)
    ensures Configured(c) && answer.Answered? && Given(a.color) && !Readable(answer.data) ==>
              exists i | 0 <= i < |answer.data| ::
                && Nullish(answer.data[i])
                && r.outcome == Caught(a, ReadFault(answer.data[i], "color"))
                && r.outcome.error == Str(ReadFault(answer.data[i], "color").message)
    ensures Configured(c) && answer.Answered? && (!Given(a.color) || Readable(answer.data)) ==>
              && r.outcome.Done?
              && r.outcome.value.labels == Select(answer.data, a)
              && r.outcome.value.count == |r.outcome.value.labels|
              && r.outcome.value.totalCount == |answer.data|
              && r.outcome.value.count <= r.outcome.value.totalCount
              && r.outcome.value.message == SuccessMessage(a, r.outcome.value.count)
    ensures r.outcome.Done? ==>
              r.outcome.value.filters == Applied(a)
  {
    if !Configured(c) then Run([], Caught(a, Thrown(MissingCredentials)))
    else
      var request := LabelsRequest(c, a);
      match if Given(a.color) then EachTouched(answer, "color") else answer
      case Raised(f) => Run([request], Caught(a, f))
      case Answered(data) =>
        var labels := Select(data, a);
        Run([request], Done(Labels(labels, |labels|, |data|, Applied(a), SuccessMessage(a, |labels|))))
  }

  /**
   With a colour and a list whose every label can be read, every returned
   label has it, and every backend label with it is returned unless cut by
   the limit.
   */
  lemma ColorFilterSound(c: Credentials, a: LabelQuery, data: seq<Value>)
    requires Configured(c) && Given(a.color) && Readable(data)
    ensures forall l | l in ListLabels(c, a, Answered(data)).outcome.value.labels :: HasColor(l, a.color.value)
    ensures a.limit.None? ==>
              forall l | l in data && HasColor(l, a.color.value) :: l in ListLabels(c, a, Answered(data)).outcome.value.labels
  {
    var filtered := ByColor(data, a.color.value);
    assert forall l | l in filtered :: HasColor(l, a.color.value);
  }

  /** A positive limit keeps at most that many labels: the first ones of the filtered list. */
  lemma LimitKeepsFirst(c: Credentials, a: LabelQuery, data: seq<Value>)
    requires Configured(c) && a.limit.Some? && a.limit.value > 0 && (!Given(a.color) || Readable(data))
    ensures var out := ListLabels(c, a, Answered(data)).outcome.value;
            && out.count <= a.limit.value
            && out.labels <= (if Given(a.color) then ByColor(data, a.color.value) else data)
  {
  }

  /**
   A negative limit (which the schema admits) is not a bound: `slice(0, n)`
   then drops the last `-n` labels instead.
   */
  lemma NegativeLimitDropsLast(c: Credentials, a: LabelQuery, data: seq<Value>)
    requires Configured(c) && a.limit.Some? && a.limit.value < 0 && !Given(a.color)
    ensures var out := ListLabels(c, a, Answered(data)).outcome.value;
            out.labels == data[..if |data| + a.limit.value > 0 then |data| + a.limit.value else 0]
  {
  }

  /** Without colour and limit the tool returns exactly the backend's labels. */
  lemma UnfilteredIsBackendData(c: Credentials, a: LabelQuery, data: seq<Value>)
    requires Configured(c) && !Given(a.color) && (a.limit.None? || a.limit.value == 0)
    ensures ListLabels(c, a, Answered(data)).outcome.value.labels == data
    ensures ListLabels(c, a, Answered(data)).outcome.value.count == |data|
  {
  }

  /** A limit of 0 is neither sent nor applied nor echoed: the call behaves as with no limit. */
  lemma ZeroLimitIsNoLimit(c: Credentials, a: LabelQuery, answer: Answer<seq<Value>>)
    requires a.limit == Some(0)
    ensures ListLabels(c, a, answer) == ListLabels(c, a.(limit := None), answer)
  {
  }
}

=== FILE: legacy_trello_service.dfy ===
/**
 The older, uncached Trello service of `lib/trello-service.ts`: the same
 tool lookup, normalisation and error wrapping as the cached service, with
 no cache and no monitoring.
 */
module LegacyTrelloService {
  import opened Js
  import opened Envelope
  import opened ToolRegistry
  import TrelloService
  import Cacheable

  /**
   `executeToolOperation(operation, params)`: an unknown name is reported as
   not found; a thrown value goes through `handleError`; a returned value is
   normalised, and a `null` or `undefined` one makes that throw.
   */
  function Execute(operation: string, outcome: TrelloService.ToolOutcome): (r: Response)
    ensures GetToolByName(operation).Missing? ==> r == CreateErrorResponse("Tool '" + operation + "' not found")
    ensures GetToolByName(operation).Inherited? ==> r == HandleError(ErrorObject(TrelloService.NotAFunction))
    ensures GetToolByName(operation).Registered? ==>
      && (outcome.Threw? ==> r == HandleError(outcome.t))
      && (outcome.Returned? && !Nullish(outcome.v) ==> r == Standardize(outcome.v))
      && (outcome.Returned? && Nullish(outcome.v) ==> r == HandleError(ReadOfNullish(outcome.v, "success")))
    ensures r.Failure? ==> Truthy(r.error) || GetToolByName(operation).Registered?
  {
    var found := GetToolByName(operation);
    if found.Missing? then CreateErrorResponse("Tool '" + operation + "' not found")
    else
      match TrelloService.Run(found, outcome)
      case Threw(t) => HandleError(t)
      case Returned(v) =>
        if Nullish(v) then HandleError(ReadOfNullish(v, "success")) else Standardize(v)
  }

  /**
   For an operation that is not cached the two services give the same
   answer: the cached service differs only in its cache and its logging.
   */
  lemma AgreesWithCachedService(s: TrelloService.Service, operation: string, params: seq<(string, Value)>,
                                requestId: Option<string>, outcome: TrelloService.ToolOutcome,
                                now: int, toolDuration: int, elapsed: int)
    requires TrelloService.Valid(s) && !Cacheable.ShouldCache(operation)
    ensures TrelloService.Execute(s, operation, params, requestId, outcome, now, toolDuration, elapsed).response
      == Execute(operation, outcome)
  {
  }

  /**
   `isConfigured()`: the key and the token, read as `process.env.X || ""`,
   are both non-empty.
   */
  function IsConfigured(apiKey: Option<string>, apiToken: Option<string>): (b: bool)
    ensures b <==> Given(apiKey) && Given(apiToken)
    ensures b ==> OrText(apiKey, "") != "" && OrText(apiToken, "") != ""
  {
    OrText(apiKey, "") != "" && OrText(apiToken, "") != ""
  }
}

=== FILE: list_tools.dfy ===
/**
 `deleteListTool` of `TrelloTools/ListTools/delete-list.ts`: it closes the
 list and, once the reply says it is closed, deletes it, sending the same
 query both times. Its `catch` keeps only a message from the backend, so
 anything the tool throws itself is reported as the default text.
 */
module ListTools {
  import opened Strings
  import opened Js
  import opened ToolSupport

  /** The tool's arguments. */
  datatype ListRemoval = ListRemoval(listId: string, archiveAllCards: Option<bool>)

  /** `archiveAllCards = false`: only an explicit `true` archives. */
  predicate Archives(a: ListRemoval) {
    a.archiveAllCards == Some(true)
  }

  const RemovalParams: seq<string> := ["key", "token", "archiveAllCards"]

  function RemovalEntries(c: Credentials, a: ListRemoval): (es: Entries)
    requires Configured(c)
    ensures NamedBy(es, RemovalParams) && DistinctNames(es)
  {
    var es: Entries := [("key", c.apiKey), ("token", c.apiToken),
                        ("archiveAllCards", if Archives(a) then Some("true") else None)];
    assert Distinct(RemovalParams);
    NamedDistinct(es, RemovalParams);
    es
  }

  /** The query of both requests. */
  function RemovalQuery(c: Credentials, a: ListRemoval): (q: Query)
    requires Configured(c)
    ensures ValuesOf(q, "key") == [c.apiKey.value] && ValuesOf(q, "token") == [c.apiToken.value]
    ensures ValuesOf(q, "archiveAllCards") == (if Archives(a) then ["true"] else [])
    ensures forall k | k !in RemovalParams :: ValuesOf(q, k) == []
  {
    var es := RemovalEntries(c, a);
    PresentValues(es, 0); PresentValues(es, 1); PresentValues(es, 2);
    SentOnly(es, RemovalParams);
    Present(es)
  }

  /** The PUT to `lists/<listId>/closed`. */
  function CloseRequest(c: Credentials, a: ListRemoval): (r: Request)
    requires Configured(c)
    ensures r.verb == HttpPut && r.path == "lists/" + a.listId + "/closed"
  {
    Request(HttpPut, "lists/" + a.listId + "/closed", RemovalQuery(c, a))
  }

  /** The DELETE of `lists/<listId>`. */
  function DeleteRequest(c: Credentials, a: ListRemoval): (r: Request)
    requires Configured(c)
    ensures r.verb == HttpDelete && r.path == "lists/" + a.listId
  {
    Request(HttpDelete, "lists/" + a.listId, RemovalQuery(c, a))
  }

  /** The result of a successful call. */
  datatype Removed = Removed(message: string, listId: string)

  function RemovalCaught(f: Fault): (o: Outcome<Removed>)
    ensures o.Failed? && o.statusCode.None? && Truthy(o.error)
    ensures o.error == MessageOrDefault(f, "Failed to delete list")
    ensures o.message == "Failed to delete list: " + ToString(o.error)
  {
    var error := MessageOrDefault(f, "Failed to delete list");
    Failed(error, None, "Failed to delete list: " + ToString(error))
  }

  /** The answer when the close went through but the list does not report itself closed. */
  const NotClosed: Outcome<Removed> :=
    Failed(Str("Failed to close list before deletion"), None, "Failed to delete list: Could not close the list first")

  function RemovedMessage(a: ListRemoval): string {
    "Successfully deleted list " + a.listId + (if Archives(a) then " and archived all cards" else "")
  }

  /**
   `execute`: the close, then the delete only when the close's reply has a
   truthy `closed`. The delete's reply body is not read.
   */
  function DeleteList(c: Credentials, a: ListRemoval, close: Answer<Value>, delete: Answer<Value>): (r: Run<Removed>)
    ensures !Configured(c) ==> r.sent == [] && r.outcome == RemovalCaught(Thrown(MissingCredentials))
    ensures Configured(c) ==> 1 <= |r.sent| <= 2 && r.sent[0] == CloseRequest(c, a)
    ensures |r.sent| == 2 <==> Configured(c) && close.Answered? && Truthy(Get(close.data, "closed"))
    ensures |r.sent| == 2 ==> r.sent[1] == DeleteRequest(c, a)
    ensures r.outcome.Done? <==> |r.sent| == 2 && delete.Answered?
    ensures r.outcome.Done? ==> r.outcome.value == Removed(RemovedMessage(a), a.listId)
    ensures Configured(c) && close.Raised? ==> r.outcome == RemovalCaught(close.fault)
    ensures Configured(c) && close.Answered? && Nullish(close.data) ==> r.outcome == RemovalCaught(ReadFault(close.data, "closed"))
    ensures Configured(c) && close.Answered? && !Nullish(close.data) && !Truthy(Get(close.data, "closed")) ==>
              r.outcome == NotClosed
    ensures |r.sent| == 2 && delete.Raised? ==> r.outcome == RemovalCaught(delete.fault)
  {
    if !Configured(c) then Run([], RemovalCaught(Thrown(MissingCredentials)))
    else match close
      case Raised(f) => Run([CloseRequest(c, a)], RemovalCaught(f))
      case Answered(data) =>
        if Nullish(data) then Run([CloseRequest(c, a)], RemovalCaught(ReadFault(data, "closed")))
        else if !Truthy(Get(data, "closed")) then Run([CloseRequest(c, a)], NotClosed)
        else match delete
          case Raised(f) => Run([CloseRequest(c, a), DeleteRequest(c, a)], RemovalCaught(f))
          case Answered(_) => Run([CloseRequest(c, a), DeleteRequest(c, a)], Done(Removed(RemovedMessage(a), a.listId)))
  }

  /** Both requests carry the same query, with `archiveAllCards=true` exactly when asked to archive. */
  lemma SameQueryBothTimes(c: Credentials, a: ListRemoval, close: Answer<Value>, delete: Answer<Value>)
    ensures forall r | r in DeleteList(c, a, close, delete).sent ::
              ValuesOf(r.query, "archiveAllCards") == (if Archives(a) then ["true"] else [])
    ensures |DeleteList(c, a, close, delete).sent| == 2 ==>
              DeleteList(c, a, close, delete).sent[0].query == DeleteList(c, a, close, delete).sent[1].query
  {
  }

  /**
   Whatever the tool throws itself is reported as the default text: missing
   credentials and an unreadable reply both read "Failed to delete list".
   */
  lemma OwnErrorsBecomeDefault(c: Credentials, a: ListRemoval, close: Answer<Value>, delete: Answer<Value>)
    requires !Configured(c) || (close.Answered? && Nullish(close.data))
    ensures DeleteList(c, a, close, delete).outcome.error == Str("Failed to delete list")
    ensures DeleteList(c, a, close, delete).outcome.message == "Failed to delete list: Failed to delete list"
  {
    if !Configured(c) {
      CaughtOwnError(MissingCredentials);
    } else {
      CaughtOwnError(ReadFault(close.data, "closed").message);
    }
  }

  /** A fault without a reply is reported as the default text. */
  lemma CaughtOwnError(message: string)
    ensures RemovalCaught(Thrown(message)).error == Str("Failed to delete list")
    ensures RemovalCaught(Thrown(message)).message == "Failed to delete list: Failed to delete list"
  {
    var o := RemovalCaught(Thrown(message));
    assert o.error == Str("Failed to delete list");
    assert ToString(o.error) == "Failed to delete list";
  }

  /** The success message mentions archiving exactly when the cards were to be archived. */
  lemma ArchiveMentionedIffArchived(a: ListRemoval)
    ensures Archives(a) <==> RemovedMessage(a) == "Successfully deleted list " + a.listId + " and archived all cards"
  {
    var base := "Successfully deleted list " + a.listId;
    if !Archives(a) {
      assert |RemovedMessage(a)| == |base| < |base + " and archived all cards"|;
    }
  }
}

=== FILE: member_tools.dfy ===
/**
 `addMemberToBoardTool` of `TrelloTools/MemberTools/add-member-to-board.ts`:
 it invites a person by email or full name with a membership type, after
 checking the credentials and then that one of the two is given.
 */
module MemberTools {
  import opened Strings
  import opened Js
  import opened ToolSupport

  /** The tool's arguments; `memberType` is the schema's `type`. */
  datatype Invitation = Invitation(boardId: string, email: Option<string>, fullName: Option<string>,
                                   memberType: Option<string>)

  const NoIdentity: string := "Either email or fullName must be provided"

  /** `type = "normal"`: the default applies only when the argument is absent. */
  function MemberType(a: Invitation): (t: string)
    ensures a.memberType.None? ==> t == "normal"
    ensures a.memberType.Some? ==> t == a.memberType.value
  {
    if a.memberType.Some? then a.memberType.value else "normal"
  }

  /** Someone to invite: a non-empty email or full name. */
  predicate Identified(a: Invitation) {
    Given(a.email) || Given(a.fullName)
  }

  const MemberParams: seq<string> := ["key", "token", "type", "email", "fullName"]

  function MemberEntries(c: Credentials, a: Invitation): (es: Entries)
    requires Configured(c)
    ensures NamedBy(es, MemberParams) && DistinctNames(es)
  {
    var es: Entries := [("key", c.apiKey), ("token", c.apiToken), ("type", Some(MemberType(a))),
                        ("email", IfGiven(a.email)), ("fullName", IfGiven(a.fullName))];
    assert Distinct(MemberParams);
    NamedDistinct(es, MemberParams);
    es
  }

  /** The PUT to `boards/<boardId>/members`: the type always, email and full name when non-empty. */
  function MemberRequest(c: Credentials, a: Invitation): (r: Request)
    requires Configured(c)
    ensures r.verb == HttpPut && r.path == "boards/" + a.boardId + "/members"
    ensures ValuesOf(r.query, "key") == [c.apiKey.value] && ValuesOf(r.query, "token") == [c.apiToken.value]
    ensures ValuesOf(r.query, "type") == [MemberType(a)]
    ensures ValuesOf(r.query, "email") == Listed(IfGiven(a.email))
    ensures ValuesOf(r.query, "fullName") == Listed(IfGiven(a.fullName))
    ensures forall k | k !in MemberParams :: ValuesOf(r.query, k) == []
  {
    var es := MemberEntries(c, a);
    PresentValues(es, 0); PresentValues(es, 1); PresentValues(es, 2); PresentValues(es, 3); PresentValues(es, 4);
    SentOnly(es, MemberParams);
    Request(HttpPut, "boards/" + a.boardId + "/members", Present(es))
  }

  function MemberCaught(a: Invitation, f: Fault): (o: Outcome<string>)
    ensures o.Failed? && o.statusCode.None? && Truthy(o.error)
    ensures o.error == MessageOrThrown(f, "Failed to add member to board")
    ensures o.message == "Failed to add member to board \"" + a.boardId + "\". " + ToString(o.error)
  {
    var error := MessageOrThrown(f, "Failed to add member to board");
    Failed(error, None, "Failed to add member to board \"" + a.boardId + "\". " + ToString(error))
  }

  /**
   `execute`, with the success payload reduced to its message: the
   credentials are checked first, then the identity, and only then is the
   one PUT sent.
   */
  function AddMember(c: Credentials, a: Invitation, answer: Answer<Value>): (r: Run<string>)
    ensures r.sent != [] <==> Configured(c) && Identified(a)
    ensures !Configured(c) ==> r.outcome == MemberCaught(a, Thrown(MissingCredentials))
    ensures Configured(c) && !Identified(a) ==> r.outcome == MemberCaught(a, Thrown(NoIdentity))
    ensures Configured(c) && Identified(a) ==> r.sent == [MemberRequest(c, a)]
    ensures Configured(c) && Identified(a) && answer.Raised? ==> r.outcome == MemberCaught(a, answer.fault)
    ensures Configured(c) && Identified(a) && answer.Answered? && Nullish(answer.data) ==>
              r.outcome == MemberCaught(a, ReadFault(answer.data, "id"))
    ensures Configured(c) && Identified(a) && answer.Answered? && !Nullish(answer.data) ==>
              r.outcome == Done("Successfully added member to board " + a.boardId)
  {
    if !Configured(c) then Run([], MemberCaught(a, Thrown(MissingCredentials)))
    else if !Identified(a) then Run([], MemberCaught(a, Thrown(NoIdentity)))
    else match Touched(answer, "id")
      case Raised(f) => Run([MemberRequest(c, a)], MemberCaught(a, f))
      case Answered(_) => Run([MemberRequest(c, a)], Done("Successfully added member to board " + a.boardId))
  }

  /** Every invitation sent names the person: by email, by full name, or both. */
  lemma SentInvitationNamesSomeone(c: Credentials, a: Invitation, answer: Answer<Value>)
    ensures forall r | r in AddMember(c, a, answer).sent ::
              ValuesOf(r.query, "email") != [] || ValuesOf(r.query, "fullName") != []
  {
  }

  /** Missing credentials are reported even when the identity is missing too. */
  lemma CredentialsCheckedFirst(c: Credentials, a: Invitation, answer: Answer<Value>)
    requires !Configured(c) && !Identified(a)
    ensures AddMember(c, a, answer).outcome.error == Str(MissingCredentials)
  {
  }

  /** Without a type the member joins as a normal member. */
  lemma NormalByDefault(c: Credentials, a: Invitation)
    requires Configured(c) && a.memberType.None?
    ensures ValuesOf(MemberRequest(c, a).query, "type") == ["normal"]
  {
  }
}

=== FILE: monitoring_service.dfy ===
/**
 The request monitor of `lib/Services/monitoring-service.ts`: a bounded log
 of requests kept in insertion order (a JavaScript `Map` keyed by request
 id), each with the tool calls made for it, and a bounded list of recent
 errors. The clock is a parameter; console output is not modelled.
 */
module MonitoringService {
  import opened Js

  const MaxRequests: nat := 1000
  const MaxErrors: nat := 100
  /** How many recent errors `getMetrics` reports. */
  const ReportedErrors: nat := 10
  const DefaultLogLimit: int := 50

  datatype ToolCall = ToolCall(toolName: string, duration: int, success: bool, error: Option<string>)

  datatype RequestLog = RequestLog(
    id: string,
    ip: string,
    httpMethod: string,
    url: string,
    userAgent: Option<string>,
    startTime: int,
    endTime: Option<int>,
    duration: Option<int>,
    statusCode: Option<int>,
    error: Option<string>,
    toolCalls: Option<seq<ToolCall>>)

  datatype ErrorEntry = ErrorEntry(timestamp: int, error: string, ip: string)

  /** `requests` lists the map's values oldest first. */
  datatype Monitor = Monitor(requests: seq<RequestLog>, recentErrors: seq<ErrorEntry>)

  function Empty(): (m: Monitor)
    ensures Wf(m) && |m.requests| == 0 && |m.recentErrors| == 0
  {
    Monitor([], [])
  }

  predicate UniqueIds(rs: seq<RequestLog>) {
    forall i, j | 0 <= i < j < |rs| :: rs[i].id != rs[j].id
  }

  predicate Wf(m: Monitor) {
    UniqueIds(m.requests) && |m.recentErrors| <= MaxErrors
  }

  predicate HasId(rs: seq<RequestLog>, id: string) {
    exists i | 0 <= i < |rs| :: rs[i].id == id
  }

  /** Position of the log with this id, or `|rs|` when there is none. */
  function Find(rs: seq<RequestLog>, id: string): (i: nat)
    ensures i <= |rs|
    ensures i < |rs| ==> rs[i].id == id
    ensures forall j | 0 <= j < i :: rs[j].id != id
  {
    if |rs| == 0 then 0
    else if rs[0].id == id then 0
    else 1 + Find(rs[1..], id)
  }

  /** The log stored under `id`, as `requests.get(id)`. */
  function Get(m: Monitor, id: string): (r: Option<RequestLog>)
    ensures r.None? <==> !HasId(m.requests, id)
    ensures r.Some? ==> r.value in m.requests && r.value.id == id
  {
    var i := Find(m.requests, id);
    if i < |m.requests| then Some(m.requests[i]) else None
  }

  /** `requests.set(id, log)` on a map in insertion order: an existing id keeps its place. */
  function Store(rs: seq<RequestLog>, log: RequestLog): (r: seq<RequestLog>)
    ensures HasId(rs, log.id) ==> |r| == |rs|
    ensures !HasId(rs, log.id) ==> r == rs + [log]
    ensures forall j | 0 <= j < |rs| :: r[j] == (if rs[j].id == log.id && Find(rs, log.id) == j then log else rs[j])
    ensures UniqueIds(rs) ==> UniqueIds(r)
    ensures log in r
  {
    var i := Find(rs, log.id);
    if i < |rs| then rs[i := log] else rs + [log]
  }

  /** At most 1000 logs. */
  predicate Bounded(m: Monitor) {
    |m.requests| <= MaxRequests
  }

  function NewLog(id: string, ip: string, httpMethod: string, url: string, userAgent: Option<string>, now: int): RequestLog {
    RequestLog(id, ip, httpMethod, url, userAgent, now, None, None, None, None, None)
  }

  /**
   `startRequest(id, ip, httpMethod, url, userAgent)` at time `now`. The new log
   replaces any log with the same id in place; when the map then holds more
   than 1000 logs the oldest goes, unless its id is the empty string, which
   the source's truthiness test skips.
   */
  function StartRequest(m: Monitor, id: string, ip: string, httpMethod: string, url: string, userAgent: Option<string>, now: int): (r: Monitor)
    ensures r.recentErrors == m.recentErrors
    ensures Wf(m) ==> Wf(r)
    ensures Bounded(m) ==> Get(r, id) == Some(NewLog(id, ip, httpMethod, url, userAgent, now))
    ensures Bounded(m) && (|m.requests| > 0 ==> m.requests[0].id != "") ==> Bounded(r)
    ensures forall l | l in r.requests :: l in m.requests || l == NewLog(id, ip, httpMethod, url, userAgent, now)
    ensures forall j | 0 < j < |m.requests| && m.requests[j].id != id :: m.requests[j] in r.requests
    ensures |m.requests| > 0 && m.requests[0].id != id && m.requests[0] !in r.requests ==>
      |m.requests| >= MaxRequests && m.requests[0].id != ""
  {
    m.(requests := Admit(m.requests, NewLog(id, ip, httpMethod, url, userAgent, now)))
  }

  /** The log list after storing `log`, with the oldest dropped when the list grew past the bound. */
  function Admit(rs: seq<RequestLog>, log: RequestLog): (r: seq<RequestLog>)
    ensures UniqueIds(rs) ==> UniqueIds(r)
    ensures |rs| <= MaxRequests ==> Find(r, log.id) < |r| && r[Find(r, log.id)] == log
    ensures |rs| <= MaxRequests && (|rs| > 0 ==> rs[0].id != "") ==> |r| <= MaxRequests
    ensures forall l | l in r :: l in rs || l == log
    ensures forall j | 0 < j < |rs| && rs[j].id != log.id :: rs[j] in r
    ensures |rs| > 0 && rs[0].id != log.id && rs[0] !in r ==> |rs| >= MaxRequests && rs[0].id != ""
  {
    var stored := Store(rs, log);
    if |stored| > MaxRequests && stored[0].id != "" then
      AdmitDropping(rs, log);
      stored[1..]
    else
      StoreFinds(rs, log);
      stored
  }

  /** Storing makes the log the one `Find` reaches under its id. */
  lemma StoreFinds(rs: seq<RequestLog>, log: RequestLog)
    ensures Find(Store(rs, log), log.id) < |Store(rs, log)| && Store(rs, log)[Find(Store(rs, log), log.id)] == log
  {
    var r := Store(rs, log);
    var i := Find(rs, log.id);
    if i < |rs| {
      assert r[i] == log;
      assert Find(r, log.id) == i;
    } else {
      assert r[|rs|] == log;
    }
  }

  /** When storing grows the list past the bound, the log was new and sits after the dropped oldest. */
  lemma AdmitDropping(rs: seq<RequestLog>, log: RequestLog)
    requires |Store(rs, log)| > MaxRequests && Store(rs, log)[0].id != ""
    ensures var r := Store(rs, log)[1..];
      && (UniqueIds(rs) ==> UniqueIds(r))
      && (|rs| <= MaxRequests ==> Find(r, log.id) < |r| && r[Find(r, log.id)] == log)
      && (|rs| <= MaxRequests ==> |r| <= MaxRequests)
      && (forall l | l in r :: l in rs || l == log)
      && (forall j | 0 < j < |rs| && rs[j].id != log.id :: rs[j] in r)
      && (|rs| > 0 && rs[0].id != log.id && rs[0] !in r ==> |rs| >= MaxRequests)
  {
    var stored := Store(rs, log);
    var r := stored[1..];
    UniqueIdsTail(stored);
    forall l | l in r
      ensures l in rs || l == log
    {
      var k :| 0 <= k < |r| && r[k] == l;
      assert stored[k + 1] == l;
    }
    forall j | 0 < j < |rs| && rs[j].id != log.id
      ensures rs[j] in r
    {
      assert stored[j] == rs[j] && r[j - 1] == rs[j];
    }
    if |rs| <= MaxRequests {
      assert !HasId(rs, log.id);
      assert stored == rs + [log];
      NewLast(rs, log);
    }
  }

  /** Dropping the oldest log keeps the ids unique. */
  lemma UniqueIdsTail(rs: seq<RequestLog>)
    requires |rs| > 0
    ensures UniqueIds(rs) ==> UniqueIds(rs[1..])
  {
    if UniqueIds(rs) {
      forall i, j | 0 <= i < j < |rs| - 1
        ensures rs[1..][i].id != rs[1..][j].id
      {
        assert rs[1..][i] == rs[i + 1] && rs[1..][j] == rs[j + 1];
      }
    }
  }

  /** A log appended under a new id is the one `Find` reaches, also once the oldest is dropped. */
  lemma NewLast(rs: seq<RequestLog>, log: RequestLog)
    requires |rs| > 0 && !HasId(rs, log.id)
    ensures var r := (rs + [log])[1..]; Find(r, log.id) < |r| && r[Find(r, log.id)] == log
  {
    var r := (rs + [log])[1..];
    assert r[|r| - 1] == log;
    forall j | 0 <= j < |r| - 1
      ensures r[j].id != log.id
    {
      assert r[j] == rs[j + 1];
    }
  }


  /**
   The private `logError(error, ip)` at time `now`: append one entry and keep
   only the most recent 100.
   */
  function LogError(errors: seq<ErrorEntry>, error: string, ip: string, now: int): (r: seq<ErrorEntry>)
    ensures |errors| <= MaxErrors ==> |r| == if |errors| < MaxErrors then |errors| + 1 else MaxErrors
    ensures |r| <= MaxErrors && |r| > 0
    ensures r[|r| - 1] == ErrorEntry(now, error, ip)
    ensures forall i | 0 <= i < |r| - 1 :: r[i] == errors[|errors| - |r| + 1 + i]
  {
    var pushed := errors + [ErrorEntry(now, error, ip)];
    if |pushed| > MaxErrors then LastN(pushed, MaxErrors) else pushed
  }

  /**
   `endRequest(id, statusCode, error, toolCalls)` at time `now`. An unknown id
   changes nothing. Otherwise the log records the end time, the duration
   since its start, the status and the error, and its tool calls become the
   `toolCalls` argument, so calls logged earlier are dropped when none are
   passed. A non-empty error is also added to the recent errors.
   */
  function EndRequest(m: Monitor, id: string, statusCode: int, error: Option<string>, toolCalls: Option<seq<ToolCall>>, now: int): (r: Monitor)
    ensures !HasId(m.requests, id) ==> r == m
    ensures HasId(m.requests, id) ==>
      var i := Find(m.requests, id);
      var prior := m.requests[i];
      && |r.requests| == |m.requests|
      && r.requests[i] == prior.(endTime := Some(now), duration := Some(now - prior.startTime),
                               statusCode := Some(statusCode), error := error, toolCalls := toolCalls)
      && (forall j | 0 <= j < |m.requests| && j != i :: r.requests[j] == m.requests[j])
      && r.recentErrors == (if Given(error) then LogError(m.recentErrors, error.value, prior.ip, now) else m.recentErrors)
    ensures Wf(m) ==> Wf(r)
  {
    var i := Find(m.requests, id);
    if i == |m.requests| then m
    else
      var prior := m.requests[i];
      var ended := prior.(endTime := Some(now), duration := Some(now - prior.startTime),
                        statusCode := Some(statusCode), error := error, toolCalls := toolCalls);
      var errors := if Given(error) then LogError(m.recentErrors, error.value, prior.ip, now) else m.recentErrors;
      Monitor(m.requests[i := ended], errors)
  }

  /** The tool calls of a log, `[]` when it has none yet. */
  function CallsOf(l: RequestLog): seq<ToolCall> {
    if l.toolCalls.Some? then l.toolCalls.value else []
  }

  /**
   `logToolExecution(requestId, toolName, duration, success, error)`: an
   unknown id changes nothing; otherwise exactly one call is appended to that
   log's calls, after the earlier ones.
   */
  function LogToolExecution(m: Monitor, id: string, toolName: string, duration: int, success: bool, error: Option<string>): (r: Monitor)
    ensures !HasId(m.requests, id) ==> r == m
    ensures HasId(m.requests, id) ==>
      var i := Find(m.requests, id);
      && |r.requests| == |m.requests|
      && r.requests[i] == m.requests[i].(toolCalls := Some(CallsOf(m.requests[i]) + [ToolCall(toolName, duration, success, error)]))
      && (forall j | 0 <= j < |m.requests| && j != i :: r.requests[j] == m.requests[j])
    ensures r.recentErrors == m.recentErrors
    ensures Wf(m) ==> Wf(r)
  {
    var i := Find(m.requests, id);
    if i == |m.requests| then m
    else
      var l := m.requests[i];
      m.(requests := m.requests[i := l.(toolCalls := Some(CallsOf(l) + [ToolCall(toolName, duration, success, error)]))])
  }

  /**
   Logging a tool call and then ending the request without a `toolCalls`
   argument leaves the log with no tool calls at all: the call just logged
   is lost.
   */
  lemma EndRequestDropsLoggedCalls(m: Monitor, id: string, call: ToolCall, statusCode: int, now: int)
    requires HasId(m.requests, id)
    ensures var logged := LogToolExecution(m, id, call.toolName, call.duration, call.success, call.error);
      var ended := EndRequest(logged, id, statusCode, None, None, now);
      call in CallsOf(logged.requests[Find(m.requests, id)])
      && Get(ended, id).Some? && Get(ended, id).value.toolCalls == None
  {
    var logged := LogToolExecution(m, id, call.toolName, call.duration, call.success, call.error);
    var i := Find(m.requests, id);
    assert Find(logged.requests, id) == i by {
      FindSamePrefix(m.requests, logged.requests, id, i);
    }
  }

  /** Two lists that agree on ids before `i`, with `id` at `i` in both, find `id` at `i`. */
  lemma {:induction false} FindSamePrefix(a: seq<RequestLog>, b: seq<RequestLog>, id: string, i: nat)
    requires i < |a| && i < |b| && a[i].id == id && b[i].id == id
    requires forall j | 0 <= j < i :: a[j].id == b[j].id
    requires Find(a, id) == i
    ensures Find(b, id) == i
  {
    if i > 0 {
      FindSamePrefix(a[1..], b[1..], id, i - 1);
    }
  }

  /**
   The corrected `endRequest`: the tool calls passed in are added after
   those already logged, so nothing logged by `logToolExecution` is lost.
   */
  function EndRequestKeepingCalls(m: Monitor, id: string, statusCode: int, error: Option<string>, toolCalls: Option<seq<ToolCall>>, now: int): (r: Monitor)
    ensures !HasId(m.requests, id) ==> r == m
    ensures HasId(m.requests, id) ==>
      var i := Find(m.requests, id);
      && |r.requests| == |m.requests|
      && r.requests[i].endTime == Some(now)
      && r.requests[i].statusCode == Some(statusCode)
      && CallsOf(r.requests[i]) == CallsOf(m.requests[i]) + (if toolCalls.Some? then toolCalls.value else [])
      && (forall j | 0 <= j < |m.requests| && j != i :: r.requests[j] == m.requests[j])
  {
    var i := Find(m.requests, id);
    if i == |m.requests| then m
    else
      var calls := CallsOf(m.requests[i]) + (if toolCalls.Some? then toolCalls.value else []);
      var ended := EndRequest(m, id, statusCode, error, Some(calls), now);
      ended
  }

  /** With the corrected `endRequest`, a logged tool call survives the end of its request. */
  lemma EndRequestKeepingCallsKeepsLogged(m: Monitor, id: string, call: ToolCall, statusCode: int, now: int)
    requires HasId(m.requests, id)
    ensures var logged := LogToolExecution(m, id, call.toolName, call.duration, call.success, call.error);
      var ended := EndRequestKeepingCalls(logged, id, statusCode, None, None, now);
      call in CallsOf(ended.requests[Find(m.requests, id)])
  {
    var logged := LogToolExecution(m, id, call.toolName, call.duration, call.success, call.error);
    var i := Find(m.requests, id);
    FindSamePrefix(m.requests, logged.requests, id, i);
    assert call == (CallsOf(m.requests[i]) + [call])[|CallsOf(m.requests[i])|];
  }

  /* ---------------------------------------------------------------------
     Metrics: the integer parts of `getMetrics`.
     --------------------------------------------------------------------- */

  /** A request is completed once `endTime` is set. */
  predicate Completed(l: RequestLog) {
    l.endTime.Some?
  }

  /** `r.statusCode && r.statusCode < 400`: a status of 0 or none is not a success. */
  predicate Successful(l: RequestLog) {
    l.statusCode.Some? && l.statusCode.value != 0 && l.statusCode.value < 400
  }

  /** 1 for a log that counts, 0 for one that does not. */
  function Tally(b: bool): nat {
    if b then 1 else 0
  }

  /** How many logs have ended. */
  function CountCompleted(rs: seq<RequestLog>): (n: nat)
    ensures n <= |rs|
  {
    if |rs| == 0 then 0 else Tally(Completed(rs[0])) + CountCompleted(rs[1..])
  }

  /** How many logs have ended with a success. */
  function CountSuccessful(rs: seq<RequestLog>): (n: nat)
    ensures n <= CountCompleted(rs)
  {
    if |rs| == 0 then 0 else Tally(Completed(rs[0]) && Successful(rs[0])) + CountSuccessful(rs[1..])
  }

  /** No log is counted exactly when none has ended, and all are exactly when all have. */
  lemma {:induction false} CompletedCount(rs: seq<RequestLog>)
    ensures CountCompleted(rs) == 0 <==> forall l | l in rs :: !Completed(l)
    ensures CountCompleted(rs) == |rs| <==> forall l | l in rs :: Completed(l)
  {
    if |rs| > 0 {
      CompletedCount(rs[1..]);
      assert forall l | l in rs :: l == rs[0] || l in rs[1..];
    }
  }

  /** Every ended log counts as a success exactly when every ended log has a success status. */
  lemma {:induction false} SuccessfulCount(rs: seq<RequestLog>)
    ensures CountSuccessful(rs) == CountCompleted(rs) <==> forall l | l in rs && Completed(l) :: Successful(l)
  {
    if |rs| > 0 {
      SuccessfulCount(rs[1..]);
      assert forall l | l in rs :: l == rs[0] || l in rs[1..];
    }
  }

  datatype Metrics = Metrics(totalRequests: nat, successfulRequests: nat, failedRequests: int, recentErrors: seq<ErrorEntry>)

  /**
   `getMetrics()`, integer parts: only completed requests count; the failed
   ones are the completed ones without a success; at most the last ten
   errors are reported.
   */
  function GetMetrics(m: Monitor): (r: Metrics)
    ensures r.totalRequests <= |m.requests|
    ensures r.totalRequests == 0 <==> forall l | l in m.requests :: !Completed(l)
    ensures r.totalRequests == |m.requests| <==> forall l | l in m.requests :: Completed(l)
    ensures r.successfulRequests + r.failedRequests == r.totalRequests
    ensures 0 <= r.failedRequests <= r.totalRequests
    ensures r.failedRequests == 0 <==> forall l | l in m.requests && Completed(l) :: Successful(l)
    ensures |r.recentErrors| <= ReportedErrors
    ensures |r.recentErrors| == if |m.recentErrors| < ReportedErrors then |m.recentErrors| else ReportedErrors
    ensures forall i | 0 <= i < |r.recentErrors| :: r.recentErrors[i] == m.recentErrors[|m.recentErrors| - |r.recentErrors| + i]
  {
    var total := CountCompleted(m.requests);
    var ok := CountSuccessful(m.requests);
    CompletedCount(m.requests);
    SuccessfulCount(m.requests);
    Metrics(total, ok, total - ok, LastN(m.recentErrors, ReportedErrors))
  }

  /** A request not yet ended, wherever it sits, counts neither as a success nor as a failure. */
  lemma {:induction false} UnfinishedNotCounted(a: seq<RequestLog>, l: RequestLog, b: seq<RequestLog>)
    requires !Completed(l)
    ensures CountCompleted(a + [l] + b) == CountCompleted(a + b)
    ensures CountSuccessful(a + [l] + b) == CountSuccessful(a + b)
  {
    if |a| == 0 {
      assert a + [l] + b == [l] + b && ([l] + b)[1..] == b && a + b == b;
    } else {
      assert (a + [l] + b)[1..] == a[1..] + [l] + b;
      assert (a + b)[1..] == a[1..] + b;
      assert (a + [l] + b)[0] == (a + b)[0];
      UnfinishedNotCounted(a[1..], l, b);
    }
  }

  /** Replacing one log changes each count by what the new log counts less what the old one counted. */
  lemma CountsAfterUpdate(rs: seq<RequestLog>, i: nat, l: RequestLog)
    requires i < |rs|
    ensures CountCompleted(rs[i := l]) + Tally(Completed(rs[i])) == CountCompleted(rs) + Tally(Completed(l))
    ensures CountSuccessful(rs[i := l]) + Tally(Completed(rs[i]) && Successful(rs[i]))
         == CountSuccessful(rs) + Tally(Completed(l) && Successful(l))
  {
    CompletedAfterUpdate(rs, i, l);
    SuccessfulAfterUpdate(rs, i, l);
  }

  lemma {:induction false} CompletedAfterUpdate(rs: seq<RequestLog>, i: nat, l: RequestLog)
    requires i < |rs|
    ensures CountCompleted(rs[i := l]) + Tally(Completed(rs[i])) == CountCompleted(rs) + Tally(Completed(l))
  {
    var r := rs[i := l];
    assert CountCompleted(r) == Tally(Completed(r[0])) + CountCompleted(r[1..]);
    if i == 0 {
      assert r[0] == l && r[1..] == rs[1..];
    } else {
      assert r[0] == rs[0] && r[1..] == rs[1..][i - 1 := l];
      CompletedAfterUpdate(rs[1..], i - 1, l);
    }
  }

  lemma {:induction false} SuccessfulAfterUpdate(rs: seq<RequestLog>, i: nat, l: RequestLog)
    requires i < |rs|
    ensures CountSuccessful(rs[i := l]) + Tally(Completed(rs[i]) && Successful(rs[i]))
         == CountSuccessful(rs) + Tally(Completed(l) && Successful(l))
  {
    var r := rs[i := l];
    assert CountSuccessful(r) == Tally(Completed(r[0]) && Successful(r[0])) + CountSuccessful(r[1..]);
    if i == 0 {
      assert r[0] == l && r[1..] == rs[1..];
    } else {
      assert r[0] == rs[0] && r[1..] == rs[1..][i - 1 := l];
      SuccessfulAfterUpdate(rs[1..], i - 1, l);
    }
  }

  /**
   Ending a request that had not ended adds one to the completed requests,
   and one to the successful ones exactly when its status is a truthy number
   below 400.
   */
  lemma EndRequestCounted(m: Monitor, id: string, statusCode: int, error: Option<string>, toolCalls: Option<seq<ToolCall>>, now: int)
    requires Get(m, id).Some? && !Completed(Get(m, id).value)
    ensures var before := GetMetrics(m);
      var after := GetMetrics(EndRequest(m, id, statusCode, error, toolCalls, now));
      && after.totalRequests == before.totalRequests + 1
      && after.successfulRequests == before.successfulRequests + (if statusCode != 0 && statusCode < 400 then 1 else 0)
  {
    var i := Find(m.requests, id);
    var r := EndRequest(m, id, statusCode, error, toolCalls, now);
    assert r.requests == m.requests[i := r.requests[i]];
    CountsAfterUpdate(m.requests, i, r.requests[i]);
  }

  /** Logging a tool call changes nothing `getMetrics` reports. */
  lemma LogToolExecutionNotCounted(m: Monitor, id: string, toolName: string, duration: int, success: bool, error: Option<string>)
    ensures GetMetrics(LogToolExecution(m, id, toolName, duration, success, error)) == GetMetrics(m)
  {
    var r := LogToolExecution(m, id, toolName, duration, success, error);
    if HasId(m.requests, id) {
      var i := Find(m.requests, id);
      assert r.requests == m.requests[i := r.requests[i]];
      CountsAfterUpdate(m.requests, i, r.requests[i]);
    }
  }

  /** Starting a request under a new id, with room to spare, changes nothing `getMetrics` reports. */
  lemma StartRequestNotCounted(m: Monitor, id: string, ip: string, httpMethod: string, url: string, userAgent: Option<string>, now: int)
    requires !HasId(m.requests, id) && |m.requests| < MaxRequests
    ensures GetMetrics(StartRequest(m, id, ip, httpMethod, url, userAgent, now)) == GetMetrics(m)
  {
    var log := NewLog(id, ip, httpMethod, url, userAgent, now);
    AdmitAppends(m.requests, log);
    AppendedNotCounted(m, StartRequest(m, id, ip, httpMethod, url, userAgent, now), log);
  }

  /** A monitor that differs only by an unfinished log appended last reports the same metrics. */
  lemma AppendedNotCounted(m: Monitor, r: Monitor, l: RequestLog)
    requires r == m.(requests := m.requests + [l]) && !Completed(l)
    ensures GetMetrics(r) == GetMetrics(m)
  {
    UnfinishedAppended(m.requests, l);
  }

  /** An unfinished log appended last changes neither count. */
  lemma UnfinishedAppended(rs: seq<RequestLog>, l: RequestLog)
    requires !Completed(l)
    ensures CountCompleted(rs + [l]) == CountCompleted(rs) && CountSuccessful(rs + [l]) == CountSuccessful(rs)
  {
    UnfinishedNotCounted(rs, l, []);
    assert rs + [l] + [] == rs + [l] && rs + [] == rs;
  }

  /** A log under a new id, with room to spare, is simply appended. */
  lemma AdmitAppends(rs: seq<RequestLog>, log: RequestLog)
    requires !HasId(rs, log.id) && |rs| < MaxRequests
    ensures Admit(rs, log) == rs + [log]
  {
    assert Store(rs, log) == rs + [log];
  }

  /* ---------------------------------------------------------------------
     Request logs, newest first.
     --------------------------------------------------------------------- */

  /** Non-increasing start times. */
  predicate NewestFirst(s: seq<RequestLog>) {
    forall i, j | 0 <= i < j < |s| :: s[i].startTime >= s[j].startTime
  }

  /** Insert `x` before the first log that started no later, so that among equal start times earlier entries stay first. */
  function InsertByStart(x: RequestLog, s: seq<RequestLog>): (r: seq<RequestLog>)
    ensures |r| == |s| + 1
    ensures r[0] == x || (|s| > 0 && r[0] == s[0])
  {
    if |s| == 0 then [x]
    else if s[0].startTime <= x.startTime then [x] + s
    else [s[0]] + InsertByStart(x, s[1..])
  }

  lemma {:induction false} InsertPermutes(x: RequestLog, s: seq<RequestLog>)
    ensures multiset(InsertByStart(x, s)) == multiset(s) + multiset{x}
  {
    if |s| > 0 && s[0].startTime > x.startTime {
      InsertPermutes(x, s[1..]);
      assert s == [s[0]] + s[1..];
    }
  }

  lemma {:induction false} InsertKeepsOrder(x: RequestLog, s: seq<RequestLog>)
    requires NewestFirst(s)
    ensures NewestFirst(InsertByStart(x, s))
  {
    if |s| > 0 && s[0].startTime > x.startTime {
      var rest := InsertByStart(x, s[1..]);
      InsertKeepsOrder(x, s[1..]);
      InsertPermutes(x, s[1..]);
      forall j | 0 <= j < |rest| ensures s[0].startTime >= rest[j].startTime {
        assert rest[j] in multiset(rest);
        if rest[j] != x {
          assert rest[j] in s[1..];
        }
      }
    }
  }

  /** The stable sort by `b.startTime - a.startTime`. */
  function SortNewestFirst(s: seq<RequestLog>): (r: seq<RequestLog>)
    ensures |r| == |s|
  {
    if |s| == 0 then [] else InsertByStart(s[0], SortNewestFirst(s[1..]))
  }

  /** The sort orders the logs newest first and neither loses nor adds any. */
  lemma {:induction false} SortSortsAndPermutes(s: seq<RequestLog>)
    ensures NewestFirst(SortNewestFirst(s))
    ensures multiset(SortNewestFirst(s)) == multiset(s)
  {
    if |s| > 0 {
      var rest := SortNewestFirst(s[1..]);
      assert SortNewestFirst(s) == InsertByStart(s[0], rest);
      SortSortsAndPermutes(s[1..]);
      InsertKeepsOrder(s[0], rest);
      InsertPermutes(s[0], rest);
      assert s == [s[0]] + s[1..];
      assert multiset(s) == multiset(s[1..]) + multiset{s[0]};
    }
  }

  /**
   `getRequestLogs(limit)` (50 when not given): the logs newest first, cut to
   `limit`; a negative limit drops that many from the end, as `slice` does.
   The logs kept started no earlier than any log left out.
   */
  function GetRequestLogs(m: Monitor, limit: Option<int>): (r: seq<RequestLog>)
    ensures NewestFirst(r)
    ensures multiset(r) <= multiset(m.requests)
    ensures |r| == |SliceTo(m.requests, if limit.Some? then limit.value else DefaultLogLimit)|
    ensures (if limit.Some? then limit.value else DefaultLogLimit) >= |m.requests| ==> multiset(r) == multiset(m.requests)
    ensures forall x, y | x in r && y in multiset(m.requests) - multiset(r) :: x.startTime >= y.startTime
  {
    var n := if limit.Some? then limit.value else DefaultLogLimit;
    var sorted := SortNewestFirst(m.requests);
    var k := |SliceTo(m.requests, n)|;
    assert SliceTo(sorted, n) == sorted[..k];
    SortedPrefix(m.requests, k);
    SliceTo(sorted, n)
  }

  /** The first `k` logs of the sorted list: newest first, taken from the list, and the newest of them. */
  lemma SortedPrefix(rs: seq<RequestLog>, k: nat)
    requires k <= |rs|
    ensures NewestFirst(SortNewestFirst(rs)[..k])
    ensures multiset(SortNewestFirst(rs)[..k]) <= multiset(rs)
    ensures k == |rs| ==> multiset(SortNewestFirst(rs)[..k]) == multiset(rs)
    ensures forall x, y | x in SortNewestFirst(rs)[..k] && y in multiset(rs) - multiset(SortNewestFirst(rs)[..k]) ::
      x.startTime >= y.startTime
  {
    var sorted := SortNewestFirst(rs);
    SortSortsAndPermutes(rs);
    PrefixKeeps(sorted, k);
    PrefixIsNewest(sorted, k);
    assert k == |rs| ==> sorted[..k] == sorted;
  }

  /** A prefix of a newest-first list is newest first and takes its logs from the list. */
  lemma PrefixKeeps(s: seq<RequestLog>, k: nat)
    requires k <= |s| && NewestFirst(s)
    ensures NewestFirst(s[..k])
    ensures multiset(s[..k]) <= multiset(s)
  {
    assert s == s[..k] + s[k..];
  }

  /** In a newest-first list, a prefix holds logs that started no earlier than any log after it. */
  lemma PrefixIsNewest(s: seq<RequestLog>, k: nat)
    requires k <= |s| && NewestFirst(s)
    ensures forall x, y | x in s[..k] && y in multiset(s) - multiset(s[..k]) :: x.startTime >= y.startTime
  {
    assert s == s[..k] + s[k..];
    assert multiset(s) - multiset(s[..k]) == multiset(s[k..]);
    forall x, y | x in s[..k] && y in multiset(s) - multiset(s[..k])
      ensures x.startTime >= y.startTime
    {
      var i :| 0 <= i < k && s[..k][i] == x;
      var j :| 0 <= j < |s| - k && s[k..][j] == y;
      assert s[i] == x && s[k + j] == y;
    }
  }

  /** `clear()`: no logs, no errors. */
  function Clear(m: Monitor): (r: Monitor)
    ensures Wf(r) && |r.requests| == 0 && |r.recentErrors| == 0
    ensures GetMetrics(r).totalRequests == 0
  {
    Monitor([], [])
  }
}

=== FILE: operations.dfy ===
/**
 The closed set of Trello operations the application knows, with their wire
 names (the `TrelloOperation` string union). Every other module refers to an
 operation through this datatype; `Parse` is the only way text becomes one.
 */
module Operations {
  import opened Js

  datatype TrelloOperation =
    | ListBoards
    | GetBoard
    | CreateBoard
    | UpdateBoard
    | DeleteBoard
    | ListLists
    | GetList
    | CreateList
    | UpdateList
    | DeleteList
    | ArchiveList
    | UnarchiveList
    | ListCards
    | GetCard
    | CreateCard
    | UpdateCard
    | DeleteCard
    | ListLabels
    | GetLabel
    | CreateLabel
    | UpdateLabel
    | DeleteLabel
    | AddLabelToCard
    | RemoveLabelFromCard
    | ListAttachments
    | GetAttachment
    | CreateAttachment
    | DeleteAttachment
    | ListChecklists
    | GetChecklist
    | CreateChecklist
    | UpdateChecklist
    | DeleteChecklist
    | CreateChecklistItem
    | UpdateChecklistItem
    | DeleteChecklistItem
    | ListMembers
    | GetMember
    | AddMemberToBoard
    | RemoveMemberFromBoard
    | ListWorkspaces
    | GetWorkspace
    | CreateWorkspace
    | UpdateWorkspace
    | DeleteWorkspace

  /** The operation's wire name, e.g. `listBoards`. */
  function Name(op: TrelloOperation): string {
    match op
    case ListBoards => "listBoards"
    case GetBoard => "getBoard"
    case CreateBoard => "createBoard"
    case UpdateBoard => "updateBoard"
    case DeleteBoard => "deleteBoard"
    case ListLists => "listLists"
    case GetList => "getList"
    case CreateList => "createList"
    case UpdateList => "updateList"
    case DeleteList => "deleteList"
    case ArchiveList => "archiveList"
    case UnarchiveList => "unarchiveList"
    case ListCards => "listCards"
    case GetCard => "getCard"
    case CreateCard => "createCard"
    case UpdateCard => "updateCard"
    case DeleteCard => "deleteCard"
    case ListLabels => "listLabels"
    case GetLabel => "getLabel"
    case CreateLabel => "createLabel"
    case UpdateLabel => "updateLabel"
    case DeleteLabel => "deleteLabel"
    case AddLabelToCard => "addLabelToCard"
    case RemoveLabelFromCard => "removeLabelFromCard"
    case ListAttachments => "listAttachments"
    case GetAttachment => "getAttachment"
    case CreateAttachment => "createAttachment"
    case DeleteAttachment => "deleteAttachment"
    case ListChecklists => "listChecklists"
    case GetChecklist => "getChecklist"
    case CreateChecklist => "createChecklist"
    case UpdateChecklist => "updateChecklist"
    case DeleteChecklist => "deleteChecklist"
    case CreateChecklistItem => "createChecklistItem"
    case UpdateChecklistItem => "updateChecklistItem"
    case DeleteChecklistItem => "deleteChecklistItem"
    case ListMembers => "listMembers"
    case GetMember => "getMember"
    case AddMemberToBoard => "addMemberToBoard"
    case RemoveMemberFromBoard => "removeMemberFromBoard"
    case ListWorkspaces => "listWorkspaces"
    case GetWorkspace => "getWorkspace"
    case CreateWorkspace => "createWorkspace"
    case UpdateWorkspace => "updateWorkspace"
    case DeleteWorkspace => "deleteWorkspace"
  }

  /** The operation a wire name denotes, if any; dispatches on the first letter. */
  function Parse(s: string): (r: Option<TrelloOperation>)
    ensures r.Some? ==> Name(r.value) == s
  {
    if |s| == 0 then None
    else if s[0] == 'l' then ParseL(s)
    else if s[0] == 'g' then ParseG(s)
    else if s[0] == 'c' then ParseC(s)
    else if s[0] == 'u' then ParseU(s)
    else if s[0] == 'd' then ParseD(s)
    else if s[0] == 'a' then ParseA(s)
    else if s[0] == 'r' then ParseR(s)
    else None
  }

  function ParseL(s: string): (r: Option<TrelloOperation>)
    ensures r.Some? ==> Name(r.value) == s
  {
    if s == "listBoards" then Some(ListBoards)
    else if s == "listLists" then Some(ListLists)
    else if s == "listCards" then Some(ListCards)
    else if s == "listLabels" then Some(ListLabels)
    else if s == "listAttachments" then Some(ListAttachments)
    else if s == "listChecklists" then Some(ListChecklists)
    else if s == "listMembers" then Some(ListMembers)
    else if s == "listWorkspaces" then Some(ListWorkspaces)
    else None
  }

  function ParseG(s: string): (r: Option<TrelloOperation>)
    ensures r.Some? ==> Name(r.value) == s
  {
    if s == "getBoard" then Some(GetBoard)
    else if s == "getList" then Some(GetList)
    else if s == "getCard" then Some(GetCard)
    else if s == "getLabel" then Some(GetLabel)
    else if s == "getAttachment" then Some(GetAttachment)
    else if s == "getChecklist" then Some(GetChecklist)
    else if s == "getMember" then Some(GetMember)
    else if s == "getWorkspace" then Some(GetWorkspace)
    else None
  }

  function ParseC(s: string): (r: Option<TrelloOperation>)
    ensures r.Some? ==> Name(r.value) == s
  {
    if s == "createBoard" then Some(CreateBoard)
    else if s == "createList" then Some(CreateList)
    else if s == "createCard" then Some(CreateCard)
    else if s == "createLabel" then Some(CreateLabel)
    else if s == "createAttachment" then Some(CreateAttachment)
    else if s == "createChecklist" then Some(CreateChecklist)
    else if s == "createChecklistItem" then Some(CreateChecklistItem)
    else if s == "createWorkspace" then Some(CreateWorkspace)
    else None
  }

  function ParseU(s: string): (r: Option<TrelloOperation>)
    ensures r.Some? ==> Name(r.value) == s
  {
    if s == "updateBoard" then Some(UpdateBoard)
    else if s == "updateList" then Some(UpdateList)
    else if s == "unarchiveList" then Some(UnarchiveList)
    else if s == "updateCard" then Some(UpdateCard)
    else if s == "updateLabel" then Some(UpdateLabel)
    else if s == "updateChecklist" then Some(UpdateChecklist)
    else if s == "updateChecklistItem" then Some(UpdateChecklistItem)
    else if s == "updateWorkspace" then Some(UpdateWorkspace)
    else None
  }

  function ParseD(s: string): (r: Option<TrelloOperation>)
    ensures r.Some? ==> Name(r.value) == s
  {
    if s == "deleteBoard" then Some(DeleteBoard)
    else if s == "deleteList" then Some(DeleteList)
    else if s == "deleteCard" then Some(DeleteCard)
    else if s == "deleteLabel" then Some(DeleteLabel)
    else if s == "deleteAttachment" then Some(DeleteAttachment)
    else if s == "deleteChecklist" then Some(DeleteChecklist)
    else if s == "deleteChecklistItem" then Some(DeleteChecklistItem)
    else if s == "deleteWorkspace" then Some(DeleteWorkspace)
    else None
  }

  function ParseA(s: string): (r: Option<TrelloOperation>)
    ensures r.Some? ==> Name(r.value) == s
  {
    if s == "archiveList" then Some(ArchiveList)
    else if s == "addLabelToCard" then Some(AddLabelToCard)
    else if s == "addMemberToBoard" then Some(AddMemberToBoard)
    else None
  }

  function ParseR(s: string): (r: Option<TrelloOperation>)
    ensures r.Some? ==> Name(r.value) == s
  {
    if s == "removeLabelFromCard" then Some(RemoveLabelFromCard)
    else if s == "removeMemberFromBoard" then Some(RemoveMemberFromBoard)
    else None
  }

  /** The round trip for each initial letter separately (keeps each proof small). */
  lemma ParseNameL(op: TrelloOperation)
    requires op.ListBoards? || op.ListLists? || op.ListCards? || op.ListLabels? || op.ListAttachments? || op.ListChecklists? || op.ListMembers? || op.ListWorkspaces?
    ensures Parse(Name(op)) == Some(op)
  {
    assert Parse(Name(op)) == ParseL(Name(op));
  }

  lemma ParseNameG(op: TrelloOperation)
    requires op.GetBoard? || op.GetList? || op.GetCard? || op.GetLabel? || op.GetAttachment? || op.GetChecklist? || op.GetMember? || op.GetWorkspace?
    ensures Parse(Name(op)) == Some(op)
  {
    assert Parse(Name(op)) == ParseG(Name(op));
  }

  lemma ParseNameC(op: TrelloOperation)
    requires op.CreateBoard? || op.CreateList? || op.CreateCard? || op.CreateLabel? || op.CreateAttachment? || op.CreateChecklist? || op.CreateChecklistItem? || op.CreateWorkspace?
    ensures Parse(Name(op)) == Some(op)
  {
    assert Parse(Name(op)) == ParseC(Name(op));
  }

  lemma ParseNameU(op: TrelloOperation)
    requires op.UpdateBoard? || op.UpdateList? || op.UnarchiveList? || op.UpdateCard? || op.UpdateLabel? || op.UpdateChecklist? || op.UpdateChecklistItem? || op.UpdateWorkspace?
    ensures Parse(Name(op)) == Some(op)
  {
    assert Parse(Name(op)) == ParseU(Name(op));
  }

  lemma ParseNameD(op: TrelloOperation)
    requires op.DeleteBoard? || op.DeleteList? || op.DeleteCard? || op.DeleteLabel? || op.DeleteAttachment? || op.DeleteChecklist? || op.DeleteChecklistItem? || op.DeleteWorkspace?
    ensures Parse(Name(op)) == Some(op)
  {
    assert Parse(Name(op)) == ParseD(Name(op));
  }

  lemma ParseNameA(op: TrelloOperation)
    requires op.ArchiveList? || op.AddLabelToCard? || op.AddMemberToBoard?
    ensures Parse(Name(op)) == Some(op)
  {
    assert Parse(Name(op)) == ParseA(Name(op));
  }

  lemma ParseNameR(op: TrelloOperation)
    requires op.RemoveLabelFromCard? || op.RemoveMemberFromBoard?
    ensures Parse(Name(op)) == Some(op)
  {
    assert Parse(Name(op)) == ParseR(Name(op));
  }

  /** Parsing a name gives back its operation: wire names are a faithful encoding. */
  lemma ParseName(op: TrelloOperation)
    ensures Parse(Name(op)) == Some(op)
  {
    if op.ListBoards? || op.ListLists? || op.ListCards? || op.ListLabels? || op.ListAttachments? || op.ListChecklists? || op.ListMembers? || op.ListWorkspaces? {
      ParseNameL(op);
    } else if op.GetBoard? || op.GetList? || op.GetCard? || op.GetLabel? || op.GetAttachment? || op.GetChecklist? || op.GetMember? || op.GetWorkspace? {
      ParseNameG(op);
    } else if op.CreateBoard? || op.CreateList? || op.CreateCard? || op.CreateLabel? || op.CreateAttachment? || op.CreateChecklist? || op.CreateChecklistItem? || op.CreateWorkspace? {
      ParseNameC(op);
    } else if op.UpdateBoard? || op.UpdateList? || op.UnarchiveList? || op.UpdateCard? || op.UpdateLabel? || op.UpdateChecklist? || op.UpdateChecklistItem? || op.UpdateWorkspace? {
      ParseNameU(op);
    } else if op.DeleteBoard? || op.DeleteList? || op.DeleteCard? || op.DeleteLabel? || op.DeleteAttachment? || op.DeleteChecklist? || op.DeleteChecklistItem? || op.DeleteWorkspace? {
      ParseNameD(op);
    } else if op.ArchiveList? || op.AddLabelToCard? || op.AddMemberToBoard? {
      ParseNameA(op);
    } else {
      ParseNameR(op);
    }
  }

  /** No two operations share a wire name. */
  lemma NameInjective(a: TrelloOperation, b: TrelloOperation)
    requires Name(a) == Name(b)
    ensures a == b
  {
    ParseName(a);
    ParseName(b);
  }

  /** `Parse` succeeds exactly on the wire names. */
  lemma ParseSucceedsIffName(s: string)
    ensures Parse(s).Some? <==> exists op: TrelloOperation :: Name(op) == s
  {
    if exists op: TrelloOperation :: Name(op) == s {
      var op: TrelloOperation :| Name(op) == s;
      ParseName(op);
    }
  }

  /** The operation at position `i` of the union's declaration. */
  function DeclaredAt(i: nat): TrelloOperation
    requires i < 45
  {
    if i == 0 then ListBoards
    else if i == 1 then GetBoard
    else if i == 2 then CreateBoard
    else if i == 3 then UpdateBoard
    else if i == 4 then DeleteBoard
    else if i == 5 then ListLists
    else if i == 6 then GetList
    else if i == 7 then CreateList
    else if i == 8 then UpdateList
    else if i == 9 then DeleteList
    else if i == 10 then ArchiveList
    else if i == 11 then UnarchiveList
    else if i == 12 then ListCards
    else if i == 13 then GetCard
    else if i == 14 then CreateCard
    else if i == 15 then UpdateCard
    else if i == 16 then DeleteCard
    else if i == 17 then ListLabels
    else if i == 18 then GetLabel
    else if i == 19 then CreateLabel
    else if i == 20 then UpdateLabel
    else if i == 21 then DeleteLabel
    else if i == 22 then AddLabelToCard
    else if i == 23 then RemoveLabelFromCard
    else if i == 24 then ListAttachments
    else if i == 25 then GetAttachment
    else if i == 26 then CreateAttachment
    else if i == 27 then DeleteAttachment
    else if i == 28 then ListChecklists
    else if i == 29 then GetChecklist
    else if i == 30 then CreateChecklist
    else if i == 31 then UpdateChecklist
    else if i == 32 then DeleteChecklist
    else if i == 33 then CreateChecklistItem
    else if i == 34 then UpdateChecklistItem
    else if i == 35 then DeleteChecklistItem
    else if i == 36 then ListMembers
    else if i == 37 then GetMember
    else if i == 38 then AddMemberToBoard
    else if i == 39 then RemoveMemberFromBoard
    else if i == 40 then ListWorkspaces
    else if i == 41 then GetWorkspace
    else if i == 42 then CreateWorkspace
    else if i == 43 then UpdateWorkspace
    else DeleteWorkspace
  }

  /** Where an operation is declared in the union. */
  function Position(op: TrelloOperation): (i: nat)
    ensures i < 45 && DeclaredAt(i) == op
  {
    match op
    case ListBoards => 0
    case GetBoard => 1
    case CreateBoard => 2
    case UpdateBoard => 3
    case DeleteBoard => 4
    case ListLists => 5
    case GetList => 6
    case CreateList => 7
    case UpdateList => 8
    case DeleteList => 9
    case ArchiveList => 10
    case UnarchiveList => 11
    case ListCards => 12
    case GetCard => 13
    case CreateCard => 14
    case UpdateCard => 15
    case DeleteCard => 16
    case ListLabels => 17
    case GetLabel => 18
    case CreateLabel => 19
    case UpdateLabel => 20
    case DeleteLabel => 21
    case AddLabelToCard => 22
    case RemoveLabelFromCard => 23
    case ListAttachments => 24
    case GetAttachment => 25
    case CreateAttachment => 26
    case DeleteAttachment => 27
    case ListChecklists => 28
    case GetChecklist => 29
    case CreateChecklist => 30
    case UpdateChecklist => 31
    case DeleteChecklist => 32
    case CreateChecklistItem => 33
    case UpdateChecklistItem => 34
    case DeleteChecklistItem => 35
    case ListMembers => 36
    case GetMember => 37
    case AddMemberToBoard => 38
    case RemoveMemberFromBoard => 39
    case ListWorkspaces => 40
    case GetWorkspace => 41
    case CreateWorkspace => 42
    case UpdateWorkspace => 43
    case DeleteWorkspace => 44
  }
}

=== FILE: prefs.dfy ===
/**
 The preference serialisers of the board and workspace tools: the entries of
 `prefs` (and of a board's `labelNames`) appended to the query after the
 initialiser's pairs. Board tools append every non-null value as
 `prefs_<key>`; workspace tools spread a nested object into
 `prefs_<key>_<field>` pairs and an array of objects into
 `prefs_<key>_<index>_<field>` pairs.
 */
module Prefs {
  import opened Strings
  import opened Js
  import opened ToolSupport

  lemma PrefixOfAppend(a: string, b: string)
    ensures StartsWith(a + b, a)
  {
    assert (a + b)[..|a|] == a;
  }

  lemma PrefixShortens(s: string, a: string, b: string)
    requires StartsWith(s, a + b)
    ensures StartsWith(s, a)
  {
    assert s[..|a|] == (a + b)[..|a|];
  }

  lemma PrefixExtends(s: string, p: string, t: string)
    requires StartsWith(s, p)
    ensures StartsWith(s + t, p)
  {
    assert (s + t)[..|p|] == s[..|p|];
  }

  /** A name whose first letter is not `p` is no preference's. */
  lemma NotPreference(k: string)
    requires |k| > 0 && k[0] != 'p'
    ensures !StartsWith(k, "prefs_")
  {
    assert "prefs_"[0] == 'p';
  }

  /** Appending to a common prefix keeps texts apart. */
  lemma AppendCancels(p: string, a: string, b: string)
    requires p + a == p + b
    ensures a == b
  {
    assert a == (p + a)[|p|..];
    assert b == (p + b)[|p|..];
  }

  /** Field `field` is appended under `prefix` as the pair `p`. */
  predicate Emits(prefix: string, field: (string, Value), p: (string, string)) {
    !Nullish(field.1) && p == (prefix + field.0, ToString(field.1))
  }

  /** The number of fields whose value is neither `null` nor `undefined`. */
  function NonNullCount(fields: seq<(string, Value)>): (n: nat)
    ensures n <= |fields|
  {
    if |fields| == 0 then 0
    else (if Nullish(fields[0].1) then 0 else 1) + NonNullCount(fields[1..])
  }

  /**
   The entries of an object, each non-null value appended under
   `prefix + key` as its `toString()`: one pair per non-null field, in order.
   */
  function FieldPairs(prefix: string, fields: seq<(string, Value)>): (q: Query)
    ensures |q| == NonNullCount(fields)
    ensures forall p | p in q :: StartsWith(p.0, prefix)
    ensures forall j | 0 <= j < |fields| && !Nullish(fields[j].1) ::
              (prefix + fields[j].0, ToString(fields[j].1)) in q
  {
    if |fields| == 0 then []
    else
      var rest := FieldPairs(prefix, fields[1..]);
      assert forall j | 1 <= j < |fields| :: fields[j] == fields[1..][j - 1];
      PrefixOfAppend(prefix, fields[0].0);
      FieldHead(prefix, fields[0]) + rest
  }

  /** The pair a single field contributes: none for a null value. */
  function FieldHead(prefix: string, field: (string, Value)): (q: Query)
    ensures |q| <= 1
    ensures forall p | p in q :: Emits(prefix, field, p)
  {
    if Nullish(field.1) then [] else [(prefix + field.0, ToString(field.1))]
  }

  /** Every pair sent comes from one non-null field. */
  lemma {:induction false} FieldPairsTraced(prefix: string, fields: seq<(string, Value)>, p: (string, string))
    requires p in FieldPairs(prefix, fields)
    ensures exists j | 0 <= j < |fields| :: Emits(prefix, fields[j], p)
  {
    var rest := FieldPairs(prefix, fields[1..]);
    assert FieldPairs(prefix, fields) == FieldHead(prefix, fields[0]) + rest;
    if p in FieldHead(prefix, fields[0]) {
      assert Emits(prefix, fields[0], p);
    } else {
      FieldPairsTraced(prefix, fields[1..], p);
      var j :| 0 <= j < |fields[1..]| && Emits(prefix, fields[1..][j], p);
      assert fields[1..][j] == fields[j + 1];
      assert Emits(prefix, fields[j + 1], p);
    }
  }

  /**
   In an object without repeated keys, the value of `k` is sent under
   `prefix + k` exactly once when it is not null, and not at all otherwise.
   */
  lemma {:induction false} FieldPairsValues(prefix: string, fields: seq<(string, Value)>, k: string)
    requires DistinctKeys(fields)
    ensures ValuesOf(FieldPairs(prefix, fields), prefix + k) ==
              if Nullish(Lookup(fields, k)) then [] else [ToString(Lookup(fields, k))]
  {
    if |fields| > 0 {
      var head := FieldHead(prefix, fields[0]);
      assert FieldPairs(prefix, fields) == head + FieldPairs(prefix, fields[1..]);
      ValuesOfAppend(head, FieldPairs(prefix, fields[1..]), prefix + k);
      assert DistinctKeys(fields[1..]) by {
        forall i, j | 0 <= i < j < |fields[1..]|
          ensures fields[1..][i].0 != fields[1..][j].0
        {
          assert fields[1..][i] == fields[i + 1] && fields[1..][j] == fields[j + 1];
        }
      }
      FieldPairsValues(prefix, fields[1..], k);
      if fields[0].0 == k {
        assert !HasKey(fields[1..], k) by {
          forall i | 0 <= i < |fields[1..]|
            ensures fields[1..][i].0 != k
          {
            assert fields[1..][i] == fields[i + 1];
          }
        }
      } else if prefix + fields[0].0 == prefix + k {
        AppendCancels(prefix, fields[0].0, k);
      }
    }
  }

  /** The board tools' `prefs` loop: every non-null preference becomes `prefs_<key>`. */
  function BoardPrefs(prefs: seq<(string, Value)>): (q: Query)
    ensures forall p | p in q :: StartsWith(p.0, "prefs_")
    ensures forall k | DistinctKeys(prefs) :: ValuesOf(q, "prefs_" + k) ==
              if Nullish(Lookup(prefs, k)) then [] else [ToString(Lookup(prefs, k))]
  {
    forall k | DistinctKeys(prefs)
      ensures ValuesOf(FieldPairs("prefs_", prefs), "prefs_" + k) ==
                if Nullish(Lookup(prefs, k)) then [] else [ToString(Lookup(prefs, k))]
    {
      FieldPairsValues("prefs_", prefs, k);
    }
    FieldPairs("prefs_", prefs)
  }

  /**
   Array items of a workspace preference are assumed to be objects (the
   schema's item type) or primitives, which `typeof item === "object"` skips;
   a `null` or array item is outside the model.
   */
  predicate ItemsShaped(items: seq<Value>) {
    forall i | 0 <= i < |items| :: !items[i].Null? && !items[i].Arr?
  }

  /** The text in front of an item's field names: `<prefix><index>_`. */
  function ItemPrefix(prefix: string, index: nat): string {
    prefix + NatToString(index) + "_"
  }

  /** The pairs of the item at `index`: an object's non-null fields, nothing for a primitive. */
  function ItemFields(prefix: string, item: Value, index: nat): (q: Query)
    ensures forall p | p in q :: StartsWith(p.0, prefix)
  {
    if item.Obj? then
      var q := FieldPairs(ItemPrefix(prefix, index), item.fields);
      forall p | p in q
        ensures StartsWith(p.0, prefix)
      {
        PrefixShortens(p.0, prefix, NatToString(index) + "_");
      }
      q
    else []
  }

  /**
   `value.forEach((item, index) => ...)` from position `start` on: each
   object item's non-null fields as `<prefix><index>_<field>` pairs.
   */
  function ItemPairs(prefix: string, items: seq<Value>, start: nat): (q: Query)
    requires ItemsShaped(items)
    ensures forall p | p in q :: StartsWith(p.0, prefix)
    decreases |items|
  {
    if |items| == 0 then []
    else
      ShapedTail(items);
      ItemFields(prefix, items[0], start) + ItemPairs(prefix, items[1..], start + 1)
  }

  lemma ShapedTail(items: seq<Value>)
    requires ItemsShaped(items) && |items| > 0
    ensures ItemsShaped(items[1..])
  {
    forall i | 0 <= i < |items[1..]|
      ensures !items[1..][i].Null? && !items[1..][i].Arr?
    {
      assert items[1..][i] == items[i + 1];
    }
  }

  /** Every non-null field of every object item is sent, under its item's index. */
  lemma {:induction false} ItemPairsComplete(prefix: string, items: seq<Value>, start: nat, i: int, j: int)
    requires ItemsShaped(items) && 0 <= i < |items| && items[i].Obj?
    requires 0 <= j < |items[i].fields| && !Nullish(items[i].fields[j].1)
    ensures (ItemPrefix(prefix, start + i) + items[i].fields[j].0, ToString(items[i].fields[j].1))
              in ItemPairs(prefix, items, start)
    decreases |items|
  {
    ShapedTail(items);
    var field := items[i].fields[j];
    var pair := (ItemPrefix(prefix, start + i) + field.0, ToString(field.1));
    var here := ItemFields(prefix, items[0], start);
    var rest := ItemPairs(prefix, items[1..], start + 1);
    assert ItemPairs(prefix, items, start) == here + rest;
    if i == 0 {
      assert pair in FieldPairs(ItemPrefix(prefix, start), items[0].fields);
      assert pair in here;
    } else {
      var tail := items[1..];
      assert tail[i - 1] == items[i];
      assert start + 1 + (i - 1) == start + i;
      ItemPairsComplete(prefix, tail, start + 1, i - 1, j);
      assert pair in rest;
    }
  }

  /** Every pair sent is one object item's non-null field, under that item's index. */
  lemma {:induction false} ItemPairsTraced(prefix: string, items: seq<Value>, start: nat, p: (string, string))
    requires ItemsShaped(items) && p in ItemPairs(prefix, items, start)
    ensures exists i, j | 0 <= i < |items| && items[i].Obj? && 0 <= j < |items[i].fields| ::
              Emits(ItemPrefix(prefix, start + i), items[i].fields[j], p)
    decreases |items|
  {
    ShapedTail(items);
    var here := ItemFields(prefix, items[0], start);
    var rest := ItemPairs(prefix, items[1..], start + 1);
    assert ItemPairs(prefix, items, start) == here + rest;
    if p in here {
      FieldPairsTraced(ItemPrefix(prefix, start), items[0].fields, p);
      var j :| 0 <= j < |items[0].fields| && Emits(ItemPrefix(prefix, start), items[0].fields[j], p);
      assert start + 0 == start;
      assert Emits(ItemPrefix(prefix, start + 0), items[0].fields[j], p);
    } else {
      var tail := items[1..];
      ItemPairsTraced(prefix, tail, start + 1, p);
      var i, j :| 0 <= i < |tail| && tail[i].Obj? && 0 <= j < |tail[i].fields| &&
                  Emits(ItemPrefix(prefix, start + 1 + i), tail[i].fields[j], p);
      assert tail[i] == items[i + 1] && start + 1 + i == start + (i + 1);
      assert Emits(ItemPrefix(prefix, start + (i + 1)), items[i + 1].fields[j], p);
    }
  }

  /** One workspace preference `k = v`, by the three branches of the serialiser. */
  function PrefPairs(k: string, v: Value): (q: Query)
    requires v.Arr? ==> ItemsShaped(v.items)
    ensures Nullish(v) ==> q == []
    ensures forall p | p in q :: StartsWith(p.0, "prefs_" + k)
  {
    if Nullish(v) then []
    else if v.Obj? then
      var q := FieldPairs("prefs_" + k + "_", v.fields);
      forall p | p in q
        ensures StartsWith(p.0, "prefs_" + k)
      {
        PrefixShortens(p.0, "prefs_" + k, "_");
      }
      q
    else if v.Arr? then
      var q := ItemPairs("prefs_" + k + "_", v.items, 0);
      forall p | p in q
        ensures StartsWith(p.0, "prefs_" + k)
      {
        PrefixShortens(p.0, "prefs_" + k, "_");
      }
      q
    else
      PrefixOfAppend("prefs_" + k, "");
      assert "prefs_" + k + "" == "prefs_" + k;
      [("prefs_" + k, ToString(v))]
  }

  /** The preferences assumed to follow the workspace schema: no array item is `null` or an array. */
  predicate PrefsShaped(prefs: seq<(string, Value)>) {
    forall e | e in prefs :: e.1.Arr? ==> ItemsShaped(e.1.items)
  }

  /** The workspace tools' `prefs` loop: every preference's pairs, in entry order. */
  function WorkspacePrefs(prefs: seq<(string, Value)>): (q: Query)
    requires PrefsShaped(prefs)
    ensures forall p | p in q :: StartsWith(p.0, "prefs_")
    ensures forall p | p in q :: exists e | e in prefs :: p in PrefPairs(e.0, e.1)
    ensures forall e, p | e in prefs && p in PrefPairs(e.0, e.1) :: p in q
  {
    if |prefs| == 0 then []
    else
      var here := PrefPairs(prefs[0].0, prefs[0].1);
      var rest := WorkspacePrefs(prefs[1..]);
      assert forall e | e in prefs :: e == prefs[0] || e in prefs[1..];
      forall p | p in here
        ensures StartsWith(p.0, "prefs_")
      {
        PrefixShortens(p.0, "prefs_", prefs[0].0);
      }
      here + rest
  }
}

=== FILE: rate_limiter.dfy ===
/**
 The fixed-window rate limiter of `lib/rate-limiter.ts`. Each client key
 (an IP address) has at most one entry: how many requests were admitted in
 its current window and when that window ends. The clock is a parameter.
 */
module RateLimiter {
  import opened Js

  const DefaultLimit: int := 100
  const DefaultWindowMs: int := 15 * 60 * 1000
  /** Milliseconds per second, the unit of `retryAfter`. */
  const MsPerSecond: int := 1000

  datatype Entry = Entry(count: int, resetTime: int)

  datatype Limiter = Limiter(limit: int, windowMs: int, requests: map<string, Entry>)

  /** The answer of one `check`; `retryAfter` is present only on a rejection. */
  datatype Decision = Decision(allowed: bool, limit: int, remaining: int, resetTime: int, retryAfter: Option<int>)

  datatype Checked = Checked(limiter: Limiter, decision: Decision)

  /** The limiter the application uses: 100 requests per 15 minutes, no entries. */
  function Default(): (l: Limiter)
    ensures l.limit == 100 && l.windowMs == 900000 && l.requests == map[]
  {
    Limiter(DefaultLimit, DefaultWindowMs, map[])
  }

  /** `Math.ceil(x / d)` on integers, from Dafny's floor division. */
  function CeilDiv(x: int, d: int): (q: int)
    requires d > 0
    ensures (q - 1) * d < x <= q * d
  {
    if x % d == 0 then x / d else x / d + 1
  }

  /** The key has no entry, or its window has passed (strictly). */
  predicate Expired(l: Limiter, ip: string, now: int) {
    ip !in l.requests || now > l.requests[ip].resetTime
  }

  /**
   One `check(ip)` at time `now`:
   - a key with no live window is admitted and opens a window with count 1;
   - inside a live window a request is refused exactly when the count has
     reached the limit; a refusal reports nothing remaining, changes nothing,
     and asks the client to wait the rounded-up seconds until the window
     ends, which is zero exactly when it ends now;
   - an admitted request in a live window adds one to the count;
   - no other key is touched.
   */
  function Check(l: Limiter, ip: string, now: int): (c: Checked)
    ensures c.limiter.limit == l.limit && c.limiter.windowMs == l.windowMs
    ensures c.decision.limit == l.limit
    ensures c.decision.retryAfter.Some? <==> !c.decision.allowed
    ensures Expired(l, ip, now) ==>
      && c.decision.allowed
      && c.decision.remaining == l.limit - 1
      && c.decision.resetTime == now + l.windowMs
      && ip in c.limiter.requests && c.limiter.requests[ip] == Entry(1, now + l.windowMs)
    ensures !Expired(l, ip, now) ==> (c.decision.allowed <==> l.requests[ip].count < l.limit)
    ensures !Expired(l, ip, now) && !c.decision.allowed ==>
      && c.limiter == l
      && c.decision.remaining == 0
      && c.decision.resetTime == l.requests[ip].resetTime
      && c.decision.retryAfter.value >= 0
      && (c.decision.retryAfter.value == 0 <==> now == l.requests[ip].resetTime)
      && (c.decision.retryAfter.value - 1) * 1000 < l.requests[ip].resetTime - now
      && l.requests[ip].resetTime - now <= c.decision.retryAfter.value * 1000
    ensures !Expired(l, ip, now) && c.decision.allowed ==>
      && ip in c.limiter.requests
      && c.limiter.requests[ip] == Entry(l.requests[ip].count + 1, l.requests[ip].resetTime)
      && c.decision.resetTime == l.requests[ip].resetTime
      && c.decision.remaining == l.limit - c.limiter.requests[ip].count
    ensures ip in c.limiter.requests
    ensures forall other | other != ip ::
      && (other in c.limiter.requests <==> other in l.requests)
      && (other in l.requests ==> c.limiter.requests[other] == l.requests[other])
  {
    if Expired(l, ip, now) then
      var e := Entry(1, now + l.windowMs);
      Checked(l.(requests := l.requests[ip := e]),
              Decision(true, l.limit, l.limit - 1, e.resetTime, None))
    else
      var e := l.requests[ip];
      if e.count >= l.limit then
        Checked(l, Decision(false, l.limit, 0, e.resetTime, Some(CeilDiv(e.resetTime - now, MsPerSecond))))
      else
        var e' := e.(count := e.count + 1);
        Checked(l.(requests := l.requests[ip := e']),
                Decision(true, l.limit, l.limit - e'.count, e.resetTime, None))
  }

  /** Every stored count lies between 1 and the limit. */
  predicate Valid(l: Limiter) {
    l.limit >= 1 && forall ip | ip in l.requests :: 1 <= l.requests[ip].count <= l.limit
  }

  lemma CheckPreservesValid(l: Limiter, ip: string, now: int)
    requires Valid(l)
    ensures Valid(Check(l, ip, now).limiter)
  {
  }

  /** How many of the requests at `times`, issued in order, are admitted. */
  function Admissions(l: Limiter, ip: string, times: seq<int>): (n: nat)
    ensures n <= |times|
    decreases |times|
  {
    if |times| == 0 then 0
    else
      var c := Check(l, ip, times[0]);
      (if c.decision.allowed then 1 else 0) + Admissions(c.limiter, ip, times[1..])
  }

  /**
   While a window is live, at most `limit - count` further requests are
   admitted, however many arrive: the window never admits more than `limit`.
   */
  lemma {:induction false} AdmissionsBoundedInWindow(l: Limiter, ip: string, times: seq<int>)
    requires Valid(l) && ip in l.requests
    requires forall k | 0 <= k < |times| :: times[k] <= l.requests[ip].resetTime
    ensures Admissions(l, ip, times) <= l.limit - l.requests[ip].count
    decreases |times|
  {
    if |times| > 0 {
      var c := Check(l, ip, times[0]);
      CheckPreservesValid(l, ip, times[0]);
      assert c.limiter.requests[ip].resetTime == l.requests[ip].resetTime;
      AdmissionsBoundedInWindow(c.limiter, ip, times[1..]);
    }
  }

  /** A window opened at `start` admits at most `limit` requests up to its end, the opening one included. */
  lemma WindowAdmitsAtMostLimit(l: Limiter, ip: string, start: int, later: seq<int>)
    requires Valid(l) && Expired(l, ip, start)
    requires forall k | 0 <= k < |later| :: later[k] <= start + l.windowMs
    ensures Admissions(l, ip, [start] + later) <= l.limit
  {
    var c := Check(l, ip, start);
    CheckPreservesValid(l, ip, start);
    assert ([start] + later)[1..] == later;
    AdmissionsBoundedInWindow(c.limiter, ip, later);
  }

  /** The periodic sweep: drop exactly the entries whose window has passed. */
  function Cleanup(l: Limiter, now: int): (r: Limiter)
    ensures r.limit == l.limit && r.windowMs == l.windowMs
    ensures forall ip :: ip in r.requests <==> ip in l.requests && now <= l.requests[ip].resetTime
    ensures forall ip | ip in r.requests :: r.requests[ip] == l.requests[ip]
  {
    l.(requests := map ip | ip in l.requests && !(now > l.requests[ip].resetTime) :: l.requests[ip])
  }

  /** The sweep never decides a request: every key answers the same before and after it. */
  lemma CleanupInvisible(l: Limiter, ip: string, now: int, t: int)
    requires t >= now
    ensures Check(Cleanup(l, now), ip, t).decision == Check(l, ip, t).decision
  {
  }

  function Clear(l: Limiter): (r: Limiter)
    ensures r.limit == l.limit && r.windowMs == l.windowMs && |r.requests| == 0
  {
    l.(requests := map[])
  }

  /** After `clear`, the next request from any key is admitted as the first of a new window. */
  lemma ClearThenAdmit(l: Limiter, ip: string, now: int)
    ensures var c := Check(Clear(l), ip, now);
      c.decision.allowed && c.limiter.requests[ip].count == 1
  {
  }
}

=== FILE: strings.dfy ===
/**
 Text helpers with the semantics of the JavaScript string methods the
 application uses: `startsWith`, `includes`, `split` on a one-character
 separator, `join`, `trim`, ASCII `toLowerCase`, and decimal rendering of
 integers.
 */
module Strings {

  /** `s.startsWith(p)` */
  predicate StartsWith(s: string, p: string) {
    |p| <= |s| && s[..|p|] == p
  }

  /** `w` occurs in `s` starting at index `i`. */
  predicate OccursAt(s: string, i: int, w: string) {
    0 <= i && i + |w| <= |s| && s[i..i + |w|] == w
  }

  /** `s.includes(w)` */
  predicate Contains(s: string, w: string) {
    exists i | 0 <= i <= |s| - |w| :: OccursAt(s, i, w)
  }

  lemma ContainsWitness(s: string, i: int, w: string)
    requires OccursAt(s, i, w)
    ensures Contains(s, w)
  {
  }

  lemma ContainsConcat(a: string, w: string, b: string)
    ensures Contains(a + w + b, w)
  {
    var s := a + w + b;
    assert s[|a|..|a| + |w|] == w;
    ContainsWitness(s, |a|, w);
  }

  /** Index of the first `c` in `s`, or `|s|` when there is none. */
  function IndexOf(s: string, c: char): (i: nat)
    ensures i <= |s|
    ensures forall j | 0 <= j < i :: s[j] != c
    ensures i < |s| ==> s[i] == c
  {
    if |s| == 0 then 0
    else if s[0] == c then 0
    else 1 + IndexOf(s[1..], c)
  }

  /** `s.split(c)` for a one-character separator: every field, empty ones included. */
  function Split(s: string, c: char): (r: seq<string>)
    ensures |r| >= 1
    ensures forall k | 0 <= k < |r| :: c !in r[k]
    decreases |s|
  {
    var i := IndexOf(s, c);
    if i == |s| then [s]
    else [s[..i]] + Split(s[i + 1..], c)
  }

  /** `parts.join(sep)` */
  function Join(parts: seq<string>, sep: string): string
  {
    if |parts| == 0 then ""
    else if |parts| == 1 then parts[0]
    else parts[0] + sep + Join(parts[1..], sep)
  }

  /** Splitting and joining back with the same separator gives the original text. */
  lemma {:induction false} JoinSplit(s: string, c: char)
    ensures Join(Split(s, c), [c]) == s
    decreases |s|
  {
    var i := IndexOf(s, c);
    if i < |s| {
      var head, rest := s[..i], s[i + 1..];
      var tail := Split(rest, c);
      var parts := Split(s, c);
      assert parts == [head] + tail;
      assert |parts| >= 2 && parts[0] == head && parts[1..] == tail;
      JoinSplit(rest, c);
      calc {
        Join(parts, [c]);
        head + [c] + Join(tail, [c]);
        head + [c] + rest;
        { assert s == s[..i] + [s[i]] + s[i + 1..]; }
        s;
      }
    }
  }

  /** Splitting at the first occurrence of the separator. */
  lemma SplitAt(s: string, c: char, i: nat)
    requires i < |s| && s[i] == c && forall j | 0 <= j < i :: s[j] != c
    ensures Split(s, c) == [s[..i]] + Split(s[i + 1..], c)
  {
    var k := IndexOf(s, c);
    assert k >= i by {
      assert k < |s| ==> s[k] == c;
    }
  }

  /** A field without the separator, then the separator, splits off as the first field. */
  lemma SplitAfter(x: string, c: char, rest: string)
    requires c !in x
    ensures Split(x + [c] + rest, c) == [x] + Split(rest, c)
  {
    var t := x + [c] + rest;
    assert forall j | 0 <= j < |x| :: t[j] == x[j];
    SplitAt(t, c, |x|);
    assert t[..|x|] == x && t[|x| + 1..] == rest;
  }

  /** The first field extends any leading text that has no separator. */
  lemma SplitHeadExtends(x: string, c: char, rest: string)
    requires c !in x
    ensures |x| <= |Split(x + rest, c)[0]| && Split(x + rest, c)[0][..|x|] == x
  {
    var t := x + rest;
    assert forall j | 0 <= j < |x| :: t[j] == x[j];
    var i := IndexOf(t, c);
    assert i >= |x| by {
      assert i < |t| ==> t[i] == c;
    }
  }

  /** A text without the separator splits into itself alone. */
  lemma SplitNone(s: string, c: char)
    requires c !in s
    ensures Split(s, c) == [s]
  {
  }

  /** A character missing from every part and different from the separator is missing from the joined text. */
  lemma {:induction false} JoinAvoids(parts: seq<string>, c: char, x: char)
    requires x != c && forall k | 0 <= k < |parts| :: x !in parts[k]
    ensures x !in Join(parts, [c])
  {
    if |parts| > 1 {
      JoinAvoids(parts[1..], c, x);
      assert Join(parts, [c]) == parts[0] + [c] + Join(parts[1..], [c]);
    }
  }

  /** When every part is non-empty, the joined text starts with the first part's first character and ends with the last part's last character. */
  lemma {:induction false} JoinEnds(parts: seq<string>, sep: string)
    requires |parts| >= 1 && forall k | 0 <= k < |parts| :: |parts[k]| > 0
    ensures var t := Join(parts, sep); var last := parts[|parts| - 1];
      |t| > 0 && t[0] == parts[0][0] && t[|t| - 1] == last[|last| - 1]
  {
    if |parts| > 1 {
      JoinEnds(parts[1..], sep);
      assert Join(parts, sep) == parts[0] + sep + Join(parts[1..], sep);
    }
  }

  /** The first field of `s.split(c)` is the text before the first `c`. */
  lemma SplitHead(s: string, c: char)
    ensures Split(s, c)[0] == s[..IndexOf(s, c)]
  {
  }

  /** The whitespace set of JavaScript's `trim` and of the regular-expression class `\s`. */
  predicate IsJsSpace(ch: char) {
    var n := ch as int;
    (9 <= n <= 13) || n == 0x20 || n == 0xA0 || n == 0x1680 || (0x2000 <= n <= 0x200A)
    || n == 0x2028 || n == 0x2029 || n == 0x202F || n == 0x205F || n == 0x3000 || n == 0xFEFF
  }

  function TrimStart(s: string): (r: string)
    ensures |r| <= |s| && r == s[|s| - |r|..]
    ensures |r| > 0 ==> !IsJsSpace(r[0])
    ensures forall k | 0 <= k < |s| - |r| :: IsJsSpace(s[k])
  {
    if |s| > 0 && IsJsSpace(s[0]) then TrimStart(s[1..]) else s
  }

  function TrimEnd(s: string): (r: string)
    ensures |r| <= |s| && r == s[..|r|]
    ensures |r| > 0 ==> !IsJsSpace(r[|r| - 1])
    ensures forall k | |r| <= k < |s| :: IsJsSpace(s[k])
  {
    if |s| > 0 && IsJsSpace(s[|s| - 1]) then TrimEnd(s[..|s| - 1]) else s
  }

  /** `s.trim()`: leading and trailing whitespace removed, nothing else. */
  function Trim(s: string): (r: string)
    ensures |r| <= |s|
    ensures |r| > 0 ==> !IsJsSpace(r[0]) && !IsJsSpace(r[|r| - 1])
  {
    TrimEnd(TrimStart(s))
  }

  /** `c.toLowerCase()` restricted to the ASCII letters. */
  function LowerChar(c: char): char {
    if 'A' <= c <= 'Z' then (c as int + 32) as char else c
  }

  function Lower(s: string): (r: string)
    ensures |r| == |s|
    ensures forall k | 0 <= k < |s| :: r[k] == LowerChar(s[k])
  {
    if |s| == 0 then "" else [LowerChar(s[0])] + Lower(s[1..])
  }

  /** Lower-casing twice is lower-casing once. */
  lemma LowerIdempotent(s: string)
    ensures Lower(Lower(s)) == Lower(s)
  {
    assert forall k | 0 <= k < |s| :: LowerChar(LowerChar(s[k])) == LowerChar(s[k]);
  }

  function DigitChar(d: int): char
    requires 0 <= d < 10
  {
    ('0' as int + d) as char
  }

  /** Decimal text of a natural number, as `Number.prototype.toString` renders integers. */
  function NatToString(n: nat): (r: string)
    ensures |r| >= 1
    ensures forall k | 0 <= k < |r| :: '0' <= r[k] <= '9'
  {
    if n < 10 then [DigitChar(n)] else NatToString(n / 10) + [DigitChar(n % 10)]
  }

  function IntToString(i: int): (r: string)
    ensures |r| >= 1
  {
    if i < 0 then "-" + NatToString(-i) else NatToString(i)
  }
  /**
   The order `Array.prototype.sort` puts strings in: lexicographic on
   characters, a proper prefix first. Characters here are Unicode scalar
   values, so this is scalar-value order; JavaScript compares UTF-16 code
   units, and the two orders differ only between characters above U+FFFF and
   those from U+E000 to U+FFFF.
   */
  predicate Less(a: string, b: string)
    decreases |a|
  {
    if |a| == 0 then |b| > 0
    else if |b| == 0 then false
    else a[0] < b[0] || (a[0] == b[0] && Less(a[1..], b[1..]))
  }

  lemma {:induction false} LessIrreflexive(a: string)
    ensures !Less(a, a)
    decreases |a|
  {
    if |a| > 0 {
      LessIrreflexive(a[1..]);
    }
  }

  lemma {:induction false} LessTransitive(a: string, b: string, c: string)
    requires Less(a, b) && Less(b, c)
    ensures Less(a, c)
    decreases |a|
  {
    if |a| > 0 && |b| > 0 && |c| > 0 && a[0] == b[0] && b[0] == c[0] {
      LessTransitive(a[1..], b[1..], c[1..]);
    }
  }

  /** Any two different strings are ordered one way or the other. */
  lemma {:induction false} LessTotal(a: string, b: string)
    requires a != b
    ensures Less(a, b) || Less(b, a)
    decreases |a|
  {
    if |a| > 0 && |b| > 0 && a[0] == b[0] {
      assert a == [a[0]] + a[1..] && b == [b[0]] + b[1..];
      LessTotal(a[1..], b[1..]);
    }
  }

  lemma LessAsymmetric(a: string, b: string)
    requires Less(a, b)
    ensures !Less(b, a)
  {
    if Less(b, a) {
      LessTransitive(a, b, a);
      LessIrreflexive(a);
    }
  }
}

=== FILE: tool_registry.dfy ===
/**
 The tool tables: the registry of `lib/tool-registry.ts` handed to the
 language model, and the `toolMap` literals the two Trello services look
 tools up in. All three are plain object literals with one property per
 operation name, so a lookup by name behaves the same in each; only the
 registry's declaration order is observable, through `getAllToolNames`.
 */
module ToolRegistry {
  import opened Js
  import opened Operations

  /**
   What `table[name]` yields: the tool registered under an operation name, a
   member every object inherits from `Object.prototype` (truthy, but not a
   tool), or `undefined`.
   */
  datatype ToolLookup = Registered(op: TrelloOperation) | Inherited | Missing

  /** `table[name]` on a literal keyed by exactly the operation names. */
  function GetToolByName(name: string): (t: ToolLookup)
    ensures t.Registered? <==> exists op: TrelloOperation :: Name(op) == name
    ensures t.Registered? ==> Name(t.op) == name
    ensures t.Inherited? <==> (forall op: TrelloOperation :: Name(op) != name) && name in ObjectPrototypeNames
  {
    ParseSucceedsIffName(name);
    match Parse(name)
    case Some(op) => Registered(op)
    case None => if name in ObjectPrototypeNames then Inherited else Missing
  }

  /** Every operation finds its own tool. */
  lemma LookupEveryOperation(op: TrelloOperation)
    ensures GetToolByName(Name(op)) == Registered(op)
  {
    var t := GetToolByName(Name(op));
    NameInjective(t.op, op);
  }

  /** The registry property at position `i` of its declaration. */
  function RegistryAt(i: nat): TrelloOperation
    requires i < 45
  {
    if i == 0 then CreateBoard
    else if i == 1 then GetBoard
    else if i == 2 then UpdateBoard
    else if i == 3 then DeleteBoard
    else if i == 4 then ListBoards
    else if i == 5 then CreateList
    else if i == 6 then GetList
    else if i == 7 then UpdateList
    else if i == 8 then DeleteList
    else if i == 9 then ListLists
    else if i == 10 then ArchiveList
    else if i == 11 then UnarchiveList
    else if i == 12 then CreateCard
    else if i == 13 then GetCard
    else if i == 14 then UpdateCard
    else if i == 15 then DeleteCard
    else if i == 16 then ListCards
    else if i == 17 then CreateLabel
    else if i == 18 then GetLabel
    else if i == 19 then UpdateLabel
    else if i == 20 then DeleteLabel
    else if i == 21 then ListLabels
    else if i == 22 then AddLabelToCard
    else if i == 23 then RemoveLabelFromCard
    else if i == 24 then CreateAttachment
    else if i == 25 then GetAttachment
    else if i == 26 then DeleteAttachment
    else if i == 27 then ListAttachments
    else if i == 28 then CreateChecklist
    else if i == 29 then GetChecklist
    else if i == 30 then UpdateChecklist
    else if i == 31 then DeleteChecklist
    else if i == 32 then ListChecklists
    else if i == 33 then CreateChecklistItem
    else if i == 34 then UpdateChecklistItem
    else if i == 35 then DeleteChecklistItem
    else if i == 36 then AddMemberToBoard
    else if i == 37 then RemoveMemberFromBoard
    else if i == 38 then ListMembers
    else if i == 39 then GetMember
    else if i == 40 then CreateWorkspace
    else if i == 41 then GetWorkspace
    else if i == 42 then UpdateWorkspace
    else if i == 43 then DeleteWorkspace
    else ListWorkspaces
  }

  /** Where an operation is declared in the registry. */
  function RegistryPosition(op: TrelloOperation): (i: nat)
    ensures i < 45 && RegistryAt(i) == op
  {
    match op
    case CreateBoard => 0
    case GetBoard => 1
    case UpdateBoard => 2
    case DeleteBoard => 3
    case ListBoards => 4
    case CreateList => 5
    case GetList => 6
    case UpdateList => 7
    case DeleteList => 8
    case ListLists => 9
    case ArchiveList => 10
    case UnarchiveList => 11
    case CreateCard => 12
    case GetCard => 13
    case UpdateCard => 14
    case DeleteCard => 15
    case ListCards => 16
    case CreateLabel => 17
    case GetLabel => 18
    case UpdateLabel => 19
    case DeleteLabel => 20
    case ListLabels => 21
    case AddLabelToCard => 22
    case RemoveLabelFromCard => 23
    case CreateAttachment => 24
    case GetAttachment => 25
    case DeleteAttachment => 26
    case ListAttachments => 27
    case CreateChecklist => 28
    case GetChecklist => 29
    case UpdateChecklist => 30
    case DeleteChecklist => 31
    case ListChecklists => 32
    case CreateChecklistItem => 33
    case UpdateChecklistItem => 34
    case DeleteChecklistItem => 35
    case AddMemberToBoard => 36
    case RemoveMemberFromBoard => 37
    case ListMembers => 38
    case GetMember => 39
    case CreateWorkspace => 40
    case GetWorkspace => 41
    case UpdateWorkspace => 42
    case DeleteWorkspace => 43
    case ListWorkspaces => 44
  }

  /** Declaration positions are a bijection: no operation is declared twice. */
  lemma PositionOfRegistryAt(i: nat)
    requires i < 45
    ensures RegistryPosition(RegistryAt(i)) == i
  {
  }

  /**
   `getAllToolNames()`, i.e. `Object.keys(trelloTools)`: the registry's keys
   in declaration order, each operation name exactly once.
   */
  function GetAllToolNames(): (names: seq<string>)
    ensures |names| == 45
    ensures forall i | 0 <= i < 45 :: names[i] == Name(RegistryAt(i))
    ensures forall op: TrelloOperation :: Name(op) in names
    ensures forall i, j | 0 <= i < j < |names| :: names[i] != names[j]
  {
    var names := seq(45, i requires 0 <= i < 45 => Name(RegistryAt(i)));
    EveryNameListed(names);
    NamesDistinct(names);
    names
  }

  lemma EveryNameListed(names: seq<string>)
    requires |names| == 45 && forall i | 0 <= i < 45 :: names[i] == Name(RegistryAt(i))
    ensures forall op: TrelloOperation :: Name(op) in names
  {
    forall op: TrelloOperation ensures Name(op) in names {
      assert names[RegistryPosition(op)] == Name(op);
    }
  }

  lemma NamesDistinct(names: seq<string>)
    requires |names| == 45 && forall i | 0 <= i < 45 :: names[i] == Name(RegistryAt(i))
    ensures forall i, j | 0 <= i < j < |names| :: names[i] != names[j]
  {
    forall i, j | 0 <= i < j < |names| ensures names[i] != names[j] {
      PositionOfRegistryAt(i);
      PositionOfRegistryAt(j);
      if names[i] == names[j] {
        NameInjective(RegistryAt(i), RegistryAt(j));
      }
    }
  }

  /**
   `hasTool(name)`, the `in` operator on the registry: true for every
   registered name, and also for the names inherited from `Object.prototype`.
   */
  predicate HasTool(name: string) {
    name in GetAllToolNames() || name in ObjectPrototypeNames
  }

  /** `hasTool` answers true exactly when a lookup finds something, a tool or an inherited member. */
  lemma HasToolIffFound(name: string)
    ensures HasTool(name) <==> !GetToolByName(name).Missing?
  {
    var names := GetAllToolNames();
    if name in names {
      var i :| 0 <= i < |names| && names[i] == name;
      assert Name(RegistryAt(i)) == name;
    }
  }

  /** `hasTool("toString")` holds although no tool has that name. */
  lemma HasToolInherited()
    ensures HasTool("toString") && GetToolByName("toString") == Inherited
  {
  }

  /** The exported form-generation tools, none of which is a registry key. */
  const FormToolNames: seq<string> := [
    "generateBoardFormTool", "generateListFormTool", "generateCardFormTool", "generateWorkspaceFormTool",
    "generateLabelFormTool", "generateAttachmentFormTool", "generateChecklistFormTool"
  ]

  /** The registry offers the model no form-generation tool. */
  lemma FormToolsNotRegistered(name: string)
    requires name in FormToolNames
    ensures GetToolByName(name) == Missing && !HasTool(name)
  {
    HasToolIffFound(name);
  }
}

=== FILE: tool_support.dfy ===
/**
 What the Trello tools under `TrelloTools/` share: the credential check, the
 query string they build with `URLSearchParams`, the backend call whose
 answer is a parameter here, and the three ways their `catch` blocks turn
 what was thrown into an error message.
 */
module ToolSupport {
  import opened Strings
  import opened Js

  /** A `URLSearchParams` value: name/value pairs in insertion order; a name may repeat. */
  type Query = seq<(string, string)>

  /** `params.getAll(k)`: every value sent under the name `k`, in order. */
  function ValuesOf(q: Query, k: string): (vs: seq<string>)
    ensures |vs| <= |q|
    ensures forall v | v in vs :: (k, v) in q
  {
    if |q| == 0 then []
    else (if q[0].0 == k then [q[0].1] else []) + ValuesOf(q[1..], k)
  }

  /** `params.has(k)` */
  predicate Sends(q: Query, k: string) {
    exists i | 0 <= i < |q| :: q[i].0 == k
  }

  lemma {:induction false} SendsIffValues(q: Query, k: string)
    ensures Sends(q, k) <==> ValuesOf(q, k) != []
  {
    if |q| > 0 {
      SendsIffValues(q[1..], k);
      if q[0].0 != k {
        assert Sends(q, k) ==> Sends(q[1..], k) by {
          if Sends(q, k) {
            var i :| 0 <= i < |q| && q[i].0 == k;
            assert q[1..][i - 1].0 == k;
          }
        }
        assert Sends(q[1..], k) ==> Sends(q, k) by {
          if Sends(q[1..], k) {
            var i :| 0 <= i < |q[1..]| && q[1..][i].0 == k;
            assert q[i + 1].0 == k;
          }
        }
      }
    }
  }

  lemma {:induction false} ValuesOfAppend(a: Query, b: Query, k: string)
    ensures ValuesOf(a + b, k) == ValuesOf(a, k) + ValuesOf(b, k)
  {
    if |a| == 0 {
      assert a + b == b;
    } else {
      var head: seq<string> := if a[0].0 == k then [a[0].1] else [];
      assert (a + b)[0] == a[0] && (a + b)[1..] == a[1..] + b;
      ValuesOfAppend(a[1..], b, k);
      assert ValuesOf(a + b, k) == head + (ValuesOf(a[1..], k) + ValuesOf(b, k));
      assert head + (ValuesOf(a[1..], k) + ValuesOf(b, k)) == (head + ValuesOf(a[1..], k)) + ValuesOf(b, k);
    }
  }

  /** Every pair of the query shows up among the values of its name. */
  lemma {:induction false} ValuesOfMember(q: Query, k: string, v: string)
    requires (k, v) in q
    ensures v in ValuesOf(q, k)
  {
    if q[0] != (k, v) {
      assert (k, v) in q[1..];
      ValuesOfMember(q[1..], k, v);
    }
  }

  /** A name outside a prefix that every sent name has is never sent. */
  lemma {:induction false} ValuesOutsidePrefix(q: Query, p: string, k: string)
    requires forall x | x in q :: StartsWith(x.0, p)
    requires !StartsWith(k, p)
    ensures ValuesOf(q, k) == []
  {
    if |q| > 0 {
      assert q[0] in q;
      assert forall x | x in q[1..] :: x in q;
      ValuesOutsidePrefix(q[1..], p, k);
    }
  }

  /**
   The initialiser object of `new URLSearchParams({...})`: each candidate
   parameter in order, with `None` where a conditional spread
   (`...(cond && { k: v })`) contributes nothing.
   */
  type Entries = seq<(string, Option<string>)>

  /** The query such an initialiser produces: the present entries, in order. */
  function Present(es: Entries): (q: Query)
    ensures |q| <= |es|
  {
    if |es| == 0 then []
    else (if es[0].1.Some? then [(es[0].0, es[0].1.value)] else []) + Present(es[1..])
  }

  function Listed<T>(o: Option<T>): (s: seq<T>)
    ensures |s| <= 1
  {
    if o.Some? then [o.value] else []
  }

  /** No parameter name is listed twice, as in an object literal. */
  predicate DistinctNames(es: Entries) {
    forall i, j | 0 <= i < j < |es| :: es[i].0 != es[j].0
  }

  /** A name the initialiser does not list is never sent. */
  lemma {:induction false} PresentAbsent(es: Entries, k: string)
    requires forall i | 0 <= i < |es| :: es[i].0 != k
    ensures ValuesOf(Present(es), k) == []
  {
    if |es| > 0 {
      var head: Query := if es[0].1.Some? then [(es[0].0, es[0].1.value)] else [];
      ValuesOfAppend(head, Present(es[1..]), k);
      PresentAbsent(es[1..], k);
    }
  }

  /** A listed name is sent once with its value when the entry is present, and never otherwise. */
  lemma {:induction false} PresentValues(es: Entries, i: int)
    requires DistinctNames(es) && 0 <= i < |es|
    ensures ValuesOf(Present(es), es[i].0) == Listed(es[i].1)
  {
    var k := es[i].0;
    var head: Query := if es[0].1.Some? then [(es[0].0, es[0].1.value)] else [];
    ValuesOfAppend(head, Present(es[1..]), k);
    if i == 0 {
      PresentAbsent(es[1..], k);
    } else {
      PresentValues(es[1..], i - 1);
    }
  }

  /** No name is listed twice. */
  predicate Distinct(names: seq<string>) {
    forall i, j | 0 <= i < j < |names| :: names[i] != names[j]
  }

  /** No name from row `lo` up to row `hi` is repeated further down. */
  predicate RowsDistinct(names: seq<string>, lo: nat, hi: nat) {
    forall i, j | lo <= i < hi && i < j < |names| :: names[i] != names[j]
  }

  lemma DistinctByRows(names: seq<string>, a: nat, b: nat)
    requires a <= b <= |names|
    requires RowsDistinct(names, 0, a) && RowsDistinct(names, a, b) && RowsDistinct(names, b, |names|)
    ensures Distinct(names)
  {
  }

  /**
   Pairs appended after an initialiser's, all named under the prefix `p`: a
   name outside the prefix keeps the initialiser's values, and a name under
   it that the initialiser does not list gets only the appended ones.
   */
  lemma Extended(es: Entries, tail: Query, p: string, k: string)
    requires forall x | x in tail :: StartsWith(x.0, p)
    ensures !StartsWith(k, p) ==> ValuesOf(Present(es) + tail, k) == ValuesOf(Present(es), k)
    ensures (forall i | 0 <= i < |es| :: es[i].0 != k) ==> ValuesOf(Present(es) + tail, k) == ValuesOf(tail, k)
  {
    ValuesOfAppend(Present(es), tail, k);
    if !StartsWith(k, p) {
      ValuesOutsidePrefix(tail, p, k);
    }
    if forall i | 0 <= i < |es| :: es[i].0 != k {
      PresentAbsent(es, k);
    }
  }

  /** The initialiser lists exactly `names`, in that order. */
  predicate NamedBy(es: Entries, names: seq<string>) {
    |es| == |names| && forall i | 0 <= i < |es| :: es[i].0 == names[i]
  }

  lemma NamedDistinct(es: Entries, names: seq<string>)
    requires NamedBy(es, names) && Distinct(names)
    ensures DistinctNames(es)
  {
  }

  /** Only names the initialiser lists can be sent. */
  lemma SentOnly(es: Entries, names: seq<string>)
    requires NamedBy(es, names)
    ensures forall k | k !in names :: ValuesOf(Present(es), k) == []
  {
    forall k | k !in names
      ensures ValuesOf(Present(es), k) == []
    {
      PresentAbsent(es, k);
    }
  }

  /** The value of `...(s && { k: s })` for an optional string: only a non-empty one is sent. */
  function IfGiven(o: Option<string>): (r: Option<string>)
    ensures r.Some? <==> Given(o)
    ensures r.Some? ==> r == o
  {
    if Given(o) then o else None
  }

  /** `b.toString()` of an optional boolean sent whenever it is defined. */
  function FlagText(o: Option<bool>): (r: Option<string>)
    ensures r.Some? <==> o.Some?
    ensures r == Some("true") <==> o == Some(true)
  {
    if o.None? then None else Some(if o.value then "true" else "false")
  }

  /** `a.join(",")` of an optional array, sent whenever given: an empty array is sent as "". */
  function Joined(o: Option<seq<string>>): (r: Option<string>)
    ensures r.Some? <==> o.Some?
    ensures o == Some([]) ==> r == Some("")
  {
    if o.None? then None else Some(Join(o.value, ","))
  }

  /** `n.toString()` of an optional number sent only when truthy, so `0` is not sent. */
  function IfNonZero(o: Option<int>): (r: Option<string>)
    ensures r.Some? <==> o.Some? && o.value != 0
  {
    if o.Some? && o.value != 0 then Some(IntToString(o.value)) else None
  }

  /** `v.toString()` of an optional value sent whenever defined (`v !== undefined`), `0` included. */
  function IfDefined(v: Value): (r: Option<string>)
    ensures r.Some? <==> !v.Undefined?
    ensures r.Some? ==> r.value == ToString(v)
  {
    if v.Undefined? then None else Some(ToString(v))
  }

  /** `process.env.TRELLO_API_KEY` and `TRELLO_API_TOKEN`. */
  datatype Credentials = Credentials(apiKey: Option<string>, apiToken: Option<string>)

  /** The tools throw unless both are non-empty (`!apiKey || !apiToken`). */
  predicate Configured(c: Credentials) {
    Given(c.apiKey) && Given(c.apiToken)
  }

  const MissingCredentials: string :=
    "Trello API credentials not configured. Please set TRELLO_API_KEY and TRELLO_API_TOKEN environment variables."

  /** The `key` and `token` entries every query starts with. */
  function Auth(c: Credentials): (es: Entries)
    requires Configured(c)
    ensures |es| == 2 && es[0] == ("key", c.apiKey) && es[1] == ("token", c.apiToken)
  {
    [("key", c.apiKey), ("token", c.apiToken)]
  }

  datatype Verb = HttpGet | HttpPost | HttpPut | HttpDelete

  /** A call to `https://api.trello.com/1/<path>?<query>`. */
  datatype Request = Request(verb: Verb, path: string, query: Query)

  /** `error.response` of a failed call: its HTTP status and decoded body. */
  datatype Reply = Reply(status: int, data: Value)

  /**
   What a tool's `catch` receives: an `Error` the tool threw itself, or an
   axios error, which carries `response` exactly when the backend answered.
   */
  datatype Fault = Fault(message: string, response: Option<Reply>)

  /**
   How the backend dealt with one request: the decoded body (`response.data`),
   or the error axios threw.
   */
  datatype Answer<T> = Answered(data: T) | Raised(fault: Fault)

  /** The tool's own `throw new Error(message)`. */
  function Thrown(message: string): (f: Fault)
    ensures f.response.None? && f.message == message
  {
    Fault(message, None)
  }

  /**
   The `TypeError` V8 throws when `field` is read from a `null` or
   `undefined` reply body, as `response.data.id` does.
   */
  function ReadFault(v: Value, field: string): (f: Fault)
    requires Nullish(v)
    ensures f.response.None? && Contains(f.message, field) && f.message != ""
  {
    Thrown(ReadError(v, field))
  }

  /**
   The reply as a tool sees it once it reads its first property `field` inside
   its `try`: a `null` or `undefined` body becomes the `TypeError` that read
   throws, and anything else stays as it was.
   */
  function Touched(answer: Answer<Value>, field: string): (r: Answer<Value>)
    ensures r.Answered? <==> answer.Answered? && !Nullish(answer.data)
    ensures r.Answered? ==> r == answer
    ensures answer.Raised? ==> r == answer
  {
    if answer.Answered? && Nullish(answer.data) then Raised(ReadFault(answer.data, field)) else answer
  }

  /**
   The reply as a tool sees it once it calls the array method `name` on it,
   written `expr.name(…)` in the source, inside its `try`: an array stays a
   list; `null` and `undefined` throw the `TypeError` of the read, and any other
   value the `TypeError` of calling a missing function.
   */
  function AsList(answer: Answer<Value>, expr: string, name: string): (r: Answer<seq<Value>>)
    ensures r.Answered? <==> answer.Answered? && answer.data.Arr?
    ensures r.Answered? ==> r.data == answer.data.items
    ensures answer.Raised? ==> r == Raised(answer.fault)
    ensures answer.Answered? && Nullish(answer.data) ==> r == Raised(ReadFault(answer.data, name))
    ensures answer.Answered? && !answer.data.Arr? && !Nullish(answer.data) ==>
              r == Raised(Thrown(expr + "." + name + " is not a function"))
  {
    match answer
    case Raised(f) => Raised(f)
    case Answered(data) =>
      if data.Arr? then Answered(data.items)
      else if Nullish(data) then Raised(ReadFault(data, name))
      else Raised(Thrown(expr + "." + name + " is not a function"))
  }

  /** Whether a property can be read from every element of a reply list. */
  predicate Readable(vs: seq<Value>)
  {
    forall i | 0 <= i < |vs| :: !Nullish(vs[i])
  }

  /** The first `null` or `undefined` element: where a read over the list in order throws. */
  function FirstNullish(vs: seq<Value>): (i: nat)
    requires !Readable(vs)
    ensures i < |vs| && Nullish(vs[i])
    ensures forall j | 0 <= j < i :: !Nullish(vs[j])
  {
    if Nullish(vs[0]) then 0
    else
      assert !Readable(vs[1..]) by {
        var k :| 0 <= k < |vs| && Nullish(vs[k]);
        assert vs[1..][k - 1] == vs[k];
      }
      1 + FirstNullish(vs[1..])
  }

  /**
   The reply list as a tool sees it once it reads `field` from each element
   in turn inside its `try`: the first `null` or `undefined` element throws,
   and a list without one stays as it was.
   */
  function EachTouched(answer: Answer<seq<Value>>, field: string): (r: Answer<seq<Value>>)
    ensures r.Answered? <==> answer.Answered? && Readable(answer.data)
    ensures r.Answered? || answer.Raised? ==> r == answer
    ensures answer.Answered? && !Readable(answer.data) ==>
              exists i | 0 <= i < |answer.data| :: Nullish(answer.data[i]) && r == Raised(ReadFault(answer.data[i], field))
  {
    if answer.Answered? && !Readable(answer.data) then
      var i := FirstNullish(answer.data);
      Raised(ReadFault(answer.data[i], field))
    else answer
  }

  /** `error?.response?.data?.message` */
  function ReplyMessage(f: Fault): (m: Value)
    ensures f.response.None? ==> m == Undefined
  {
    if f.response.Some? then Get(f.response.value.data, "message") else Undefined
  }

  /**
   `response?.data?.message || error?.message || fallback`: the backend's
   message, else the thrown message, else the tool's default.
   */
  function MessageOrThrown(f: Fault, fallback: string): (m: Value)
    requires fallback != ""
    ensures Truthy(m)
    ensures Truthy(ReplyMessage(f)) ==> m == ReplyMessage(f)
    ensures !Truthy(ReplyMessage(f)) && f.message != "" ==> m == Str(f.message)
    ensures !Truthy(ReplyMessage(f)) && f.message == "" ==> m == Str(fallback)
  {
    Or(ReplyMessage(f), Or(Str(f.message), Str(fallback)))
  }

  /**
   `response?.data?.message || fallback`: whatever the tool threw itself is
   replaced by the default.
   */
  function MessageOrDefault(f: Fault, fallback: string): (m: Value)
    requires fallback != ""
    ensures Truthy(m)
    ensures Truthy(ReplyMessage(f)) ==> m == ReplyMessage(f)
    ensures !Truthy(ReplyMessage(f)) ==> m == Str(fallback)
    ensures f.response.None? ==> m == Str(fallback)
  {
    Or(ReplyMessage(f), Str(fallback))
  }

  /**
   The `"response" in error` branch: with a reply, its message or the
   default; without one, the thrown message itself, even when empty.
   */
  function ClassifiedMessage(f: Fault, fallback: string): (m: Value)
    requires fallback != ""
    ensures f.response.None? ==> m == Str(f.message)
    ensures f.response.Some? ==> Truthy(m)
    ensures f.response.Some? && Truthy(ReplyMessage(f)) ==> m == ReplyMessage(f)
    ensures f.response.Some? && !Truthy(ReplyMessage(f)) ==> m == Str(fallback)
  {
    if f.response.Some? then Or(ReplyMessage(f), Str(fallback)) else Str(f.message)
  }

  /** `response?.status || 500`: the reply's status, or 500 when there is none or it is 0. */
  function StatusCode(f: Fault): (code: int)
    ensures code != 0
    ensures f.response.Some? && f.response.value.status != 0 ==> code == f.response.value.status
    ensures f.response.None? || f.response.value.status == 0 ==> code == 500
  {
    if f.response.Some? && f.response.value.status != 0 then f.response.value.status else 500
  }

  /** A tool's answer: `success: true` with its payload, or `success: false` with the error. */
  datatype Outcome<T> =
    | Done(value: T)
    | Failed(error: Value, statusCode: Option<int>, message: string)

  /** One tool call: the backend requests it issued, in order, and what it returned. */
  datatype Run<T> = Run(sent: seq<Request>, outcome: Outcome<T>)
}

=== FILE: trello_route.dfy ===
/**
 The Trello REST endpoint `app/api/trello/route.ts`: `POST` executes a named
 operation from a JSON body after checking it against a whitelist and the
 service's configuration; `GET` takes the operation and its parameters from
 the query string and executes it with neither check. Both run the
 operation through the uncached service and answer 200 exactly when it
 succeeded. What a tool does with its parameters is the function `tool`.
 */
module TrelloRoute {
  import opened Strings
  import opened Js
  import opened Operations
  import opened Envelope
  import opened ApiHelpers
  import ToolRegistry
  import TrelloService
  import LegacyTrelloService

  /** The whitelist, in the order the handler lists it, grouped by the resource each name acts on. */
  const ValidOperations: seq<string> :=
    BoardNames + ListNames + CardNames + LabelNames + AttachmentNames + ChecklistNames + MemberNames + WorkspaceNames

  const BoardNames: seq<string> := ["listBoards", "getBoard", "createBoard", "updateBoard", "deleteBoard"]
  const ListNames: seq<string> :=
    ["listLists", "getList", "createList", "updateList", "deleteList", "archiveList", "unarchiveList"]
  const CardNames: seq<string> := ["listCards", "getCard", "createCard", "updateCard", "deleteCard"]
  const LabelNames: seq<string> :=
    ["listLabels", "getLabel", "createLabel", "updateLabel", "deleteLabel", "addLabelToCard", "removeLabelFromCard"]
  const AttachmentNames: seq<string> := ["listAttachments", "getAttachment", "createAttachment", "deleteAttachment"]
  const ChecklistNames: seq<string> :=
    ["listChecklists", "getChecklist", "createChecklist", "updateChecklist", "deleteChecklist",
     "createChecklistItem", "updateChecklistItem", "deleteChecklistItem"]
  const MemberNames: seq<string> := ["listMembers", "getMember", "addMemberToBoard", "removeMemberFromBoard"]
  const WorkspaceNames: seq<string> :=
    ["listWorkspaces", "getWorkspace", "createWorkspace", "updateWorkspace", "deleteWorkspace"]

  /** The whitelist lists the operations of the union in their declaration order. */
  lemma WhitelistInDeclarationOrder()
    ensures |ValidOperations| == 45
    ensures forall i | 0 <= i < 45 :: ValidOperations[i] == Name(DeclaredAt(i))
  {
    forall i | 0 <= i < 45
      ensures ValidOperations[i] == Name(DeclaredAt(i))
    {
      if i < 5 {
        BoardNamesDeclared(i);
      } else if i < 12 {
        ListNamesDeclared(i);
      } else if i < 17 {
        CardNamesDeclared(i);
      } else if i < 24 {
        LabelNamesDeclared(i);
      } else if i < 28 {
        AttachmentNamesDeclared(i);
      } else if i < 36 {
        ChecklistNamesDeclared(i);
      } else if i < 40 {
        MemberNamesDeclared(i);
      } else {
        WorkspaceNamesDeclared(i);
      }
    }
  }

  lemma BoardNamesDeclared(i: nat)
    requires i < 5
    ensures ValidOperations[i] == Name(DeclaredAt(i))
  {
    assert ValidOperations[i] == BoardNames[i];
    if i == 0 {}
    else if i == 1 {}
    else if i == 2 {}
    else if i == 3 {}
    else {}
  }

  lemma ListNamesDeclared(i: nat)
    requires 5 <= i < 12
    ensures ValidOperations[i] == Name(DeclaredAt(i))
  {
    assert ValidOperations[i] == ListNames[i - 5];
    if i == 5 {}
    else if i == 6 {}
    else if i == 7 {}
    else if i == 8 {}
    else if i == 9 {}
    else if i == 10 {}
    else {}
  }

  lemma CardNamesDeclared(i: nat)
    requires 12 <= i < 17
    ensures ValidOperations[i] == Name(DeclaredAt(i))
  {
    assert ValidOperations[i] == CardNames[i - 12];
    if i == 12 {}
    else if i == 13 {}
    else if i == 14 {}
    else if i == 15 {}
    else {}
  }

  lemma LabelNamesDeclared(i: nat)
    requires 17 <= i < 24
    ensures ValidOperations[i] == Name(DeclaredAt(i))
  {
    assert ValidOperations[i] == LabelNames[i - 17];
    if i == 17 {}
    else if i == 18 {}
    else if i == 19 {}
    else if i == 20 {}
    else if i == 21 {}
    else if i == 22 {}
    else {}
  }

  lemma AttachmentNamesDeclared(i: nat)
    requires 24 <= i < 28
    ensures ValidOperations[i] == Name(DeclaredAt(i))
  {
    assert ValidOperations[i] == AttachmentNames[i - 24];
    if i == 24 {}
    else if i == 25 {}
    else if i == 26 {}
    else {}
  }

  lemma ChecklistNamesDeclared(i: nat)
    requires 28 <= i < 36
    ensures ValidOperations[i] == Name(DeclaredAt(i))
  {
    assert ValidOperations[i] == ChecklistNames[i - 28];
    if i == 28 {}
    else if i == 29 {}
    else if i == 30 {}
    else if i == 31 {}
    else if i == 32 {}
    else if i == 33 {}
    else if i == 34 {}
    else {}
  }

  lemma MemberNamesDeclared(i: nat)
    requires 36 <= i < 40
    ensures ValidOperations[i] == Name(DeclaredAt(i))
  {
    assert ValidOperations[i] == MemberNames[i - 36];
    if i == 36 {}
    else if i == 37 {}
    else if i == 38 {}
    else {}
  }

  lemma WorkspaceNamesDeclared(i: nat)
    requires 40 <= i < 45
    ensures ValidOperations[i] == Name(DeclaredAt(i))
  {
    assert ValidOperations[i] == WorkspaceNames[i - 40];
    if i == 40 {}
    else if i == 41 {}
    else if i == 42 {}
    else if i == 43 {}
    else {}
  }

  /** Each operation's name sits at its declaration position in the whitelist. */
  lemma WhitelistHasOperation(op: TrelloOperation)
    ensures Position(op) < |ValidOperations| && ValidOperations[Position(op)] == Name(op)
  {
    WhitelistInDeclarationOrder();
  }

  /** The whitelist is exactly the set of operation names. */
  lemma WhitelistIsUnion(s: string)
    ensures s in ValidOperations <==> exists op: TrelloOperation :: Name(op) == s
  {
    if s in ValidOperations {
      var i :| 0 <= i < |ValidOperations| && ValidOperations[i] == s;
      WhitelistInDeclarationOrder();
      assert Name(DeclaredAt(i)) == s;
    }
    if exists op: TrelloOperation :: Name(op) == s {
      var op: TrelloOperation :| Name(op) == s;
      WhitelistHasOperation(op);
    }
  }

  /** The message listing the whitelist, comma-separated. */
  const Supported := "Supported operations: " + Join(ValidOperations, ", ")

  /**
   `validOperations.includes(operation)`: only a string equal to a listed
   name, that is, by `WhitelistIsUnion`, an operation's name.
   */
  predicate Whitelisted(op: Value) {
    op.Str? && Parse(op.s).Some?
  }

  /** Only a non-empty name is whitelisted, so a whitelisted operation is truthy. */
  lemma WhitelistedIsTruthy(op: Value)
    ensures Whitelisted(op) ==> Truthy(op)
  {
  }

  /** The whitelist test is membership in the handler's list, and a listed name always finds its tool. */
  lemma WhitelistedIsListed(op: Value)
    ensures Whitelisted(op) <==> op.Str? && op.s in ValidOperations
    ensures Whitelisted(op) ==> ToolRegistry.GetToolByName(op.s).Registered?
  {
    if op.Str? {
      WhitelistIsUnion(op.s);
      ParseSucceedsIffName(op.s);
    }
  }

  /** The `{ success: false, error, message }` bodies the handler writes itself. */
  function ErrorBody(error: string, message: string): (b: Value)
    ensures b.Obj? && DistinctKeys(b.fields)
    ensures Get(b, "success") == Bool(false) && Get(b, "error") == Str(error) && Get(b, "message") == Str(message)
  {
    var fields := [("success", Bool(false)), ("error", Str(error)), ("message", Str(message))];
    assert "success" != "error" && "success" != "message" && "error" != "message";
    LookupDistinct(fields, 0);
    LookupDistinct(fields, 1);
    LookupDistinct(fields, 2);
    Obj(fields)
  }

  const InternalError := HttpResponse(500, [], ErrorBody("Internal server error",
    "An unexpected error occurred while processing the request"))

  /** An operation's result as the response: 200 exactly on success, the envelope as the body. */
  function ResultResponse(result: Response): (r: HttpResponse)
    ensures r.status == 200 <==> result.Success?
    ensures r.status == 200 || r.status == 500
    ensures Get(r.body, "success") == Bool(result.Success?)
    ensures FromValue(r.body) == Some(result)
  {
    FromValueToValue(result);
    HttpResponse(if result.Success? then 200 else 500, [], ToValue(result))
  }

  /** What `await request.json()` gives: a parsed value, or a rejection. */
  datatype JsonBody = Json(v: Value) | NotJson

  /** `const { params = {} } = body`: the default applies only to `undefined`. */
  function ParamsOf(v: Value): (p: Value)
    ensures Get(v, "params") != Undefined ==> p == Get(v, "params")
    ensures Get(v, "params") == Undefined ==> p == Obj([])
  {
    var p := Get(v, "params");
    if p.Undefined? then Obj([]) else p
  }

  /**
   `POST(request)`: an unreadable or `null` body is an internal error; a
   falsy operation is refused first, then one outside the whitelist (whose
   message quotes the operation as text, so one that cannot be converted to
   text throws and is an internal error too), then an unconfigured service;
   otherwise the operation runs on the body's params.
   */
  function Post(body: JsonBody, configured: bool, tool: Value -> TrelloService.ToolOutcome): (r: HttpResponse)
    ensures (body.NotJson? || Nullish(body.v)) ==> r == InternalError
    ensures body.Json? && !Nullish(body.v) && !Truthy(Get(body.v, "operation")) ==>
      r.status == 400 && Get(r.body, "error") == Str("Operation is required")
    ensures body.Json? && !Nullish(body.v) && Truthy(Get(body.v, "operation")) && !Whitelisted(Get(body.v, "operation")) ==>
      if StringThrows(Get(body.v, "operation")) then r == InternalError
      else r.status == 400 && Get(r.body, "error") == Str("Invalid operation: " + ToString(Get(body.v, "operation")))
    ensures body.Json? && !Nullish(body.v) && Whitelisted(Get(body.v, "operation")) && !configured ==>
      r.status == 500 && Get(r.body, "error") == Str("Trello API credentials not configured")
    ensures body.Json? && !Nullish(body.v) && Whitelisted(Get(body.v, "operation")) && configured ==>
      r == ResultResponse(LegacyTrelloService.Execute(Get(body.v, "operation").s, tool(ParamsOf(body.v))))
  {
    match body
    case NotJson => InternalError
    case Json(v) =>
      if Nullish(v) then InternalError
      else
        var op := Get(v, "operation");
        WhitelistedIsTruthy(op);
        if !Truthy(op) then
          HttpResponse(400, [], ErrorBody("Operation is required", "Please specify a Trello operation to execute"))
        else if !Whitelisted(op) then
          if StringThrows(op) then InternalError
          else HttpResponse(400, [], ErrorBody("Invalid operation: " + ToString(op), Supported))
        else if !configured then
          HttpResponse(500, [], ErrorBody("Trello API credentials not configured",
                                          "Please configure TRELLO_API_KEY and TRELLO_API_TOKEN environment variables"))
        else ResultResponse(LegacyTrelloService.Execute(op.s, tool(ParamsOf(v))))
  }

  /** An operation object with its own `toString` property cannot be quoted, so the request fails as an internal error. */
  lemma OperationWithToStringFails(configured: bool, tool: Value -> TrelloService.ToolOutcome)
    ensures Post(Json(Obj([("operation", Obj([("toString", Num(1))]))])), configured, tool) == InternalError
  {
    var op := Obj([("toString", Num(1))]);
    assert Get(Obj([("operation", op)]), "operation") == op;
    assert op.fields[0].0 == "toString";
  }

  /** Without credentials `POST` never runs the tool: the answer does not depend on it. */
  lemma UnconfiguredNeverExecutes(body: JsonBody, t1: Value -> TrelloService.ToolOutcome, t2: Value -> TrelloService.ToolOutcome)
    ensures Post(body, false, t1) == Post(body, false, t2)
  {
  }

  /** A `POST` answers 200 exactly when a whitelisted operation ran on a configured service and succeeded. */
  lemma PostOkIffExecutedAndSucceeded(body: JsonBody, configured: bool, tool: Value -> TrelloService.ToolOutcome)
    ensures Post(body, configured, tool).status == 200 <==>
      && body.Json? && !Nullish(body.v) && Whitelisted(Get(body.v, "operation")) && configured
      && LegacyTrelloService.Execute(Get(body.v, "operation").s, tool(ParamsOf(body.v))).Success?
  {
  }

  // ---------------------------------------------------------------------------
  // GET

  /** `searchParams.get(name)`: the first value under the name. */
  function First(query: seq<(string, string)>, name: string): (v: Option<string>)
    ensures v.Some? ==> (name, v.value) in query
    ensures v.None? ==> forall i | 0 <= i < |query| :: query[i].0 != name
  {
    if |query| == 0 then None
    else if query[0].0 == name then Some(query[0].1)
    else First(query[1..], name)
  }

  /** The last value under a name, the one a later assignment leaves behind. */
  function LastValue(query: seq<(string, string)>, name: string): (v: Option<string>)
    ensures v.Some? ==> (name, v.value) in query
    ensures v.None? <==> forall i | 0 <= i < |query| :: query[i].0 != name
  {
    if |query| == 0 then None
    else if query[|query| - 1].0 == name then Some(query[|query| - 1].1)
    else
      var v := LastValue(query[..|query| - 1], name);
      assert forall i | 0 <= i < |query| - 1 :: query[..|query| - 1][i] == query[i];
      v
  }

  /** A query value as a parameter: the comma-split list when it holds a comma, else the text. */
  function Convert(value: string): (v: Value)
    ensures v.Str? || v.Arr?
    ensures v.Str? <==> !Contains(value, ",")
  {
    if Contains(value, ",") then StrArr(Split(value, ',')) else Str(value)
  }

  /** A list-valued parameter joins back with commas to the text that was sent. */
  lemma ConvertJoinsBack(value: string)
    requires Contains(value, ",")
    ensures var parts := Split(value, ',');
      Convert(value) == StrArr(parts) && Join(parts, ",") == value && |parts| >= 2
  {
    JoinSplit(value, ',');
    var i :| 0 <= i <= |value| - 1 && OccursAt(value, i, ",");
    assert value[i] == value[i..i + 1][0] == ',';
    assert IndexOf(value, ',') <= i;
  }

  /**
   The handler's loop over `searchParams.entries()`, one assignment to a
   fresh `{}` per entry except `operation`.
   */
  function QueryParams(query: seq<(string, string)>): (params: seq<(string, Value)>)
    ensures DistinctKeys(params)
  {
    if |query| == 0 then []
    else
      var prior := QueryParams(query[..|query| - 1]);
      var (k, value) := query[|query| - 1];
      if k == "operation" then prior
      else
        AssignKeepsDistinct(prior, k, Convert(value));
        Assign(prior, k, Convert(value))
  }

  /**
   Every query parameter except `operation` and `__proto__` is copied,
   converted, and a repeated name keeps its last value; neither of those two
   names is ever an own parameter.
   */
  lemma {:induction false} QueryParamsLastWins(query: seq<(string, string)>, k: string)
    ensures k == "operation" || k == ProtoKey ==> !HasKey(QueryParams(query), k)
    ensures k != "operation" && k != ProtoKey ==>
      Lookup(QueryParams(query), k) == (match LastValue(query, k) case None => Undefined case Some(v) => Convert(v))
    ensures k != "operation" && k != ProtoKey ==> (HasKey(QueryParams(query), k) <==> LastValue(query, k).Some?)
  {
    if |query| > 0 {
      var init := query[..|query| - 1];
      QueryParamsLastWins(init, k);
      var prior := QueryParams(init);
      var (k', value) := query[|query| - 1];
      if k' != "operation" {
        AssignKeys(prior, k', Convert(value), k);
        AssignThenLookup(prior, k', Convert(value), k);
      }
    }
  }

  /** `?operation=listBoards&__proto__=x` gives no parameters at all. */
  lemma ProtoQueryAddsNothing()
    ensures QueryParams([("operation", "listBoards"), (ProtoKey, "x")]) == []
  {
    var q := [("operation", "listBoards"), (ProtoKey, "x")];
    assert q[..|q| - 1] == [("operation", "listBoards")];
    assert [("operation", "listBoards")][..0] == [];
  }

  /**
   `GET(request)` on the decoded query entries: an absent or empty
   `operation` is refused; anything else runs, whitelisted or not and
   configured or not, on the converted parameters.
   */
  function GetRoute(query: seq<(string, string)>, tool: Value -> TrelloService.ToolOutcome): (r: HttpResponse)
    ensures First(query, "operation").None? || First(query, "operation").value == "" ==>
      r.status == 400 && Get(r.body, "error") == Str("Operation parameter is required")
    ensures First(query, "operation").Some? && First(query, "operation").value != "" ==>
      r == ResultResponse(LegacyTrelloService.Execute(First(query, "operation").value, tool(Obj(QueryParams(query)))))
  {
    var operation := First(query, "operation");
    if operation.None? || operation.value == "" then
      HttpResponse(400, [], ErrorBody("Operation parameter is required",
                                      "Please specify a Trello operation as a query parameter"))
    else ResultResponse(LegacyTrelloService.Execute(operation.value, tool(Obj(QueryParams(query)))))
  }

  /**
   `GET` runs names `POST` refuses: a name inherited from `Object.prototype`
   reaches the service and fails there, with status 500 instead of 400.
   */
  lemma GetSkipsWhitelist(tool: Value -> TrelloService.ToolOutcome)
    ensures !Whitelisted(Str("toString"))
    ensures GetRoute([("operation", "toString")], tool).status == 500
    ensures Get(GetRoute([("operation", "toString")], tool).body, "error") == Str(TrelloService.NotAFunction)
  {
    WhitelistedIsListed(Str("toString"));
    assert ToolRegistry.GetToolByName("toString") == ToolRegistry.Inherited;
  }
}

=== FILE: trello_service.dfy ===
/**
 The cached Trello service of `lib/Services/trello-service.ts`:
 `executeToolOperation` consults the cache for read operations, looks the
 tool up, runs it, normalises what it returns, caches successful reads and
 invalidates the reads a write may have changed. The tool's behaviour, the
 clock and the measured durations are parameters.
 */
module TrelloService {
  import opened Strings
  import opened Js
  import opened Operations
  import opened Envelope
  import opened ToolRegistry
  import CacheService
  import Cacheable
  import MonitoringService

  /** What running the tool did: return a value or throw. */
  datatype ToolOutcome = Returned(v: Value) | Threw(t: Thrown)

  /** The state the service shares across calls: the cache and the monitor. */
  datatype Service = Service(cache: CacheService.Cache, monitor: MonitoringService.Monitor)

  datatype Executed = Executed(service: Service, response: Response)

  /**
   The service's invariant: a well-formed cache whose entries are all
   envelopes the service stored (never `null` or `undefined`), and a
   well-formed monitor.
   */
  ghost predicate Valid(s: Service) {
    && CacheService.Wf(s.cache)
    && Envelopes(s.cache.entries)
    && MonitoringService.Wf(s.monitor)
  }

  /** Every cached result is an envelope, never `null` or `undefined`. */
  predicate Envelopes(es: map<CacheService.CacheKey, CacheService.CacheEntry>) {
    forall k | k in es :: !Nullish(es[k].data)
  }

  /** The text V8 throws when `tool.execute` is read from an inherited member, which has none. */
  const NotAFunction: string := "tool.execute is not a function"

  /** The outcome of calling what the lookup found: an inherited member has no `execute` and throws. */
  function Run(found: ToolLookup, outcome: ToolOutcome): (o: ToolOutcome)
    requires !found.Missing?
    ensures found.Registered? ==> o == outcome
    ensures found.Inherited? ==> o == Threw(ErrorObject(NotAFunction))
  {
    if found.Inherited? then Threw(ErrorObject(NotAFunction)) else outcome
  }

  /** `monitoringService.logToolExecution` when the request id is truthy; nothing otherwise. */
  function LogCall(m: MonitoringService.Monitor, requestId: Option<string>, operation: string, duration: int,
                   success: bool, error: Option<string>): (r: MonitoringService.Monitor)
    ensures !Given(requestId) ==> r == m
    ensures Given(requestId) ==> r == MonitoringService.LogToolExecution(m, requestId.value, operation, duration, success, error)
    ensures MonitoringService.Wf(m) ==> MonitoringService.Wf(r)
  {
    if Given(requestId) then MonitoringService.LogToolExecution(m, requestId.value, operation, duration, success, error)
    else m
  }

  /** The reads each write makes stale, as `invalidationRules` lists them; reads invalidate nothing. */
  function InvalidationTargets(op: TrelloOperation): (targets: seq<string>)
    ensures Cacheable.IsRead(op) ==> targets == []
  {
    match op
    case CreateBoard => ["listBoards", "getBoard"]
    case UpdateBoard => ["getBoard", "listBoards"]
    case DeleteBoard => ["getBoard", "listBoards", "listLists"]
    case CreateList => ["listLists", "getList"]
    case UpdateList => ["getList", "listLists"]
    case DeleteList => ["getList", "listLists", "listCards"]
    case ArchiveList => ["getList", "listLists"]
    case UnarchiveList => ["getList", "listLists"]
    case CreateCard => ["listCards", "getCard"]
    case UpdateCard => ["getCard", "listCards"]
    case DeleteCard => ["getCard", "listCards"]
    case CreateLabel => ["listLabels", "getLabel"]
    case UpdateLabel => ["getLabel", "listLabels"]
    case DeleteLabel => ["getLabel", "listLabels"]
    case AddLabelToCard => ["getCard"]
    case RemoveLabelFromCard => ["getCard"]
    case CreateAttachment => ["listAttachments", "getAttachment"]
    case DeleteAttachment => ["getAttachment", "listAttachments"]
    case CreateChecklist => ["listChecklists", "getChecklist"]
    case UpdateChecklist => ["getChecklist", "listChecklists"]
    case DeleteChecklist => ["getChecklist", "listChecklists"]
    case CreateChecklistItem => ["getChecklist"]
    case UpdateChecklistItem => ["getChecklist"]
    case DeleteChecklistItem => ["getChecklist"]
    case AddMemberToBoard => ["listMembers", "getMember"]
    case RemoveMemberFromBoard => ["listMembers", "getMember"]
    case CreateWorkspace => ["listWorkspaces", "getWorkspace"]
    case UpdateWorkspace => ["getWorkspace", "listWorkspaces"]
    case DeleteWorkspace => ["getWorkspace", "listWorkspaces"]
    case _ => []
  }

  /** Every write names at least one read to invalidate, and every name it lists is a cached read operation. */
  lemma TargetsAreCachedReads(op: TrelloOperation)
    ensures !Cacheable.IsRead(op) ==> |InvalidationTargets(op)| > 0
    ensures forall t | t in InvalidationTargets(op) :: Cacheable.ShouldCache(t)
  {
  }

  /** `invalidate` for each name in turn. */
  function InvalidateAll(c: CacheService.Cache, targets: seq<string>): (r: CacheService.Cache)
    requires CacheService.Wf(c)
    ensures CacheService.Wf(r)
    ensures forall k :: k in r.entries <==> k in c.entries && forall t | t in targets :: !CacheService.InvalidatedBy(k, t)
    ensures forall k | k in r.entries :: r.entries[k] == c.entries[k]
    ensures r.stats.hits == c.stats.hits && r.stats.misses == c.stats.misses
    ensures r.maxSize == c.maxSize && r.defaultTtl == c.defaultTtl
    decreases |targets|
  {
    if |targets| == 0 then c
    else InvalidateAll(CacheService.Invalidate(c, targets[0]), targets[1..])
  }

  /** The operation's cached result is live: `executeToolOperation` answers from the cache. */
  predicate Hit(c: CacheService.Cache, operation: string, params: seq<(string, Value)>, now: int) {
    var key := CacheService.GenerateKey(operation, params);
    Cacheable.ShouldCache(operation) && key in c.entries && CacheService.Live(c.entries[key], now)
  }

  /** The cache after the read-through lookup of a cacheable operation (a miss is counted, an expired entry dropped). */
  function Looked(c: CacheService.Cache, operation: string, params: seq<(string, Value)>, now: int): (r: CacheService.Cache)
    requires CacheService.Wf(c)
    ensures CacheService.Wf(r)
    ensures r.defaultTtl == c.defaultTtl && r.maxSize == c.maxSize
    ensures forall k | k in r.entries :: k in c.entries && r.entries[k] == c.entries[k]
  {
    if Cacheable.ShouldCache(operation) then CacheService.Get(c, operation, params, now).cache else c
  }

  /**
   `executeToolOperation(operation, params, requestId)`. `now` is the clock
   for the cache, `toolDuration` the time the tool took, `elapsed` the time
   since the call began (used when logging a failure).
   - A live cached result is normalised again and returned; the tool does not run.
   - An unknown name gives "Tool '<name>' not found".
   - Whatever the tool throws goes through `handleError`, and is logged as a failed call.
   - A returned value is normalised; a `null` or `undefined` one makes the
     normalisation throw, which is handled as above.
   */
  function Execute(s: Service, operation: string, params: seq<(string, Value)>, requestId: Option<string>,
                   outcome: ToolOutcome, now: int, toolDuration: int, elapsed: int): (x: Executed)
    requires Valid(s)
    ensures Hit(s.cache, operation, params, now) ==>
      var e := s.cache.entries[CacheService.GenerateKey(operation, params)];
      && x.response == Standardize(e.data)
      && x.service.monitor == s.monitor
    ensures !Hit(s.cache, operation, params, now) && GetToolByName(operation).Missing? ==>
      && x.response == CreateErrorResponse("Tool '" + operation + "' not found")
      && x.service.monitor == s.monitor
    ensures !Hit(s.cache, operation, params, now) && GetToolByName(operation).Inherited? ==>
      x.response == HandleError(ErrorObject(NotAFunction))
    ensures !Hit(s.cache, operation, params, now) && GetToolByName(operation).Registered? ==>
      && (outcome.Threw? ==> x.response == HandleError(outcome.t))
      && (outcome.Returned? && !Nullish(outcome.v) ==> x.response == Standardize(outcome.v))
      && (outcome.Returned? && Nullish(outcome.v) ==> x.response == HandleError(ReadOfNullish(outcome.v, "success")))
  {
    if Hit(s.cache, operation, params, now) then
      var g := CacheService.Get(s.cache, operation, params, now);
      Executed(s.(cache := g.cache), Standardize(g.data))
    else
      var c := Looked(s.cache, operation, params, now);
      var found := GetToolByName(operation);
      if found.Missing? then
        Executed(Service(c, s.monitor), CreateErrorResponse("Tool '" + operation + "' not found"))
      else
        match Run(found, outcome)
        case Threw(t) =>
          var m := LogCall(s.monitor, requestId, operation, elapsed, false, Some(ThrownText(t)));
          Executed(Service(c, m), HandleError(t))
        case Returned(v) =>
          var m := LogCall(s.monitor, requestId, operation, toolDuration, true, None);
          if Nullish(v) then
            var t := ReadOfNullish(v, "success");
            Executed(Service(c, LogCall(m, requestId, operation, elapsed, false, Some(ThrownText(t)))), HandleError(t))
          else
            var r := Standardize(v);
            Executed(Service(Store(c, found.op, params, r, now), m), r)
  }

  /**
   After the tool returned: cache a read that did not fail, or invalidate
   the reads a write makes stale.
   */
  function Store(c: CacheService.Cache, op: TrelloOperation, params: seq<(string, Value)>, r: Response, now: int): (c': CacheService.Cache)
    requires CacheService.Wf(c)
    ensures CacheService.Wf(c')
    ensures Cacheable.IsRead(op) && r.Success? ==>
      c' == CacheService.Set(c, Name(op), params, ToValue(r), None, now)
    ensures Cacheable.IsRead(op) && r.Failure? ==> c' == c
    ensures !Cacheable.IsRead(op) ==>
      forall k :: k in c'.entries <==> k in c.entries && forall t | t in InvalidationTargets(op) :: !CacheService.InvalidatedBy(k, t)
    ensures forall k | k in c'.entries ::
      (k in c.entries && c'.entries[k] == c.entries[k]) || c'.entries[k].data == ToValue(r)
  {
    Cacheable.ShouldCacheIffRead(op);
    if Cacheable.ShouldCache(Name(op)) then
      if r.Success? then
        CacheService.SetPreservesWf(c, Name(op), params, ToValue(r), None, now);
        CacheService.Set(c, Name(op), params, ToValue(r), None, now)
      else c
    else InvalidateAll(c, InvalidationTargets(op))
  }

  /** `executeToolOperation` keeps the service's invariant. */
  lemma ExecutePreservesValid(s: Service, operation: string, params: seq<(string, Value)>, requestId: Option<string>,
                              outcome: ToolOutcome, now: int, toolDuration: int, elapsed: int)
    requires Valid(s)
    ensures Valid(Execute(s, operation, params, requestId, outcome, now, toolDuration, elapsed).service)
  {
    var x := Execute(s, operation, params, requestId, outcome, now, toolDuration, elapsed);
    if Hit(s.cache, operation, params, now) {
      var g := CacheService.Get(s.cache, operation, params, now);
      assert x.service == s.(cache := g.cache);
    } else {
      var c := Looked(s.cache, operation, params, now);
      assert Envelopes(c.entries);
      var found := GetToolByName(operation);
      if found.Missing? {
        assert x.service == Service(c, s.monitor);
      } else if outcome.Threw? {
        assert x.service.cache == c;
      } else if Nullish(outcome.v) {
        assert x.service.cache == c;
      } else if found.Registered? {
        var r := Standardize(outcome.v);
        assert x.service.cache == Store(c, found.op, params, r, now);
        StoreKeepsEnvelopes(c, found.op, params, r, now);
      }
    }
  }

  /** Storing a response leaves only envelopes, never `null` or `undefined`, in the cache. */
  lemma StoreKeepsEnvelopes(c: CacheService.Cache, op: TrelloOperation, params: seq<(string, Value)>, r: Response, now: int)
    requires CacheService.Wf(c)
    requires Envelopes(c.entries)
    ensures Envelopes(Store(c, op, params, r, now).entries)
  {
    var c' := Store(c, op, params, r, now);
    assert ToValue(r).Obj?;
    KeptOrNew(c.entries, c'.entries, ToValue(r));
  }

  /** Entries that are either kept unchanged or carry `d` are non-nullish when the old ones and `d` are. */
  lemma KeptOrNew(before: map<CacheService.CacheKey, CacheService.CacheEntry>, after: map<CacheService.CacheKey, CacheService.CacheEntry>, d: Value)
    requires !Nullish(d)
    requires Envelopes(before)
    requires forall k | k in after :: (k in before && after[k] == before[k]) || after[k].data == d
    ensures Envelopes(after)
  {
  }

  /** A write leaves no cached result of any read it lists, whatever its parameters. */
  lemma WriteClearsTargets(c: CacheService.Cache, op: TrelloOperation, params: seq<(string, Value)>, r: Response, now: int,
                           target: string, readParams: seq<(string, Value)>)
    requires CacheService.Wf(c) && !Cacheable.IsRead(op) && target in InvalidationTargets(op)
    ensures CacheService.GenerateKey(target, readParams) !in Store(c, op, params, r, now).entries
  {
    var k := CacheService.GenerateKey(target, readParams);
    assert CacheService.InvalidatedBy(k, target);
  }

  /**
   A successful read, repeated with the same parameters while its entry
   lives, is answered from the cache with the first answer normalised
   again: the first envelope becomes the data and its count is lost, so the
   two answers differ.
   */
  lemma CacheHitRewraps(s: Service, operation: string, params: seq<(string, Value)>, v: Value, now: int,
                        requestId: Option<string>, d1: int, e1: int, again: ToolOutcome, d2: int, e2: int)
    requires Valid(s) && Cacheable.ShouldCache(operation) && s.cache.defaultTtl >= 0
    requires !Hit(s.cache, operation, params, now)
    requires !Nullish(v) && Standardize(v).Success?
    ensures Valid(Execute(s, operation, params, requestId, Returned(v), now, d1, e1).service)
    ensures var first := Execute(s, operation, params, requestId, Returned(v), now, d1, e1);
      var second := Execute(first.service, operation, params, requestId, again, now, d2, e2);
      && second.response == Standardize(ToValue(first.response))
      && second.response.Success? && second.response.data == ToValue(first.response)
      && second.response != first.response
  {
    ExecutePreservesValid(s, operation, params, requestId, Returned(v), now, d1, e1);
    CachedAfterRead(s, operation, params, v, now, requestId, d1, e1);
    var first := Execute(s, operation, params, requestId, Returned(v), now, d1, e1);
    HitAnswersStored(first.service, operation, params, requestId, again, now, d2, e2, first.response);
  }

  /** Every cached operation name has a registered tool. */
  lemma CachedNamesRegistered(operation: string)
    requires Cacheable.ShouldCache(operation)
    ensures GetToolByName(operation).Registered?
    ensures Cacheable.IsRead(GetToolByName(operation).op)
  {
    var i :| 0 <= i < |Cacheable.ReadOperations| && Cacheable.ReadOperations[i] == operation;
    var op := GetToolByName(operation).op;
    Cacheable.ShouldCacheIffRead(op);
  }

  /** After a successful read misses, its envelope is cached under the read's key and is live at the same instant. */
  lemma CachedAfterRead(s: Service, operation: string, params: seq<(string, Value)>, v: Value, now: int,
                        requestId: Option<string>, d1: int, e1: int)
    requires Valid(s) && Cacheable.ShouldCache(operation) && s.cache.defaultTtl >= 0
    requires !Hit(s.cache, operation, params, now)
    requires !Nullish(v) && Standardize(v).Success?
    ensures var first := Execute(s, operation, params, requestId, Returned(v), now, d1, e1);
      && first.response == Standardize(v)
      && Hit(first.service.cache, operation, params, now)
      && first.service.cache.entries[CacheService.GenerateKey(operation, params)].data == ToValue(first.response)
  {
    CachedNamesRegistered(operation);
    var op := GetToolByName(operation).op;
    var c := Looked(s.cache, operation, params, now);
    var r := Standardize(v);
    assert Execute(s, operation, params, requestId, Returned(v), now, d1, e1).service.cache
      == Store(c, op, params, r, now)
      == CacheService.Set(c, operation, params, ToValue(r), None, now);
  }

  /** A hit on a stored success envelope answers with that envelope wrapped once more. */
  lemma HitAnswersStored(t: Service, operation: string, params: seq<(string, Value)>, requestId: Option<string>,
                         outcome: ToolOutcome, now: int, toolDuration: int, elapsed: int, r: Response)
    requires Valid(t) && Hit(t.cache, operation, params, now) && r.Success?
    requires t.cache.entries[CacheService.GenerateKey(operation, params)].data == ToValue(r)
    ensures var x := Execute(t, operation, params, requestId, outcome, now, toolDuration, elapsed);
      && x.response == Standardize(ToValue(r))
      && x.response.Success? && x.response.data == ToValue(r)
      && x.response != r
  {
    StandardizeWrapsEnvelope(r);
  }

  /** The corrected cache hit: return the stored envelope as it was stored. */
  function FromCache(data: Value): (r: Response)
    requires !Nullish(data)
    ensures FromValue(data).Some? ==> r == FromValue(data).value
  {
    match FromValue(data)
    case Some(r) => r
    case None => Standardize(data)
  }

  /** `executeToolOperation` with the corrected cache hit; every other path is unchanged. */
  function ExecuteCorrected(s: Service, operation: string, params: seq<(string, Value)>, requestId: Option<string>,
                            outcome: ToolOutcome, now: int, toolDuration: int, elapsed: int): (x: Executed)
    requires Valid(s)
    ensures !Hit(s.cache, operation, params, now) ==> x == Execute(s, operation, params, requestId, outcome, now, toolDuration, elapsed)
    ensures Hit(s.cache, operation, params, now) ==>
      var e := s.cache.entries[CacheService.GenerateKey(operation, params)];
      && FromValue(e.data).Some? ==> x.response == FromValue(e.data).value
  {
    var x := Execute(s, operation, params, requestId, outcome, now, toolDuration, elapsed);
    if Hit(s.cache, operation, params, now) then
      x.(response := FromCache(s.cache.entries[CacheService.GenerateKey(operation, params)].data))
    else x
  }

  /** With the corrected hit, repeating a successful read gives exactly the first answer. */
  lemma CorrectedHitRepeats(s: Service, operation: string, params: seq<(string, Value)>, v: Value, now: int,
                            requestId: Option<string>, d1: int, e1: int, again: ToolOutcome, d2: int, e2: int)
    requires Valid(s) && Cacheable.ShouldCache(operation) && s.cache.defaultTtl >= 0
    requires !Hit(s.cache, operation, params, now)
    requires !Nullish(v) && Standardize(v).Success?
    ensures Valid(ExecuteCorrected(s, operation, params, requestId, Returned(v), now, d1, e1).service)
    ensures var first := ExecuteCorrected(s, operation, params, requestId, Returned(v), now, d1, e1);
      ExecuteCorrected(first.service, operation, params, requestId, again, now, d2, e2).response == first.response
  {
    var first := Execute(s, operation, params, requestId, Returned(v), now, d1, e1);
    CachedAfterRead(s, operation, params, v, now, requestId, d1, e1);
    ExecutePreservesValid(s, operation, params, requestId, Returned(v), now, d1, e1);
    FromValueToValue(first.response);
  }
}

=== FILE: workspace_tools.dfy ===
/**
 The workspace tools of `TrelloTools/WorkspaceTools/`: `createWorkspaceTool`
 (`create-workspace.ts`) and `updateWorkspaceTool` (`update-workspace.ts`).
 Both send the non-empty text fields, then the preferences spread into
 `prefs_` pairs, and classify what their `catch` receives.
 */
module WorkspaceTools {
  import opened Strings
  import opened Js
  import opened ToolSupport
  import opened Prefs

  /** The initialiser's pairs, then the preferences; an absent `prefs` object is an empty one. */
  function WorkspaceQuery(es: Entries, prefs: seq<(string, Value)>): Query
    requires PrefsShaped(prefs)
  {
    Present(es) + WorkspacePrefs(prefs)
  }

  /** No parameter the initialiser lists starts with `p`, so none looks like a preference. */
  predicate Unprefixed(names: seq<string>) {
    forall i | 0 <= i < |names| :: |names[i]| > 0 && names[i][0] != 'p'
  }

  /**
   The preference pairs and the initialiser's pairs never share a name:
   under `prefs_` only the preferences are sent, elsewhere only the initialiser's.
   */
  lemma Separated(es: Entries, names: seq<string>, prefs: seq<(string, Value)>, k: string)
    requires NamedBy(es, names) && Unprefixed(names) && PrefsShaped(prefs)
    ensures StartsWith(k, "prefs_") ==> ValuesOf(WorkspaceQuery(es, prefs), k) == ValuesOf(WorkspacePrefs(prefs), k)
    ensures !StartsWith(k, "prefs_") ==> ValuesOf(WorkspaceQuery(es, prefs), k) == ValuesOf(Present(es), k)
  {
    if StartsWith(k, "prefs_") {
      forall i | 0 <= i < |es|
        ensures es[i].0 != k
      {
        assert k[0] == 'p' && names[i][0] != 'p';
      }
    }
    Extended(es, WorkspacePrefs(prefs), "prefs_", k);
  }

  /** A preference with a plain value `v` is sent as `prefs_<k>`. */
  lemma PlainPreferenceSent(es: Entries, names: seq<string>, prefs: seq<(string, Value)>, k: string, v: Value)
    requires NamedBy(es, names) && Unprefixed(names) && PrefsShaped(prefs)
    requires (k, v) in prefs && !Nullish(v) && !v.Obj? && !v.Arr?
    ensures ToString(v) in ValuesOf(WorkspaceQuery(es, prefs), "prefs_" + k)
  {
    assert ("prefs_" + k, ToString(v)) in PrefPairs(k, v);
    ValuesOfMember(WorkspacePrefs(prefs), "prefs_" + k, ToString(v));
    PrefixOfAppend("prefs_", k);
    Separated(es, names, prefs, "prefs_" + k);
  }

  /** A non-null field `f` of an object preference `k` is sent as `prefs_<k>_<f>`. */
  lemma NestedPreferenceSent(es: Entries, names: seq<string>, prefs: seq<(string, Value)>, k: string,
                             fields: seq<(string, Value)>, j: int)
    requires NamedBy(es, names) && Unprefixed(names) && PrefsShaped(prefs)
    requires (k, Obj(fields)) in prefs && 0 <= j < |fields| && !Nullish(fields[j].1)
    ensures ToString(fields[j].1) in ValuesOf(WorkspaceQuery(es, prefs), "prefs_" + k + "_" + fields[j].0)
  {
    var prefix := "prefs_" + k + "_";
    var pair := (prefix + fields[j].0, ToString(fields[j].1));
    assert PrefPairs(k, Obj(fields)) == FieldPairs(prefix, fields);
    assert pair in PrefPairs(k, Obj(fields));
    assert pair in WorkspacePrefs(prefs);
    ValuesOfMember(WorkspacePrefs(prefs), pair.0, pair.1);
    PrefixOfAppend("prefs_", k);
    PrefixExtends("prefs_" + k, "prefs_", "_");
    PrefixExtends(prefix, "prefs_", fields[j].0);
    Separated(es, names, prefs, pair.0);
  }

  /** A non-null field `f` of the `i`-th object of an array preference `k` is sent as `prefs_<k>_<i>_<f>`. */
  lemma ItemPreferenceSent(es: Entries, names: seq<string>, prefs: seq<(string, Value)>, k: string,
                           items: seq<Value>, i: int, j: int)
    requires NamedBy(es, names) && Unprefixed(names) && PrefsShaped(prefs)
    requires (k, Arr(items)) in prefs && 0 <= i < |items| && items[i].Obj?
    requires 0 <= j < |items[i].fields| && !Nullish(items[i].fields[j].1)
    ensures ToString(items[i].fields[j].1) in
              ValuesOf(WorkspaceQuery(es, prefs), ItemPrefix("prefs_" + k + "_", i) + items[i].fields[j].0)
  {
    var prefix := "prefs_" + k + "_";
    var field := items[i].fields[j];
    var pair := (ItemPrefix(prefix, 0 + i) + field.0, ToString(field.1));
    assert ItemsShaped(items);
    assert PrefPairs(k, Arr(items)) == ItemPairs(prefix, items, 0);
    ItemPairsComplete(prefix, items, 0, i, j);
    assert pair in PrefPairs(k, Arr(items));
    assert pair in WorkspacePrefs(prefs);
    ValuesOfMember(WorkspacePrefs(prefs), pair.0, pair.1);
    PrefixOfAppend("prefs_", k);
    PrefixExtends("prefs_" + k, "prefs_", "_");
    PrefixExtends(prefix, "prefs_", NatToString(i));
    PrefixExtends(prefix + NatToString(i), "prefs_", "_");
    PrefixExtends(ItemPrefix(prefix, i), "prefs_", field.0);
    Separated(es, names, prefs, pair.0);
  }

  /** Every pair sent under `prefs_` comes from one preference's serialisation. */
  lemma PreferencePairsTraced(es: Entries, names: seq<string>, prefs: seq<(string, Value)>, k: string, v: string)
    requires NamedBy(es, names) && Unprefixed(names) && PrefsShaped(prefs)
    requires StartsWith(k, "prefs_") && v in ValuesOf(WorkspaceQuery(es, prefs), k)
    ensures exists e | e in prefs :: (k, v) in PrefPairs(e.0, e.1)
  {
    Separated(es, names, prefs, k);
    assert (k, v) in WorkspacePrefs(prefs);
  }

  /** Every name either workspace tool's initialiser lists. */
  const WorkspaceParams: seq<string> := ["key", "token", "displayName", "desc", "name", "website", "logo"]

  /** The `"response" in error` classification both workspace tools use, with status 500 by default. */
  function WorkspaceCaught(f: Fault, fallback: string, failure: string): (o: Outcome<string>)
    requires fallback != ""
    ensures o.Failed? && o.statusCode == Some(StatusCode(f))
    ensures f.response.None? ==> o.error == Str(f.message)
    ensures f.response.Some? ==> Truthy(o.error)
    ensures o.message == failure + ToString(o.error)
  {
    var error := ClassifiedMessage(f, fallback);
    Failed(error, Some(StatusCode(f)), failure + ToString(error))
  }

  // ---------------------------------------------------------------- createWorkspaceTool

  /** The arguments of `createWorkspaceTool`. */
  datatype WorkspaceDraft = WorkspaceDraft(
    displayName: string, description: Option<string>, name: Option<string>, website: Option<string>,
    logo: Option<string>, prefs: seq<(string, Value)>)


  function DraftEntries(c: Credentials, a: WorkspaceDraft): (es: Entries)
    requires Configured(c)
    ensures NamedBy(es, WorkspaceParams) && DistinctNames(es)
  {
    var es: Entries := [("key", c.apiKey), ("token", c.apiToken), ("displayName", Some(a.displayName)),
                        ("desc", IfGiven(a.description)), ("name", IfGiven(a.name)),
                        ("website", IfGiven(a.website)), ("logo", IfGiven(a.logo))];
    assert Distinct(WorkspaceParams);
    NamedDistinct(es, WorkspaceParams);
    es
  }

  /** What the initialiser alone sends. */
  lemma DraftInitial(c: Credentials, a: WorkspaceDraft)
    requires Configured(c)
    ensures var q := Present(DraftEntries(c, a));
            && ValuesOf(q, "key") == [c.apiKey.value] && ValuesOf(q, "token") == [c.apiToken.value]
            && ValuesOf(q, "displayName") == [a.displayName]
            && ValuesOf(q, "desc") == Listed(IfGiven(a.description))
            && ValuesOf(q, "name") == Listed(IfGiven(a.name))
            && ValuesOf(q, "website") == Listed(IfGiven(a.website))
            && ValuesOf(q, "logo") == Listed(IfGiven(a.logo))
  {
    var es := DraftEntries(c, a);
    PresentValues(es, 0); PresentValues(es, 1); PresentValues(es, 2); PresentValues(es, 3);
    PresentValues(es, 4); PresentValues(es, 5); PresentValues(es, 6);
  }

  lemma DraftListed(c: Credentials, a: WorkspaceDraft)
    requires Configured(c) && PrefsShaped(a.prefs)
    ensures var q := WorkspaceQuery(DraftEntries(c, a), a.prefs);
            && ValuesOf(q, "key") == [c.apiKey.value] && ValuesOf(q, "token") == [c.apiToken.value]
            && ValuesOf(q, "displayName") == [a.displayName]
            && ValuesOf(q, "desc") == Listed(IfGiven(a.description))
            && ValuesOf(q, "name") == Listed(IfGiven(a.name))
            && ValuesOf(q, "website") == Listed(IfGiven(a.website))
            && ValuesOf(q, "logo") == Listed(IfGiven(a.logo))
  {
    DraftInitial(c, a);
    NotPreference("key"); DraftSeparated(c, a, "key");
    NotPreference("token"); DraftSeparated(c, a, "token");
    NotPreference("displayName"); DraftSeparated(c, a, "displayName");
    NotPreference("desc"); DraftSeparated(c, a, "desc");
    NotPreference("name"); DraftSeparated(c, a, "name");
    NotPreference("website"); DraftSeparated(c, a, "website");
    NotPreference("logo"); DraftSeparated(c, a, "logo");
  }

  lemma DraftSeparated(c: Credentials, a: WorkspaceDraft, k: string)
    requires Configured(c) && PrefsShaped(a.prefs)
    ensures StartsWith(k, "prefs_") ==>
              ValuesOf(WorkspaceQuery(DraftEntries(c, a), a.prefs), k) == ValuesOf(WorkspacePrefs(a.prefs), k)
    ensures !StartsWith(k, "prefs_") ==>
              ValuesOf(WorkspaceQuery(DraftEntries(c, a), a.prefs), k) == ValuesOf(Present(DraftEntries(c, a)), k)
  {
    assert Unprefixed(WorkspaceParams);
    Separated(DraftEntries(c, a), WorkspaceParams, a.prefs, k);
  }

  /**
   The POST to `organizations`: the display name always, the description
   (as `desc`), name, website and logo only when non-empty, then exactly the
   preference pairs under `prefs_`.
   */
  function DraftRequest(c: Credentials, a: WorkspaceDraft): (r: Request)
    requires Configured(c) && PrefsShaped(a.prefs)
    ensures r.verb == HttpPost && r.path == "organizations"
    ensures ValuesOf(r.query, "key") == [c.apiKey.value] && ValuesOf(r.query, "token") == [c.apiToken.value]
    ensures ValuesOf(r.query, "displayName") == [a.displayName]
    ensures ValuesOf(r.query, "desc") == Listed(IfGiven(a.description))
    ensures ValuesOf(r.query, "name") == Listed(IfGiven(a.name))
    ensures ValuesOf(r.query, "website") == Listed(IfGiven(a.website))
    ensures ValuesOf(r.query, "logo") == Listed(IfGiven(a.logo))
    ensures forall k | StartsWith(k, "prefs_") :: ValuesOf(r.query, k) == ValuesOf(WorkspacePrefs(a.prefs), k)
    ensures forall k | k !in WorkspaceParams && !StartsWith(k, "prefs_") :: ValuesOf(r.query, k) == []
  {
    var es := DraftEntries(c, a);
    DraftListed(c, a);
    forall k
      ensures StartsWith(k, "prefs_") ==> ValuesOf(WorkspaceQuery(es, a.prefs), k) == ValuesOf(WorkspacePrefs(a.prefs), k)
      ensures !StartsWith(k, "prefs_") ==> ValuesOf(WorkspaceQuery(es, a.prefs), k) == ValuesOf(Present(es), k)
    {
      DraftSeparated(c, a, k);
    }
    SentOnly(es, WorkspaceParams);
    Request(HttpPost, "organizations", WorkspaceQuery(es, a.prefs))
  }

  /** The success payload is reduced to the message, which names the requested display name. */
  function CreateWorkspace(c: Credentials, a: WorkspaceDraft, answer: Answer<Value>): (r: Run<string>)
    requires PrefsShaped(a.prefs)
    ensures !Configured(c) ==> r.sent == [] && r.outcome.Failed? && r.outcome.error == Str(MissingCredentials)
    ensures !Configured(c) ==> r.outcome.statusCode == Some(500)
    ensures Configured(c) ==> r.sent == [DraftRequest(c, a)]
    ensures Configured(c) && answer.Raised? ==>
              r.outcome == WorkspaceCaught(answer.fault, "Failed to create workspace",
                                           "Failed to create workspace \"" + a.displayName + "\". ")
    ensures Configured(c) && answer.Answered? && Nullish(answer.data) ==>
              r.outcome == WorkspaceCaught(ReadFault(answer.data, "id"), "Failed to create workspace",
                                           "Failed to create workspace \"" + a.displayName + "\". ")
    ensures Configured(c) && answer.Answered? && !Nullish(answer.data) ==>
              r.outcome == Done("Successfully created workspace \"" + a.displayName + "\" with ID: "
                                + ToString(Get(answer.data, "id")))
  {
    var failure := "Failed to create workspace \"" + a.displayName + "\". ";
    if !Configured(c) then Run([], WorkspaceCaught(Thrown(MissingCredentials), "Failed to create workspace", failure))
    else match Touched(answer, "id")
      case Raised(f) => Run([DraftRequest(c, a)], WorkspaceCaught(f, "Failed to create workspace", failure))
      case Answered(data) =>
        Run([DraftRequest(c, a)],
            Done("Successfully created workspace \"" + a.displayName + "\" with ID: " + ToString(Get(data, "id"))))
  }

  /** An empty description, name, website or logo is not sent; the display name always is. */
  lemma DraftSkipsEmpty(c: Credentials, a: WorkspaceDraft)
    requires Configured(c) && PrefsShaped(a.prefs)
    requires a.description == Some("") && a.name == Some("") && a.website == Some("") && a.logo == Some("")
    ensures ValuesOf(DraftRequest(c, a).query, "desc") == [] && ValuesOf(DraftRequest(c, a).query, "name") == []
    ensures ValuesOf(DraftRequest(c, a).query, "website") == [] && ValuesOf(DraftRequest(c, a).query, "logo") == []
    ensures ValuesOf(DraftRequest(c, a).query, "displayName") == [a.displayName]
  {
  }

  // ---------------------------------------------------------------- updateWorkspaceTool

  /** The arguments of `updateWorkspaceTool`. */
  datatype WorkspaceChanges = WorkspaceChanges(
    workspaceId: string, displayName: Option<string>, description: Option<string>, name: Option<string>,
    website: Option<string>, logo: Option<string>, prefs: seq<(string, Value)>)

  function ChangeEntries(c: Credentials, a: WorkspaceChanges): (es: Entries)
    requires Configured(c)
    ensures NamedBy(es, WorkspaceParams) && DistinctNames(es)
  {
    var es: Entries := [("key", c.apiKey), ("token", c.apiToken), ("displayName", IfGiven(a.displayName)),
                        ("desc", IfGiven(a.description)), ("name", IfGiven(a.name)),
                        ("website", IfGiven(a.website)), ("logo", IfGiven(a.logo))];
    assert Distinct(WorkspaceParams);
    NamedDistinct(es, WorkspaceParams);
    es
  }

  /** What the initialiser alone sends. */
  lemma ChangeInitial(c: Credentials, a: WorkspaceChanges)
    requires Configured(c)
    ensures var q := Present(ChangeEntries(c, a));
            && ValuesOf(q, "key") == [c.apiKey.value] && ValuesOf(q, "token") == [c.apiToken.value]
            && ValuesOf(q, "displayName") == Listed(IfGiven(a.displayName))
            && ValuesOf(q, "desc") == Listed(IfGiven(a.description))
            && ValuesOf(q, "name") == Listed(IfGiven(a.name))
            && ValuesOf(q, "website") == Listed(IfGiven(a.website))
            && ValuesOf(q, "logo") == Listed(IfGiven(a.logo))
  {
    var es := ChangeEntries(c, a);
    PresentValues(es, 0); PresentValues(es, 1); PresentValues(es, 2); PresentValues(es, 3);
    PresentValues(es, 4); PresentValues(es, 5); PresentValues(es, 6);
  }

  lemma ChangeListed(c: Credentials, a: WorkspaceChanges)
    requires Configured(c) && PrefsShaped(a.prefs)
    ensures var q := WorkspaceQuery(ChangeEntries(c, a), a.prefs);
            && ValuesOf(q, "key") == [c.apiKey.value] && ValuesOf(q, "token") == [c.apiToken.value]
            && ValuesOf(q, "displayName") == Listed(IfGiven(a.displayName))
            && ValuesOf(q, "desc") == Listed(IfGiven(a.description))
            && ValuesOf(q, "name") == Listed(IfGiven(a.name))
            && ValuesOf(q, "website") == Listed(IfGiven(a.website))
            && ValuesOf(q, "logo") == Listed(IfGiven(a.logo))
  {
    ChangeInitial(c, a);
    NotPreference("key"); ChangeSeparated(c, a, "key");
    NotPreference("token"); ChangeSeparated(c, a, "token");
    NotPreference("displayName"); ChangeSeparated(c, a, "displayName");
    NotPreference("desc"); ChangeSeparated(c, a, "desc");
    NotPreference("name"); ChangeSeparated(c, a, "name");
    NotPreference("website"); ChangeSeparated(c, a, "website");
    NotPreference("logo"); ChangeSeparated(c, a, "logo");
  }

  lemma ChangeSeparated(c: Credentials, a: WorkspaceChanges, k: string)
    requires Configured(c) && PrefsShaped(a.prefs)
    ensures StartsWith(k, "prefs_") ==>
              ValuesOf(WorkspaceQuery(ChangeEntries(c, a), a.prefs), k) == ValuesOf(WorkspacePrefs(a.prefs), k)
    ensures !StartsWith(k, "prefs_") ==>
              ValuesOf(WorkspaceQuery(ChangeEntries(c, a), a.prefs), k) == ValuesOf(Present(ChangeEntries(c, a)), k)
  {
    assert Unprefixed(WorkspaceParams);
    Separated(ChangeEntries(c, a), WorkspaceParams, a.prefs, k);
  }

  /**
   The PUT to `organizations/<workspaceId>`: every text field only when
   non-empty, so none can be cleared, then exactly the preference pairs.
   */
  function ChangeRequest(c: Credentials, a: WorkspaceChanges): (r: Request)
    requires Configured(c) && PrefsShaped(a.prefs)
    ensures r.verb == HttpPut && r.path == "organizations/" + a.workspaceId
    ensures ValuesOf(r.query, "key") == [c.apiKey.value] && ValuesOf(r.query, "token") == [c.apiToken.value]
    ensures ValuesOf(r.query, "displayName") == Listed(IfGiven(a.displayName))
    ensures ValuesOf(r.query, "desc") == Listed(IfGiven(a.description))
    ensures ValuesOf(r.query, "name") == Listed(IfGiven(a.name))
    ensures ValuesOf(r.query, "website") == Listed(IfGiven(a.website))
    ensures ValuesOf(r.query, "logo") == Listed(IfGiven(a.logo))
    ensures forall k | StartsWith(k, "prefs_") :: ValuesOf(r.query, k) == ValuesOf(WorkspacePrefs(a.prefs), k)
    ensures forall k | k !in WorkspaceParams && !StartsWith(k, "prefs_") :: ValuesOf(r.query, k) == []
  {
    var es := ChangeEntries(c, a);
    ChangeListed(c, a);
    forall k
      ensures StartsWith(k, "prefs_") ==> ValuesOf(WorkspaceQuery(es, a.prefs), k) == ValuesOf(WorkspacePrefs(a.prefs), k)
      ensures !StartsWith(k, "prefs_") ==> ValuesOf(WorkspaceQuery(es, a.prefs), k) == ValuesOf(Present(es), k)
    {
      ChangeSeparated(c, a, k);
    }
    SentOnly(es, WorkspaceParams);
    Request(HttpPut, "organizations/" + a.workspaceId, WorkspaceQuery(es, a.prefs))
  }

  /** The name the success message shows: `data.displayName || data.name`. */
  function ShownName(data: Value): (v: Value)
    ensures Truthy(Get(data, "displayName")) ==> v == Get(data, "displayName")
    ensures !Truthy(Get(data, "displayName")) ==> v == Get(data, "name")
  {
    Or(Get(data, "displayName"), Get(data, "name"))
  }

  function UpdateWorkspace(c: Credentials, a: WorkspaceChanges, answer: Answer<Value>): (r: Run<string>)
    requires PrefsShaped(a.prefs)
    ensures !Configured(c) ==> r.sent == [] && r.outcome.Failed? && r.outcome.error == Str(MissingCredentials)
    ensures !Configured(c) ==> r.outcome.statusCode == Some(500)
    ensures Configured(c) ==> r.sent == [ChangeRequest(c, a)]
    ensures Configured(c) && answer.Raised? ==>
              r.outcome == WorkspaceCaught(answer.fault, "Failed to update workspace",
                                           "Failed to update workspace with ID \"" + a.workspaceId + "\". ")
    ensures Configured(c) && answer.Answered? && Nullish(answer.data) ==>
              r.outcome == WorkspaceCaught(ReadFault(answer.data, "id"), "Failed to update workspace",
                                           "Failed to update workspace with ID \"" + a.workspaceId + "\". ")
    ensures Configured(c) && answer.Answered? && !Nullish(answer.data) ==>
              r.outcome == Done("Successfully updated workspace \"" + ToString(ShownName(answer.data))
                                + "\" with ID: " + a.workspaceId)
  {
    var failure := "Failed to update workspace with ID \"" + a.workspaceId + "\". ";
    if !Configured(c) then Run([], WorkspaceCaught(Thrown(MissingCredentials), "Failed to update workspace", failure))
    else match Touched(answer, "id")
      case Raised(f) => Run([ChangeRequest(c, a)], WorkspaceCaught(f, "Failed to update workspace", failure))
      case Answered(data) =>
        Run([ChangeRequest(c, a)],
            Done("Successfully updated workspace \"" + ToString(ShownName(data)) + "\" with ID: " + a.workspaceId))
  }

  /** Without changes only the credentials and the preferences are sent. */
  lemma NothingToChange(c: Credentials, a: WorkspaceChanges)
    requires Configured(c) && PrefsShaped(a.prefs)
    requires a.displayName.None? && a.description.None? && a.name.None? && a.website.None? && a.logo.None?
    ensures forall k | k != "key" && k != "token" && !StartsWith(k, "prefs_") :: ValuesOf(ChangeRequest(c, a).query, k) == []
  {
    var q := ChangeRequest(c, a).query;
    forall k | k != "key" && k != "token" && !StartsWith(k, "prefs_")
      ensures ValuesOf(q, k) == []
    {
      if k in WorkspaceParams {
        assert k in WorkspaceParams[2..];
      }
    }
  }
}
